=== FILE: README.md ===
# parsedantic, modelled in Dafny

Parsedantic turns a pydantic model class into a text codec. Each field's
annotation picks a parser:
- `int`, `float` and `str` pick the scalar parsers;
- `Optional`, `Union` and `list` pick the container parsers;
- `Parsed[T, parser]` carries the parser it names, but pydantic strips a
  top-level `Annotated` from the field's annotation. `TextCodec` therefore
  sees the marker only for `Parsed[Any, parser]`, whose bare type sends it
  back to the type hints. `model/parser_builder.py` reads hints without
  extras and never sees a marker.

The field parsers are read one after another with a separator between
consecutive fields, and the values read become a dict that pydantic
validates. Writing an instance formats each field with its parser's formatter
and joins the pieces with the configured separator string.

This project models that core as pure Dafny functions and proves what it
promises.

- **Parsers.** parsy is deeply embedded as a `Terms.Term` datatype.
  `Terms.Run` interprets a term from an index, and its result is one of:
  - a value and the next index;
  - a failure with a position and a set of expectations;
  - a stop: the parser loops forever, or a caller function raises.

  The bidirectional `Parser` wrappers pair a term with a formatter. There are
  two of them, `core/parser.py` and `core/parser_v2.py`. The primitives and
  the plain parsy builders of `parsers.py` are modelled on top of them.
- **Annotations.** `Annotations.Ann` models annotations and the `Parsed`
  marker, with `extract_parser` and `get_value_type`. It also models how
  pydantic and `get_type_hints` drop `Annotated`.
- **Classifiers.** `codec.py:37` and `model/parser_builder.py:9` import
  `get_parser_for_field` from the `inference` package. That is
  `basic.get_parser_for_field`:
  - an explicit `Parsed` parser wins;
  - otherwise `container.infer_parser` handles `Optional`, `Union` and `list`;
  - it falls back to `basic.infer_parser` for `int`, `float` and `str`.

  Nothing on this chained classifier knows `Literal` or nested models, and
  `advanced.py` is never reached from it. The unified classifier of
  `inference/inference.py` does know them. Both classifiers are modelled
  (`Codec.Classifier`), and a lemma states exactly where they agree.
- **Codec.** `Codec` models `TextCodec`: building the field parsers,
  building the combined parser, `parse`, `parse_partial` and `serialize`.
  A parsable model class is one with both `model_fields` and `from_text`
  (`inference/inference.py:66-78`): a subclass of `model/base.py`'s
  `ParsableModel`, not of the exported `models.py` one, which has no
  `from_text`. The environment of the unified classifier (`Inference.Env`)
  holds only such classes; any other class is a type it does not know.
  When the unified classifier meets a parsable model class as a field, it
  builds that class's `TextCodec` on demand (`Codec.NestedBuild`). The
  class defines no `_get_codec`, so the on-demand build uses the chained
  classifier that `codec.py` imports. That codec reads and writes the
  nested field (`Codec.NestedIsCodec`). Wiring the unified classifier into
  the codec is this model's hypothesis; the code as written uses the
  chained one.
- **Other builders and configuration.**
  - the older builders of `generator.py` and `model/parser_builder.py`, each
    proved equivalent to the codec on the fields both handle;
  - `get_parse_config` and the generator's inherited separator lookup;
  - `get_separator_string`;
  - `ParseField` metadata and its lookup.
- **Models.** `ParsableModel`'s parser cache and `parse`.
- **Errors.** Both `ParseError` classes, with their line/column translation,
  context line, caret, the `repr` of the expectation, and the conversion of
  parsy failures.

The central results are in `RoundTrip`:
- `DecodeEncode`: encoding and then decoding gives back the dict of the
  field values, for models of `int`, `str` and `list[int]` fields.
- `EncodeDecodeEncode`: writing a decoded instance gives the same text back.
- `ListSwallowsInt`: one arrangement breaks the round trip. A `list[int]`
  field followed by an `int` field is written as one run of integers. The
  list reads all of them, and the text is rejected at its end.

Where the code does not do what its own tests expect, the model follows the
code:
- **Self-referencing models get no codec.** `tests/test_forward_refs.py:15-40`
  expects a `Node` with `value: int` and `next: "Node | None"` to parse.
  - The chained classifier has no case for a model class. So `next` has no
    parser, and `TextCodec` raises `TypeError` for it (`codec.py:103-109`).
  - The test's `Node` subclasses the exported `ParsableModel` of
    `models.py`, which has no `from_text`. So the unified classifier does
    not count it as a parsable model either: with an empty environment,
    `next` has no parser and the same `TypeError` is raised.
  - Even were `Node` a subclass of `model/base.py`'s `ParsableModel`, the
    unified classifier would build its on-demand codec with the chained
    one. That build fails with the same error, and the unified classifier
    raises it in turn.

  - `Node.parse` never gets that far. The package exports `models.py`'s
    `ParsableModel`, whose default `_build_parser` raises
    `NotImplementedError` (`Models.DefaultNeverParses`).

  `Codec.SelfReferenceFails` states all three codec outcomes.
- **Separator lookup is missing.** `codec.py` imports a
  `get_field_separator` that `config.py` does not define (`codec.py:35`), so
  importing the codec module as written raises `ImportError`. Every codec
  behaviour modelled here assumes that import is repaired. The parser read
  between fields is therefore a parameter of the schema (`Schema.decodeSep`).
  The round-trip lemmas take it to be `whitespace()`.
- **The round trip is not universal.** It does not hold for every schema: see
  `RoundTrip.ListSwallowsInt`.
- **Formatting differs between wrappers.** `core/parser_v2.py` gives `then`
  the right-hand formatter, while `core/parser.py` falls back to `str`
  (`ParserV2.ThenFormatsDiffer`). The primitives use `core/parser.py`.

## Model

| member | source | states |
|---|---|---|
| ParserV1.Make | src/parsedantic/core/parser.py:15-21 | a parser built without a formatter writes values with `str`; one built with a formatter writes with it |
| ParserV1.Map | src/parsedantic/core/parser.py:37-39 | `map` reads through the function but writes exactly as the receiver wrote |
| ParserV1.Bind | src/parsedantic/core/parser.py:41-48 | `bind` continues with the parser chosen by the value read, and the result writes with `str` |
| ParserV1.Then | src/parsedantic/core/parser.py:52-54 | `a >> b` reads `a` then `b`; its formatter is `str`, not `b`'s |
| ParserV1.Skip | src/parsedantic/core/parser.py:56-58 | `a << b` reads `a` then `b` and writes with `str` |
| ParserV1.Or | src/parsedantic/core/parser.py:70-72 | the or-operator is the ordered choice and writes with `str` |
| ParserV1.OrAll | src/parsedantic/inference/inference.py:112-115 | a left-grouped chain of alternatives; a chain of one is that parser itself, formatter included |
| ParserV1.Desc | src/parsedantic/core/parser.py:76-78 | a description keeps the formatter |
| ParserV1.Optional | src/parsedantic/core/parser.py:80-82 | `optional` keeps the formatter |
| ParserV1.Many | src/parsedantic/core/parser.py:84-89 | a list is written item by item with the element formatter, joined by single spaces |
| ParserV1.Times | src/parsedantic/core/parser.py:91-102 | `times(n)` writes with `str` |
| ParserV1.SepBy | src/parsedantic/core/parser.py:104-121 | `sep_by` writes items joined by one space whatever the separator parser reads |
| ParserV1.Result | src/parsedantic/core/parser.py:123-125 | `result` writes with `str` |
| ParserV1.Concat | src/parsedantic/core/parser.py:127-129 | `concat` writes with `str` |
| ParserV1.ListFormatIgnoresSeparator | src/parsedantic/core/parser.py:84-121 | `many` and `sep_by` with any two separators write the same text, and a one-item list is written as its item |
| ParserV2.Format | src/parsedantic/core/parser_v2.py:61-69 | an empty formatter slot writes with `str` |
| ParserV2.Map | src/parsedantic/core/parser_v2.py:71-83 | `map` drops the receiver's formatter and writes with the one it is given, or `str` |
| ParserV2.Then | src/parsedantic/core/parser_v2.py:87-89 | `then` writes exactly as the right-hand parser writes |
| ParserV2.Skip | src/parsedantic/core/parser_v2.py:91-93 | `skip` writes with `str` |
| ParserV2.Or | src/parsedantic/core/parser_v2.py:105-107 | the or-operator writes with `str` |
| ParserV2.Desc | src/parsedantic/core/parser_v2.py:111-113 | a description keeps the formatter |
| ParserV2.Optional | src/parsedantic/core/parser_v2.py:115-117 | `optional` keeps the formatter |
| ParserV2.Many | src/parsedantic/core/parser_v2.py:119-124 | with no element formatter only the empty list can be written; otherwise items joined by spaces |
| ParserV2.Times | src/parsedantic/core/parser_v2.py:126-137 | `times` writes with `str` |
| ParserV2.SepBy | src/parsedantic/core/parser_v2.py:139-156 | like `many`: fails on any item when the element formatter is missing |
| ParserV2.Result | src/parsedantic/core/parser_v2.py:158-160 | `result` writes with `str` |
| ParserV2.Concat | src/parsedantic/core/parser_v2.py:162-164 | `concat` writes with `str` |
| ParserV2.ThenFormatsDiffer | src/parsedantic/core/parser_v2.py:166-174 | both wrappers read the same for `>>`, but the second writes with the right-hand formatter and the first with `str` |
| ParserV2.ManyAgreesWithV1 | src/parsedantic/core/parser_v2.py:119-124 | the two `many` formatters agree once the element formatter is set |
| Combinators.AltOrdered | src/parsedantic/core/parser.py:70-72 | the right alternative runs, from the same index, only when the left one fails |
| Combinators.OptionalSpec | src/parsedantic/core/parser.py:80-82 | `optional` yields the value read, or `None` without consuming when the parser fails |
| Combinators.ManyChain | src/parsedantic/core/parser.py:84-89 | `many` reads a maximal chain of consuming reads, never fails, and loops forever on a read that consumes nothing |
| Combinators.ChainMany | src/parsedantic/core/parser.py:84-89 | a maximal chain of reads is what `many` yields |
| Combinators.ManySpec | src/parsedantic/core/parser.py:84-89 | `many` yields `vs` ending at `j` exactly when `vs` is read as a chain up to `j` and the next read fails |
| Combinators.SepBySpec | src/parsedantic/core/parser.py:104-121 | `sep_by` yields `[]` without consuming when the first item fails, else the first item followed by what `(sep >> p).many()` yields |
| Combinators.FirstThenMany | src/parsedantic/core/parser.py:104-121 | after a first item, `sep_by` continues with the separator-item pairs and prepends the first value |
| Combinators.ThenSpec | src/parsedantic/core/parser.py:52-54 | `a >> b` runs `b` where `a` stopped and yields `b`'s value |
| Combinators.ManyAt | src/parsedantic/core/parser.py:84-89 | values read at successive positions up to the first failing position are what `many` yields |
| Combinators.ResultSpec | src/parsedantic/core/parser.py:123-125 | `result(v)` reads what the parser reads and yields `v` |
| Combinators.PeekSpec | src/parsedantic/primitives/control.py:28-30 | `peek` yields the value read and leaves the cursor where it was |
| Combinators.PartialWhole | src/parsedantic/core/parser.py:23-29 | `parse_partial` leaves an empty rest exactly when `parse` succeeds on the same text |
| Terms.Run | src/parsedantic/core/parser.py:23-29 | a parser never moves backwards: a success ends, and a failure is reported, at or after the start index and within the text |
| Terms.Parse | src/parsedantic/core/parser.py:23-25 | `parse` is the run from index 0 when it reads the whole text; a run that stops short fails where it stopped, expecting `EOF` |
| Terms.ParsePartial | src/parsedantic/core/parser.py:27-29 | `parse_partial` succeeds exactly when the run does, with its value and a rest that completes the consumed prefix to the text; a failed run is passed on |
| Terms.PartialRest | src/parsedantic/core/parser.py:27-29 | the rest `parse_partial` returns is the text after the run's end |
| ParserV1.ParseText | src/parsedantic/core/parser.py:23-25 | the wrapper's `parse` reads the whole text with its term, failing at a short run's end expecting `EOF` |
| ParserV1.ParsePartialText | src/parsedantic/core/parser.py:27-29 | the wrapper's `parse_partial` gives the run's value and a rest that completes the consumed prefix to the text, and a failed run's reply unchanged |
| Primitives.Literal | src/parsedantic/primitives/text.py:9-14 | `literal(t)` writes `t` whatever the value |
| Primitives.Pattern | src/parsedantic/primitives/text.py:17-19 | `pattern` reads with the caller's expression and writes with `str` |
| Primitives.StringOf | src/parsedantic/primitives/text.py:27-29 | `string_of` reads a caller expression, `\S+` by default (every character but Python's `\s` class, \x1c-\x1f and the Unicode spaces included), and writes with `str` |
| Primitives.CharFrom | src/parsedantic/primitives/character.py:14-16 | `char_from` writes with `str` |
| Primitives.TestChar | src/parsedantic/primitives/character.py:29-31 | `test_char` reads one character passing the predicate, and writes with `str` |
| Primitives.Success_ | src/parsedantic/primitives/control.py:13-15 | `success` writes nothing |
| Primitives.Fail | src/parsedantic/primitives/control.py:18-20 | `fail` writes with `str` |
| Primitives.Peek | src/parsedantic/primitives/control.py:28-30 | `peek` writes with `str` |
| Primitives.Word | src/parsedantic/primitives/text.py:22-24 | `word()` reads `[A-Za-z0-9_]+`; given no formatter, it writes with `str`, so a string as itself |
| Primitives.Whitespace | src/parsedantic/primitives/text.py:32-34 | `whitespace()` reads `\s+`, over Python's whole `\s` class (\x1c-\x1f and the Unicode spaces included), and writes with `str` |
| Primitives.Integer | src/parsedantic/primitives/numeric.py:9-14 | `integer()` reads `-?\d+(?![.eE])` through `int` and writes with `str`, an int as its decimal text |
| Primitives.FloatNum | src/parsedantic/primitives/numeric.py:17-23 | `float_num()` reads the float expression through `float` and writes with `str`, a float as the text it was read from |
| Primitives.AnyChar | src/parsedantic/primitives/character.py:11 | `any_char` reads one character of any kind and writes with `str` |
| Primitives.Letter | src/parsedantic/primitives/character.py:39 | `letter` reads one letter and writes with `str` |
| Primitives.Digit | src/parsedantic/primitives/character.py:40 | `digit` reads one digit and writes with `str` |
| Primitives.Eof | src/parsedantic/primitives/control.py:23-25 | `eof()` matches the end of input and writes `""` whatever the value |
| Primitives.Index | src/parsedantic/primitives/control.py:33-35 | `index()` yields the position and writes with `str` |
| Primitives.LineInfo | src/parsedantic/primitives/control.py:38-40 | `line_info()` yields `(line, column)` and writes it as `line:column` |
| Primitives.LiteralReads | src/parsedantic/primitives/text.py:9-14 | `literal(t)` succeeds exactly when `t` occurs at the cursor, and otherwise fails there expecting `t` |
| Primitives.LiteralRoundTrip | src/parsedantic/primitives/text.py:9-14 | what `literal(t)` writes it reads back whole |
| Primitives.TokenReads | src/parsedantic/primitives/text.py:22-34 | the token expressions read exactly a nonempty maximal run of their class |
| Primitives.WordReads | src/parsedantic/primitives/text.py:22-24 | `word()` reads exactly a maximal run of `[A-Za-z0-9_]` |
| Primitives.TokenReadsNonSpace | src/parsedantic/primitives/text.py:27-29 | `string_of()` reads exactly a maximal run of characters outside Python's `\s` class, and stops at any of its characters |
| Primitives.SeparatorsAreBlank | src/parsedantic/primitives/text.py:27-34 | on `"a\x1cb"` `string_of()` reads `"a"` and stops at 1; `whitespace()` reads `"\x1f "` |
| Primitives.WhitespaceReads | src/parsedantic/primitives/text.py:32-34 | `whitespace()` reads exactly a maximal run of Python's `\s` characters and fails without one at the cursor |
| Primitives.IntegerReads | src/parsedantic/primitives/numeric.py:9-14 | `integer()` yields the value of the longest integer lexeme at the cursor, or fails there expecting its pattern |
| Primitives.IntegerReadsDecimal | src/parsedantic/primitives/numeric.py:9-14 | `str(n)` followed by anything but a digit, `.`, `e` or `E` reads back as `n` |
| Primitives.DecimalScans | src/parsedantic/primitives/numeric.py:12 | the integer lexer finds exactly the decimal text of `n` |
| Primitives.IntegerRoundTrip | src/parsedantic/primitives/numeric.py:9-14 | parsing what `integer()` writes for `n` gives `n` |
| Primitives.IntegerRejectsDecimalPoint | src/parsedantic/primitives/numeric.py:12 | the lookahead makes `"3.14"` not an integer |
| Primitives.IntegerBacktracks | src/parsedantic/primitives/numeric.py:12 | by backtracking, `"31.4"` reads as `3`, leaving `"1.4"` |
| Primitives.IntegerRejectsPlus | src/parsedantic/primitives/numeric.py:12 | a leading `+` is not an integer |
| Primitives.FloatReads | src/parsedantic/primitives/numeric.py:17-23 | `float_num()` fails, expecting the float pattern and consuming nothing, exactly where no float lexeme starts; otherwise it reads the longest float lexeme there |
| Primitives.FloatReadsExponent | src/parsedantic/primitives/numeric.py:19 | `"1e3"` is read whole, with its exponent |
| Primitives.FloatRejectsWord | src/parsedantic/primitives/numeric.py:19 | `"not-a-float"` is rejected |
| Primitives.CharReads | src/parsedantic/primitives/character.py:11-40 | the character parsers consume exactly one character that passes their test, or fail expecting their description |
| Primitives.CharInstances | src/parsedantic/primitives/character.py:11-16 | `any_char` fails only at the end; `char_from(cs)` accepts exactly the characters of `cs` |
| Primitives.ControlReads | src/parsedantic/primitives/control.py:13-40 | `success` and `index` consume nothing, `fail` fails where it stands, `eof` succeeds only at the end |
| Primitives.RunScanIff | src/parsedantic/primitives/text.py:22-34 | a nonempty maximal run is exactly what the class scanner finds |
| RawParsers.Literal | src/parsedantic/parsers.py:15-22 | the plain builder reads as the primitive does |
| RawParsers.Pattern | src/parsedantic/parsers.py:25-32 | the plain builder reads as the primitive does |
| RawParsers.Integer | src/parsedantic/parsers.py:35-40 | the plain builder reads as the primitive does |
| RawParsers.FloatNum | src/parsedantic/parsers.py:43-53 | the plain builder reads as the primitive does |
| RawParsers.Word | src/parsedantic/parsers.py:56-61 | the plain builder reads as the primitive does |
| RawParsers.Whitespace | src/parsedantic/parsers.py:64-66 | the plain builder reads as the primitive does |
| RawParsers.WordStopsAtHyphen | src/parsedantic/parsers.py:56-61 | `"with-space"` is not a word; its prefix `"with"` is read and `"-space"` is left |
| RawParsers.EmptyTextFails | src/parsedantic/parsers.py:64-71 | `whitespace` and `any_char` fail on the empty text |
| Scanners.IntScan | src/parsedantic/primitives/numeric.py:12 | the integer lexer finds the longest match of `-?\d+(?![.eE])`, or reports that there is none |
| Scanners.FloatScan | src/parsedantic/primitives/numeric.py:19 | the float lexer finds a float lexeme exactly when one starts at the cursor, and no longer float lexeme starts there: the greedy match is the longest |
| Scanners.FloatLongest | src/parsedantic/primitives/numeric.py:19 | every float lexeme at the cursor ends at or before the end of the greedy mantissa and exponent |
| Scanners.MantissaLongest | src/parsedantic/primitives/numeric.py:19 | no mantissa `\d+\.?\d*` or `\.\d+` at a position ends after the greedy one |
| Scanners.ExponentLongest | src/parsedantic/primitives/numeric.py:19 | no exponent `[eE][+-]?\d+` at a position ends after the greedy one |
| Scanners.RunScan | src/parsedantic/primitives/text.py:22-34 | a class scanner matches exactly when the class's character is at the cursor, up to the end of the run |
| Scanners.RunEndUnique | src/parsedantic/primitives/text.py:22-34 | a maximal run is determined by where it starts |
| Scanners.IntLongest | src/parsedantic/primitives/numeric.py:12 | every integer lexeme ends inside the digit run after the sign |
| Decimal.IntToStrRoundTrip | src/parsedantic/primitives/numeric.py:9-14 | `str(n)` is an integer lexeme, and `int(str(n)) == n` |
| Decimal.IntToStrShape | src/parsedantic/primitives/numeric.py:9-14 | `str(n)` is nonempty, has no blank, and is a sign or digit followed by digits |
| Decimal.NatDigitsRoundTrip | src/parsedantic/primitives/numeric.py:12 | the value of the decimal digits of `n` is `n` |
| Values.Zip | src/parsedantic/codec.py:140-144 | the dict pairs each name with the value at its position, truncated to the shorter list |
| Values.AttrOfZip | src/parsedantic/codec.py:140-144 | in the zipped dict, a name not used before maps to its own value |
| Values.Attr | src/parsedantic/codec.py:183-186 | `getattr` finds a value exactly when some attribute has that name, and the value is the first one's |
| Values.ReprQuote | src/parsedantic/errors.py:49 | `repr` quotes with `"` exactly when the string holds a `'` and no `"`, and with `'` otherwise |
| Values.EscapeChar | src/parsedantic/errors.py:49 | a character is written as itself exactly when it is not a backslash, the quote, a line break, a tab or a control character; no escape holds a newline |
| Values.StrRepr | src/parsedantic/errors.py:49 | the `repr` of a string opens and closes with the chosen quote and holds no newline |
| Values.UnescapeAll | src/parsedantic/errors.py:49 | the escaped inside reads back, escape by escape, as the original string |
| Values.ReprReadsBack | src/parsedantic/errors.py:49 | reading the `repr` of a string as a Python literal gives the string back |
| Values.ReprPrefersDoubleQuotes | src/parsedantic/errors.py:49 | a string holding `'` and nothing to escape is written as it is between double quotes |
| Values.ReprDoublesBackslash | src/parsedantic/errors.py:49 | a backslash is written doubled, as in the expectation `-?\d+(?![.eE])` that `integer()` reports |
| Annotations.FirstParsed | src/parsedantic/types/metadata.py:40-44 | finds the first `ParsedMetadata` of the metadata list, or reports that there is none |
| Annotations.ExtractParser | src/parsedantic/types/metadata.py:26-44 | a parser is found exactly for an `Annotated` annotation that carries a `ParsedMetadata` |
| Annotations.Parsed | src/parsedantic/types/annotation.py:11-16 | `Parsed(T, p)` is `Annotated` with the marker of `p` as its last metadata item |
| Annotations.ParsedRoundTrip | src/parsedantic/types/annotation.py:11-16 | `extract_parser(Parsed(T, p)) == p` and `get_value_type(Parsed(T, p)) == T` |
| Annotations.ParsedTwiceKeepsInner | src/parsedantic/types/metadata.py:40-44 | marking twice keeps the inner parser and the original type |
| Annotations.PlainHasNoParser | src/parsedantic/types/metadata.py:31-34 | annotations that are not `Annotated` carry no explicit parser |
| Annotations.MetaIdentity | src/parsedantic/types/metadata.py:19-23 | two markers are equal exactly when they hold the same parser object |
| Annotations.NonNone | src/parsedantic/inference/inference.py:87 | the non-`None` union arguments: no `None` is kept and every other argument is |
| Annotations.NonNoneCounts | src/parsedantic/inference/inference.py:87 | none dropped or repeated: each other argument kept as often as it occurs, every `None` removed |
| Annotations.NonNoneAppend | src/parsedantic/inference/inference.py:87 | the filter keeps the arguments' order: filtering a concatenation concatenates the filtered parts, so the arms are tried in declaration order |
| Annotations.Unannotated | src/parsedantic/codec.py:96-97 | the annotation pydantic records for a field: a top-level `Annotated` is reduced to its base type, which carries no parser; any other annotation is kept |
| Annotations.StripExtras | src/parsedantic/model/parser_builder.py:16 | a type hint read without extras: no `Annotated` at the top and no explicit parser |
| Annotations.StripExtrasIsBare | src/parsedantic/model/parser_builder.py:16 | no `Annotated` is left at any depth, and a hint without one is unchanged |
| Inference.NestedParser | src/parsedantic/inference/inference.py:134-162 | a nested model is read by its codec's combined parser, validated, and written by its `to_text` |
| Inference.LiteralChoice | src/parsedantic/inference/inference.py:105-115 | `Literal[]` and non-string values raise `TypeError`, and nothing else raises; otherwise the literals are tried in the listed order |
| Inference.LitStrings | src/parsedantic/inference/inference.py:109-110 | the literal's values are taken exactly when all are strings |
| Inference.ModelParser | src/parsedantic/inference/inference.py:134-151 | a model class whose on-demand codec builds gets its nested parser; one whose build raises raises the same error; a class outside the environment is not a parsable model and gets none |
| Inference.Scalar | src/parsedantic/inference/inference.py:40-48 | exactly `int`, `float` and `str` have a scalar parser, and nothing raises |
| Inference.AllFound | src/parsedantic/inference/inference.py:174-176 | all union arms have parsers, or the union has none |
| Inference.GetParserForField | src/parsedantic/inference/inference.py:12-15 | an explicit `Parsed` parser wins, and plain annotations go to inference |
| Inference.ScalarsAndUnknowns | src/parsedantic/inference/inference.py:40-48 | the scalars map to the primitives; `None`, other classes and unmarked `Annotated` have no parser |
| Inference.ExplicitWins | src/parsedantic/inference/inference.py:12-15 | `Parsed[T, p]` yields `p` even when `T` has no parser |
| Inference.OptionalOfOne | src/parsedantic/inference/inference.py:164-169 | `Optional[T]`, in either arm order, is `T`'s parser made optional, `None` when `T` has none, and raises what `T` raises |
| Inference.UnionArms | src/parsedantic/inference/inference.py:91-96 | a union of two or more arms without `None` goes to the union builder |
| Inference.UnionFound | src/parsedantic/inference/inference.py:172-180 | a union has a parser only when every arm has one, and then tries the arms in declaration order |
| Inference.EachFound | src/parsedantic/inference/inference.py:174 | the arms' outcomes in order; the whole raises exactly when some arm raises |
| Inference.ListWithoutElementRaises | src/parsedantic/inference/inference.py:183-187 | a bare `list` raises `TypeError` |
| Inference.ListElement | src/parsedantic/inference/inference.py:183-191 | `list[T]` is `T`'s parser separated by whitespace; without one it raises `TypeError` |
| Inference.IntOrStr | src/parsedantic/inference/inference.py:172-180 | `Union[int, str]` tries `int` first |
| Inference.OptionalBeforeUnion | src/parsedantic/inference/inference.py:28-34 | `Union[int, str, None]` is the union of `int` and `str`, made optional |
| Inference.FirstMatch | src/parsedantic/inference/inference.py:112-115 | the first listed literal occurring at the cursor, or none |
| Inference.LiteralChoiceReads | src/parsedantic/inference/inference.py:112-115 | a literal choice reads the first listed literal that occurs, and otherwise fails expecting all of them |
| Inference.ChoiceStep | src/parsedantic/inference/inference.py:113-114 | one more alternative keeps what an earlier literal reads, and otherwise reads the new one or fails expecting one more |
| Inference.LiteralChoiceRoundTrip | src/parsedantic/inference/inference.py:105-115 | each literal reads back as itself when no earlier literal is a proper prefix of it |
| Inference.LiteralPrefixShadows | src/parsedantic/inference/inference.py:112-115 | `Literal["a", "ab"]` cannot parse `"ab"` |
| Inference.NestedModel | src/parsedantic/inference/inference.py:134-162 | a model met as a field reads with its codec's combined parser, validated, and writes with `to_text`; a failed codec build is raised |
| Inference.Infer | src/parsedantic/inference/inference.py:18-48 | `infer_parser` raises only the `TypeError`s the inference raises itself, or the error of a model class whose codec failed |
| Inference.OptionalOf | src/parsedantic/inference/inference.py:164-169 | the optional builder raises only what inferring the inner type raises |
| Inference.UnionOf | src/parsedantic/inference/inference.py:172-180 | the union builder raises only what inferring a member raises |
| Inference.InferEach | src/parsedantic/inference/inference.py:174 | one outcome per member; a raise is one a member raised |
| Inference.ListParser | src/parsedantic/inference/inference.py:183-191 | the list builder never returns `None`: it gives the separated element parser or raises a `TypeError` |
| Inference.InferFindsReadable | src/parsedantic/inference/inference.py:18-48 | an annotation gets a parser exactly when it is readable: a non-empty string `Literal`, a model whose codec builds, an `Optional` or union of readable members, a `list` of a readable element, or `int`, `float` or `str` |
| Inference.UnionOfReadable | src/parsedantic/inference/inference.py:172-180 | the union builder finds a parser exactly when every member is readable |
| Inference.EachReadable | src/parsedantic/inference/inference.py:174-175 | every member is readable exactly when each gets a parser |
| Inference.UnionMisses | src/parsedantic/inference/inference.py:175-176 | a member without a parser leaves the union without one |
| Container.IsOptional | src/parsedantic/inference/container.py:11-27 | optional exactly as the unified check, always with an inner annotation |
| Container.IsUnion | src/parsedantic/inference/container.py:30-42 | a union exactly as the unified check, with the non-`None` members |
| Container.IsList | src/parsedantic/inference/container.py:45-58 | a list exactly for list annotations; the element is absent for a bare list |
| Container.InferBasic | src/parsedantic/inference/basic.py:10-18 | the basic classifier is the unified one's scalar case |
| Container.GetParserForField | src/parsedantic/inference/basic.py:21-33 | an explicit `Parsed` parser wins, then container inference |
| Container.InferAdvanced | src/parsedantic/inference/advanced.py:32-74 | anything but `Literal` and a model goes to container inference |
| Container.AgreesWithUnified | src/parsedantic/inference/container.py:61-96 | on plain annotations, where either classifier finds a parser the other finds the same one |
| Container.EachAgrees | src/parsedantic/inference/container.py:76-83 | the union arms agree under both classifiers when all are found |
| Container.ListOfUnknownDiffers | src/parsedantic/inference/container.py:91-94 | `list[dict]` raises in the unified classifier and has no parser in the chained one |
| Container.LiteralSupportDiffers | src/parsedantic/inference/advanced.py:37-50 | `Literal` is read at the top level by the unified and advanced classifiers, not by the container classifier, and inside `Optional` only by the unified one |
| Container.Infer | src/parsedantic/inference/container.py:61-96 | the container classifier raises nothing but the `TypeError` for a `list` without element type |
| Container.UnionOf | src/parsedantic/inference/container.py:74-83 | the union branch raises only that same `TypeError`, met in a member |
| Container.InferEach | src/parsedantic/inference/container.py:76 | one outcome per member, raising only that `TypeError` |
| Separator.GetSeparatorString | src/parsedantic/model/separator.py:10-38 | a string `parse_separator` is used verbatim; every other configuration gives one space |
| Separator.ParserSeparatorWritesSpace | src/parsedantic/model/separator.py:29-31 | a parser separator, a missing one, or a non-dict config are all written as one space |
| Separator.SeparatorDiffers | src/parsedantic/model/separator.py:10-38 | two configurations write different separators only if one names a string other than a space |
| Config.GetParseConfig | src/parsedantic/config.py:38-51 | the class's own `ParseConfig`, else the module defaults; bases are never consulted |
| Config.InheritedFromAncestor | src/parsedantic/generator.py:70-73 | `getattr` finds the nearest ancestor declaration, with none between |
| Config.AncestorsBefore | src/parsedantic/generator.py:70-73 | ancestors come before descendants in the class table |
| Config.InheritedAlwaysFound | src/parsedantic/models.py:36-49 | every model class inherits some `ParseConfig`, at worst `ParsableModel`'s |
| Config.GeneratorSeparator | src/parsedantic/generator.py:62-79 | the inherited `field_separator` when set, else one-or-more whitespace |
| Config.ExactAndInheritedDiffer | src/parsedantic/config.py:38-51 | a subclass that declares nothing gets the defaults from `get_parse_config`, while the generator uses its base's separator |
| Config.ExactLookupIsLocal | src/parsedantic/config.py:46-51 | the exact lookup depends only on the class's own namespace |
| Config.DefaultGeneratorSeparator | src/parsedantic/generator.py:75-77 | with no separator configured along the bases, the generator reads whitespace between fields |
| StrOrder.BelowTransitive | src/parsedantic/errors.py:71 | string order is transitive |
| StrOrder.BelowTotal | src/parsedantic/errors.py:71 | distinct strings are ordered one way or the other |
| StrOrder.BelowIrreflexive | src/parsedantic/errors.py:71 | no string is below itself |
| StrOrder.LeastExists | src/parsedantic/errors.py:71 | a nonempty finite set of strings has a least element |
| StrOrder.Least | src/parsedantic/errors.py:71 | the least element of a nonempty set |
| StrOrder.Sorted | src/parsedantic/errors.py:71 | `sorted(s)` lists each element once, in increasing order |
| StrOrder.SortedUnique | src/parsedantic/errors.py:71 | an increasing listing of the elements of `s` is `sorted(s)` |
| Positions.LastNewline | src/parsedantic/errors.py:94 | `rfind` finds the last newline before `j`, or gives -1 |
| Positions.NextNewline | src/parsedantic/errors/parse_error.py:64 | the next newline at or after `j`, or the end |
| Positions.Lines | src/parsedantic/errors.py:112 | an empty text has no lines, and no line holds a newline |
| Positions.OneLine | src/parsedantic/errors.py:112 | a nonempty text without a newline is one line |
| Positions.LinesAfterLine | src/parsedantic/errors.py:112 | a line, a newline and a nonempty rest split as that line followed by the rest's own lines |
| Positions.LinesFromAt | src/parsedantic/errors.py:112-115 | the line holding an index, counted from a line start, is the text between the newlines around it |
| Positions.LineOfIndex | src/parsedantic/errors.py:104-116 | the line holding an index is the text between the newlines around it |
| Errors.ExpectedString | src/parsedantic/errors.py:67-73 | a set of expectations is sorted and joined with `", "`; another value is shown with `str`; without one, the exception's message |
| Errors.ExpectedSetListing | src/parsedantic/errors.py:70-71 | the text depends only on the set of expectations, each listed once in increasing order |
| Errors.SingleExpectation | src/parsedantic/errors.py:70-71 | one expectation is written as it is |
| Errors.Clamp | src/parsedantic/errors.py:85-88 | the index is clamped into `[0, len(text)]` |
| Errors.LineColumn | src/parsedantic/errors.py:78-101 | line and column are at least 1 |
| Errors.CaretPointsAtIndex | src/parsedantic/errors.py:78-116 | the line counts the newlines before the clamped index; the context line surrounds it, and the caret sits on its character |
| Errors.LineColumnExamples | src/parsedantic/errors.py:78-101 | the documented translations: `("abcdef", 10)` is `(1, 7)`, `("", -5)` is `(1, 1)`, and a newline starts line 2 at column 1 |
| Errors.Make | src/parsedantic/errors.py:36-42 | a new error keeps its text, index and expectation, and derives line and column eagerly |
| Errors.Caret | src/parsedantic/errors.py:46 | the caret line is blanks ending in one `^` |
| Errors.ContextLine | src/parsedantic/errors.py:104-116 | empty for an empty text or a line out of range, and never holding a newline |
| Errors.Header | src/parsedantic/errors.py:48-49 | the header holds no newline, whatever the expectation holds, because the expectation is shown by its `repr` |
| Errors.Message | src/parsedantic/errors.py:44-52 | the message is exactly three lines: the header, the context line and the caret line |
| Errors.LastLineAfter | src/parsedantic/errors.py:47-52 | the last line of a message is what follows its last newline |
| Errors.MessageEndsWithCaret | src/parsedantic/errors.py:44-52 | whatever the text and index, the message ends with the caret under the error column |
| Errors.FromParsyError | src/parsedantic/errors.py:58-75 | the exception's index (0 without one), its expectations as one string, and the line and column of that index |
| FieldErrors.Make | src/parsedantic/errors/parse_error.py:10-19 | a new error keeps its fields and derives line and column from the clamped index |
| FieldErrors.Str | src/parsedantic/errors/parse_error.py:56-71 | the header alone, or the header, the context line and the caret when the error line exists |
| FieldErrors.ErrorDictOf | src/parsedantic/errors/parse_error.py:42-54 | type `parse_error`; the location is the field name only when one is given; the message, input and context |
| FieldErrors.Convert | src/parsedantic/errors/parse_error.py:74-84 | `convert_parsy_error` keeps the exception's index and field name and sorts and joins its expectations |
| FieldErrors.ContextIsErrorLine | src/parsedantic/errors/parse_error.py:63-69 | the second message line is the input line holding the index, and the caret sits under its character |
| FieldErrors.HeaderNamesField | src/parsedantic/errors/parse_error.py:17-18 | a nonempty field name is inserted after the position and nothing else changes; an empty one is not shown |
| FieldErrors.TrailingNewlineDiffers | src/parsedantic/errors/parse_error.py:63-71 | at the end of a text ending in a newline this class prints only its header, while `errors.py` adds an empty context line and a caret |
| Formatters.FormatFieldsPieces | src/parsedantic/codec.py:183-186 | with each field's attribute present and formatted, the pieces are the formatted values in field order |
| Formatters.FieldText | src/parsedantic/codec.py:184 | a missing attribute raises `AttributeError` naming it; otherwise the field is written by its formatter |
| Formatters.FormatFieldsEach | src/parsedantic/codec.py:183-186 | the pieces exist exactly when every field is written, are then the fields' texts in order, and otherwise fail with the first failing field's error |
| Formatters.FormatAllPieces | src/parsedantic/core/parser.py:88 | a list is formatted item by item, the `k`-th piece being the `k`-th item's text |
| Formatters.JoinSlotAgrees | src/parsedantic/core/parser_v2.py:119-124 | with the element formatter set both list formatters agree; with none, only the empty list can be written |
| Codec.BuildField | src/parsedantic/codec.py:95-114 | a field raises what the classifier raises and raises `TypeError` when it has no parser; a description is attached only when nonempty |
| Codec.BuildFields | src/parsedantic/codec.py:75-116 | every field gets its parser, in order, or the first field that fails decides the error |
| Codec.Interleave | src/parsedantic/codec.py:130-134 | the field parsers at even positions and the separator strictly between consecutive ones |
| Codec.CombinedReads | src/parsedantic/codec.py:117-146 | when each field parser reads its value and the separator reads between consecutive fields, the combined parser reads the dict of the field names and those values, ending where the last field ends |
| Codec.CombinedEmpty | src/parsedantic/codec.py:123-125 | without fields, the combined parser reads `{}` and consumes nothing |
| Codec.Combined | src/parsedantic/codec.py:117-146 | `parsy.success({})` without fields; otherwise the sequence of field and separator parsers mapped to the dict of the values at even positions; written with `str` |
| Codec.Decode | src/parsedantic/codec.py:149-161 | an instance exactly when the combined parser reads the whole text and validation accepts the dict; a run stopping short is the `EOF` failure at its end, a failure or a raise is converted to a `ParseError`, a rejected dict gives the validation error |
| Codec.Build | src/parsedantic/codec.py:57-72 | a codec exists exactly when every field has a parser, with the configured separator string and the combined parser of its field parsers |
| Codec.Finish | src/parsedantic/codec.py:156-161 | a parse failure or raised exception is converted to a `ParseError`; a value read is handed to validation, whose failure passes through |
| Codec.DecodePartial | src/parsedantic/codec.py:163-175 | a partial decode returns the rest of the text after what was read |
| Codec.Encode | src/parsedantic/codec.py:177-187 | encoding succeeds exactly when every field is written, and then gives the fields' texts joined by the separator string; otherwise it fails with the first failing field's error |
| Codec.EncodeIsToText | src/parsedantic/inference/inference.py:156-157 | encoding an instance is what its `to_text` formatter writes |
| Codec.FieldAnnotation | src/parsedantic/codec.py:95-103 | the annotation a field is classified by: pydantic's, with a top-level `Annotated` removed, except that `Any` is replaced by the include-extras hint; a field without `Annotated` is classified as written |
| Codec.TopLevelParsedIgnored | src/parsedantic/codec.py:95-103 | `Parsed[int, p]` reads with `integer()` whatever `p` is, and only `Parsed[Any, p]` reads with `p` |
| Codec.NestedBuild | src/parsedantic/inference/inference.py:141-151 | a model class met as a field gets `TextCodec(cls)` built with the chained classifier: it exists exactly when that build succeeds, and otherwise carries that build's error |
| Codec.NestedEnv | src/parsedantic/inference/inference.py:141-151 | each model class is paired with its own on-demand build |
| Codec.ChainedIgnoresEnv | src/parsedantic/inference/basic.py:21-33 | the chained classifier builds the same field parsers whatever nested codecs exist |
| Codec.NestedIsCodec | src/parsedantic/inference/inference.py:151-162 | a nested model's parser parses exactly the texts its codec decodes, with the same value, and writes what its codec encodes |
| Codec.ChainedMissesModel | src/parsedantic/inference/container.py:61-96 | the chained classifier finds no parser for `Node | None`, so the codec raises `TypeError` for that field |
| Codec.SelfReferenceFails | tests/test_forward_refs.py:15-40 | the self-referencing `Node` of the forward-reference test gets no codec: the chained classifier, the unified one with `Node` not a parsable model (no `from_text`), and the unified one with `Node`'s own failed nested codec all raise `TypeError` for `next` |
| Codec.UnifiedMissesModel | src/parsedantic/inference/inference.py:164-169 | with no model classes known, `next: Node \| None` has no parser, so its field raises |
| Codec.NodeFails | src/parsedantic/codec.py:75-116 | `Node`'s codec fails with the error of its `next` field under both classifiers |
| RoundTrip.IntsTextIsJoin | src/parsedantic/core/parser.py:117-121 | a list of ints is written as their decimal texts joined by single spaces |
| RoundTrip.FormatsAsText | src/parsedantic/codec.py:183-186 | the chosen parser writes the field's text, with or without a description |
| RoundTrip.Classified | src/parsedantic/inference/inference.py:36-46 | both classifiers choose `integer()`, `string_of()` and whitespace-separated integers for `int`, `str` and `list[int]` |
| RoundTrip.ReadsInts | src/parsedantic/inference/inference.py:183-191 | a list part, laid out as written, is read back as its list |
| RoundTrip.ReadsPart | src/parsedantic/codec.py:131-137 | each written part is read back as its value, ending where the part ends |
| RoundTrip.ReadsFields | src/parsedantic/codec.py:130-137 | the fields' parsers, separated by whitespace, read the written line field by field |
| RoundTrip.BuildsChosen | src/parsedantic/codec.py:75-116 | the codec of `int`, `str` and `list[int]` fields builds with either classifier |
| RoundTrip.EncodesLine | src/parsedantic/codec.py:177-187 | encoding writes the fields' texts joined by single spaces |
| RoundTrip.ParsesLine | src/parsedantic/codec.py:117-146 | the combined parser reads the written line whole, into the dict of the values |
| RoundTrip.DecodeEncode | src/parsedantic/codec.py:149-187 | decoding the encoded text hands validation the dict of exactly the encoded values, under the fields' names |
| RoundTrip.DecodesLine | src/parsedantic/codec.py:149-161 | decoding the written line validates the dict of the values |
| RoundTrip.EncodeDecodeEncode | tests/model/test_serializer.py:52-65 | encoding the decoded instance writes the same text again |
| RoundTrip.NoFields | src/parsedantic/codec.py:123-125 | a model without fields writes `""` and reads it back as `{}`; any other text is rejected at index 0, expecting the end |
| RoundTrip.ListReadsThrough | src/parsedantic/inference/inference.py:183-191 | a list field reads every integer of a run, so the separator after it fails at the end |
| RoundTrip.ListSwallowsInt | src/parsedantic/codec.py:130-187 | a `list[int]` followed by an `int` is written as one run of integers, and decoding it is rejected at its end |
| RoundTrip.IntsTextSnoc | src/parsedantic/core/parser.py:117-121 | appending an int adds one space and its decimal text |
| Generator.GenerateFieldParser | src/parsedantic/generator.py:26-59 | `str`, `int` and `float` have parsers; every other type raises `NotImplementedError` |
| Generator.Known | src/parsedantic/generator.py:48-55 | the generator knows exactly the types the scalar inference and the basic classifier read |
| Generator.GeneratorAgreesWithClassifier | src/parsedantic/generator.py:48-55 | on the types it knows, the generator picks the reader both codec classifiers pick |
| Generator.ListsOnlyInTheCodec | src/parsedantic/generator.py:57-59 | `list[int]` raises in the generator and is read by the codec |
| Generator.FirstUnknown | src/parsedantic/generator.py:106-108 | the first field of an unknown type |
| Generator.FieldParsers | src/parsedantic/generator.py:104-108 | a parser per field, in order, or the error of the first unknown type |
| Generator.BuildModelParser | src/parsedantic/generator.py:82-125 | `{}` without fields; the build fails exactly when a field type is unknown |
| Generator.InterleaveSplits | src/parsedantic/codec.py:130-134 | the codec's interleaving is the first field followed by separator-field pairs |
| Generator.TailsMatch | src/parsedantic/generator.py:112-120 | reading `sep >> field` for each later field ends where reading `sep, field` ends, and keeps the same values |
| Generator.ReadsLikeCombined | src/parsedantic/generator.py:112-125 | the generator's parser gives the same reply as the codec's interleaved sequence with its even values kept |
| Generator.GeneratorIsCodec | src/parsedantic/generator.py:82-125 | for `str`, `int` and `float` fields the generator's parser and the codec's parse every text alike |
| Generator.SameParse | src/parsedantic/generator.py:120-125 | parsers that reply alike from the start parse alike |
| ParserBuilder.BuildFieldParsers | src/parsedantic/model/parser_builder.py:13-48 | a parser per field from the resolved hint or the field's annotation, in order; the first field without one stops the build |
| ParserBuilder.AnnotationOf | src/parsedantic/model/parser_builder.py:15-36 | the resolved hint with every `Annotated` dropped, or else pydantic's annotation; never `Annotated` at the top |
| ParserBuilder.BuilderDropsMarkers | src/parsedantic/model/parser_builder.py:15-36 | no field the builder classifies carries an explicit `Parsed` parser; a resolved hint is bare, and kept as it is when it was bare already |
| ParserBuilder.CombineFieldParsers | src/parsedantic/model/parser_builder.py:51-69 | `{}` without fields; otherwise the parsers interleaved with whitespace, mapped to the dict of the even values |
| ParserBuilder.InterleavedByPositions | src/parsedantic/model/parser_builder.py:58-61 | the loop's list is the interleaving of the field parsers with whitespace |
| ParserBuilder.BuildModelParser | src/parsedantic/model/parser_builder.py:13-48 | the builder succeeds exactly when every field has a parser, and then gives the codec's combined parser with whitespace |
| ParserBuilder.CodecFields | src/parsedantic/model/parser_builder.py:34-36 | the codec's view of each field: its name and the annotation the builder classifies |
| ParserBuilder.FieldsAsInCodec | src/parsedantic/model/parser_builder.py:38-46 | the builder and the codec build the same parsers and fail on the same field, the builder's message adding advice |
| ParserBuilder.BuilderIsCodec | src/parsedantic/model/parser_builder.py:13-69 | the builder's parser is the codec's combined parser when the codec reads whitespace between fields |
| Models.GetParser | src/parsedantic/models.py:89-99 | a cached parser is returned as is; otherwise the class is built once more and a successful build is cached for that class alone |
| Models.Remove | src/parsedantic/models.py:34 | removing an entry affects no other class |
| Models.BuiltOncePerClass | src/parsedantic/models.py:89-99 | from an empty cache, any sequence of requests builds each requested class exactly once and caches its own parser |
| Models.RemovedIsRebuiltOnce | src/parsedantic/models.py:95-98 | after removal the next request rebuilds once, and the one after hits the cache |
| Models.ExactClassKeys | src/parsedantic/models.py:95-98 | building one class leaves every other class's entry as it was |
| Models.Parse | src/parsedantic/models.py:52-86 | a build failure propagates; a parse failure becomes a `ParseError` with sorted, joined expectations at its index; validation errors are not wrapped |
| Models.ParseBuildsOnce | src/parsedantic/models.py:66-68 | parsing twice builds the parser once |
| Models.DefaultBuild | src/parsedantic/models.py:102-114 | the default build always raises `NotImplementedError` |
| Models.DefaultNeverParses | src/parsedantic/models.py:102-114 | with the default build every parse raises and nothing is cached, so each attempt builds again |
| Fields.FirstMeta | src/parsedantic/fields.py:40-46 | the first metadata item, or none when no item is metadata |
| Fields.Lookup | src/parsedantic/fields.py:33-64 | the `metadata` list first, then the extra dict's `"parsedantic"` entry, then its legacy `"metadata"` entry |
| Fields.StartingExtra | src/parsedantic/fields.py:95-104 | no extra gives an empty dict; a dict is copied; anything else is kept under `"user_json_schema_extra"` |
| Fields.ParseField | src/parsedantic/fields.py:67-117 | a pattern and a parser together raise `ValueError`; otherwise the caller's extra entries are kept and the metadata is added under `"parsedantic"` |
| Fields.LookupFindsParseField | src/parsedantic/fields.py:33-117 | the lookup finds what `ParseField` stored, whatever extra data came along |
| Fields.ExtraKeys | src/parsedantic/fields.py:95-117 | without extra data only `"parsedantic"` is added; a non-dict extra is kept beside it |
| Fields.LookupOrder | src/parsedantic/fields.py:33-64 | list metadata shadows the extra dict, and `"parsedantic"` shadows the legacy `"metadata"` entry |
| Fields.FirstMetaPrefix | src/parsedantic/fields.py:40-46 | a prefix that holds metadata decides the first metadata |

## Left out

- The regular-expression engine. Caller patterns (`pattern`, `string_of` with an argument, `test_char` predicates) are host parameters. The fixed expressions are scanners. Their `\s` is Python's whole whitespace class for `str` patterns; their `\d` and letters are restricted to ASCII, where Python also accepts other Unicode digits and letters.
- Floating point. A float is kept as the text it was read from, and `str` of a float gives that text back; the float's value and its normalised printing are not modelled.
- pydantic. `model_validate`, `model_fields`, `get_type_hints` and annotation resolution are inputs: validation is a host function, and fields arrive with their annotations already resolved.
- parsy's tracking of the furthest failure across successful branches is not modelled. Failures are merged only between the two sides of an alternative.
- `times(n, min, max)` with bounds and `string_from`: `times` is modelled only with a fixed count, and `string_from` is not modelled.
- `test_item`. The model reads strings only.
- `builder.py`, `model/base.py` and `model/serializer.py` are not part of this model.
- `get_field_separator` is not part of this model. The parser read between fields is the schema's `decodeSep`.
- The `ParseConfig` settings `strict_optional` and `whitespace` are carried but never read, as in the code.
- The cache lock and concurrent first use are not modelled. The cache is a pure state value.
- `splitlines` splits only on `"\n"`. The other line breaks Python recognises are not modelled.
- Parser objects are known by an identity number. A formatter or parser that raises is a `Failure` value.
- RoundTrip.DecodeEncode: proved for `int`, `str` (one `\S+` token) and `list[int]` fields with the default separators. Only the last field may write an empty text, and a list may not be followed by text starting with a digit or `-`. Outside this, `RoundTrip.ListSwallowsInt` shows a failure; float fields and nested models are not covered.
- RoundTrip.EncodeDecodeEncode: assumes distinct field names, and a validation that returns the model holding the dict's values.
- Codec.DecodePartial: states only how the remainder relates to the text. Validation of the prefix is stated through `Codec.Finish`.
- Errors.LineColumn: the contract gives only the lower bounds. The full translation is stated by `Errors.CaretPointsAtIndex` for indices on a line.
- Generator.BuildModelParser: its parser is related to the codec's through `Generator.GeneratorIsCodec`, not stated in its own contract.
- Inference.ModelParser: a class outside the environment is treated as a class that is not a parsable model. The `_get_codec` hook that `inference.py` looks for first is defined by no class, so only the `TextCodec` fallback is modelled.
- Inference.NestedParser: writes a nested model as its codec's `serialize` would. `to_text` is taken to be that method, as the `TextCodec` docstring (`codec.py:7-8`) describes it; no class in the files modelled defines `to_text`.
- Container.InferAdvanced: the nested-model branch reads the codec-built environment of the unified classifier. `advanced.py:53-69` instead tests `issubclass` of `model/base.py`'s `ParsableModel` and builds the dict parser with `model/parser_builder.py`'s `build_model_parser` (whitespace between fields, type hints without extras). A field without a parser then raises that builder's `TypeError`, which advises `Parsed[T, parser]` (`model/parser_builder.py:41-44`), rather than the codec's. That builder is modelled separately (`ParserBuilder`) but not wired into this branch.
- The unified classifier is modelled as if `codec.py` used it. The code as written imports the chained one, and the unified classifier runs in the model only through `Codec.Classifier`.
- `get_type_hints` failing (a name it cannot resolve) is not modelled. Its hints are an input, and a missing one falls back to pydantic's annotation.
- Values.StrRepr: non-ASCII characters that Python's `repr` escapes (non-printable code points above 127) are written as they are; ASCII control characters are escaped with `\x..` as in Python.

=== FILE: annotations.dfy ===
/** Field annotations as the classifiers see them (`typing` objects), and the
    `Parsed[T, parser]` marker of `types/`. */
module Annotations {
  import opened Wrappers
  import P = ParserV1

  /** A value listed in `Literal[...]`. */
  datatype LitVal = LStr(s: string) | LOther(repr: string)

  /** One metadata item of `Annotated[T, ...]`. A `ParsedMetadata` is
      identified by the identity `oid` of the parser object it holds. */
  datatype Meta = ParsedMeta(oid: nat, parser: P.Parser) | OtherMeta(name: string)

  datatype Ann =
    | IntT
    | FloatT
    | StrT
    /** `None` as written in an annotation (`NoneType` inside a union). */
    | NoneT
    /** `typing.Any`. */
    | AnyT
    /** Any other class or typing construct (`bool`, `dict`, a plain pydantic model...). */
    | Other(name: string)
    /** A parsable model class, by its index in the classifier's environment. */
    | ModelRef(id: nat)
    | Lit(values: seq<LitVal>)
    /** `Union[...]` or `A | B`, with the arguments `get_args` returns. */
    | UnionT(args: seq<Ann>)
    /** `list` / `List`, bare or with an element argument. */
    | ListT(arg: Option<Ann>)
    /** `Annotated[base, *metadata]`. */
    | AnnotatedT(base: Ann, metadata: seq<Meta>)

  /** A size for the recursion of the classifiers over nested annotations. */
  function AnnSize(a: Ann): (n: nat)
    ensures n >= 1
  {
    match a
    case UnionT(args) => 1 + ArmsSize(args)
    case ListT(arg) => if arg.Some? then 1 + AnnSize(arg.value) else 1
    case _ => 1
  }

  function ArmsSize(xs: seq<Ann>): nat {
    if |xs| == 0 then 0 else AnnSize(xs[0]) + ArmsSize(xs[1..])
  }

  /** The union arguments that are not `NoneType`, in order. */
  function NonNone(xs: seq<Ann>): (r: seq<Ann>)
    ensures |r| <= |xs|
    ensures forall k :: 0 <= k < |r| ==> r[k] != NoneT && r[k] in xs
    ensures forall x :: x in xs && x != NoneT ==> x in r
    ensures ArmsSize(r) + (|xs| - |r|) <= ArmsSize(xs)
  {
    if |xs| == 0 then []
    else if xs[0] == NoneT then NonNone(xs[1..])
    else [xs[0]] + NonNone(xs[1..])
  }

  /** No argument other than `NoneType` is dropped or repeated: each keeps
      its number of occurrences. */
  lemma {:induction false} NonNoneCounts(xs: seq<Ann>)
    ensures multiset(NonNone(xs)) == multiset(xs)[NoneT := 0]
    decreases |xs|
  {
    if |xs| > 0 {
      assert xs == [xs[0]] + xs[1..];
      NonNoneCounts(xs[1..]);
    }
  }

  /** Filtering a concatenation filters each part and keeps them in order;
      with `NonNone([x])` this fixes the result, order included. */
  lemma {:induction false} NonNoneAppend(a: seq<Ann>, b: seq<Ann>)
    ensures NonNone(a + b) == NonNone(a) + NonNone(b)
    decreases |a|
  {
    if |a| > 0 {
      assert (a + b)[0] == a[0];
      assert (a + b)[1..] == a[1..] + b;
      NonNoneAppend(a[1..], b);
    } else {
      assert a + b == b;
    }
  }

  /** A single argument is dropped exactly when it is `NoneType`. */
  lemma NonNoneSingle(x: Ann)
    ensures NonNone([x]) == if x == NoneT then [] else [x]
  {
    assert [x][1..] == [];
  }

  /** How an annotation prints in an error message (approximately, for classes). */
  function TypeName(a: Ann): string {
    match a
    case IntT => "<class 'int'>"
    case FloatT => "<class 'float'>"
    case StrT => "<class 'str'>"
    case NoneT => "None"
    case AnyT => "typing.Any"
    case Other(name) => name
    case ModelRef(_) => "<class 'model'>"
    case Lit(_) => "typing.Literal[...]"
    case UnionT(_) => "typing.Union[...]"
    case ListT(_) => "list[...]"
    case AnnotatedT(_, _) => "typing.Annotated[...]"
  }

  /** `ParsedMetadata.__eq__`: equal only to another `ParsedMetadata` holding
      the very same parser object. */
  predicate MetaEq(a: Meta, b: Meta) {
    a.ParsedMeta? && b.ParsedMeta? && a.oid == b.oid
  }

  /** The first `ParsedMetadata` item, if any. */
  function FirstParsed(ms: seq<Meta>): (r: Option<nat>)
    ensures r.None? <==> forall k :: 0 <= k < |ms| ==> !ms[k].ParsedMeta?
    ensures r.Some? ==> r.value < |ms| && ms[r.value].ParsedMeta?
                        && forall j :: 0 <= j < r.value ==> !ms[j].ParsedMeta?
  {
    if |ms| == 0 then None
    else if ms[0].ParsedMeta? then Some(0)
    else
      match FirstParsed(ms[1..])
      case None =>
        assert forall k :: 1 <= k < |ms| ==> ms[k] == ms[1..][k - 1];
        None
      case Some(k) =>
        assert forall j :: 1 <= j < k + 1 ==> ms[j] == ms[1..][j - 1];
        Some(k + 1)
  }

  /** `extract_parser`: the parser of the first `ParsedMetadata` of an
      `Annotated` annotation with at least one metadata item. */
  function ExtractParser(a: Ann): (r: Option<P.Parser>)
    ensures r.Some? <==> a.AnnotatedT? && exists k :: 0 <= k < |a.metadata| && a.metadata[k].ParsedMeta?
    ensures r.Some? ==> exists k :: 0 <= k < |a.metadata| && a.metadata[k].ParsedMeta?
                                    && a.metadata[k].parser == r.value
                                    && forall j :: 0 <= j < k ==> !a.metadata[j].ParsedMeta?
  {
    if !a.AnnotatedT? || |a.metadata| == 0 then None
    else
      match FirstParsed(a.metadata)
      case None => None
      case Some(k) => Some(a.metadata[k].parser)
  }

  /** `get_value_type`: the annotated type of an `Annotated`, else the annotation itself. */
  function GetValueType(a: Ann): (r: Ann)
    ensures !a.AnnotatedT? ==> r == a
  {
    if a.AnnotatedT? then a.base else a
  }

  /** The annotation pydantic records as `field_info.annotation`: a
      top-level `Annotated` gives way to its base type, and its metadata goes
      to `field_info.metadata`, which no classifier reads. */
  function Unannotated(a: Ann): (r: Ann)
    ensures !r.AnnotatedT?
    ensures !a.AnnotatedT? ==> r == a
    ensures ExtractParser(r) == None
    decreases a
  {
    if a.AnnotatedT? then Unannotated(a.base) else a
  }

  /** What `get_type_hints` returns without `include_extras`: every
      `Annotated`, at any depth, gives way to its base type. */
  function StripExtras(a: Ann): (r: Ann)
    ensures !r.AnnotatedT?
    ensures ExtractParser(r) == None
    decreases a
  {
    match a
    case AnnotatedT(b, _) => StripExtras(b)
    case UnionT(args) => UnionT(seq(|args|, k requires 0 <= k < |args| => StripExtras(args[k])))
    case ListT(arg) => ListT(if arg.Some? then Some(StripExtras(arg.value)) else None)
    case _ => a
  }

  /** No `Annotated` anywhere in the annotation. */
  predicate Bare(a: Ann)
    decreases a
  {
    match a
    case AnnotatedT(_, _) => false
    case UnionT(args) => forall k :: 0 <= k < |args| ==> Bare(args[k])
    case ListT(arg) => arg.None? || Bare(arg.value)
    case _ => true
  }

  /** Stripping the extras leaves no `Annotated` behind, and changes nothing
      in an annotation that had none. */
  lemma {:induction false} StripExtrasIsBare(a: Ann)
    ensures Bare(StripExtras(a))
    ensures Bare(a) ==> StripExtras(a) == a
    decreases a
  {
    match a
    case AnnotatedT(b, _) => StripExtrasIsBare(b);
    case UnionT(args) =>
      var r := StripExtras(a);
      forall k | 0 <= k < |args|
        ensures Bare(r.args[k]) && (Bare(args[k]) ==> r.args[k] == args[k])
      {
        StripExtrasIsBare(args[k]);
      }
      if Bare(a) {
        assert r.args == args;
      }
    case ListT(arg) =>
      if arg.Some? {
        StripExtrasIsBare(arg.value);
      }
    case _ =>
  }

  /** `Parsed(T, parser)`: `Annotated[T, ParsedMetadata(parser)]`; `typing`
      flattens an `Annotated` argument, appending the new metadata. */
  function Parsed(t: Ann, oid: nat, p: P.Parser): (r: Ann)
    ensures r.AnnotatedT? && |r.metadata| > 0 && r.metadata[|r.metadata| - 1] == ParsedMeta(oid, p)
  {
    if t.AnnotatedT? then AnnotatedT(t.base, t.metadata + [ParsedMeta(oid, p)])
    else AnnotatedT(t, [ParsedMeta(oid, p)])
  }

  /** The marker round trip: `Parsed(T, p)` yields `p` back, and `T` as its value type. */
  lemma ParsedRoundTrip(t: Ann, oid: nat, p: P.Parser)
    requires !t.AnnotatedT?
    ensures ExtractParser(Parsed(t, oid, p)) == Some(p)
    ensures GetValueType(Parsed(t, oid, p)) == t
  {
    assert Parsed(t, oid, p).metadata[0] == ParsedMeta(oid, p);
  }

  /** Marking twice keeps the inner parser: the first `ParsedMetadata` wins. */
  lemma ParsedTwiceKeepsInner(t: Ann, o1: nat, p1: P.Parser, o2: nat, p2: P.Parser)
    requires !t.AnnotatedT?
    ensures ExtractParser(Parsed(Parsed(t, o1, p1), o2, p2)) == Some(p1)
    ensures GetValueType(Parsed(Parsed(t, o1, p1), o2, p2)) == t
  {
    var a := Parsed(Parsed(t, o1, p1), o2, p2);
    assert a.metadata == [ParsedMeta(o1, p1), ParsedMeta(o2, p2)];
  }

  /** Annotations that are not `Annotated` carry no explicit parser. */
  lemma PlainHasNoParser(a: Ann)
    requires !a.AnnotatedT?
    ensures ExtractParser(a).None? && GetValueType(a) == a
  {
  }

  /** Two markers are equal exactly when they hold the same parser object,
      even if two distinct objects would parse and format alike. */
  lemma MetaIdentity(o1: nat, o2: nat, p: P.Parser)
    ensures MetaEq(ParsedMeta(o1, p), ParsedMeta(o2, p)) <==> o1 == o2
    ensures !MetaEq(ParsedMeta(o1, p), OtherMeta("x"))
  {
  }
}

=== FILE: chars.dfy ===
/** Character classes used by the fixed regular expressions of the
    primitives (`\d`, `\s`, `[A-Za-z0-9_]`) and by `str.isalpha`/`str.isdigit`.
    `\s` is Python's whole whitespace class; for digits and letters Python
    applies the classes to all of Unicode, and the model restricts them to
    ASCII. */
module Chars {

  /** `\d` and `str.isdigit`, restricted to ASCII. */
  predicate IsDigit(c: char) {
    '0' <= c <= '9'
  }

  /** `\s` of a `str` pattern, the characters `str.isspace` accepts: tab, line
      feed, vertical tab, form feed and carriage return; the four separators
      \x1c-\x1f; space; next line and no-break space; and the Unicode spaces
      and line and paragraph separators. */
  predicate IsSpace(c: char) {
    ('\t' <= c <= '\r') || ('\U{1C}' <= c <= '\U{1F}') || c == ' '
    || c == '\U{85}' || c == '\U{A0}' || c == '\U{1680}'
    || ('\U{2000}' <= c <= '\U{200A}') || c == '\U{2028}' || c == '\U{2029}'
    || c == '\U{202F}' || c == '\U{205F}' || c == '\U{3000}'
  }

  /** `str.isalpha`, restricted to ASCII. */
  predicate IsLetter(c: char) {
    ('a' <= c <= 'z') || ('A' <= c <= 'Z')
  }

  /** The class `[A-Za-z0-9_]`. */
  predicate IsWordChar(c: char) {
    IsLetter(c) || IsDigit(c) || c == '_'
  }

  /** No character of `s` is whitespace: the shape of a `\S+` token. */
  predicate NoSpace(s: string) {
    forall k :: 0 <= k < |s| ==> !IsSpace(s[k])
  }

  predicate AllDigits(s: string) {
    forall k :: 0 <= k < |s| ==> IsDigit(s[k])
  }

  /** `sep.join(parts)`. */
  function Join(sep: string, parts: seq<string>): (r: string)
    ensures |parts| == 0 ==> r == ""
    ensures |parts| == 1 ==> r == parts[0]
    decreases |parts|
  {
    if |parts| == 0 then ""
    else if |parts| == 1 then parts[0]
    else parts[0] + sep + Join(sep, parts[1..])
  }

  /** `c * n` for a one-character string. */
  function Repeat(c: char, n: nat): (r: string)
    ensures |r| == n
    ensures forall k :: 0 <= k < n ==> r[k] == c
  {
    if n == 0 then [] else [c] + Repeat(c, n - 1)
  }

  /** Concatenation regroups freely. */
  lemma Assoc(a: string, b: string, c: string)
    ensures a + b + c == a + (b + c)
  {
  }
}

=== FILE: codec.dfy ===
/** The text codec of `codec.py`: one parser per field, chosen by the field
    classifier; a combined parser that reads the fields with a separator
    between consecutive ones and yields a dict; decoding, partial decoding
    and encoding of model instances; and the codec a model class gets when
    it is met as the field of another, built on demand. */
module Codec {
  import opened Wrappers
  import opened Values
  import Chars
  import Terms
  import F = Formatters
  import P = ParserV1
  import opened Annotations
  import I = Inference
  import Container
  import Pr = Primitives
  import C = Combinators
  import Separator
  import E = Errors
  import FE = FieldErrors

  /** A field of a model class: its name, its annotation, and its
      description (empty when there is none). */
  datatype Field = Field(name: string, ann: Ann, description: string)

  /** A parsable model class as the codec sees it: its name, its fields in
      declaration order, its `model_config`, and the parser read between
      fields. */
  datatype Schema = Schema(cls: string, fields: seq<Field>, config: Separator.ModelConfig, decodeSep: Terms.Term)

  /** Which `get_parser_for_field` picks the field parsers: the chained one
      the `inference` package exports, which is what `codec.py` imports, or
      the unified one of `inference/inference.py`, which neither `codec.py`
      nor `model/parser_builder.py` imports but which alone knows nested
      models and `Literal`. */
  datatype Classifier = Unified | Chained

  function Classify(k: Classifier, env: I.Env, a: Ann): (r: I.Outcome)
    ensures k == Unified ==> r == I.GetParserForField(env, a)
    ensures k == Chained ==> r == Container.GetParserForField(a)
  {
    match k
    case Unified => I.GetParserForField(env, a)
    case Chained => Container.GetParserForField(a)
  }

  datatype FieldParser = FieldParser(name: string, parser: P.Parser)

  /** The annotation `_build_field_parsers` classifies: the one pydantic
      records, unless that is `Any`, when the type hint, `Annotated` extras
      included, is used instead. */
  function FieldAnnotation(f: Field): (r: Ann)
    ensures Unannotated(f.ann) != AnyT ==> r == Unannotated(f.ann)
    ensures Unannotated(f.ann) == AnyT ==> r == f.ann
    ensures !f.ann.AnnotatedT? ==> r == f.ann
  {
    var a := Unannotated(f.ann);
    if a == AnyT then f.ann else a
  }

  /** The `TypeError` raised for a field without a parser. */
  function NoParser(f: Field): string {
    "TypeError: Cannot generate parser for field '" + f.name + "' with type " + TypeName(FieldAnnotation(f))
  }

  /** One iteration of `_build_field_parsers`. */
  function BuildField(k: Classifier, env: I.Env, f: Field): (r: Result<FieldParser, string>)
    ensures var c := Classify(k, env, FieldAnnotation(f));
            && (c.Failure? ==> r == Failure(c.error))
            && (c == Success(None) ==> r == Failure(NoParser(f)))
            && (c.Success? && c.value.Some? ==>
                  r == Success(FieldParser(f.name, if f.description != "" then P.Desc(c.value.value, f.description) else c.value.value)))
  {
    match Classify(k, env, FieldAnnotation(f))
    case Failure(e) => Failure(e)
    case Success(None) => Failure(NoParser(f))
    case Success(Some(p)) =>
      Success(FieldParser(f.name, if f.description != "" then P.Desc(p, f.description) else p))
  }

  /** `_build_field_parsers`: a parser for every field, in order; the first
      field without one raises. */
  function BuildFields(k: Classifier, env: I.Env, fs: seq<Field>): (r: Result<seq<FieldParser>, string>)
    ensures r.Success? <==> forall j :: 0 <= j < |fs| ==> BuildField(k, env, fs[j]).Success?
    ensures r.Success? ==> |r.value| == |fs| && forall j :: 0 <= j < |fs| ==> r.value[j] == BuildField(k, env, fs[j]).value
    ensures r.Failure? ==> exists j :: 0 <= j < |fs| && BuildField(k, env, fs[j]) == Failure(r.error)
                                       && forall i :: 0 <= i < j ==> BuildField(k, env, fs[i]).Success?
  {
    if |fs| == 0 then Success([])
    else
      match BuildField(k, env, fs[0])
      case Failure(e) => Failure(e)
      case Success(fp) =>
        var rest := BuildFields(k, env, fs[1..]);
        assert forall j :: 1 <= j < |fs| ==> fs[j] == fs[1..][j - 1];
        match rest
        case Failure(e) =>
          LaterFieldFails(k, env, fs, e);
          Failure(e)
        case Success(fps) => Success([fp] + fps)
  }

  /** A field after a first one that builds is the first to fail in the
      whole list too. */
  lemma LaterFieldFails(k: Classifier, env: I.Env, fs: seq<Field>, e: string)
    requires |fs| > 0 && BuildField(k, env, fs[0]).Success?
    requires exists j :: 0 <= j < |fs[1..]| && BuildField(k, env, fs[1..][j]) == Failure(e)
                         && forall i :: 0 <= i < j ==> BuildField(k, env, fs[1..][i]).Success?
    ensures exists j :: 0 <= j < |fs| && BuildField(k, env, fs[j]) == Failure(e)
                        && forall i :: 0 <= i < j ==> BuildField(k, env, fs[i]).Success?
  {
    var j :| 0 <= j < |fs[1..]| && BuildField(k, env, fs[1..][j]) == Failure(e)
             && forall i :: 0 <= i < j ==> BuildField(k, env, fs[1..][i]).Success?;
    assert fs[j + 1] == fs[1..][j];
    forall i | 0 <= i < j + 1
      ensures BuildField(k, env, fs[i]).Success?
    {
      if i > 0 {
        assert fs[i] == fs[1..][i - 1];
      }
    }
    assert 0 <= j + 1 < |fs| && BuildField(k, env, fs[j + 1]) == Failure(e)
           && forall i :: 0 <= i < j + 1 ==> BuildField(k, env, fs[i]).Success?;
  }

  function Names(fps: seq<FieldParser>): (r: seq<string>)
    ensures |r| == |fps| && forall j :: 0 <= j < |fps| ==> r[j] == fps[j].name
  {
    seq(|fps|, j requires 0 <= j < |fps| => fps[j].name)
  }

  function Fmts(fps: seq<FieldParser>): (r: seq<F.Fmt>)
    ensures |r| == |fps| && forall j :: 0 <= j < |fps| ==> r[j] == fps[j].parser.fmt
  {
    seq(|fps|, j requires 0 <= j < |fps| => fps[j].parser.fmt)
  }

  function FieldTerms(fps: seq<FieldParser>): (r: seq<Terms.Term>)
    ensures |r| == |fps| && forall j :: 0 <= j < |fps| ==> r[j] == fps[j].parser.term
  {
    seq(|fps|, j requires 0 <= j < |fps| => fps[j].parser.term)
  }

  /** `f1, sep, f2, sep, ..., fn`: the separator strictly between
      consecutive fields. */
  function Interleave(ts: seq<Terms.Term>, sep: Terms.Term): (r: seq<Terms.Term>)
    requires |ts| > 0
    ensures |r| == 2 * |ts| - 1
    ensures forall j :: 0 <= j < |ts| ==> r[2 * j] == ts[j]
    ensures forall j :: 0 <= j < |ts| - 1 ==> r[2 * j + 1] == sep
    decreases |ts|
  {
    if |ts| == 1 then [ts[0]]
    else
      var rest := Interleave(ts[1..], sep);
      var r := [ts[0], sep] + rest;
      forall j | 1 <= j < |ts|
        ensures r[2 * j] == ts[j]
      {
        assert r[2 * j] == rest[2 * (j - 1)];
        assert ts[j] == ts[1..][j - 1];
      }
      forall j | 1 <= j < |ts| - 1
        ensures r[2 * j + 1] == sep
      {
        assert r[2 * j + 1] == rest[2 * (j - 1) + 1];
      }
      r
  }

  /** `_build_combined_parser`: `{}` without reading when there are no
      fields; otherwise the interleaved sequence mapped to the dict of the
      values at even positions. Formatted with `str`. */
  function Combined(fps: seq<FieldParser>, sep: Terms.Term): (r: P.Parser)
    ensures |fps| == 0 ==> r.term == Terms.Succeed(VDict([]))
    ensures |fps| > 0 ==> r.term == Terms.Map(Terms.Seq(Interleave(FieldTerms(fps), sep)), Terms.EvenFieldsToDict(Names(fps)))
    ensures r.fmt == F.FStr && forall v :: P.Format(r, v) == Success(PyStr(v))
  {
    if |fps| == 0 then P.Make(Terms.Succeed(VDict([])), None)
    else P.Make(Terms.Map(Terms.Seq(Interleave(FieldTerms(fps), sep)), Terms.EvenFieldsToDict(Names(fps))), None)
  }

  /** The values and separators `seq` collects: `v0, s0, v1, ..., vn`. */
  function Alternate(vs: seq<Value>, seps: seq<Value>): (r: seq<Value>)
    requires |vs| > 0 && |seps| == |vs| - 1
    ensures |r| == 2 * |vs| - 1
    ensures forall j :: 0 <= j < |vs| ==> r[2 * j] == vs[j]
    ensures forall j :: 0 <= j < |seps| ==> r[2 * j + 1] == seps[j]
    decreases |vs|
  {
    if |vs| == 1 then [vs[0]]
    else
      var rest := Alternate(vs[1..], seps[1..]);
      var r := [vs[0], seps[0]] + rest;
      assert forall j :: 1 <= j < |vs| ==> r[2 * j] == rest[2 * (j - 1)] && vs[j] == vs[1..][j - 1];
      assert forall j :: 1 <= j < |seps| ==> r[2 * j + 1] == rest[2 * (j - 1) + 1] && seps[j] == seps[1..][j - 1];
      r
  }

  /** Each parser `ts[j]` reads `vs[j]` from `starts[j]` to `ends[j]`, and
      between two of them the separator reads `seps[j]` from `ends[j]` to
      `starts[j + 1]`. */
  predicate Apart(h: Terms.Host, ts: seq<Terms.Term>, sep: Terms.Term, s: string,
                  starts: seq<nat>, ends: seq<nat>, vs: seq<Value>, seps: seq<Value>) {
    && |ts| > 0 && |starts| == |ends| == |vs| == |ts| && |seps| == |ts| - 1
    && (forall j :: 0 <= j < |ts| ==> starts[j] <= |s| && Terms.Run(h, ts[j], s, starts[j]) == Terms.Ok(vs[j], ends[j]))
    && (forall j :: 0 <= j < |ts| - 1 ==> ends[j] <= |s| && Terms.Run(h, sep, s, ends[j]) == Terms.Ok(seps[j], starts[j + 1]))
  }

  /** `seq` reads two parsers in a row, then the rest. */
  lemma SeqTwoSteps(h: Terms.Host, a: Terms.Term, b: Terms.Term, rest: seq<Terms.Term>, s: string,
                    i: nat, va: Value, j: nat, vb: Value, k: nat, acc: seq<Value>)
    requires i <= |s| && Terms.Run(h, a, s, i) == Terms.Ok(va, j)
    requires j <= |s| && Terms.Run(h, b, s, j) == Terms.Ok(vb, k)
    ensures Terms.RunSeq(h, [a, b] + rest, s, i, acc) == Terms.RunSeq(h, rest, s, k, acc + [va, vb])
  {
    assert ([a, b] + rest)[1..] == [b] + rest && ([b] + rest)[1..] == rest;
    assert acc + [va] + [vb] == acc + [va, vb];
  }

  /** `seq` of one parser reads it. */
  lemma SeqOneStep(h: Terms.Host, a: Terms.Term, s: string, i: nat, v: Value, j: nat, acc: seq<Value>)
    requires i <= |s| && Terms.Run(h, a, s, i) == Terms.Ok(v, j)
    ensures Terms.RunSeq(h, [a], s, i, acc) == Terms.Ok(VList(acc + [v]), j)
  {
    assert [a][1..] == [];
  }

  /** `seq(*ps)` is the sequence run from an empty list. */
  lemma SeqRun(h: Terms.Host, ps: seq<Terms.Term>, s: string, i: nat)
    requires i <= |s|
    ensures Terms.Run(h, Terms.Seq(ps), s, i) == Terms.RunSeq(h, ps, s, i, [])
  {
  }

  /** Past the first field and separator, the rest are laid out alike. */
  lemma ApartRest(h: Terms.Host, ts: seq<Terms.Term>, sep: Terms.Term, s: string,
                  starts: seq<nat>, ends: seq<nat>, vs: seq<Value>, seps: seq<Value>)
    requires Apart(h, ts, sep, s, starts, ends, vs, seps) && |ts| > 1
    ensures Apart(h, ts[1..], sep, s, starts[1..], ends[1..], vs[1..], seps[1..])
  {
    forall j | 0 <= j < |ts| - 1
      ensures starts[1..][j] <= |s| && Terms.Run(h, ts[1..][j], s, starts[1..][j]) == Terms.Ok(vs[1..][j], ends[1..][j])
    {
      assert ts[1..][j] == ts[j + 1] && starts[1..][j] == starts[j + 1] && ends[1..][j] == ends[j + 1] && vs[1..][j] == vs[j + 1];
    }
    forall j | 0 <= j < |ts| - 2
      ensures ends[1..][j] <= |s| && Terms.Run(h, sep, s, ends[1..][j]) == Terms.Ok(seps[1..][j], starts[1..][j + 1])
    {
      assert ends[1..][j] == ends[j + 1] && seps[1..][j] == seps[j + 1] && starts[1..][j + 1] == starts[j + 2];
    }
  }

  lemma {:induction false} InterleaveReads(h: Terms.Host, ts: seq<Terms.Term>, sep: Terms.Term, s: string,
                                           starts: seq<nat>, ends: seq<nat>, vs: seq<Value>, seps: seq<Value>,
                                           acc: seq<Value>)
    requires Apart(h, ts, sep, s, starts, ends, vs, seps)
    ensures Terms.RunSeq(h, Interleave(ts, sep), s, starts[0], acc) == Terms.Ok(VList(acc + Alternate(vs, seps)), ends[|ts| - 1])
    decreases |ts|, 1
  {
    if |ts| == 1 {
      InterleaveReadsLast(h, ts, sep, s, starts, ends, vs, seps, acc);
    } else {
      InterleaveReadsMore(h, ts, sep, s, starts, ends, vs, seps, acc);
    }
  }

  lemma InterleaveReadsLast(h: Terms.Host, ts: seq<Terms.Term>, sep: Terms.Term, s: string,
                            starts: seq<nat>, ends: seq<nat>, vs: seq<Value>, seps: seq<Value>,
                            acc: seq<Value>)
    requires Apart(h, ts, sep, s, starts, ends, vs, seps) && |ts| == 1
    ensures Terms.RunSeq(h, Interleave(ts, sep), s, starts[0], acc) == Terms.Ok(VList(acc + Alternate(vs, seps)), ends[0])
  {
    assert Interleave(ts, sep) == [ts[0]];
    SeqOneStep(h, ts[0], s, starts[0], vs[0], ends[0], acc);
  }

  lemma {:induction false} InterleaveReadsMore(h: Terms.Host, ts: seq<Terms.Term>, sep: Terms.Term, s: string,
                                               starts: seq<nat>, ends: seq<nat>, vs: seq<Value>, seps: seq<Value>,
                                               acc: seq<Value>)
    requires Apart(h, ts, sep, s, starts, ends, vs, seps) && |ts| > 1
    ensures Terms.RunSeq(h, Interleave(ts, sep), s, starts[0], acc) == Terms.Ok(VList(acc + Alternate(vs, seps)), ends[|ts| - 1])
    decreases |ts|, 0
  {
    var rest := Interleave(ts[1..], sep);
    InterleaveCons(ts, sep);
    SeqTwoSteps(h, ts[0], sep, rest, s, starts[0], vs[0], ends[0], seps[0], starts[1], acc);
    ApartRest(h, ts, sep, s, starts, ends, vs, seps);
    InterleaveReads(h, ts[1..], sep, s, starts[1..], ends[1..], vs[1..], seps[1..], acc + [vs[0], seps[0]]);
    AlternateCons(acc, vs, seps);
  }

  /** Two or more fields interleave as the first, the separator and the rest. */
  lemma InterleaveCons(ts: seq<Terms.Term>, sep: Terms.Term)
    requires |ts| > 1
    ensures Interleave(ts, sep) == [ts[0], sep] + Interleave(ts[1..], sep)
  {
  }

  /** Two or more values alternate as the first, a separator's value and the rest. */
  lemma AlternateCons(acc: seq<Value>, vs: seq<Value>, seps: seq<Value>)
    requires |vs| > 1 && |seps| == |vs| - 1
    ensures acc + [vs[0], seps[0]] + Alternate(vs[1..], seps[1..]) == acc + Alternate(vs, seps)
  {
    assert Alternate(vs, seps) == [vs[0], seps[0]] + Alternate(vs[1..], seps[1..]);
  }

  /** Keeping the even positions drops the separators again. */
  lemma EvensOfAlternate(vs: seq<Value>, seps: seq<Value>)
    requires |vs| > 0 && |seps| == |vs| - 1
    ensures Terms.Evens(Alternate(vs, seps)) == vs
  {
  }

  /** What the combined parser reads: when each field's parser reads its
      value and the separator reads between consecutive fields, the result
      is the dict of the field names to those values, and reading ends where
      the last field ends. The separators' own values are dropped. */
  lemma CombinedReads(h: Terms.Host, fps: seq<FieldParser>, sep: Terms.Term, s: string,
                      starts: seq<nat>, ends: seq<nat>, vs: seq<Value>, seps: seq<Value>)
    requires Apart(h, FieldTerms(fps), sep, s, starts, ends, vs, seps)
    ensures Terms.Run(h, Combined(fps, sep).term, s, starts[0]) == Terms.Ok(VDict(Zip(Names(fps), vs)), ends[|fps| - 1])
  {
    InterleaveReads(h, FieldTerms(fps), sep, s, starts, ends, vs, seps, []);
    CombinedFromSeq(h, fps, sep, s, starts[0], ends[|fps| - 1], vs, seps);
  }

  /** The combined parser maps what the interleaved sequence collects to
      the dict of the fields' values. */
  lemma CombinedFromSeq(h: Terms.Host, fps: seq<FieldParser>, sep: Terms.Term, s: string, i: nat, end: nat,
                        vs: seq<Value>, seps: seq<Value>)
    requires i <= |s| && |fps| == |vs| > 0 && |seps| == |vs| - 1
    requires Terms.RunSeq(h, Interleave(FieldTerms(fps), sep), s, i, []) == Terms.Ok(VList([] + Alternate(vs, seps)), end)
    ensures Terms.Run(h, Combined(fps, sep).term, s, i) == Terms.Ok(VDict(Zip(Names(fps), vs)), end)
  {
    var ps := Interleave(FieldTerms(fps), sep);
    var list := Alternate(vs, seps);
    assert [] + list == list;
    SeqRun(h, ps, s, i);
    EvensOfAlternate(vs, seps);
    assert Terms.Apply(h, Terms.EvenFieldsToDict(Names(fps)), VList(list)) == Success(VDict(Zip(Names(fps), vs)));
    Terms.MapRun(h, Terms.Seq(ps), Terms.EvenFieldsToDict(Names(fps)), s, i);
  }

  /** Without fields the combined parser reads nothing and gives `{}`. */
  lemma CombinedEmpty(h: Terms.Host, sep: Terms.Term, s: string, i: nat)
    requires i <= |s|
    ensures Terms.Run(h, Combined([], sep).term, s, i) == Terms.Ok(VDict([]), i)
  {
  }

  /** A built codec. */
  datatype Codec = Codec(cls: string, sepStr: string, sepParser: Terms.Term, fields: seq<FieldParser>, combined: P.Parser)

  /** `TextCodec(model_class)`: the separator string from the configuration,
      the field parsers, and the combined parser. */
  function Build(k: Classifier, env: I.Env, sc: Schema): (r: Result<Codec, string>)
    ensures r.Success? <==> BuildFields(k, env, sc.fields).Success?
    ensures r.Success? ==>
              && r.value.cls == sc.cls
              && r.value.sepStr == Separator.GetSeparatorString(sc.config)
              && r.value.sepParser == sc.decodeSep
              && r.value.fields == BuildFields(k, env, sc.fields).value
              && r.value.combined == Combined(r.value.fields, sc.decodeSep)
    ensures r.Failure? ==> r.error == BuildFields(k, env, sc.fields).error
  {
    match BuildFields(k, env, sc.fields)
    case Failure(e) => Failure(e)
    case Success(fps) =>
      Success(Codec(sc.cls, Separator.GetSeparatorString(sc.config), sc.decodeSep, fps, Combined(fps, sc.decodeSep)))
  }

  // ---------------------------------------------------------------------------
  // Decoding and encoding

  /** Why decoding produced no instance. */
  datatype Problem =
    /** The parser failed or raised; the failure is converted to a `ParseError`. */
    | Rejected(error: FE.ParseError)
    /** `model_validate` raised; its error is not converted. */
    | Invalid(message: string)
    /** The parser loops forever. */
    | Hangs

  /** A failed run, seen as the exception it raises. */
  function RaisedOf(r: Terms.Reply): E.Raised
    requires r.Err? || (r.Stop? && r.why.Raises?)
  {
    if r.Err? then E.Raised(Some(r.pos), Some(E.ExpectedSet(r.expected)), "")
    else E.Raised(None, None, r.why.message)
  }

  /** The outcome of running the combined parser: validation of the dict,
      or the failure converted. */
  function Finish(h: Terms.Host, c: Codec, text: string, r: Terms.Reply): (d: Result<Value, Problem>)
    ensures r.Ok? ==> d == (match h.validate(c.cls, r.value)
                            case Success(m) => Success(m)
                            case Failure(msg) => Failure(Invalid(msg)))
    ensures (r.Err? || (r.Stop? && r.why.Raises?)) ==> d == Failure(Rejected(FE.Convert(RaisedOf(r), text, None)))
    ensures r == Terms.Stop(Terms.Diverges) ==> d == Failure(Hangs)
  {
    match r
    case Ok(v, _) =>
      (match h.validate(c.cls, v)
       case Success(m) => Success(m)
       case Failure(msg) => Failure(Invalid(msg)))
    case Err(_, _) => Failure(Rejected(FE.Convert(RaisedOf(r), text, None)))
    case Stop(Raises(_)) => Failure(Rejected(FE.Convert(RaisedOf(r), text, None)))
    case Stop(Diverges) => Failure(Hangs)
  }

  /** `TextCodec.parse(text)`: the whole text is read, then validated. It
      succeeds exactly when the combined parser reads the whole text and the
      dict validates; text left over is rejected as expecting `EOF` where
      reading stopped, and a failed read is rejected as it failed. */
  function Decode(h: Terms.Host, c: Codec, text: string): (d: Result<Value, Problem>)
    ensures var r := Terms.Run(h, c.combined.term, text, 0);
            d.Success? <==> r.Ok? && r.next == |text| && h.validate(c.cls, r.value).Success?
    ensures var r := Terms.Run(h, c.combined.term, text, 0);
            d.Success? ==> d.value == h.validate(c.cls, r.value).value
    ensures var r := Terms.Run(h, c.combined.term, text, 0);
            r.Ok? && r.next == |text| && h.validate(c.cls, r.value).Failure? ==>
              d == Failure(Invalid(h.validate(c.cls, r.value).error))
    ensures var r := Terms.Run(h, c.combined.term, text, 0);
            r.Ok? && r.next < |text| ==> d == Failure(Rejected(FE.Convert(RaisedOf(Terms.Err(r.next, {"EOF"})), text, None)))
    ensures var r := Terms.Run(h, c.combined.term, text, 0);
            (r.Err? || (r.Stop? && r.why.Raises?)) ==> d == Failure(Rejected(FE.Convert(RaisedOf(r), text, None)))
    ensures Terms.Run(h, c.combined.term, text, 0) == Terms.Stop(Terms.Diverges) ==> d == Failure(Hangs)
  {
    Finish(h, c, text, Terms.Parse(h, c.combined.term, text))
  }

  /** `TextCodec.parse_partial(text)`: a prefix is read and validated; the
      rest of the text is returned with the instance. */
  function DecodePartial(h: Terms.Host, c: Codec, text: string): (d: Result<(Value, string), Problem>)
    ensures var r := Terms.Run(h, c.combined.term, text, 0);
            d.Success? ==> r.Ok? && d.value.1 == text[r.next..] && text[..r.next] + d.value.1 == text
  {
    var r := Terms.Run(h, c.combined.term, text, 0);
    match Finish(h, c, text, r)
    case Failure(p) => Failure(p)
    case Success(m) =>
      assert text[..r.next] + text[r.next..] == text;
      Success((m, text[r.next..]))
  }

  /** One piece of `serialize`: the field's attribute, formatted by the
      field's parser; a missing attribute raises `AttributeError`. */
  function FieldText(fp: FieldParser, attrs: seq<Entry>): (r: Result<string, string>)
    ensures Attr(attrs, fp.name).None? ==> r.Failure?
    ensures Attr(attrs, fp.name).Some? ==> r == F.Format(fp.parser.fmt, Attr(attrs, fp.name).value)
  {
    F.FieldText(fp.name, fp.parser.fmt, attrs)
  }

  /** `TextCodec.serialize(instance)`: each field's value formatted by its
      parser, in declaration order, joined with the separator string. */
  function Encode(c: Codec, attrs: seq<Entry>): (r: Result<string, string>)
    ensures r.Success? <==> forall j :: 0 <= j < |c.fields| ==> FieldText(c.fields[j], attrs).Success?
    ensures forall parts: seq<string> ::
              |parts| == |c.fields| && (forall j :: 0 <= j < |c.fields| ==> FieldText(c.fields[j], attrs) == Success(parts[j]))
              ==> r == Success(Chars.Join(c.sepStr, parts))
    ensures r.Failure? ==> exists j :: 0 <= j < |c.fields| && FieldText(c.fields[j], attrs) == Failure(r.error)
                                       && forall i :: 0 <= i < j ==> FieldText(c.fields[i], attrs).Success?
  {
    EncodeByPieces(c, attrs);
    match F.FormatFields(Names(c.fields), Fmts(c.fields), attrs)
    case Failure(e) => Failure(e)
    case Success(parts) => Success(Chars.Join(c.sepStr, parts))
  }

  /** The pieces `serialize` joins are the field texts, in field order. */
  lemma EncodeByPieces(c: Codec, attrs: seq<Entry>)
    ensures var r := F.FormatFields(Names(c.fields), Fmts(c.fields), attrs);
            && (r.Success? <==> forall j :: 0 <= j < |c.fields| ==> FieldText(c.fields[j], attrs).Success?)
            && (r.Failure? ==> exists j :: 0 <= j < |c.fields| && FieldText(c.fields[j], attrs) == Failure(r.error)
                                           && forall i :: 0 <= i < j ==> FieldText(c.fields[i], attrs).Success?)
    ensures forall parts: seq<string> ::
              |parts| == |c.fields| && (forall j :: 0 <= j < |c.fields| ==> FieldText(c.fields[j], attrs) == Success(parts[j]))
              ==> F.FormatFields(Names(c.fields), Fmts(c.fields), attrs) == Success(parts)
  {
    var names, fmts := Names(c.fields), Fmts(c.fields);
    F.FormatFieldsEach(names, fmts, attrs);
    assert forall j :: 0 <= j < |c.fields| ==> FieldText(c.fields[j], attrs) == F.FieldText(names[j], fmts[j], attrs);
    forall parts: seq<string> | |parts| == |c.fields| && (forall j :: 0 <= j < |c.fields| ==> FieldText(c.fields[j], attrs) == Success(parts[j]))
      ensures F.FormatFields(names, fmts, attrs) == Success(parts)
    {
      var r := F.FormatFields(names, fmts, attrs);
      assert r.Success?;
      assert r.value == parts;
    }
  }

  /** Encoding an instance is what its `to_text` formatter writes, so a
      nested model is written the way its own codec encodes it. */
  lemma EncodeIsToText(c: Codec, attrs: seq<Entry>)
    ensures Encode(c, attrs) == F.Format(F.FToText(Names(c.fields), Fmts(c.fields), c.sepStr), VModel(c.cls, attrs))
  {
  }

  // ---------------------------------------------------------------------------
  // Nested models

  /** What a built codec offers to the models that use it as a field. */
  function NestedOf(c: Codec): (m: I.Nested)
    ensures m.cls == c.cls && m.dict == c.combined.term && m.names == Names(c.fields)
            && m.fmts == Fmts(c.fields) && m.sep == c.sepStr
  {
    I.Nested(c.cls, c.combined.term, Names(c.fields), Fmts(c.fields), c.sepStr)
  }

  /** The codec a model class gets when a classifier meets it as a field:
      `TextCodec(cls)`, built on demand with the chained classifier this
      module imports, so with no other model's codec to draw on. */
  function NestedBuild(sc: Schema): (r: Result<I.Nested, string>)
    ensures r.Success? <==> Build(Chained, [], sc).Success?
    ensures r.Success? ==> r.value == NestedOf(Build(Chained, [], sc).value)
    ensures r.Failure? ==> r.error == Build(Chained, [], sc).error
  {
    match Build(Chained, [], sc)
    case Success(c) => Success(NestedOf(c))
    case Failure(e) => Failure(e)
  }

  /** The nested codecs of a list of model classes, `ModelRef(j)` naming the
      class `schemas[j]`. */
  function NestedEnv(schemas: seq<Schema>): (env: I.Env)
    ensures |env| == |schemas| && forall j :: 0 <= j < |schemas| ==> env[j] == NestedBuild(schemas[j])
  {
    seq(|schemas|, j requires 0 <= j < |schemas| => NestedBuild(schemas[j]))
  }

  /** The chained classifier never looks at the nested codecs, so a codec
      it builds does not depend on which models exist or in what order they
      are built. */
  lemma {:induction false} ChainedIgnoresEnv(env: I.Env, other: I.Env, fs: seq<Field>)
    ensures BuildFields(Chained, env, fs) == BuildFields(Chained, other, fs)
    decreases |fs|
  {
    if |fs| > 0 {
      assert BuildField(Chained, env, fs[0]) == BuildField(Chained, other, fs[0]);
      ChainedIgnoresEnv(env, other, fs[1..]);
    }
  }

  /** A model used as a field reads what its own codec decodes, and is
      written the way its own codec encodes it. */
  lemma NestedIsCodec(h: Terms.Host, c: Codec, text: string, attrs: seq<Entry>)
    ensures var r := Terms.Parse(h, I.NestedParser(NestedOf(c)).term, text);
            && (r.Ok? <==> Decode(h, c, text).Success?)
            && (r.Ok? ==> Decode(h, c, text).value == r.value)
    ensures P.Format(I.NestedParser(NestedOf(c)), VModel(c.cls, attrs)) == Encode(c, attrs)
  {
    NestedReadsAsCodec(h, c, text);
    EncodeIsToText(c, attrs);
  }

  lemma NestedReadsAsCodec(h: Terms.Host, c: Codec, text: string)
    ensures var r := Terms.Parse(h, I.NestedParser(NestedOf(c)).term, text);
            && (r.Ok? <==> Decode(h, c, text).Success?)
            && (r.Ok? ==> Decode(h, c, text).value == r.value)
  {
    var t := I.NestedParser(NestedOf(c)).term;
    assert t == Terms.Map(c.combined.term, Terms.Validate(c.cls));
    Terms.MapRun(h, c.combined.term, Terms.Validate(c.cls), text, 0);
  }

  /** The self-referring `Node` of the forward-reference tests, with
      `value: int` and `next: Node | None`, gets no codec from either
      classifier. The chained one has no case for models. The test's `Node`
      has no `from_text`, so it is no parsable model and the unified one
      sees an empty environment. Were it one, the unified classifier would
      meet `Node`'s own nested codec, which the chained one fails to build.
      Every path raises the same `TypeError` for `next`. */
  lemma SelfReferenceFails(config: Separator.ModelConfig, sep: Terms.Term)
    ensures var next := Field("next", UnionT([ModelRef(0), NoneT]), "");
            var node := Schema("Node", [Field("value", IntT, ""), next], config, sep);
            && Build(Chained, [], node) == Failure(NoParser(next))
            && Build(Unified, [], node) == Failure(NoParser(next))
            && NestedEnv([node]) == [Failure(NoParser(next))]
            && Build(Unified, NestedEnv([node]), node) == Failure(NoParser(next))
  {
    var next := Field("next", UnionT([ModelRef(0), NoneT]), "");
    var node := Schema("Node", [Field("value", IntT, ""), next], config, sep);
    NodeFails(Chained, [], next, node);
    NodeFails(Unified, [], next, node);
    NodeEnv(next, node);
    NodeFails(Unified, NestedEnv([node]), next, node);
  }

  /** The environment built for `Node` alone holds its failure. */
  lemma NodeEnv(next: Field, node: Schema)
    requires next == Field("next", UnionT([ModelRef(0), NoneT]), "") && node.fields == [Field("value", IntT, ""), next]
    ensures NestedEnv([node]) == [Failure(NoParser(next))]
  {
    NodeFails(Chained, [], next, node);
    assert NestedEnv([node])[0] == NestedBuild(node);
  }

  /** `Node`'s codec fails with the error of its `next` field. */
  lemma NodeFails(k: Classifier, env: I.Env, next: Field, node: Schema)
    requires next == Field("next", UnionT([ModelRef(0), NoneT]), "") && node.fields == [Field("value", IntT, ""), next]
    requires k == Chained || env == [] || env == [Failure(NoParser(next))]
    ensures Build(k, env, node) == Failure(NoParser(next))
  {
    NodeFieldsFail(k, env, next, node.fields);
  }

  /** `value: int` builds and `next: Node | None` fails, with the class
      `Node` itself either not a model the classifier knows or one whose
      codec failed with that very error. */
  lemma NodeFieldsFail(k: Classifier, env: I.Env, next: Field, fs: seq<Field>)
    requires next == Field("next", UnionT([ModelRef(0), NoneT]), "") && fs == [Field("value", IntT, ""), next]
    requires k == Chained || env == [] || env == [Failure(NoParser(next))]
    ensures BuildFields(k, env, fs) == Failure(NoParser(next))
  {
    IntFieldBuilds(k, env, fs[0]);
    OptionalModelFails(k, env, next);
  }

  /** `value: int` builds under either classifier. */
  lemma IntFieldBuilds(k: Classifier, env: I.Env, f: Field)
    requires f == Field("value", IntT, "")
    ensures BuildField(k, env, f).Success?
  {
    I.ScalarsAndUnknowns(env, "", []);
    Container.AgreesWithUnified(env, IntT);
  }

  lemma OptionalModelFails(k: Classifier, env: I.Env, next: Field)
    requires next == Field("next", UnionT([ModelRef(0), NoneT]), "")
    requires k == Chained || env == [] || env == [Failure(NoParser(next))]
    ensures BuildField(k, env, next) == Failure(NoParser(next))
  {
    if k == Chained {
      ChainedMissesModel(env, next);
    } else if env == [] {
      UnifiedMissesModel(next);
    } else {
      UnifiedMeetsFailure(env, next);
    }
  }

  /** The chained classifier has no case for a model class. */
  lemma ChainedMissesModel(env: I.Env, next: Field)
    requires next == Field("next", UnionT([ModelRef(0), NoneT]), "")
    ensures BuildField(Chained, env, next) == Failure(NoParser(next))
  {
    var a := UnionT([ModelRef(0), NoneT]);
    assert NonNone(a.args) == [ModelRef(0)];
    assert Container.Infer(ModelRef(0)) == Success(None);
    assert Container.Infer(a) == Success(None);
  }

  /** With no parsable model classes in the environment, the unified
      classifier has no parser for `Node | None` either. */
  lemma UnifiedMissesModel(next: Field)
    requires next == Field("next", UnionT([ModelRef(0), NoneT]), "")
    ensures BuildField(Unified, [], next) == Failure(NoParser(next))
  {
    var a := UnionT([ModelRef(0), NoneT]);
    assert NonNone(a.args) == [ModelRef(0)];
    assert I.Infer([], ModelRef(0)) == Success(None);
    assert I.Infer([], a) == Success(None);
  }

  /** The unified classifier meets the failed nested build and raises it. */
  lemma UnifiedMeetsFailure(env: I.Env, next: Field)
    requires next == Field("next", UnionT([ModelRef(0), NoneT]), "")
    requires env == [Failure(NoParser(next))]
    ensures BuildField(Unified, env, next) == Failure(NoParser(next))
  {
    var a := UnionT([ModelRef(0), NoneT]);
    assert NonNone(a.args) == [ModelRef(0)];
    assert I.Infer(env, ModelRef(0)) == Failure(NoParser(next));
    assert I.Infer(env, a) == Failure(NoParser(next));
  }

  /** pydantic keeps a top-level `Parsed` marker from the codec: a field
      `Parsed[T, p]` is classified as plain `T`, so `Parsed[int, p]` reads
      with `integer()` whatever `p` is. Only `Parsed[Any, p]` reaches the
      classifier with its marker, through the type hints, and gets `p`. */
  lemma TopLevelParsedIgnored(k: Classifier, env: I.Env, name: string, t: Ann, oid: nat, p: P.Parser)
    requires !t.AnnotatedT?
    ensures t != AnyT ==> FieldAnnotation(Field(name, Parsed(t, oid, p), "")) == t
    ensures t == IntT ==> BuildField(k, env, Field(name, Parsed(t, oid, p), "")) == Success(FieldParser(name, Pr.Integer()))
    ensures t == AnyT ==> BuildField(k, env, Field(name, Parsed(t, oid, p), "")) == Success(FieldParser(name, p))
  {
    ParsedRoundTrip(t, oid, p);
    I.ScalarsAndUnknowns(env, "", []);
    Container.AgreesWithUnified(env, IntT);
  }
}

=== FILE: combinators.dfy ===
/** The combinators parsy derives from the basic ones, and what they compute:
    `optional`, `many`, `times(n)`, `sep_by`, `result`, `concat` and `+`. */
module Combinators {
  import opened Wrappers
  import opened Values
  import opened Terms

  /** `p.optional()`: `p.times(0, 1)` mapped to its only value or `None`. */
  function Optional(p: Term): Term {
    Map(Rep(p, 0, Some(1)), FirstOrNone)
  }

  /** `p.many()`: `p.times(0, inf)`. */
  function Many(p: Term): Term {
    Rep(p, 0, None)
  }

  /** `p.times(n)`: exactly `n` repetitions. */
  function Times(p: Term, n: nat): Term {
    Rep(p, n, Some(n))
  }

  /** `a + b`: both lists, concatenated. */
  function Plus(a: Term, b: Term): Term {
    Map(Seq([a, b]), ListAdd)
  }

  /** `p.sep_by(sep, min=min, max=max)`: one element, then up to `max - 1`
      separator-element pairs; with `min == 0` the empty list is the fallback. */
  function SepBy(p: Term, sep: Term, min: nat, max: Option<nat>): Term {
    if max == Some(0) then Succeed(VList([]))
    else
      var rest := Rep(Then(sep, p), if min == 0 then 0 else min - 1,
                      if max.Some? then Some(max.value - 1) else None);
      var res := Plus(Times(p, 1), rest);
      if min == 0 then Alt(res, Succeed(VList([]))) else res
  }

  /** `p.result(v)`: `p >> success(v)`. */
  function ResultOf(p: Term, v: Value): Term {
    Then(p, Succeed(v))
  }

  /** `p.concat()`: `"".join` of the list `p` yields. */
  function Concat(p: Term): Term {
    Map(p, JoinStr)
  }

  // ---------------------------------------------------------------------------
  // Reference semantics

  /** `p` read `vs` one after another from `i`, ending at `j`, each read
      consuming input. */
  predicate Chain(h: Host, p: Term, s: string, i: nat, vs: seq<Value>, j: nat)
    requires i <= |s|
    decreases |vs|
  {
    if |vs| == 0 then j == i
    else
      var r := Run(h, p, s, i);
      r.Ok? && r.value == vs[0] && r.next > i && Chain(h, p, s, r.next, vs[1..], j)
  }

  /** The ordered choice `a | b`: `a`'s success or abort is final, and `b`
      runs from the same index only when `a` fails. */
  lemma AltOrdered(h: Host, a: Term, b: Term, s: string, i: nat)
    requires i <= |s|
    ensures !Run(h, a, s, i).Err? ==> Run(h, Alt(a, b), s, i) == Run(h, a, s, i)
    ensures Run(h, a, s, i).Err? && !Run(h, b, s, i).Err? ==> Run(h, Alt(a, b), s, i) == Run(h, b, s, i)
    ensures Run(h, Alt(a, b), s, i).Ok? <==> Run(h, a, s, i).Ok? || (Run(h, a, s, i).Err? && Run(h, b, s, i).Ok?)
  {
    assert Run(h, Alt(a, b), s, i) == RunAlt(h, a, b, s, i);
  }

  /** Both alternatives fail at the same index: the expectations are merged. */
  lemma AltMerges(h: Host, a: Term, b: Term, s: string, i: nat, ea: set<string>, eb: set<string>)
    requires i <= |s| && Run(h, a, s, i) == Err(i, ea) && Run(h, b, s, i) == Err(i, eb)
    ensures Run(h, Alt(a, b), s, i) == Err(i, ea + eb)
  {
    assert Run(h, Alt(a, b), s, i) == RunAlt(h, a, b, s, i);
  }

  /** `optional` yields `p`'s value when `p` succeeds, and `None` without
      consuming when `p` fails. */
  lemma OptionalSpec(h: Host, p: Term, s: string, i: nat)
    requires i <= |s|
    ensures var r := Run(h, p, s, i);
            Run(h, Optional(p), s, i)
            == match r
               case Ok(v, j) => Ok(v, j)
               case Err(_, _) => Ok(VNone, i)
               case Stop(why) => Stop(why)
  {
    var r := Run(h, p, s, i);
    var rep := Rep(p, 0, Some(1));
    assert Run(h, rep, s, i) == RunRep(h, p, 0, Some(1), s, i, []);
    if r.Ok? {
      assert [] + [r.value] == [r.value];
      assert RunRep(h, p, 0, Some(1), s, r.next, [r.value]) == Ok(VList([r.value]), r.next);
      assert RunRep(h, p, 0, Some(1), s, i, []) == Ok(VList([r.value]), r.next);
    } else if r.Err? {
      assert RunRep(h, p, 0, Some(1), s, i, []) == Ok(VList([]), i);
    }
  }

  /** `many` reads exactly a maximal chain: it stops at the first failure of
      `p`, and it loops forever if `p` succeeds without consuming. */
  lemma {:induction false} ManyChain(h: Host, p: Term, s: string, i: nat, acc: seq<Value>)
    requires i <= |s|
    ensures var r := RunRep(h, p, 0, None, s, i, acc);
            r.Ok? ==> r.value.VList? && |r.value.items| >= |acc| && r.value.items[..|acc|] == acc
                      && Chain(h, p, s, i, r.value.items[|acc|..], r.next)
                      && Run(h, p, s, r.next).Err?
    ensures !RunRep(h, p, 0, None, s, i, acc).Err?
    decreases |s| - i
  {
    var r := Run(h, p, s, i);
    if r.Ok? && r.next > i {
      ManyChain(h, p, s, r.next, acc + [r.value]);
      var rr := RunRep(h, p, 0, None, s, r.next, acc + [r.value]);
      if rr.Ok? {
        var items := rr.value.items;
        assert items[..|acc| + 1] == acc + [r.value];
        assert items[..|acc|] == acc by {
          assert items[..|acc|] == items[..|acc| + 1][..|acc|];
        }
        assert items[|acc|..][1..] == items[|acc| + 1..];
        assert items[|acc|..][0] == r.value by {
          assert items[|acc|] == items[..|acc| + 1][|acc|];
        }
      }
    }
  }

  /** Conversely, a maximal chain is what `many` reads. */
  lemma {:induction false} ChainMany(h: Host, p: Term, s: string, i: nat, vs: seq<Value>, j: nat, acc: seq<Value>)
    requires i <= |s| && j <= |s|
    requires Chain(h, p, s, i, vs, j)
    requires Run(h, p, s, j).Err?
    ensures RunRep(h, p, 0, None, s, i, acc) == Ok(VList(acc + vs), j)
    decreases |vs|
  {
    if |vs| == 0 {
      assert acc + vs == acc;
    } else {
      var r := Run(h, p, s, i);
      ChainMany(h, p, s, r.next, vs[1..], j, acc + [vs[0]]);
      assert acc + [vs[0]] + vs[1..] == acc + vs;
    }
  }

  /** `many` succeeds with `vs` ending at `j` exactly when `p` reads the chain
      `vs` from `i` to `j` and then fails. */
  lemma ManySpec(h: Host, p: Term, s: string, i: nat, vs: seq<Value>, j: nat)
    requires i <= |s| && j <= |s|
    ensures Run(h, Many(p), s, i) == Ok(VList(vs), j)
            <==> Chain(h, p, s, i, vs, j) && Run(h, p, s, j).Err?
  {
    if Run(h, Many(p), s, i) == Ok(VList(vs), j) {
      ManyReadsChain(h, p, s, i, vs, j);
    }
    if Chain(h, p, s, i, vs, j) && Run(h, p, s, j).Err? {
      ChainReadByMany(h, p, s, i, vs, j);
    }
  }

  lemma ManyReadsChain(h: Host, p: Term, s: string, i: nat, vs: seq<Value>, j: nat)
    requires i <= |s| && j <= |s|
    requires Run(h, Many(p), s, i) == Ok(VList(vs), j)
    ensures Chain(h, p, s, i, vs, j) && Run(h, p, s, j).Err?
  {
    ManyChain(h, p, s, i, []);
    assert Run(h, Many(p), s, i) == RunRep(h, p, 0, None, s, i, []);
    assert vs[0..] == vs;
  }

  lemma ChainReadByMany(h: Host, p: Term, s: string, i: nat, vs: seq<Value>, j: nat)
    requires i <= |s| && j <= |s|
    requires Chain(h, p, s, i, vs, j) && Run(h, p, s, j).Err?
    ensures Run(h, Many(p), s, i) == Ok(VList(vs), j)
  {
    assert Run(h, Many(p), s, i) == RunRep(h, p, 0, None, s, i, []);
    ChainMany(h, p, s, i, vs, j, []);
    assert [] + vs == vs;
  }

  /** `sep_by` with no bounds: the empty list without consuming when the
      first element fails; otherwise the first element followed by the values
      of `(sep >> p).many()`. */
  lemma SepBySpec(h: Host, p: Term, sep: Term, s: string, i: nat)
    requires i <= |s|
    ensures var r0 := Run(h, p, s, i);
            r0.Err? ==> Run(h, SepBy(p, sep, 0, None), s, i) == Ok(VList([]), i)
    ensures var r0 := Run(h, p, s, i);
            r0.Ok? ==>
              var rest := Run(h, Many(Then(sep, p)), s, r0.next);
              && !rest.Err?
              && (rest.Ok? ==> rest.value.VList?)
              && Run(h, SepBy(p, sep, 0, None), s, i)
                 == (if rest.Ok? then Ok(VList([r0.value] + rest.value.items), rest.next) else rest)
  {
    var r0 := Run(h, p, s, i);
    var res := Plus(Times(p, 1), Many(Then(sep, p)));
    assert SepBy(p, sep, 0, None) == Alt(res, Succeed(VList([])));
    assert Run(h, SepBy(p, sep, 0, None), s, i) == RunAlt(h, res, Succeed(VList([])), s, i);
    if r0.Ok? {
      FirstThenMany(h, p, sep, s, i);
    } else if r0.Err? {
      FirstFails(h, p, sep, s, i);
      assert Run(h, Succeed(VList([])), s, i) == Ok(VList([]), i);
    }
  }

  /** The first element of `sep_by` fails: so does the non-empty branch. */
  lemma FirstFails(h: Host, p: Term, sep: Term, s: string, i: nat)
    requires i <= |s| && Run(h, p, s, i).Err?
    ensures Run(h, Plus(Times(p, 1), Many(Then(sep, p))), s, i) == Run(h, p, s, i)
  {
    var one := Times(p, 1);
    var many := Many(Then(sep, p));
    OnceFails(h, p, s, i);
    PairReads(h, one, many, s, i);
    MapRun(h, Seq([one, many]), ListAdd, s, i);
  }

  /** `p.times(1)` fails where `p` fails. */
  lemma OnceFails(h: Host, p: Term, s: string, i: nat)
    requires i <= |s| && Run(h, p, s, i).Err?
    ensures Run(h, Times(p, 1), s, i) == Run(h, p, s, i)
  {
    assert Run(h, Times(p, 1), s, i) == RunRep(h, p, 1, Some(1), s, i, []);
  }

  /** `p.times(1)` reads a one-element list when `p` reads. */
  lemma OnceReads(h: Host, p: Term, s: string, i: nat)
    requires i <= |s| && Run(h, p, s, i).Ok?
    ensures Run(h, Times(p, 1), s, i) == Ok(VList([Run(h, p, s, i).value]), Run(h, p, s, i).next)
  {
    var r0 := Run(h, p, s, i);
    assert Run(h, Times(p, 1), s, i) == RunRep(h, p, 1, Some(1), s, i, []);
    assert [] + [r0.value] == [r0.value];
    assert RunRep(h, p, 1, Some(1), s, r0.next, [r0.value]) == Ok(VList([r0.value]), r0.next);
  }

  /** The first element of `sep_by` is read: the non-empty branch goes on
      with `(sep >> p).many()` and puts the first value in front of its. */
  lemma FirstThenMany(h: Host, p: Term, sep: Term, s: string, i: nat)
    requires i <= |s| && Run(h, p, s, i).Ok?
    ensures var r0 := Run(h, p, s, i);
            var rest := Run(h, Many(Then(sep, p)), s, r0.next);
            && !rest.Err?
            && (rest.Ok? ==> rest.value.VList?)
            && Run(h, Plus(Times(p, 1), Many(Then(sep, p))), s, i)
               == (if rest.Ok? then Ok(VList([r0.value] + rest.value.items), rest.next) else rest)
  {
    var r0 := Run(h, p, s, i);
    var one := Times(p, 1);
    var many := Many(Then(sep, p));
    OnceReads(h, p, s, i);
    ManyChain(h, Then(sep, p), s, r0.next, []);
    assert Run(h, many, s, r0.next) == RunRep(h, Then(sep, p), 0, None, s, r0.next, []);
    PlusOfLists(h, one, many, s, i);
  }

  /** `a + b` of two list readers: the lists concatenated, or where `b` stops. */
  lemma PlusOfLists(h: Host, a: Term, b: Term, s: string, i: nat)
    requires i <= |s| && Run(h, a, s, i).Ok? && Run(h, a, s, i).value.VList?
    requires var rb := Run(h, b, s, Run(h, a, s, i).next); rb.Ok? ==> rb.value.VList?
    ensures var ra := Run(h, a, s, i);
            var rb := Run(h, b, s, ra.next);
            Run(h, Plus(a, b), s, i)
            == if rb.Ok? then Ok(VList(ra.value.items + rb.value.items), rb.next) else rb
  {
    var ra := Run(h, a, s, i);
    var rb := Run(h, b, s, ra.next);
    PairReads(h, a, b, s, i);
    MapRun(h, Seq([a, b]), ListAdd, s, i);
  }

  /** `Seq([a, b])` reads the pair of values, or stops where either does. */
  lemma PairReads(h: Host, a: Term, b: Term, s: string, i: nat)
    requires i <= |s|
    ensures var ra := Run(h, a, s, i);
            Run(h, Seq([a, b]), s, i)
            == if !ra.Ok? then ra
               else var rb := Run(h, b, s, ra.next);
                    if rb.Ok? then Ok(VList([ra.value, rb.value]), rb.next) else rb
  {
    var ra := Run(h, a, s, i);
    assert Run(h, Seq([a, b]), s, i) == RunSeq(h, [a, b], s, i, []);
    if ra.Ok? {
      var rb := Run(h, b, s, ra.next);
      assert [a, b][1..] == [b];
      assert [] + [ra.value] == [ra.value];
      assert RunSeq(h, [a, b], s, i, []) == RunSeq(h, [b], s, ra.next, [ra.value]);
      if rb.Ok? {
        assert [b][1..] == [];
        assert [ra.value] + [rb.value] == [ra.value, rb.value];
        assert RunSeq(h, [b], s, ra.next, [ra.value]) == RunSeq(h, [], s, rb.next, [ra.value, rb.value]);
      }
    }
  }

  /** `a >> b`: `b` runs where `a` stopped, and gives the value. */
  lemma ThenSpec(h: Host, a: Term, b: Term, s: string, i: nat)
    requires i <= |s|
    ensures var ra := Run(h, a, s, i);
            Run(h, Then(a, b), s, i) == if ra.Ok? then Run(h, b, s, ra.next) else ra
  {
  }

  /** `p` reads `vs[k]` from position `ps[k]` to `ps[k + 1]`, consuming
      input each time. */
  predicate ReadsAt(h: Host, p: Term, s: string, ps: seq<nat>, vs: seq<Value>)
    requires |ps| == |vs| + 1 && forall k :: 0 <= k < |ps| ==> ps[k] <= |s|
  {
    forall k :: 0 <= k < |vs| ==> ps[k] < ps[k + 1] && Run(h, p, s, ps[k]) == Ok(vs[k], ps[k + 1])
  }

  /** Reads at successive positions form a chain. */
  lemma {:induction false} ChainAt(h: Host, p: Term, s: string, ps: seq<nat>, vs: seq<Value>)
    requires |ps| == |vs| + 1 && forall k :: 0 <= k < |ps| ==> ps[k] <= |s|
    requires ReadsAt(h, p, s, ps, vs)
    ensures Chain(h, p, s, ps[0], vs, ps[|vs|])
    decreases |vs|
  {
    if |vs| > 0 {
      assert ReadsAt(h, p, s, ps[1..], vs[1..]) by {
        forall k | 0 <= k < |vs| - 1
          ensures ps[1..][k] < ps[1..][k + 1] && Run(h, p, s, ps[1..][k]) == Ok(vs[1..][k], ps[1..][k + 1])
        {
          assert ps[1..][k] == ps[k + 1] && ps[1..][k + 1] == ps[k + 2] && vs[1..][k] == vs[k + 1];
        }
      }
      ChainAt(h, p, s, ps[1..], vs[1..]);
      assert ps[1..][|vs| - 1] == ps[|vs|];
    }
  }

  /** `many` reads the values read at successive positions, up to the
      first position where `p` fails. */
  lemma ManyAt(h: Host, p: Term, s: string, ps: seq<nat>, vs: seq<Value>)
    requires |ps| == |vs| + 1 && forall k :: 0 <= k < |ps| ==> ps[k] <= |s|
    requires ReadsAt(h, p, s, ps, vs)
    requires Run(h, p, s, ps[|vs|]).Err?
    ensures Run(h, Many(p), s, ps[0]) == Ok(VList(vs), ps[|vs|])
  {
    ChainAt(h, p, s, ps, vs);
    ManySpec(h, p, s, ps[0], vs, ps[|vs|]);
  }

  /** `p.result(v)` reads what `p` reads and yields `v`. */
  lemma ResultSpec(h: Host, p: Term, v: Value, s: string, i: nat)
    requires i <= |s|
    ensures var r := Run(h, p, s, i);
            Run(h, ResultOf(p, v), s, i) == (if r.Ok? then Ok(v, r.next) else r)
  {
  }

  /** `peek` succeeds with `p`'s value and leaves the cursor where it was. */
  lemma PeekSpec(h: Host, p: Term, s: string, i: nat)
    requires i <= |s|
    ensures var r := Run(h, p, s, i);
            Run(h, Peek(p), s, i) == (if r.Ok? then Ok(r.value, i) else r)
  {
  }

  /** An empty remainder from `parse_partial` is exactly a successful `parse`. */
  lemma PartialWhole(h: Host, t: Term, text: string, v: Value)
    ensures ParsePartial(h, t, text) == Success(Partial(v, "")) <==> Parse(h, t, text) == Ok(v, |text|)
  {
    var r := Run(h, t, text, 0);
    if r.Ok? {
      assert |text[r.next..]| == |text| - r.next;
    }
  }
}

=== FILE: config.dfy ===
/** Model-level parsing configuration: the `ParseConfig` classes of
    `config.py` and `models.py`, and the two ways the library finds the one
    that applies to a model class. */
module Config {
  import opened Wrappers
  import Terms
  import Pr = Primitives

  /** The three settings of a `ParseConfig` class. A setting the class does
      not define reads as `None`. */
  datatype ParseConfig = ParseConfig(fieldSeparator: Option<Terms.Term>, strictOptional: bool, whitespace: Option<Terms.Term>)

  /** The defaults of `config.ParseConfig`, which `ParsableModel.ParseConfig`
      repeats. */
  const Defaults := ParseConfig(None, true, None)

  /** A model class: its base class, and the `ParseConfig` its own body
      declares, if any. */
  datatype ModelClass = ModelClass(parent: Option<nat>, ownConfig: Option<ParseConfig>)

  /** Classes are listed base first: every base class comes before the
      classes derived from it. */
  predicate BasesFirst(cs: seq<ModelClass>) {
    forall k :: 0 <= k < |cs| && cs[k].parent.Some? ==> cs[k].parent.value < k
  }

  /** A class table whose root, index 0, is `ParsableModel`, which declares
      the default `ParseConfig`; every other class derives from it. */
  predicate WellFormed(cs: seq<ModelClass>) {
    && |cs| > 0
    && cs[0] == ModelClass(None, Some(Defaults))
    && BasesFirst(cs)
    && forall k :: 0 < k < |cs| ==> cs[k].parent.Some?
  }

  /** `get_parse_config`: the `ParseConfig` in the class's own namespace,
      else the module default; base classes are never consulted. */
  function GetParseConfig(cs: seq<ModelClass>, c: nat): (r: ParseConfig)
    requires c < |cs|
    ensures cs[c].ownConfig.Some? ==> r == cs[c].ownConfig.value
    ensures cs[c].ownConfig.None? ==> r == Defaults
  {
    if cs[c].ownConfig.Some? then cs[c].ownConfig.value else Defaults
  }

  /** `getattr(model_class, "ParseConfig", None)`: the nearest declaration
      along the chain of base classes. */
  function InheritedConfig(cs: seq<ModelClass>, c: nat): (r: Option<ParseConfig>)
    requires c < |cs| && BasesFirst(cs)
    decreases c
  {
    if cs[c].ownConfig.Some? then cs[c].ownConfig
    else if cs[c].parent.None? then None
    else InheritedConfig(cs, cs[c].parent.value)
  }

  /** `c` derives from `a` (or is `a`). */
  predicate Inherits(cs: seq<ModelClass>, c: nat, a: nat)
    requires c < |cs| && BasesFirst(cs)
    decreases c
  {
    c == a || (cs[c].parent.Some? && Inherits(cs, cs[c].parent.value, a))
  }

  /** The inherited lookup finds the declaration of an ancestor, and no
      class between `c` and that ancestor declares one. */
  lemma {:induction false} InheritedFromAncestor(cs: seq<ModelClass>, c: nat)
    requires c < |cs| && BasesFirst(cs)
    ensures InheritedConfig(cs, c).Some? ==>
              exists a :: 0 <= a <= c && Inherits(cs, c, a) && cs[a].ownConfig == InheritedConfig(cs, c)
    ensures InheritedConfig(cs, c).None? ==>
              forall a :: 0 <= a <= c && Inherits(cs, c, a) ==> cs[a].ownConfig.None?
    decreases c
  {
    if cs[c].ownConfig.None? && cs[c].parent.Some? {
      var p := cs[c].parent.value;
      InheritedFromAncestor(cs, p);
      if InheritedConfig(cs, c).Some? {
        var a :| 0 <= a <= p && Inherits(cs, p, a) && cs[a].ownConfig == InheritedConfig(cs, p);
        assert Inherits(cs, c, a);
      } else {
        forall a | 0 <= a <= c && Inherits(cs, c, a)
          ensures cs[a].ownConfig.None?
        {
          if a != c {
            assert Inherits(cs, p, a);
            AncestorsBefore(cs, p, a);
          }
        }
      }
    }
  }

  /** An ancestor comes no later than its descendant in the table. */
  lemma {:induction false} AncestorsBefore(cs: seq<ModelClass>, c: nat, a: nat)
    requires c < |cs| && BasesFirst(cs)
    requires Inherits(cs, c, a)
    ensures a <= c
    decreases c
  {
    if c != a {
      AncestorsBefore(cs, cs[c].parent.value, a);
    }
  }

  /** Every class of a well-formed table inherits some `ParseConfig`: at
      worst the one `ParsableModel` declares. */
  lemma {:induction false} InheritedAlwaysFound(cs: seq<ModelClass>, c: nat)
    requires WellFormed(cs) && c < |cs|
    ensures InheritedConfig(cs, c).Some?
    decreases c
  {
    if c > 0 && cs[c].ownConfig.None? {
      InheritedAlwaysFound(cs, cs[c].parent.value);
    }
  }

  /** `_get_field_separator` of `generator.py`: the inherited
      `field_separator` when it is set, else one-or-more whitespace. */
  function GeneratorSeparator(cs: seq<ModelClass>, c: nat): (r: Terms.Term)
    requires c < |cs| && BasesFirst(cs)
    ensures InheritedConfig(cs, c).Some? && InheritedConfig(cs, c).value.fieldSeparator.Some?
            ==> r == InheritedConfig(cs, c).value.fieldSeparator.value
    ensures (InheritedConfig(cs, c).None? || InheritedConfig(cs, c).value.fieldSeparator.None?)
            ==> r == Pr.Whitespace().term
  {
    var config := InheritedConfig(cs, c);
    if config.Some? && config.value.fieldSeparator.Some? then config.value.fieldSeparator.value
    else Pr.Whitespace().term
  }

  /** The two lookups disagree on a subclass that declares nothing under a
      base that configures a separator: `get_parse_config` gives the
      defaults, the generator uses the base's separator. */
  lemma ExactAndInheritedDiffer(sep: Terms.Term)
    ensures var cfg := ParseConfig(Some(sep), true, None);
            var cs := [ModelClass(None, Some(Defaults)), ModelClass(Some(0), Some(cfg)), ModelClass(Some(1), None)];
            && WellFormed(cs)
            && GetParseConfig(cs, 2) == Defaults
            && GetParseConfig(cs, 1) == cfg
            && GeneratorSeparator(cs, 2) == sep
  {
    var cfg := ParseConfig(Some(sep), true, None);
    var cs := [ModelClass(None, Some(Defaults)), ModelClass(Some(0), Some(cfg)), ModelClass(Some(1), None)];
    assert InheritedConfig(cs, 2) == InheritedConfig(cs, 1) == Some(cfg);
  }

  /** The exact lookup depends only on the class's own namespace: two
      classes declaring the same thing get the same configuration, whatever
      their bases. */
  lemma ExactLookupIsLocal(cs: seq<ModelClass>, c: nat, ds: seq<ModelClass>, d: nat)
    requires c < |cs| && d < |ds|
    requires cs[c].ownConfig == ds[d].ownConfig
    ensures GetParseConfig(cs, c) == GetParseConfig(ds, d)
  {
  }

  /** Without any configuration in the chain of bases the generator reads
      fields separated by whitespace. */
  lemma DefaultGeneratorSeparator(cs: seq<ModelClass>, c: nat)
    requires WellFormed(cs) && c < |cs|
    requires forall a :: 0 <= a <= c && Inherits(cs, c, a) ==> cs[a].ownConfig.None? || cs[a].ownConfig == Some(Defaults)
    ensures GeneratorSeparator(cs, c) == Pr.Whitespace().term
  {
    InheritedFromAncestor(cs, c);
    InheritedAlwaysFound(cs, c);
    var a :| 0 <= a <= c && Inherits(cs, c, a) && cs[a].ownConfig == InheritedConfig(cs, c);
  }
}

=== FILE: container.dfy ===
/** The chained classifier the `inference` package exports:
    `basic.get_parser_for_field` takes an explicit `Parsed` parser, else
    `container.infer_parser`, which handles the containers (`Optional`,
    `Union`, `list`) and ends in `basic.infer_parser` for the scalar types.
    Nothing on that chain knows `Literal` or nested models. The
    `inference/advanced.py` layer, which adds them at the top level, is
    modelled too, though no caller of the package reaches it. */
module Container {
  import opened Wrappers
  import P = ParserV1
  import Pr = Primitives
  import opened Annotations
  import I = Inference

  /** `is_optional`: the inner annotation is the sole non-`None` arm, or the
      union of the non-`None` arms. */
  function IsOptional(a: Ann): (r: (bool, Option<Ann>))
    ensures r.0 <==> I.IsOptional(a)
    ensures r.0 ==> r.1.Some?
  {
    if !a.UnionT? then (false, None)
    else
      var nn := NonNone(a.args);
      if |a.args| - |nn| >= 1 && |nn| > 0 then
        (if |nn| == 1 then (true, Some(nn[0])) else (true, Some(UnionT(nn))))
      else (false, None)
  }

  /** `is_union`: the non-`None` members, when there are at least two. */
  function IsUnion(a: Ann): (r: (bool, seq<Ann>))
    ensures r.0 <==> I.IsUnion(a)
    ensures r.0 ==> r.1 == NonNone(a.args)
  {
    if a.UnionT? && |NonNone(a.args)| > 1 then (true, NonNone(a.args)) else (false, [])
  }

  /** `is_list`: the element annotation; `None` for a bare list and for `list[None]`. */
  function IsList(a: Ann): (r: (bool, Option<Ann>))
    ensures r.0 <==> a.ListT?
    ensures r.1.Some? ==> a.ListT? && a.arg == r.1 && r.1.value != NoneT
  {
    if !a.ListT? then (false, None)
    else if a.arg.None? || a.arg.value == NoneT then (true, None)
    else (true, a.arg)
  }

  /** `basic.infer_parser`. */
  function InferBasic(a: Ann): (r: Option<P.Parser>)
    ensures r.Some? <==> a in {IntT, FloatT, StrT}
    ensures I.Scalar(a) == Success(r)
  {
    if a == IntT then Some(Pr.Integer())
    else if a == FloatT then Some(Pr.FloatNum())
    else if a == StrT then Some(Pr.Token())
    else None
  }

  /** `container.infer_parser`. The one exception it raises of its own is the
      one for a bare `list`; an element without a parser leaves the list
      without one. */
  function Infer(a: Ann): (r: I.Outcome)
    ensures r.Failure? ==> r.error == I.ListWithoutElement
    decreases AnnSize(a), 1
  {
    var (isOpt, inner) := IsOptional(a);
    if isOpt then
      var nn := NonNone(a.args);
      (match (if |nn| == 1 then Infer(nn[0]) else Infer(UnionT(nn)))
       case Failure(e) => Failure(e)
       case Success(None) => Success(None)
       case Success(Some(p)) => Success(Some(P.Optional(p))))
    else
      var (isUn, members) := IsUnion(a);
      if isUn then UnionOf(members)
      else
        var (isLst, elem) := IsList(a);
        if isLst then
          if elem.None? then Failure(I.ListWithoutElement)
          else
            (match Infer(elem.value)
             case Failure(e) => Failure(e)
             case Success(None) => Success(None)
             case Success(Some(p)) => Success(Some(P.SepBy(p, Pr.Whitespace(), 0, None))))
        else Success(InferBasic(a))
  }

  function InferEach(ms: seq<Ann>): (r: Result<seq<Option<P.Parser>>, string>)
    ensures r.Success? ==> |r.value| == |ms|
    ensures r.Failure? ==> r.error == I.ListWithoutElement
    decreases ArmsSize(ms), 2
  {
    if |ms| == 0 then Success([])
    else
      match Infer(ms[0])
      case Failure(e) => Failure(e)
      case Success(o) =>
        (match InferEach(ms[1..])
         case Failure(e) => Failure(e)
         case Success(os) => Success([o] + os))
  }

  function UnionOf(ms: seq<Ann>): (r: I.Outcome)
    requires |ms| > 0
    ensures r.Failure? ==> r.error == I.ListWithoutElement
    decreases ArmsSize(ms), 3
  {
    match InferEach(ms)
    case Failure(e) => Failure(e)
    case Success(os) =>
      (match I.AllFound(os)
       case None => Success(None)
       case Some(ps) => Success(Some(P.OrAll(ps))))
  }

  /** `basic.get_parser_for_field`: the classifier the package exports. */
  function GetParserForField(a: Ann): (r: I.Outcome)
    ensures ExtractParser(a).Some? ==> r == Success(ExtractParser(a))
    ensures !a.AnnotatedT? ==> r == Infer(a)
  {
    var explicit := ExtractParser(a);
    if explicit.Some? then Success(explicit) else Infer(a)
  }

  /** `advanced.infer_parser`: `Literal` and nested models at the top level
      only, then the container classifier. */
  function InferAdvanced(env: I.Env, a: Ann): (r: I.Outcome)
    ensures !a.Lit? && !a.ModelRef? ==> r == Infer(a)
  {
    if a.Lit? then I.LiteralChoice(a.values, I.TypeError("Literal types currently supported only for string values"))
    else if a.ModelRef? then I.ModelParser(env, a.id)
    else Infer(a)
  }

  // ---------------------------------------------------------------------------
  // Agreement with the unified classifier

  /** Annotations built only from what both classifiers understand. */
  predicate Plain(a: Ann)
    decreases a
  {
    match a
    case Lit(_) => false
    case ModelRef(_) => false
    case UnionT(args) => forall k :: 0 <= k < |args| ==> Plain(args[k])
    case ListT(arg) => arg.None? || Plain(arg.value)
    case _ => true
  }

  lemma {:induction false} NonNonePlain(xs: seq<Ann>)
    requires forall k :: 0 <= k < |xs| ==> Plain(xs[k])
    ensures forall k :: 0 <= k < |NonNone(xs)| ==> Plain(NonNone(xs)[k])
    decreases |xs|
  {
    if |xs| > 0 {
      NonNonePlain(xs[1..]);
      assert forall k :: 1 <= k < |xs| ==> xs[k] == xs[1..][k - 1];
      var r := NonNone(xs);
      if xs[0] != NoneT {
        assert forall k :: 1 <= k < |r| ==> r[k] == NonNone(xs[1..])[k - 1];
      }
    }
  }

  /** Where either classifier finds a parser for a plain annotation, the
      other finds the same parser. They differ only in what they do when a
      list element has no parser: the unified one raises `TypeError`, this
      one answers `None`. */
  lemma {:induction false} AgreesWithUnified(env: I.Env, a: Ann)
    requires Plain(a)
    ensures (I.Infer(env, a).Success? && I.Infer(env, a).value.Some?) ==> Infer(a) == I.Infer(env, a)
    ensures (Infer(a).Success? && Infer(a).value.Some?) ==> I.Infer(env, a) == Infer(a)
    decreases AnnSize(a), 1
  {
    if I.IsOptional(a) {
      OptionalAgrees(env, a);
    } else if I.IsUnion(a) {
      NonNonePlain(a.args);
      EachAgrees(env, NonNone(a.args));
    } else if a.ListT? {
      ListAgrees(env, a);
    }
  }

  lemma {:induction false} OptionalAgrees(env: I.Env, a: Ann)
    requires Plain(a) && I.IsOptional(a)
    ensures (I.Infer(env, a).Success? && I.Infer(env, a).value.Some?) ==> Infer(a) == I.Infer(env, a)
    ensures (Infer(a).Success? && Infer(a).value.Some?) ==> I.Infer(env, a) == Infer(a)
    decreases AnnSize(a), 0
  {
    var nn := NonNone(a.args);
    NonNonePlain(a.args);
    if |nn| == 1 {
      AgreesWithUnified(env, nn[0]);
    } else {
      assert Plain(UnionT(nn));
      AgreesWithUnified(env, UnionT(nn));
    }
  }

  lemma {:induction false} ListAgrees(env: I.Env, a: Ann)
    requires Plain(a) && a.ListT?
    ensures (I.Infer(env, a).Success? && I.Infer(env, a).value.Some?) ==> Infer(a) == I.Infer(env, a)
    ensures (Infer(a).Success? && Infer(a).value.Some?) ==> I.Infer(env, a) == Infer(a)
    decreases AnnSize(a), 0
  {
    if a.arg.Some? && a.arg.value != NoneT {
      AgreesWithUnified(env, a.arg.value);
    }
  }

  lemma {:induction false} EachAgrees(env: I.Env, ms: seq<Ann>)
    requires forall k :: 0 <= k < |ms| ==> Plain(ms[k])
    ensures (I.InferEach(env, ms).Success? && I.AllFound(I.InferEach(env, ms).value).Some?)
            ==> InferEach(ms) == I.InferEach(env, ms)
    ensures (InferEach(ms).Success? && I.AllFound(InferEach(ms).value).Some?)
            ==> I.InferEach(env, ms) == InferEach(ms)
    decreases ArmsSize(ms), 2
  {
    if |ms| > 0 {
      AgreesWithUnified(env, ms[0]);
      assert forall k :: 1 <= k < |ms| ==> ms[k] == ms[1..][k - 1];
      EachAgrees(env, ms[1..]);
      var u := I.InferEach(env, ms);
      var c := InferEach(ms);
      if u.Success? && I.AllFound(u.value).Some? {
        assert u.value[0] == I.Infer(env, ms[0]).value;
        assert u.value[1..] == I.InferEach(env, ms[1..]).value;
      }
      if c.Success? && I.AllFound(c.value).Some? {
        assert c.value[0] == Infer(ms[0]).value;
        assert c.value[1..] == InferEach(ms[1..]).value;
      }
    }
  }

  /** `list[dict]`: the unified classifier raises, this one has no parser. */
  lemma ListOfUnknownDiffers(env: I.Env)
    ensures I.Infer(env, ListT(Some(Other("dict")))).Failure?
    ensures Infer(ListT(Some(Other("dict")))) == Success(None)
  {
    assert I.Infer(env, Other("dict")) == Success(None);
    assert Infer(Other("dict")) == Success(None);
  }

  /** `Literal["a"]` reads `"a"` in the unified and advanced classifiers, and
      has no parser in the container classifier; inside `Optional` only the
      unified classifier still finds it. */
  lemma LiteralSupportDiffers(env: I.Env)
    ensures I.Infer(env, Lit([LStr("a")])) == Success(Some(Pr.Literal("a")))
    ensures InferAdvanced(env, Lit([LStr("a")])) == Success(Some(Pr.Literal("a")))
    ensures Infer(Lit([LStr("a")])) == Success(None)
    ensures InferAdvanced(env, UnionT([Lit([LStr("a")]), NoneT])) == Success(None)
    ensures I.Infer(env, UnionT([Lit([LStr("a")]), NoneT])) == Success(Some(P.Optional(Pr.Literal("a"))))
  {
    var l := Lit([LStr("a")]);
    var ss := I.LitStrings([LStr("a")]);
    assert ss.Some? && |ss.value| == 1 && ss.value[0] == "a";
    assert ss.value == ["a"];
    var ls := I.Literals(["a"]);
    assert |ls| == 1 && ls[0] == Pr.Literal("a");
    assert ls == [Pr.Literal("a")];
    assert I.Infer(env, l) == Success(Some(Pr.Literal("a")));
    assert NonNone([NoneT]) == [];
    assert NonNone([l, NoneT]) == [l];
  }
}

=== FILE: decimal.dfy ===
/** Decimal text of integers: Python's `str(n)` for an `int` and `int(lexeme)`
    for a lexeme of the form `-?\d+`. */
module Decimal {
  import opened Chars

  function DigitValue(c: char): (d: nat)
    requires IsDigit(c)
    ensures d < 10
  {
    (c as int - '0' as int) as nat
  }

  function DigitChar(d: nat): (c: char)
    requires d < 10
    ensures IsDigit(c) && DigitValue(c) == d
  {
    ('0' as int + d) as char
  }

  /** Value of a run of decimal digits (leading zeros allowed, as `int` allows). */
  function DigitsValue(ds: string): nat
    requires AllDigits(ds)
    decreases |ds|
  {
    if |ds| == 0 then 0
    else DigitsValue(ds[..|ds| - 1]) * 10 + DigitValue(ds[|ds| - 1])
  }

  /** Canonical decimal digits of a natural number (no leading zero except "0"). */
  function NatDigits(n: nat): (r: string)
    ensures |r| > 0 && AllDigits(r)
    ensures |r| > 1 ==> r[0] != '0'
  {
    if n < 10 then [DigitChar(n)] else NatDigits(n / 10) + [DigitChar(n % 10)]
  }

  /** Python's `str(n)` for an integer. */
  function IntToStr(n: int): string {
    if n < 0 then "-" + NatDigits(-n) else NatDigits(n)
  }

  /** Shape accepted by the integer lexer before its lookahead: `-?\d+`. */
  predicate IsIntLexeme(lex: string) {
    if |lex| > 0 && lex[0] == '-' then |lex| > 1 && AllDigits(lex[1..])
    else |lex| > 0 && AllDigits(lex)
  }

  /** Python's `int(lex)` on an integer lexeme. */
  function LexemeValue(lex: string): int
    requires IsIntLexeme(lex)
  {
    if lex[0] == '-' then -(DigitsValue(lex[1..]) as int) else DigitsValue(lex)
  }

  lemma {:induction false} NatDigitsRoundTrip(n: nat)
    ensures DigitsValue(NatDigits(n)) == n
    decreases n
  {
    if n >= 10 {
      var a := NatDigits(n / 10);
      var r := a + [DigitChar(n % 10)];
      assert r[..|r| - 1] == a;
      NatDigitsRoundTrip(n / 10);
    }
  }

  /** `str(n)` is a lexeme of the integer lexer and `int(str(n)) == n`. */
  lemma IntToStrRoundTrip(n: int)
    ensures IsIntLexeme(IntToStr(n))
    ensures LexemeValue(IntToStr(n)) == n
  {
    if n < 0 {
      var t := IntToStr(n);
      assert t[1..] == NatDigits(-n);
      NatDigitsRoundTrip(-n);
    } else {
      NatDigitsRoundTrip(n);
    }
  }

  /** `str(n)` never contains whitespace and its first character is `-` or a digit. */
  lemma IntToStrShape(n: int)
    ensures |IntToStr(n)| > 0 && NoSpace(IntToStr(n))
    ensures IntToStr(n)[0] == '-' || IsDigit(IntToStr(n)[0])
    ensures forall k :: 0 < k < |IntToStr(n)| ==> IsDigit(IntToStr(n)[k])
  {
    var t := IntToStr(n);
    if n < 0 {
      assert t == "-" + NatDigits(-n);
      assert forall k :: 0 < k < |t| ==> t[k] == NatDigits(-n)[k - 1];
    }
  }
}

=== FILE: errors.dfy ===
/** The position-aware `ParseError` of `errors.py`: an index into the input
    translated to a one-based line and column, the line of input it falls
    on, and a caret under the column. */
module Errors {
  import opened Wrappers
  import opened Values
  import opened Chars
  import Decimal
  import Positions
  import StrOrder

  // ---------------------------------------------------------------------------
  // The exception being translated

  /** The `expected` attribute of a raised exception. */
  datatype Expected =
    /** A set or frozenset of expectations, as parsy raises it. */
    | ExpectedSet(items: set<string>)
    /** Any other value, by its `str`. */
    | ExpectedOther(shown: string)

  /** A raised exception, read by duck typing: the `index` and `expected`
      attributes when it has them, and its `str`. */
  datatype Raised = Raised(index: Option<int>, expected: Option<Expected>, message: string)

  /** `getattr(exc, "index", 0)`. */
  function IndexOf(exc: Raised): int {
    exc.index.GetOr(0)
  }

  /** The expectations as one string: a set sorted and joined with `", "`,
      any other value by `str`, and the exception's own `str` when it has
      no `expected`. */
  function ExpectedString(exc: Raised): (r: string)
    ensures exc.expected.Some? && exc.expected.value.ExpectedSet?
            ==> r == Join(", ", StrOrder.Sorted(exc.expected.value.items))
    ensures exc.expected.Some? && exc.expected.value.ExpectedOther? ==> r == exc.expected.value.shown
    ensures exc.expected.None? ==> r == exc.message
  {
    match exc.expected
    case None => exc.message
    case Some(ExpectedSet(items)) => Join(", ", StrOrder.Sorted(items))
    case Some(ExpectedOther(shown)) => shown
  }

  /** The expectations of a set are listed once each, in increasing order,
      so the text depends only on the set and not on how it was built. */
  lemma ExpectedSetListing(exc: Raised, listing: seq<string>)
    requires exc.expected == Some(ExpectedSet(set x | x in listing))
    requires StrOrder.Increasing(listing)
    ensures ExpectedString(exc) == Join(", ", listing)
  {
    var items := set x | x in listing;
    StrOrder.SortedUnique(items, listing);
  }

  /** A single expectation is written as it is. */
  lemma SingleExpectation(exc: Raised, e: string)
    requires exc.expected == Some(ExpectedSet({e}))
    ensures ExpectedString(exc) == e
  {
    assert (set x | x in [e]) == {e};
    ExpectedSetListing(exc, [e]);
  }

  // ---------------------------------------------------------------------------
  // Position translation

  /** The index clamped into `[0, len(text)]`. */
  function Clamp(text: string, index: int): (c: nat)
    ensures c <= |text|
    ensures 0 <= index <= |text| ==> c == index
    ensures index < 0 ==> c == 0
    ensures index > |text| ==> c == |text|
  {
    if index < 0 then 0 else if index > |text| then |text| else index
  }

  /** `get_line_column`: one-based line and column of the clamped index. */
  function LineColumn(text: string, index: int): (r: (int, int))
    ensures r.0 >= 1 && r.1 >= 1
  {
    var c := Clamp(text, index);
    var line := Positions.NewlinesBefore(text, c) + 1;
    var last := Positions.LastNewline(text, c);
    var column := if last == -1 then c + 1 else c - last;
    (line, if column <= 0 then 1 else column)
  }

  /** `_get_context_line`: the `line`-th line of the text (one-based), or
      the empty string when there is none. */
  function ContextLine(text: string, line: int): (r: string)
    ensures text == "" ==> r == ""
    ensures !(1 <= line <= |Positions.Lines(text)|) ==> r == ""
    ensures '\n' !in r
  {
    if text == "" then ""
    else
      var lines := Positions.Lines(text);
      if 1 <= line <= |lines| then lines[line - 1] else ""
  }

  /** The line is one more than the newlines before the clamped index, and
      the column counts from the start of that line: the context line is
      the text between the newlines around the index, and the caret column
      sits on the character at the index. */
  lemma CaretPointsAtIndex(text: string, index: int)
    requires text != ""
    requires Positions.OnALine(text, Clamp(text, index))
    ensures var c := Clamp(text, index);
            var (line, column) := LineColumn(text, index);
            && line == Positions.NewlinesBefore(text, c) + 1
            && ContextLine(text, line) == text[Positions.LineStartOf(text, c)..Positions.NextNewline(text, c)]
            && column - 1 == c - Positions.LineStartOf(text, c)
            && column - 1 <= |ContextLine(text, line)|
            && (c < Positions.NextNewline(text, c) ==> ContextLine(text, line)[column - 1] == text[c])
  {
    var c := Clamp(text, index);
    Positions.LineOfIndex(text, c);
  }

  /** The translations the examples of the library's documentation give. */
  lemma LineColumnExamples()
    ensures LineColumn("abcdef", 10) == (1, 7)
    ensures LineColumn("", -5) == (1, 1)
    ensures LineColumn("hello world", 6) == (1, 7)
    ensures LineColumn("line1\nline2\nline3", 6) == (2, 1)
  {
    var t := "line1\nline2\nline3";
    assert t[5] == '\n';
    assert Positions.LastNewline(t, 6) == 5;
    assert Positions.NewlinesBefore(t, 5) == 0 by {
      Positions.NewlinesFlat(t, 0, 5);
    }
    var h := "hello world";
    assert Positions.LastNewline(h, 6) == -1;
    assert Positions.NewlinesBefore(h, 6) == 0 by {
      Positions.NewlinesFlat(h, 0, 6);
    }
    var a := "abcdef";
    assert Positions.LastNewline(a, 6) == -1;
    assert Positions.NewlinesBefore(a, 6) == 0 by {
      Positions.NewlinesFlat(a, 0, 6);
    }
  }

  // ---------------------------------------------------------------------------
  // The exception

  datatype ParseError = ParseError(text: string, index: int, expected: string, line: int, column: int)

  /** `ParseError(text, index, expected)`: line and column derived eagerly. */
  function Make(text: string, index: int, expected: string): (e: ParseError)
    ensures e.text == text && e.index == index && e.expected == expected
    ensures (e.line, e.column) == LineColumn(text, index)
  {
    var (line, column) := LineColumn(text, index);
    ParseError(text, index, expected, line, column)
  }

  /** The caret line: `column - 1` spaces and `^`. */
  function Caret(column: int): (r: string)
    ensures |r| >= 1 && r[|r| - 1] == '^'
    ensures forall k :: 0 <= k < |r| - 1 ==> r[k] == ' '
  {
    Repeat(' ', if column >= 1 then column - 1 else 0) + "^"
  }

  /** The first line of `str(error)`: where the error is and the `repr` of
      what was expected. */
  function Header(e: ParseError): (r: string)
    ensures '\n' !in r
  {
    var h := "ParseError at line " + Decimal.IntToStr(e.line) + ", column " + Decimal.IntToStr(e.column)
             + ": expected " + StrRepr(e.expected);
    assert '\n' !in h by {
      Decimal.IntToStrShape(e.line);
      Decimal.IntToStrShape(e.column);
    }
    h
  }

  /** `str(error)`: exactly three lines, whatever the expectation holds:
      the header, the context line, and the caret line. */
  function Message(e: ParseError): (r: string)
    ensures Positions.Lines(r) == [Header(e), ContextLine(e.text, e.line), Caret(e.column)]
  {
    var r := Header(e) + "\n" + (ContextLine(e.text, e.line) + "\n" + Caret(e.column));
    assert Positions.Lines(r) == [Header(e), ContextLine(e.text, e.line), Caret(e.column)] by {
      var rest := ContextLine(e.text, e.line) + "\n" + Caret(e.column);
      Positions.LinesAfterLine(Header(e), rest);
      assert '\n' !in Caret(e.column);
      Positions.LinesAfterLine(ContextLine(e.text, e.line), Caret(e.column));
      Positions.OneLine(Caret(e.column));
    }
    r
  }

  /** The text after the last newline of `s`. */
  function LastLine(s: string): string {
    s[Positions.LastNewline(s, |s|) + 1..]
  }

  /** When `s` ends with a newline and then a piece without newlines, that
      piece is its last line. */
  lemma LastLineAfter(front: string, tail: string)
    requires forall k :: 0 <= k < |tail| ==> tail[k] != '\n'
    ensures LastLine(front + "\n" + tail) == tail
  {
    var s := front + "\n" + tail;
    var p := |front|;
    assert s[p] == '\n';
    assert forall k :: p < k < |s| ==> s[k] == tail[k - p - 1];
    var r := Positions.LastNewline(s, |s|);
    assert r == p;
    assert s[p + 1..] == tail;
  }

  /** Whatever the text and the index, the message's last line is the caret
      under the error column. */
  lemma MessageEndsWithCaret(text: string, index: int, expected: string)
    ensures var e := Make(text, index, expected);
            LastLine(Message(e)) == Repeat(' ', e.column - 1) + "^"
  {
    var e := Make(text, index, expected);
    var front := Header(e) + "\n" + ContextLine(e.text, e.line);
    MessageLines(e);
    CaretOneLine(e.column);
    LastLineAfter(front, Caret(e.column));
  }

  lemma MessageLines(e: ParseError)
    ensures Message(e) == Header(e) + "\n" + ContextLine(e.text, e.line) + "\n" + Caret(e.column)
  {
    Assoc(Header(e) + "\n", ContextLine(e.text, e.line) + "\n", Caret(e.column));
    Assoc(Header(e) + "\n", ContextLine(e.text, e.line), "\n");
  }

  lemma CaretOneLine(column: int)
    ensures forall k :: 0 <= k < |Caret(column)| ==> Caret(column)[k] != '\n'
  {
  }

  /** `ParseError.from_parsy_error`: the exception's index (0 when it has
      none) and its expectations as one string. */
  function FromParsyError(exc: Raised, text: string): (e: ParseError)
    ensures e.text == text
    ensures exc.index.None? ==> e.index == 0
    ensures exc.index.Some? ==> e.index == exc.index.value
    ensures e.expected == ExpectedString(exc)
    ensures (e.line, e.column) == LineColumn(text, e.index)
  {
    Make(text, IndexOf(exc), ExpectedString(exc))
  }
}

=== FILE: fields.dfy ===
/** `ParseField` and `get_parsefield_metadata` of `fields.py`: the parser
    metadata a field carries, how `ParseField` stores it in the field's
    `json_schema_extra` without losing what the caller put there, and the
    order in which the lookup searches a field for it. */
module Fields {
  import opened Wrappers

  /** `ParseFieldMetadata(pattern, parser, sep_by)`; parser objects are
      known by identity. */
  datatype Metadata = Metadata(pattern: Option<string>, parser: Option<nat>, sepBy: Option<nat>)

  /** A value found in a field's metadata or extra data, as the lookup tells
      values apart. */
  datatype Item =
    | MetaItem(m: Metadata)
    /** An iterable that is not a `ParseFieldMetadata`: its items. */
    | Many(items: seq<Item>)
    /** Anything else. */
    | Opaque(name: string)

  /** `json_schema_extra` as given to `ParseField` or held by a field. */
  datatype Extra = NoExtra | DictExtra(d: map<string, Item>) | OtherExtra(v: Item)

  /** The two places a `FieldInfo` keeps the metadata: its `metadata` list
      and its `json_schema_extra`. */
  datatype FieldInfo = FieldInfo(metadata: seq<Item>, extra: Extra)

  /** The first `ParseFieldMetadata` among the items. */
  function FirstMeta(items: seq<Item>): (r: Option<Metadata>)
    ensures r.None? <==> forall k :: 0 <= k < |items| ==> !items[k].MetaItem?
    ensures r.Some? ==> exists k :: 0 <= k < |items| && items[k] == MetaItem(r.value)
                                    && forall i :: 0 <= i < k ==> !items[i].MetaItem?
    decreases |items|
  {
    if |items| == 0 then None
    else if items[0].MetaItem? then Some(items[0].m)
    else
      var r := FirstMeta(items[1..]);
      assert forall k :: 1 <= k < |items| ==> items[k] == items[1..][k - 1];
      if r.Some? then
        var k :| 0 <= k < |items[1..]| && items[1..][k] == MetaItem(r.value)
                 && forall i :: 0 <= i < k ==> !items[1..][i].MetaItem?;
        assert items[k + 1] == MetaItem(r.value);
        r
      else r
  }

  /** What the legacy `metadata` key of the extra dict yields: the value
      itself when it is metadata, else the first metadata it iterates. */
  function UnderMetadataKey(v: Item): Option<Metadata> {
    match v
    case MetaItem(m) => Some(m)
    case Many(items) => FirstMeta(items)
    case Opaque(_) => None
  }

  /** `get_parsefield_metadata`: the `metadata` list first, then the
      extra dict's `"parsedantic"` entry, then its `"metadata"` entry. */
  function Lookup(fi: FieldInfo): (r: Option<Metadata>)
    ensures FirstMeta(fi.metadata).Some? ==> r == FirstMeta(fi.metadata)
    ensures (FirstMeta(fi.metadata).None? && fi.extra.DictExtra? && "parsedantic" in fi.extra.d
             && fi.extra.d["parsedantic"].MetaItem?) ==> r == Some(fi.extra.d["parsedantic"].m)
    ensures r.None? <==>
              && FirstMeta(fi.metadata).None?
              && (fi.extra.DictExtra? ==>
                    && !("parsedantic" in fi.extra.d && fi.extra.d["parsedantic"].MetaItem?)
                    && !("metadata" in fi.extra.d && UnderMetadataKey(fi.extra.d["metadata"]).Some?))
  {
    var fromList := FirstMeta(fi.metadata);
    if fromList.Some? then fromList
    else if !fi.extra.DictExtra? then None
    else
      var d := fi.extra.d;
      if "parsedantic" in d && d["parsedantic"].MetaItem? then Some(d["parsedantic"].m)
      else if "metadata" in d then UnderMetadataKey(d["metadata"])
      else None
  }

  const BothGiven := "ValueError: ParseField cannot specify both 'pattern' and 'parser'"

  /** The extra dict `ParseField` starts from: empty without one, a copy of
      a dict, and anything else kept under `"user_json_schema_extra"`. */
  function StartingExtra(given: Extra): (d: map<string, Item>)
    ensures given.NoExtra? ==> d == map[]
    ensures given.DictExtra? ==> d == given.d
    ensures given.OtherExtra? ==> d == map["user_json_schema_extra" := given.v]
  {
    match given
    case NoExtra => map[]
    case DictExtra(d) => d
    case OtherExtra(v) => map["user_json_schema_extra" := v]
  }

  /** `ParseField(pattern=..., parser=..., sep_by=..., json_schema_extra=...)`:
      a pattern and a parser together are refused; otherwise the field's
      extra dict is the caller's, with the metadata added under
      `"parsedantic"`. */
  function ParseField(pattern: Option<string>, parser: Option<nat>, sepBy: Option<nat>, given: Extra): (r: Result<FieldInfo, string>)
    ensures r.Failure? <==> pattern.Some? && parser.Some?
    ensures r.Failure? ==> r.error == BothGiven
    ensures r.Success? ==> r.value.extra.DictExtra?
    ensures r.Success? ==> var d := r.value.extra.d;
              && "parsedantic" in d && d["parsedantic"] == MetaItem(Metadata(pattern, parser, sepBy))
              && d.Keys == StartingExtra(given).Keys + {"parsedantic"}
              && forall k :: k in StartingExtra(given) && k != "parsedantic" ==> d[k] == StartingExtra(given)[k]
  {
    if pattern.Some? && parser.Some? then Failure(BothGiven)
    else
      var extra := StartingExtra(given)["parsedantic" := MetaItem(Metadata(pattern, parser, sepBy))];
      Success(FieldInfo([], DictExtra(extra)))
  }

  /** The lookup finds what `ParseField` stored, whatever extra data the
      caller passed along. */
  lemma LookupFindsParseField(pattern: Option<string>, parser: Option<nat>, sepBy: Option<nat>, given: Extra)
    requires !(pattern.Some? && parser.Some?)
    ensures Lookup(ParseField(pattern, parser, sepBy, given).value) == Some(Metadata(pattern, parser, sepBy))
  {
  }

  /** Without extra data the field's extra dict holds the metadata alone;
      a non-dict extra is kept beside it. */
  lemma ExtraKeys(pattern: Option<string>, sepBy: Option<nat>, v: Item)
    ensures ParseField(pattern, None, sepBy, NoExtra).value.extra.d.Keys == {"parsedantic"}
    ensures ParseField(pattern, None, sepBy, OtherExtra(v)).value.extra.d.Keys == {"user_json_schema_extra", "parsedantic"}
  {
  }

  /** The search order: metadata in the field's `metadata` list shadows
      the extra dict, and the `"parsedantic"` entry shadows the legacy
      `"metadata"` entry. */
  lemma LookupOrder(a: Metadata, b: Metadata, c: Metadata, others: seq<Item>)
    ensures Lookup(FieldInfo(others + [MetaItem(a)], DictExtra(map["parsedantic" := MetaItem(b)])))
            == (if FirstMeta(others).Some? then FirstMeta(others) else Some(a))
    ensures Lookup(FieldInfo([], DictExtra(map["parsedantic" := MetaItem(b), "metadata" := MetaItem(c)]))) == Some(b)
    ensures Lookup(FieldInfo([], DictExtra(map["parsedantic" := Opaque("x"), "metadata" := Many([Opaque("y"), MetaItem(c)])])))
            == Some(c)
  {
    var items := others + [MetaItem(a)];
    if FirstMeta(others).None? {
      assert items[|others|] == MetaItem(a);
      assert FirstMeta(items).Some?;
      var k :| 0 <= k < |items| && items[k] == MetaItem(FirstMeta(items).value)
               && forall i :: 0 <= i < k ==> !items[i].MetaItem?;
      assert k == |others|;
    } else {
      FirstMetaPrefix(others, [MetaItem(a)]);
    }
    var ms := [Opaque("y"), MetaItem(c)];
    var d := map["parsedantic" := Opaque("x"), "metadata" := Many(ms)];
    assert "parsedantic" != "metadata";
    assert d["parsedantic"] == Opaque("x") && d["metadata"] == Many(ms);
    assert ms[1..] == [MetaItem(c)];
    assert FirstMeta(ms[1..]) == Some(c);
    assert FirstMeta(ms) == Some(c);
  }

  /** A prefix holding metadata decides the first metadata. */
  lemma {:induction false} FirstMetaPrefix(xs: seq<Item>, ys: seq<Item>)
    requires FirstMeta(xs).Some?
    ensures FirstMeta(xs + ys) == FirstMeta(xs)
    decreases |xs|
  {
    if !xs[0].MetaItem? {
      assert (xs + ys)[1..] == xs[1..] + ys;
      FirstMetaPrefix(xs[1..], ys);
    }
  }
}

=== FILE: formatters.dfy ===
/** The formatters a parser carries to turn a value back into text. A
    formatter is a Python callable; the model names the few the library
    builds. Formatting fails with the exception Python would raise. */
module Formatters {
  import opened Wrappers
  import opened Values
  import Chars

  datatype Fmt =
    /** `str`. */
    | FStr
    /** `lambda _: text`. */
    | FConst(text: string)
    /** `" ".join(elem(v) for v in values)`, with a formatter that is always set. */
    | FJoin(elem: Fmt)
    /** `" ".join(elem(v) for v in values)`, calling a formatter slot that may
        be empty; an empty slot raises once there is an element to format. */
    | FJoinSlot(slot: Option<Fmt>)
    /** `lambda info: f"{info[0]}:{info[1]}"`. */
    | FLineInfo
    /** `instance.to_text()` of a model: each named attribute formatted by its
        field's formatter, joined with the model's separator string. */
    | FToText(names: seq<string>, fmts: seq<Fmt>, sep: string)

  /** The items Python iterates over in `v`: list and tuple items, the
      characters of a string, the keys of a dict. */
  function Iter(v: Value): Option<seq<Value>> {
    match v
    case VList(xs) => Some(xs)
    case VTuple(xs) => Some(xs)
    case VStr(s) => Some(seq(|s|, k requires 0 <= k < |s| => VStr([s[k]])))
    case VDict(es) => Some(seq(|es|, k requires 0 <= k < |es| => VStr(es[k].key)))
    case _ => None
  }

  /** `v[k]` for the values that support indexing by position. */
  function Item(v: Value, k: nat): Option<Value> {
    match v
    case VList(xs) => if k < |xs| then Some(xs[k]) else None
    case VTuple(xs) => if k < |xs| then Some(xs[k]) else None
    case VStr(s) => if k < |s| then Some(VStr([s[k]])) else None
    case _ => None
  }

  function Format(f: Fmt, v: Value): Result<string, string>
    decreases f, 1
  {
    match f
    case FStr => Success(PyStr(v))
    case FConst(text) => Success(text)
    case FJoin(elem) =>
      (match Iter(v)
       case None => Failure("TypeError: object is not iterable")
       case Some(xs) => JoinFormatted(elem, xs))
    case FJoinSlot(slot) =>
      (match Iter(v)
       case None => Failure("TypeError: object is not iterable")
       case Some(xs) =>
         if |xs| == 0 then Success("")
         else if slot.None? then Failure("TypeError: 'NoneType' object is not callable")
         else JoinFormatted(slot.value, xs))
    case FLineInfo =>
      (match (Item(v, 0), Item(v, 1))
       case (Some(l), Some(c)) => Success(PyStr(l) + ":" + PyStr(c))
       case _ => Failure("IndexError: index out of range"))
    case FToText(names, fmts, sep) =>
      if !v.VModel? then Failure("AttributeError: object has no attribute 'to_text'")
      else
        (match FormatFields(names, fmts, v.attrs)
         case Failure(e) => Failure(e)
         case Success(parts) => Success(Chars.Join(sep, parts)))
  }

  /** Format each item with `elem` and join with a single space. */
  function JoinFormatted(elem: Fmt, xs: seq<Value>): Result<string, string>
    decreases elem, 3
  {
    match FormatAll(elem, xs)
    case Failure(e) => Failure(e)
    case Success(parts) => Success(Chars.Join(" ", parts))
  }

  /** Format each item with `elem`; the first exception wins. */
  function FormatAll(elem: Fmt, xs: seq<Value>): (r: Result<seq<string>, string>)
    ensures r.Success? ==> |r.value| == |xs|
    decreases elem, 2, |xs|
  {
    if |xs| == 0 then Success([])
    else
      match Format(elem, xs[0])
      case Failure(e) => Failure(e)
      case Success(p) =>
        (match FormatAll(elem, xs[1..])
         case Failure(e) => Failure(e)
         case Success(ps) => Success([p] + ps))
  }

  /** `[fmt_k.format(getattr(instance, name_k)) ...]` over the field list. */
  function FormatFields(names: seq<string>, fmts: seq<Fmt>, attrs: seq<Entry>): (r: Result<seq<string>, string>)
    ensures r.Success? ==> |r.value| == (if |names| < |fmts| then |names| else |fmts|)
    decreases fmts
  {
    if |names| == 0 || |fmts| == 0 then Success([])
    else
      match Attr(attrs, names[0])
      case None => Failure("AttributeError: object has no attribute '" + names[0] + "'")
      case Some(v) =>
        (match Format(fmts[0], v)
         case Failure(e) => Failure(e)
         case Success(p) =>
           (match FormatFields(names[1..], fmts[1..], attrs)
            case Failure(e) => Failure(e)
            case Success(ps) => Success([p] + ps)))
  }

  /** `fmt.format(getattr(instance, name))`: one field's text, or the
      exception raised for it. */
  function FieldText(name: string, fmt: Fmt, attrs: seq<Entry>): (r: Result<string, string>)
    ensures Attr(attrs, name).None? ==> r == Failure("AttributeError: object has no attribute '" + name + "'")
    ensures Attr(attrs, name).Some? ==> r == Format(fmt, Attr(attrs, name).value)
  {
    match Attr(attrs, name)
    case None => Failure("AttributeError: object has no attribute '" + name + "'")
    case Some(v) => Format(fmt, v)
  }

  /** The fields are formatted one by one: all succeed exactly when each
      field's text does, the pieces are those texts in field order, and
      otherwise the error is that of the first field that fails. */
  lemma {:induction false} FormatFieldsEach(names: seq<string>, fmts: seq<Fmt>, attrs: seq<Entry>)
    requires |names| == |fmts|
    ensures var r := FormatFields(names, fmts, attrs);
            && (r.Success? <==> forall j :: 0 <= j < |names| ==> FieldText(names[j], fmts[j], attrs).Success?)
            && (r.Success? ==> |r.value| == |names|
                               && forall j :: 0 <= j < |names| ==> r.value[j] == FieldText(names[j], fmts[j], attrs).value)
            && (r.Failure? ==> exists j :: 0 <= j < |names| && FieldText(names[j], fmts[j], attrs) == Failure(r.error)
                                           && forall i :: 0 <= i < j ==> FieldText(names[i], fmts[i], attrs).Success?)
  {
    FormatFieldsSucceed(names, fmts, attrs);
    FormatFieldsValues(names, fmts, attrs);
    FormatFieldsFirstError(names, fmts, attrs);
  }

  lemma {:induction false} FormatFieldsSucceed(names: seq<string>, fmts: seq<Fmt>, attrs: seq<Entry>)
    requires |names| == |fmts|
    ensures FormatFields(names, fmts, attrs).Success?
            <==> forall j :: 0 <= j < |names| ==> FieldText(names[j], fmts[j], attrs).Success?
    decreases |names|
  {
    if |names| > 0 {
      FormatFieldsSucceed(names[1..], fmts[1..], attrs);
      FormatFieldsStep(names, fmts, attrs);
      assert forall j :: 1 <= j < |names| ==> names[j] == names[1..][j - 1] && fmts[j] == fmts[1..][j - 1];
    }
  }

  lemma {:induction false} FormatFieldsValues(names: seq<string>, fmts: seq<Fmt>, attrs: seq<Entry>)
    requires |names| == |fmts|
    ensures var r := FormatFields(names, fmts, attrs);
            r.Success? ==> |r.value| == |names|
                           && forall j :: 0 <= j < |names| ==> FieldText(names[j], fmts[j], attrs).Success?
                                                               && r.value[j] == FieldText(names[j], fmts[j], attrs).value
    decreases |names|
  {
    var r := FormatFields(names, fmts, attrs);
    if |names| > 0 && r.Success? {
      FormatFieldsSucceed(names, fmts, attrs);
      var rest := FormatFields(names[1..], fmts[1..], attrs);
      FormatFieldsValues(names[1..], fmts[1..], attrs);
      FormatFieldsStep(names, fmts, attrs);
      var t := FieldText(names[0], fmts[0], attrs);
      assert r.value == [t.value] + rest.value;
      forall j | 1 <= j < |names|
        ensures FieldText(names[j], fmts[j], attrs).Success? && r.value[j] == FieldText(names[j], fmts[j], attrs).value
      {
        assert names[j] == names[1..][j - 1] && fmts[j] == fmts[1..][j - 1];
        assert r.value[j] == rest.value[j - 1];
      }
    }
  }

  lemma {:induction false} FormatFieldsFirstError(names: seq<string>, fmts: seq<Fmt>, attrs: seq<Entry>)
    requires |names| == |fmts|
    ensures var r := FormatFields(names, fmts, attrs);
            r.Failure? ==> exists j :: 0 <= j < |names| && FieldText(names[j], fmts[j], attrs) == Failure(r.error)
                                       && forall i :: 0 <= i < j ==> FieldText(names[i], fmts[i], attrs).Success?
    decreases |names|
  {
    var r := FormatFields(names, fmts, attrs);
    if |names| > 0 && r.Failure? {
      FormatFieldsStep(names, fmts, attrs);
      var t := FieldText(names[0], fmts[0], attrs);
      var rest := FormatFields(names[1..], fmts[1..], attrs);
      if t.Success? {
        FormatFieldsFirstError(names[1..], fmts[1..], attrs);
        var j :| 0 <= j < |names[1..]| && FieldText(names[1..][j], fmts[1..][j], attrs) == Failure(rest.error)
                 && forall i :: 0 <= i < j ==> FieldText(names[1..][i], fmts[1..][i], attrs).Success?;
        assert forall i :: 1 <= i <= j + 1 ==> names[i] == names[1..][i - 1] && fmts[i] == fmts[1..][i - 1];
        assert FieldText(names[j + 1], fmts[j + 1], attrs) == Failure(r.error);
        assert forall i :: 0 <= i < j + 1 ==> FieldText(names[i], fmts[i], attrs).Success?;
      } else {
        assert t == Failure(r.error);
      }
    }
  }

  /** One step of the loop: the first field's text, then the rest. */
  lemma FormatFieldsStep(names: seq<string>, fmts: seq<Fmt>, attrs: seq<Entry>)
    requires |names| == |fmts| > 0
    ensures var t := FieldText(names[0], fmts[0], attrs);
            var rest := FormatFields(names[1..], fmts[1..], attrs);
            FormatFields(names, fmts, attrs)
            == if t.Failure? then Failure(t.error)
               else if rest.Failure? then rest
               else Success([t.value] + rest.value)
  {
  }

  /** Each field found and formatted: the pieces are the formatted values,
      in field order. */
  lemma {:induction false} FormatFieldsPieces(names: seq<string>, fmts: seq<Fmt>, attrs: seq<Entry>,
                                              vals: seq<Value>, parts: seq<string>)
    requires |names| == |fmts| == |vals| == |parts|
    requires forall j :: 0 <= j < |names| ==> Attr(attrs, names[j]) == Some(vals[j])
    requires forall j :: 0 <= j < |names| ==> Format(fmts[j], vals[j]) == Success(parts[j])
    ensures FormatFields(names, fmts, attrs) == Success(parts)
    decreases |names|
  {
    if |names| > 0 {
      FormatFieldsPieces(names[1..], fmts[1..], attrs, vals[1..], parts[1..]);
      assert [parts[0]] + parts[1..] == parts;
    }
  }

  /** Formatting a list item by item: the `k`-th piece is the `k`-th item's text. */
  lemma {:induction false} FormatAllPieces(elem: Fmt, xs: seq<Value>)
    ensures FormatAll(elem, xs).Success?
            <==> forall k :: 0 <= k < |xs| ==> Format(elem, xs[k]).Success?
    ensures FormatAll(elem, xs).Success? ==>
              forall k :: 0 <= k < |xs| ==> FormatAll(elem, xs).value[k] == Format(elem, xs[k]).value
    decreases |xs|
  {
    if |xs| > 0 {
      FormatAllPieces(elem, xs[1..]);
      assert forall k :: 1 <= k < |xs| ==> xs[k] == xs[1..][k - 1];
    }
  }

  /** The two list formatters agree whenever the element formatter is set;
      with an empty slot only the empty list can be formatted. */
  lemma JoinSlotAgrees(elem: Fmt, v: Value)
    ensures Format(FJoinSlot(Some(elem)), v) == Format(FJoin(elem), v)
    ensures Format(FJoinSlot(None), v).Success? <==> Iter(v).Some? && |Iter(v).value| == 0
  {
    var it := Iter(v);
    if it.Some? && |it.value| == 0 {
      assert FormatAll(elem, it.value) == Success([]);
    }
  }
}

=== FILE: generator.dfy ===
/** The type-driven parser generator of `generator.py`: a plain parsy parser
    for each `str`, `int` or `float` field, the field separator found
    through the model class's inherited `ParseConfig`, and a model parser
    that reads the first field bare and every later one after a separator. */
module Generator {
  import opened Wrappers
  import opened Values
  import Terms
  import Scanners
  import Raw = RawParsers
  import opened Annotations
  import Config
  import Pr = Primitives
  import P = ParserV1
  import I = Inference
  import Container
  import Codec
  import C = Combinators
  import RoundTrip

  /** The `NotImplementedError` raised for a type the generator does not
      know. */
  function Unsupported(a: Ann): string {
    "NotImplementedError: Automatic parser generation not implemented for type " + TypeName(a)
  }

  /** The three types the generator knows, by `get_origin(t) or t`: a
      parameterised or annotated type has an origin other than the three.
      They are exactly the scalar types the classifiers read. */
  predicate Known(a: Ann)
    ensures Known(a) <==> I.Scalar(a).value.Some?
    ensures Known(a) <==> Container.InferBasic(a).Some?
  {
    a.IntT? || a.FloatT? || a.StrT?
  }

  /** `generate_field_parser`: `\S+` for `str`, `integer()` for `int`,
      `float_num()` for `float`; every other type raises. */
  function GenerateFieldParser(a: Ann): (r: Result<Terms.Term, string>)
    ensures r.Success? <==> Known(a)
    ensures r.Failure? ==> r.error == Unsupported(a)
  {
    if a.StrT? then Success(Terms.Regex(Scanners.NonSpaceRx))
    else if a.IntT? then Success(Raw.Integer())
    else if a.FloatT? then Success(Raw.FloatNum())
    else Failure(Unsupported(a))
  }

  /** On the types it knows, the generator picks the reader the codec's
      classifiers pick, with either classifier; the codec also reads lists,
      which the generator refuses. */
  lemma GeneratorAgreesWithClassifier(k: Codec.Classifier, env: I.Env, a: Ann)
    requires Known(a)
    ensures Codec.Classify(k, env, a).Success? && Codec.Classify(k, env, a).value.Some?
    ensures Codec.Classify(k, env, a).value.value.term == GenerateFieldParser(a).value
  {
    I.ScalarsAndUnknowns(env, "", []);
    Container.AgreesWithUnified(env, a);
  }

  lemma ListsOnlyInTheCodec(k: Codec.Classifier, env: I.Env)
    ensures GenerateFieldParser(ListT(Some(IntT))) == Failure(Unsupported(ListT(Some(IntT))))
    ensures Codec.Classify(k, env, ListT(Some(IntT))) == Success(Some(RoundTrip.ParserOf(RoundTrip.KInts)))
  {
    RefusesLists();
    RoundTrip.Classified(k, env, RoundTrip.KInts);
  }

  lemma RefusesLists()
    ensures GenerateFieldParser(ListT(Some(IntT))) == Failure(Unsupported(ListT(Some(IntT))))
  {
    assert !Known(ListT(Some(IntT)));
  }

  // ---------------------------------------------------------------------------
  // The model parser

  /** A field as the generator sees it: its name and `field.annotation`. */
  datatype GenField = GenField(name: string, ann: Ann)

  function Names(fs: seq<GenField>): (r: seq<string>)
    ensures |r| == |fs| && forall j :: 0 <= j < |fs| ==> r[j] == fs[j].name
  {
    seq(|fs|, j requires 0 <= j < |fs| => fs[j].name)
  }

  /** The position of the first field of an unknown type, or the number of
      fields when every type is known. */
  function FirstUnknown(fs: seq<GenField>): (j: nat)
    ensures j <= |fs|
    ensures forall i :: 0 <= i < j ==> Known(fs[i].ann)
    ensures j < |fs| ==> !Known(fs[j].ann)
    decreases |fs|
  {
    if |fs| == 0 || !Known(fs[0].ann) then 0
    else
      var j := FirstUnknown(fs[1..]);
      assert forall i :: 1 <= i < |fs| ==> fs[i] == fs[1..][i - 1];
      1 + j
  }

  /** A parser for every field, in order; the first unknown type raises. */
  function FieldParsers(fs: seq<GenField>): (r: Result<seq<Terms.Term>, string>)
    ensures r.Success? <==> FirstUnknown(fs) == |fs|
    ensures r.Success? ==> |r.value| == |fs| && forall j :: 0 <= j < |fs| ==> r.value[j] == GenerateFieldParser(fs[j].ann).value
    ensures r.Failure? ==> r.error == Unsupported(fs[FirstUnknown(fs)].ann)
    decreases |fs|
  {
    if |fs| == 0 then Success([])
    else if !Known(fs[0].ann) then Failure(Unsupported(fs[0].ann))
    else
      var rest := FieldParsers(fs[1..]);
      assert forall j :: 1 <= j < |fs| ==> fs[j] == fs[1..][j - 1];
      if rest.Failure? then rest
      else Success([GenerateFieldParser(fs[0].ann).value] + rest.value)
  }

  /** `separator.then(parser)` for each parser. */
  function Thens(us: seq<Terms.Term>, sep: Terms.Term): (r: seq<Terms.Term>)
    ensures |r| == |us| && forall j :: 0 <= j < |us| ==> r[j] == Terms.Then(sep, us[j])
  {
    seq(|us|, j requires 0 <= j < |us| => Terms.Then(sep, us[j]))
  }

  /** `build_model_parser`: `{}` without reading when there are no fields;
      otherwise the first field bare, each later field after the separator,
      and the values zipped with the names. */
  function BuildModelParser(cs: seq<Config.ModelClass>, c: nat, fs: seq<GenField>): (r: Result<Terms.Term, string>)
    requires c < |cs| && Config.BasesFirst(cs)
    ensures r.Success? <==> FirstUnknown(fs) == |fs|
    ensures r.Failure? ==> r.error == Unsupported(fs[FirstUnknown(fs)].ann)
    ensures |fs| == 0 ==> r == Success(Terms.Succeed(VDict([])))
  {
    if |fs| == 0 then Success(Terms.Succeed(VDict([])))
    else
      match FieldParsers(fs)
      case Failure(e) => Failure(e)
      case Success(ts) =>
        var sep := Config.GeneratorSeparator(cs, c);
        Success(Terms.Map(Terms.Seq([ts[0]] + Thens(ts[1..], sep)), Terms.ZipDict(Names(fs))))
  }

  // ---------------------------------------------------------------------------
  // The same reader as the codec's

  /** The codec's interleaving after the first field: separator, field,
      separator, field, ... */
  function SepThen(us: seq<Terms.Term>, sep: Terms.Term): (r: seq<Terms.Term>)
    decreases |us|
  {
    if |us| == 0 then [] else [sep, us[0]] + SepThen(us[1..], sep)
  }

  lemma {:induction false} InterleaveSplits(ts: seq<Terms.Term>, sep: Terms.Term)
    requires |ts| > 0
    ensures Codec.Interleave(ts, sep) == [ts[0]] + SepThen(ts[1..], sep)
    decreases |ts|
  {
    if |ts| > 1 {
      InterleaveSplits(ts[1..], sep);
      assert ts[1..][1..] == ts[2..];
    }
  }

  /** Two replies of the two sequences: the same failure, or the same end
      with the generator's values being the codec's at even positions. */
  predicate Matches(r1: Terms.Reply, r2: Terms.Reply) {
    if r1.Ok? then r2.Ok? && r1.next == r2.next && r1.value.VList? && r2.value.VList?
                   && r1.value.items == Terms.Evens(r2.value.items)
    else r1 == r2
  }

  lemma {:induction false} EvensTwoMore(acc: seq<Value>, a: Value, b: Value)
    requires |acc| % 2 == 1
    ensures Terms.Evens(acc + [a] + [b]) == Terms.Evens(acc) + [b]
    decreases |acc|
  {
    var x := acc + [a] + [b];
    if |acc| > 1 {
      assert x[2..] == acc[2..] + [a] + [b];
      EvensTwoMore(acc[2..], a, b);
    } else {
      assert x[2..] == [b];
    }
  }

  /** Reading `sep >> u` for each `u` matches reading `sep, u` for each:
      whatever the parsers, the cursor ends where it ends, and the values
      kept are the same. */
  lemma {:induction false} TailsMatch(h: Terms.Host, us: seq<Terms.Term>, sep: Terms.Term, s: string, i: nat,
                                      acc1: seq<Value>, acc2: seq<Value>)
    requires i <= |s| && |acc2| % 2 == 1 && acc1 == Terms.Evens(acc2)
    ensures Matches(Terms.RunSeq(h, Thens(us, sep), s, i, acc1), Terms.RunSeq(h, SepThen(us, sep), s, i, acc2))
    decreases |us|, 1
  {
    if |us| == 0 {
      assert Thens(us, sep) == [] && SepThen(us, sep) == [];
    } else {
      var rs := Terms.Run(h, sep, s, i);
      if !rs.Ok? {
        SeparatorFails(h, us, sep, s, i, acc1, acc2);
      } else {
        var ru := Terms.Run(h, us[0], s, rs.next);
        if !ru.Ok? {
          FieldFails(h, us, sep, s, i, acc1, acc2);
        } else {
          BothRead(h, us, sep, s, i, acc1, acc2);
        }
      }
    }
  }

  lemma SeparatorFails(h: Terms.Host, us: seq<Terms.Term>, sep: Terms.Term, s: string, i: nat,
                       acc1: seq<Value>, acc2: seq<Value>)
    requires i <= |s| && |us| > 0 && !Terms.Run(h, sep, s, i).Ok?
    ensures Terms.RunSeq(h, Thens(us, sep), s, i, acc1) == Terms.Run(h, sep, s, i)
    ensures Terms.RunSeq(h, SepThen(us, sep), s, i, acc2) == Terms.Run(h, sep, s, i)
  {
    assert SepThen(us, sep)[0] == sep;
    assert Terms.Run(h, Thens(us, sep)[0], s, i) == Terms.Run(h, sep, s, i);
  }

  lemma FieldFails(h: Terms.Host, us: seq<Terms.Term>, sep: Terms.Term, s: string, i: nat,
                   acc1: seq<Value>, acc2: seq<Value>)
    requires i <= |s| && |us| > 0 && Terms.Run(h, sep, s, i).Ok?
    requires !Terms.Run(h, us[0], s, Terms.Run(h, sep, s, i).next).Ok?
    ensures var ru := Terms.Run(h, us[0], s, Terms.Run(h, sep, s, i).next);
            && Terms.RunSeq(h, Thens(us, sep), s, i, acc1) == ru
            && Terms.RunSeq(h, SepThen(us, sep), s, i, acc2) == ru
  {
    var rs := Terms.Run(h, sep, s, i);
    var st := SepThen(us, sep);
    assert st[0] == sep && st[1..][0] == us[0];
    assert Terms.RunSeq(h, st, s, i, acc2) == Terms.RunSeq(h, st[1..], s, rs.next, acc2 + [rs.value]);
    assert Terms.Run(h, Thens(us, sep)[0], s, i) == Terms.Run(h, us[0], s, rs.next);
  }

  lemma {:induction false} BothRead(h: Terms.Host, us: seq<Terms.Term>, sep: Terms.Term, s: string, i: nat,
                                    acc1: seq<Value>, acc2: seq<Value>)
    requires i <= |s| && |acc2| % 2 == 1 && acc1 == Terms.Evens(acc2)
    requires |us| > 0 && Terms.Run(h, sep, s, i).Ok?
    requires Terms.Run(h, us[0], s, Terms.Run(h, sep, s, i).next).Ok?
    ensures Matches(Terms.RunSeq(h, Thens(us, sep), s, i, acc1), Terms.RunSeq(h, SepThen(us, sep), s, i, acc2))
    decreases |us|, 0
  {
    var rs := Terms.Run(h, sep, s, i);
    var ru := Terms.Run(h, us[0], s, rs.next);
    var a2 := acc2 + [rs.value] + [ru.value];
    EvensTwoMore(acc2, rs.value, ru.value);
    TailsMatch(h, us[1..], sep, s, ru.next, acc1 + [ru.value], a2);
    SepThenStep(h, us, sep, s, i, acc2);
    ThensStep(h, us, sep, s, i, acc1);
  }

  lemma SepThenStep(h: Terms.Host, us: seq<Terms.Term>, sep: Terms.Term, s: string, i: nat, acc2: seq<Value>)
    requires i <= |s| && |us| > 0 && Terms.Run(h, sep, s, i).Ok?
    requires Terms.Run(h, us[0], s, Terms.Run(h, sep, s, i).next).Ok?
    ensures var rs := Terms.Run(h, sep, s, i);
            var ru := Terms.Run(h, us[0], s, rs.next);
            Terms.RunSeq(h, SepThen(us, sep), s, i, acc2)
            == Terms.RunSeq(h, SepThen(us[1..], sep), s, ru.next, acc2 + [rs.value] + [ru.value])
  {
    var rs := Terms.Run(h, sep, s, i);
    var st := SepThen(us, sep);
    assert st[0] == sep && st[1..][0] == us[0] && st[1..][1..] == SepThen(us[1..], sep);
    assert Terms.RunSeq(h, st, s, i, acc2) == Terms.RunSeq(h, st[1..], s, rs.next, acc2 + [rs.value]);
  }

  lemma ThensStep(h: Terms.Host, us: seq<Terms.Term>, sep: Terms.Term, s: string, i: nat, acc1: seq<Value>)
    requires i <= |s| && |us| > 0 && Terms.Run(h, sep, s, i).Ok?
    requires Terms.Run(h, us[0], s, Terms.Run(h, sep, s, i).next).Ok?
    ensures var ru := Terms.Run(h, us[0], s, Terms.Run(h, sep, s, i).next);
            Terms.RunSeq(h, Thens(us, sep), s, i, acc1)
            == Terms.RunSeq(h, Thens(us[1..], sep), s, ru.next, acc1 + [ru.value])
  {
    var rs := Terms.Run(h, sep, s, i);
    assert Thens(us, sep)[1..] == Thens(us[1..], sep);
    assert Terms.Run(h, Thens(us, sep)[0], s, i) == Terms.Run(h, us[0], s, rs.next);
  }

  /** The generator's sequence, zipped with the names, reads what the
      codec's interleaved sequence, with its even positions kept, reads:
      the same reply on every text from every position. */
  lemma {:induction false} ReadsLikeCombined(h: Terms.Host, ts: seq<Terms.Term>, sep: Terms.Term, names: seq<string>,
                                             s: string, i: nat)
    requires |ts| > 0 && i <= |s|
    ensures Terms.Run(h, Terms.Map(Terms.Seq([ts[0]] + Thens(ts[1..], sep)), Terms.ZipDict(names)), s, i)
            == Terms.Run(h, Terms.Map(Terms.Seq(Codec.Interleave(ts, sep)), Terms.EvenFieldsToDict(names)), s, i)
  {
    InterleaveSplits(ts, sep);
    SeqsMatch(h, ts, sep, s, i);
    MapsMatch(h, Terms.Seq([ts[0]] + Thens(ts[1..], sep)), Terms.Seq(Codec.Interleave(ts, sep)), names, s, i);
  }

  lemma SeqsMatch(h: Terms.Host, ts: seq<Terms.Term>, sep: Terms.Term, s: string, i: nat)
    requires |ts| > 0 && i <= |s|
    ensures Matches(Terms.RunSeq(h, [ts[0]] + Thens(ts[1..], sep), s, i, []),
                    Terms.RunSeq(h, [ts[0]] + SepThen(ts[1..], sep), s, i, []))
  {
    var r0 := Terms.Run(h, ts[0], s, i);
    var l := [ts[0]] + Thens(ts[1..], sep);
    var g := [ts[0]] + SepThen(ts[1..], sep);
    assert l[1..] == Thens(ts[1..], sep) && g[1..] == SepThen(ts[1..], sep);
    if r0.Ok? {
      assert [] + [r0.value] == [r0.value];
      TailsMatch(h, ts[1..], sep, s, r0.next, [r0.value], [r0.value]);
    }
  }

  lemma MapsMatch(h: Terms.Host, p1: Terms.Term, p2: Terms.Term, names: seq<string>, s: string, i: nat)
    requires i <= |s| && Matches(Terms.Run(h, p1, s, i), Terms.Run(h, p2, s, i))
    ensures Terms.Run(h, Terms.Map(p1, Terms.ZipDict(names)), s, i)
            == Terms.Run(h, Terms.Map(p2, Terms.EvenFieldsToDict(names)), s, i)
  {
  }

  // ---------------------------------------------------------------------------
  // The generator and the codec

  /** The codec schema of the same fields: no descriptions, and the
      separator the generator looks up read between fields. */
  predicate SameModel(cs: seq<Config.ModelClass>, c: nat, fs: seq<GenField>, sc: Codec.Schema)
    requires c < |cs| && Config.BasesFirst(cs)
  {
    && |sc.fields| == |fs|
    && (forall j :: 0 <= j < |fs| ==> sc.fields[j] == Codec.Field(fs[j].name, fs[j].ann, ""))
    && sc.decodeSep == Config.GeneratorSeparator(cs, c)
  }

  /** For a model of `str`, `int` and `float` fields the generator's parser
      and the codec's combined parser read every text the same way: the same
      dict, or the same failure at the same position. */
  lemma GeneratorIsCodec(h: Terms.Host, cs: seq<Config.ModelClass>, c: nat, fs: seq<GenField>,
                         k: Codec.Classifier, env: I.Env, sc: Codec.Schema, text: string)
    requires c < |cs| && Config.BasesFirst(cs)
    requires forall j :: 0 <= j < |fs| ==> Known(fs[j].ann)
    requires SameModel(cs, c, fs, sc)
    ensures BuildModelParser(cs, c, fs).Success? && Codec.Build(k, env, sc).Success?
    ensures Terms.Parse(h, BuildModelParser(cs, c, fs).value, text)
            == Terms.Parse(h, Codec.Build(k, env, sc).value.combined.term, text)
  {
    CodecFieldsAgree(k, env, sc, fs);
    if |fs| > 0 {
      var ts := FieldParsers(fs).value;
      var gen := BuildModelParser(cs, c, fs).value;
      var comb := Codec.Build(k, env, sc).value.combined.term;
      assert comb == Terms.Map(Terms.Seq(Codec.Interleave(ts, sc.decodeSep)), Terms.EvenFieldsToDict(Names(fs)));
      ReadsLikeCombined(h, ts, sc.decodeSep, Names(fs), text, 0);
      SameParse(h, gen, comb, text);
    }
  }

  /** The codec builds, for such fields, the generator's parsers under the
      same names. */
  lemma CodecFieldsAgree(k: Codec.Classifier, env: I.Env, sc: Codec.Schema, fs: seq<GenField>)
    requires forall j :: 0 <= j < |fs| ==> Known(fs[j].ann)
    requires |sc.fields| == |fs| && forall j :: 0 <= j < |fs| ==> sc.fields[j] == Codec.Field(fs[j].name, fs[j].ann, "")
    ensures Codec.BuildFields(k, env, sc.fields).Success? && FieldParsers(fs).Success?
    ensures Codec.FieldTerms(Codec.BuildFields(k, env, sc.fields).value) == FieldParsers(fs).value
    ensures Codec.Names(Codec.BuildFields(k, env, sc.fields).value) == Names(fs)
  {
    CodecFieldsBuild(k, env, sc, fs);
    var fps := Codec.BuildFields(k, env, sc.fields).value;
    var ts := FieldParsers(fs).value;
    assert Codec.FieldTerms(fps) == ts;
    assert Codec.Names(fps) == Names(fs);
  }

  /** Field by field, the codec builds the generator's parser for such fields. */
  lemma CodecFieldsBuild(k: Codec.Classifier, env: I.Env, sc: Codec.Schema, fs: seq<GenField>)
    requires forall j :: 0 <= j < |fs| ==> Known(fs[j].ann)
    requires |sc.fields| == |fs| && forall j :: 0 <= j < |fs| ==> sc.fields[j] == Codec.Field(fs[j].name, fs[j].ann, "")
    ensures Codec.BuildFields(k, env, sc.fields).Success?
    ensures forall j :: 0 <= j < |fs| ==> Codec.BuildFields(k, env, sc.fields).value[j].name == fs[j].name
    ensures forall j :: 0 <= j < |fs| ==> Codec.BuildFields(k, env, sc.fields).value[j].parser.term == GenerateFieldParser(fs[j].ann).value
  {
    forall j | 0 <= j < |fs|
      ensures Codec.BuildField(k, env, sc.fields[j]).Success?
      ensures Codec.BuildField(k, env, sc.fields[j]).value.name == fs[j].name
      ensures Codec.BuildField(k, env, sc.fields[j]).value.parser.term == GenerateFieldParser(fs[j].ann).value
    {
      FieldBuilds(k, env, fs[j]);
    }
  }

  /** One undescribed field of a known type gets the generator's parser. */
  lemma FieldBuilds(k: Codec.Classifier, env: I.Env, g: GenField)
    requires Known(g.ann)
    ensures var b := Codec.BuildField(k, env, Codec.Field(g.name, g.ann, ""));
            b.Success? && b.value.name == g.name && b.value.parser.term == GenerateFieldParser(g.ann).value
  {
    GeneratorAgreesWithClassifier(k, env, g.ann);
  }

  /** Parsers that reply alike from the start of a text parse it alike. */
  lemma SameParse(h: Terms.Host, t1: Terms.Term, t2: Terms.Term, text: string)
    requires Terms.Run(h, t1, text, 0) == Terms.Run(h, t2, text, 0)
    ensures Terms.Parse(h, t1, text) == Terms.Parse(h, t2, text)
  {
  }
}

=== FILE: inference.dfy ===
/** The unified field classifier of `inference/inference.py`: an explicit
    `Parsed` parser first, then `Literal`, nested parsable models, `Optional`,
    `Union`, `list`, and the scalar types `int`, `float` and `str`. */
module Inference {
  import opened Wrappers
  import opened Values
  import Terms
  import F = Formatters
  import C = Combinators
  import P = ParserV1
  import Pr = Primitives
  import opened Annotations

  /** What a nested parsable model contributes to its users: the class that
      validates the dict, the dict-producing parser of its codec, and what
      `to_text` needs (field names, field formatters, separator string). */
  datatype Nested = Nested(cls: string, dict: Terms.Term, names: seq<string>, fmts: seq<F.Fmt>, sep: string)

  /** The parsable model classes a classifier may meet, by `ModelRef` id: each
      one's codec, or the exception building it raises. A class counts as
      parsable when it has both `model_fields` and `from_text`, as subclasses
      of `model/base.py`'s `ParsableModel` do; any other class is left out.
      A classifier builds a nested codec on demand, so this is what that
      build produces. */
  type Env = seq<Result<Nested, string>>

  /** The parser for a nested model: its dict parser mapped through
      `model_validate`, formatted with `to_text`. */
  function NestedParser(m: Nested): (r: P.Parser)
    ensures r.term == Terms.Map(m.dict, Terms.Validate(m.cls))
    ensures forall v :: P.Format(r, v) == F.Format(F.FToText(m.names, m.fmts, m.sep), v)
  {
    P.Make(Terms.Map(m.dict, Terms.Validate(m.cls)), Some(F.FToText(m.names, m.fmts, m.sep)))
  }

  /** A classifier's answer: a parser, `None`, or the exception it raises. */
  type Outcome = Result<Option<P.Parser>, string>

  /** A `TypeError` with its message, as `str` of the exception shows it. */
  function TypeError(msg: string): (e: string)
    ensures "TypeError: " <= e
  {
    assert ("TypeError: " + msg)[..11] == "TypeError: ";
    "TypeError: " + msg
  }

  const ListWithoutElement := TypeError("list fields must specify element type, e.g. list[int]")

  /** The exceptions a classifier raises: a `TypeError` of its own, or the
      exception that building a nested model's codec raised. */
  predicate Raised(env: Env, e: string) {
    || "TypeError: " <= e
    || exists id :: 0 <= id < |env| && env[id] == Failure(e)
  }

  predicate IsOptional(a: Ann) {
    a.UnionT? && |NonNone(a.args)| < |a.args| && |NonNone(a.args)| >= 1
  }

  predicate IsUnion(a: Ann) {
    a.UnionT? && |NonNone(a.args)| > 1
  }

  /** `[literal(v) for v in values]`. */
  function Literals(vs: seq<string>): (r: seq<P.Parser>)
    ensures |r| == |vs| && forall k :: 0 <= k < |vs| ==> r[k] == Pr.Literal(vs[k])
  {
    seq(|vs|, k requires 0 <= k < |vs| => Pr.Literal(vs[k]))
  }

  /** The strings of a `Literal`, when every value is a string. */
  function LitStrings(vs: seq<LitVal>): (r: Option<seq<string>>)
    ensures r.Some? <==> forall k :: 0 <= k < |vs| ==> vs[k].LStr?
    ensures r.Some? ==> |r.value| == |vs| && forall k :: 0 <= k < |vs| ==> r.value[k] == vs[k].s
  {
    if forall k :: 0 <= k < |vs| ==> vs[k].LStr? then Some(seq(|vs|, k requires 0 <= k < |vs| => vs[k].s))
    else None
  }

  /** The `Literal` builder; the two classifiers word the second error differently. */
  function LiteralChoice(vs: seq<LitVal>, nonString: string): (r: Outcome)
    ensures |vs| == 0 ==> r == Failure(TypeError("Literal[...] must specify at least one value"))
    ensures |vs| > 0 && (exists k :: 0 <= k < |vs| && !vs[k].LStr?) ==> r == Failure(nonString)
    ensures r.Success? ==> r.value.Some? && |vs| > 0 && LitStrings(vs).Some?
                           && r.value.value == P.OrAll(Literals(LitStrings(vs).value))
    ensures r.Failure? ==> r.error in {TypeError("Literal[...] must specify at least one value"), nonString}
  {
    if |vs| == 0 then Failure(TypeError("Literal[...] must specify at least one value"))
    else
      match LitStrings(vs)
      case None => Failure(nonString)
      case Some(ss) => Success(Some(P.OrAll(Literals(ss))))
  }

  /** `infer_parser(annotation)`: the checks in priority order. */
  function Infer(env: Env, a: Ann): (r: Outcome)
    ensures r.Failure? ==> Raised(env, r.error)
    decreases AnnSize(a), 1
  {
    if a.Lit? then
      LiteralChoice(a.values, TypeError("Literal types currently only support string values"))
    else if a.ModelRef? then ModelParser(env, a.id)
    else if IsOptional(a) then OptionalOf(env, a)
    else if IsUnion(a) then UnionOf(env, NonNone(a.args))
    else if a.ListT? then ListParser(env, a)
    else Scalar(a)
  }

  /** A nested model's parser: its codec's dict parser, validated into the
      class and written back with `to_text`. A codec that cannot be built
      raises, and the exception reaches the field that uses the model; a
      reference outside `env` names no parsable model and has no parser. */
  function ModelParser(env: Env, id: nat): (r: Outcome)
    ensures r.Success? && r.value.Some? <==> id < |env| && env[id].Success?
    ensures r.Success? && r.value.Some? ==> r.value.value == NestedParser(env[id].value)
    ensures r.Failure? <==> id < |env| && env[id].Failure?
    ensures r.Failure? ==> r.error == env[id].error
  {
    if id >= |env| then Success(None)
    else
      match env[id]
      case Success(m) => Success(Some(NestedParser(m)))
      case Failure(e) => Failure(e)
  }

  /** The `Optional` builder: the sole non-`None` arm, or the union of them, made optional. */
  function OptionalOf(env: Env, a: Ann): (r: Outcome)
    requires IsOptional(a)
    ensures r.Failure? ==> Raised(env, r.error)
    decreases AnnSize(a), 0
  {
    var nn := NonNone(a.args);
    var inner := if |nn| == 1 then Infer(env, nn[0]) else Infer(env, UnionT(nn));
    match inner
    case Failure(e) => Failure(e)
    case Success(None) => Success(None)
    case Success(Some(p)) => Success(Some(P.Optional(p)))
  }

  /** The `list` builder. */
  function ListParser(env: Env, a: Ann): (r: Outcome)
    requires a.ListT?
    ensures r.Success? ==> r.value.Some?
    ensures r.Failure? ==> Raised(env, r.error)
    decreases AnnSize(a), 0
  {
    if a.arg.None? || a.arg.value == NoneT then Failure(ListWithoutElement)
    else
      match Infer(env, a.arg.value)
      case Failure(e) => Failure(e)
      case Success(None) =>
        Failure(TypeError("Cannot infer parser for list element type " + TypeName(a.arg.value)))
      case Success(Some(p)) => Success(Some(P.SepBy(p, Pr.Whitespace(), 0, None)))
  }

  /** `int`, `float` and `str`; anything else has no parser. */
  function Scalar(a: Ann): (r: Outcome)
    ensures r.Success?
    ensures r.value.Some? <==> a in {IntT, FloatT, StrT}
  {
    if a == IntT then Success(Some(Pr.Integer()))
    else if a == FloatT then Success(Some(Pr.FloatNum()))
    else if a == StrT then Success(Some(Pr.Token()))
    else Success(None)
  }

  /** `[infer_parser(m) for m in members]`: the first exception propagates. */
  function InferEach(env: Env, ms: seq<Ann>): (r: Result<seq<Option<P.Parser>>, string>)
    ensures r.Success? ==> |r.value| == |ms|
    ensures r.Failure? ==> Raised(env, r.error)
    decreases ArmsSize(ms), 2
  {
    if |ms| == 0 then Success([])
    else
      match Infer(env, ms[0])
      case Failure(e) => Failure(e)
      case Success(o) =>
        (match InferEach(env, ms[1..])
         case Failure(e) => Failure(e)
         case Success(os) => Success([o] + os))
  }

  /** All found, or `None` as soon as one member has no parser. */
  function AllFound(os: seq<Option<P.Parser>>): (r: Option<seq<P.Parser>>)
    ensures r.Some? <==> forall k :: 0 <= k < |os| ==> os[k].Some?
    ensures r.Some? ==> |r.value| == |os| && forall k :: 0 <= k < |os| ==> r.value[k] == os[k].value
  {
    if forall k :: 0 <= k < |os| ==> os[k].Some? then Some(seq(|os|, k requires 0 <= k < |os| => os[k].value))
    else None
  }

  /** The union builder: the members' parsers tried in declaration order. */
  function UnionOf(env: Env, ms: seq<Ann>): (r: Outcome)
    requires |ms| > 0
    ensures r.Failure? ==> Raised(env, r.error)
    decreases ArmsSize(ms), 3
  {
    match InferEach(env, ms)
    case Failure(e) => Failure(e)
    case Success(os) =>
      (match AllFound(os)
       case None => Success(None)
       case Some(ps) => Success(Some(P.OrAll(ps))))
  }

  /** `get_parser_for_field`: an explicit parser wins over inference. */
  function GetParserForField(env: Env, a: Ann): (r: Outcome)
    ensures ExtractParser(a).Some? ==> r == Success(ExtractParser(a))
    ensures !a.AnnotatedT? ==> r == Infer(env, a)
  {
    var explicit := ExtractParser(a);
    if explicit.Some? then Success(explicit) else Infer(env, a)
  }

  // ---------------------------------------------------------------------------
  // What the classifier returns

  /** The scalar types map to the primitives; `Annotated` without a `Parsed`
      marker, `None` and other classes have no parser. */
  lemma ScalarsAndUnknowns(env: Env, name: string, ms: seq<Meta>)
    requires forall k :: 0 <= k < |ms| ==> !ms[k].ParsedMeta?
    ensures GetParserForField(env, IntT) == Success(Some(Pr.Integer()))
    ensures GetParserForField(env, FloatT) == Success(Some(Pr.FloatNum()))
    ensures GetParserForField(env, StrT) == Success(Some(Pr.Token()))
    ensures GetParserForField(env, NoneT) == Success(None)
    ensures GetParserForField(env, Other(name)) == Success(None)
    ensures GetParserForField(env, AnnotatedT(IntT, ms)) == Success(None)
  {
    assert NonNone([]) == [];
  }

  /** `Parsed[T, p]` yields `p` whatever `T` is, even a type with no parser. */
  lemma ExplicitWins(env: Env, t: Ann, oid: nat, p: P.Parser)
    requires !t.AnnotatedT?
    ensures GetParserForField(env, Parsed(t, oid, p)) == Success(Some(p))
  {
    ParsedRoundTrip(t, oid, p);
  }

  /** `Optional[T]` in either order of arms is `T`'s parser made optional,
      `None` when `T` has none, and raises what `T` raises. */
  lemma OptionalOfOne(env: Env, t: Ann)
    requires t != NoneT && !t.UnionT?
    ensures var o := Infer(env, t);
            var want := match o
                        case Failure(e) => Failure(e)
                        case Success(None) => Success(None)
                        case Success(Some(p)) => Success(Some(P.Optional(p)));
            Infer(env, UnionT([t, NoneT])) == want && Infer(env, UnionT([NoneT, t])) == want
  {
    assert NonNone([NoneT]) == [];
    assert NonNone([t, NoneT]) == [t];
    assert NonNone([NoneT, t]) == [t] by {
      assert [NoneT, t][1..] == [t];
    }
  }

  /** A union with two or more non-`None` arms and no `None` goes to the
      union builder. */
  lemma UnionArms(env: Env, ms: seq<Ann>)
    requires |ms| > 1 && forall k :: 0 <= k < |ms| ==> ms[k] != NoneT
    ensures Infer(env, UnionT(ms)) == UnionOf(env, ms)
  {
    var a := UnionT(ms);
    NonNoneKeepsAll(ms);
    assert !IsOptional(a) && IsUnion(a);
    assert Infer(env, a) == UnionOf(env, NonNone(a.args));
  }

  /** The union builder finds a parser only when every member has one, and
      then reads with the members' parsers in declaration order. */
  lemma UnionFound(env: Env, ms: seq<Ann>)
    requires |ms| > 0
    ensures UnionOf(env, ms).Success? && UnionOf(env, ms).value.Some? <==>
              forall k :: 0 <= k < |ms| ==> Infer(env, ms[k]).Success? && Infer(env, ms[k]).value.Some?
    ensures UnionOf(env, ms).Success? && UnionOf(env, ms).value.Some? ==>
              exists ps: seq<P.Parser> ::
                && |ps| == |ms|
                && (forall k :: 0 <= k < |ms| ==> Infer(env, ms[k]) == Success(Some(ps[k])))
                && UnionOf(env, ms).value.value == P.OrAll(ps)
  {
    EachFound(env, ms);
    var r := InferEach(env, ms);
    if r.Success? && AllFound(r.value).Some? {
      UnionParsers(env, ms, r.value, AllFound(r.value).value);
    } else {
      UnionMisses(env, ms);
    }
  }

  /** Without a parser for every member, the union builder finds none. */
  lemma UnionMisses(env: Env, ms: seq<Ann>)
    requires |ms| > 0 && (InferEach(env, ms).Success? ==> AllFound(InferEach(env, ms).value).None?)
    ensures !(UnionOf(env, ms).Success? && UnionOf(env, ms).value.Some?)
    ensures !forall k :: 0 <= k < |ms| ==> Infer(env, ms[k]).Success? && Infer(env, ms[k]).value.Some?
  {
    EachFound(env, ms);
    if InferEach(env, ms).Success? {
      var os := InferEach(env, ms).value;
      var k :| 0 <= k < |os| && os[k].None?;
      assert Infer(env, ms[k]).value == os[k];
    }
  }

  lemma UnionParsers(env: Env, ms: seq<Ann>, os: seq<Option<P.Parser>>, ps: seq<P.Parser>)
    requires |ms| > 0 && InferEach(env, ms) == Success(os) && AllFound(os) == Some(ps)
    requires forall k :: 0 <= k < |ms| ==> Infer(env, ms[k]).Success? && os[k] == Infer(env, ms[k]).value
    ensures UnionOf(env, ms) == Success(Some(P.OrAll(ps)))
    ensures |ps| == |ms| && forall k :: 0 <= k < |ms| ==> Infer(env, ms[k]) == Success(Some(ps[k]))
  {
    forall k | 0 <= k < |ms|
      ensures Infer(env, ms[k]) == Success(Some(ps[k]))
    {
      var o := Infer(env, ms[k]);
      assert o.Success? && o.value == os[k];
      assert os[k] == Some(ps[k]);
      assert o == Success(o.value);
    }
  }

  lemma {:induction false} NonNoneKeepsAll(ms: seq<Ann>)
    requires forall k :: 0 <= k < |ms| ==> ms[k] != NoneT
    ensures NonNone(ms) == ms
    decreases |ms|
  {
    if |ms| > 0 {
      NonNoneKeepsAll(ms[1..]);
    }
  }

  /** The members' outcomes, in order; the whole raises exactly when a member raises. */
  lemma {:induction false} EachFound(env: Env, ms: seq<Ann>)
    ensures InferEach(env, ms).Success? <==> forall k :: 0 <= k < |ms| ==> Infer(env, ms[k]).Success?
    ensures InferEach(env, ms).Success? ==>
              forall k :: 0 <= k < |ms| ==> InferEach(env, ms).value[k] == Infer(env, ms[k]).value
    decreases |ms|
  {
    if |ms| > 0 {
      EachFound(env, ms[1..]);
      if Infer(env, ms[0]).Success? && InferEach(env, ms[1..]).Success? {
        EachFoundStep(env, ms);
      } else {
        EachFailsStep(env, ms);
      }
    }
  }

  lemma EachFoundStep(env: Env, ms: seq<Ann>)
    requires |ms| > 0 && Infer(env, ms[0]).Success? && InferEach(env, ms[1..]).Success?
    requires forall k :: 0 <= k < |ms| - 1 ==> Infer(env, ms[1..][k]).Success?
    requires forall k :: 0 <= k < |ms| - 1 ==> InferEach(env, ms[1..]).value[k] == Infer(env, ms[1..][k]).value
    ensures InferEach(env, ms).Success?
    ensures forall k :: 0 <= k < |ms| ==> Infer(env, ms[k]).Success? && InferEach(env, ms).value[k] == Infer(env, ms[k]).value
  {
    var rest := ms[1..];
    var others := InferEach(env, rest).value;
    var all := [Infer(env, ms[0]).value] + others;
    assert InferEach(env, ms) == Success(all);
    assert forall k :: 1 <= k < |ms| ==> ms[k] == rest[k - 1] && all[k] == others[k - 1];
  }

  lemma EachFailsStep(env: Env, ms: seq<Ann>)
    requires |ms| > 0 && !(Infer(env, ms[0]).Success? && InferEach(env, ms[1..]).Success?)
    requires InferEach(env, ms[1..]).Success? <==> forall k :: 0 <= k < |ms| - 1 ==> Infer(env, ms[1..][k]).Success?
    ensures InferEach(env, ms).Failure?
    ensures exists k :: 0 <= k < |ms| && !Infer(env, ms[k]).Success?
  {
    if Infer(env, ms[0]).Success? {
      var k :| 0 <= k < |ms| - 1 && !Infer(env, ms[1..][k]).Success?;
      assert ms[k + 1] == ms[1..][k];
    }
  }

  /** A bare `list`, or `list[None]`, raises `TypeError`. */
  lemma ListWithoutElementRaises(env: Env)
    ensures Infer(env, ListT(None)) == Failure(ListWithoutElement)
    ensures Infer(env, ListT(Some(NoneT))) == Failure(ListWithoutElement)
  {
  }

  /** `list[T]` is `T`'s parser separated by whitespace; when `T` has no
      parser it raises `TypeError`, and it raises what `T` raises. */
  lemma ListElement(env: Env, t: Ann)
    requires t != NoneT
    ensures Infer(env, t) == Success(None) ==> Infer(env, ListT(Some(t))).Failure?
    ensures forall p :: Infer(env, t) == Success(Some(p)) ==>
              Infer(env, ListT(Some(t))) == Success(Some(P.SepBy(p, Pr.Whitespace(), 0, None)))
  {
  }

  lemma StrEach(env: Env)
    ensures InferEach(env, [StrT]) == Success([Some(Pr.Token())])
  {
    assert Infer(env, StrT) == Success(Some(Pr.Token()));
    assert [StrT][1..] == [];
    assert InferEach(env, []) == Success([]);
    assert [Some(Pr.Token())] + [] == [Some(Pr.Token())];
  }

  lemma IntStrEach(env: Env)
    ensures InferEach(env, [IntT, StrT]) == Success([Some(Pr.Integer()), Some(Pr.Token())])
  {
    StrEach(env);
    assert Infer(env, IntT) == Success(Some(Pr.Integer()));
    assert [IntT, StrT][1..] == [StrT];
    assert [Some(Pr.Integer())] + [Some(Pr.Token())] == [Some(Pr.Integer()), Some(Pr.Token())];
  }

  /** `int | str` tries `int` first. */
  lemma IntOrStr(env: Env)
    ensures Infer(env, UnionT([IntT, StrT])) == Success(Some(P.Or(Pr.Integer(), Pr.Token())))
  {
    UnionArms(env, [IntT, StrT]);
    IntStrEach(env);
    IntStrFound(Pr.Integer(), Pr.Token());
  }

  lemma IntStrFound(a: P.Parser, b: P.Parser)
    ensures AllFound([Some(a), Some(b)]) == Some([a, b])
    ensures P.OrAll([a, b]) == P.Or(a, b)
  {
    var os := [Some(a), Some(b)];
    var r := AllFound(os);
    assert os[0].Some? && os[1].Some?;
    assert r.Some? && r.value == [a, b];
    assert [a, b][..1] == [a];
  }

  /** `Optional` is recognised before `Union`: `int | str | None` is the
      union of `int` and `str`, made optional. */
  lemma OptionalBeforeUnion(env: Env)
    ensures Infer(env, UnionT([IntT, StrT, NoneT]))
            == Success(Some(P.Optional(P.Or(Pr.Integer(), Pr.Token()))))
  {
    var a := UnionT([IntT, StrT, NoneT]);
    assert NonNone([NoneT]) == [];
    assert NonNone([StrT, NoneT]) == [StrT];
    assert NonNone(a.args) == [IntT, StrT];
    assert Infer(env, a) == OptionalOf(env, a);
    IntOrStr(env);
  }

  // ---------------------------------------------------------------------------
  // Which annotations get a parser

  /** A classifier outcome that is a parser. */
  predicate Found(o: Outcome) {
    o.Success? && o.value.Some?
  }

  /** The annotations the classifier finds a parser for, by their shape alone:
      `int`, `float` and `str`; a `Literal` of strings only; a model whose
      codec was built; a list with a readable element; and an optional or a
      union whose every non-`None` member is readable. */
  predicate Readable(env: Env, a: Ann)
    decreases AnnSize(a), 1
  {
    match a
    case Lit(values) => |values| > 0 && forall k :: 0 <= k < |values| ==> values[k].LStr?
    case ModelRef(id) => id < |env| && env[id].Success?
    case UnionT(args) => (IsOptional(a) || IsUnion(a)) && AllReadable(env, NonNone(args))
    case ListT(arg) => arg.Some? && Readable(env, arg.value)
    case _ => a in {IntT, FloatT, StrT}
  }

  predicate AllReadable(env: Env, ms: seq<Ann>)
    decreases ArmsSize(ms), 2
  {
    |ms| == 0 || (Readable(env, ms[0]) && AllReadable(env, ms[1..]))
  }

  /** Inference finds a parser exactly for the readable annotations; on any
      other it answers `None` or raises. */
  lemma {:induction false} InferFindsReadable(env: Env, a: Ann)
    ensures Found(Infer(env, a)) <==> Readable(env, a)
    decreases AnnSize(a), 1
  {
    if a.UnionT? && |NonNone(a.args)| == 1 && IsOptional(a) {
      OneArmReadable(env, a);
    } else if a.UnionT? && IsOptional(a) {
      OptionalArmsReadable(env, a);
    } else if a.UnionT? && IsUnion(a) {
      UnionArmsReadable(env, a);
    } else if a.ListT? {
      ListReadable(env, a);
    } else {
      LeafReadable(env, a);
    }
  }

  /** The cases without recursion: scalars, literals, models and the rest. */
  lemma LeafReadable(env: Env, a: Ann)
    requires !a.ListT? && !(a.UnionT? && (IsOptional(a) || IsUnion(a)))
    ensures Found(Infer(env, a)) <==> Readable(env, a)
  {
    if a.Lit? {
      LitReadable(env, a);
    } else if !a.ModelRef? {
      assert Infer(env, a) == Scalar(a);
    }
  }

  /** A `Literal` is readable when it lists strings only, and at least one. */
  lemma LitReadable(env: Env, a: Ann)
    requires a.Lit?
    ensures Found(Infer(env, a)) <==> Readable(env, a)
  {
    assert Infer(env, a) == LiteralChoice(a.values, TypeError("Literal types currently only support string values"));
  }

  /** A list is readable when its element is. */
  lemma {:induction false} ListReadable(env: Env, a: Ann)
    requires a.ListT?
    ensures Found(Infer(env, a)) <==> Readable(env, a)
    decreases AnnSize(a), 0
  {
    assert Infer(env, a) == ListParser(env, a);
    if a.arg.Some? {
      InferFindsReadable(env, a.arg.value);
    }
  }

  /** An optional with one member is that member, made optional. */
  lemma {:induction false} OneArmReadable(env: Env, a: Ann)
    requires a.UnionT? && IsOptional(a) && |NonNone(a.args)| == 1
    ensures Found(Infer(env, a)) <==> Readable(env, a)
    decreases AnnSize(a), 0
  {
    var nn := NonNone(a.args);
    assert Infer(env, a) == OptionalOf(env, a);
    InferFindsReadable(env, nn[0]);
    assert AllReadable(env, nn[1..]);
  }

  /** An optional with several members reads through the union builder. */
  lemma {:induction false} OptionalArmsReadable(env: Env, a: Ann)
    requires a.UnionT? && IsOptional(a) && |NonNone(a.args)| > 1
    ensures Found(Infer(env, a)) <==> Readable(env, a)
    decreases AnnSize(a), 0
  {
    var nn := NonNone(a.args);
    NonNoneKeepsAll(nn);
    UnionArms(env, nn);
    assert Infer(env, a) == OptionalOf(env, a);
    UnionOfReadable(env, nn);
  }

  /** A union without `None` goes to the union builder. */
  lemma {:induction false} UnionArmsReadable(env: Env, a: Ann)
    requires a.UnionT? && !IsOptional(a) && IsUnion(a)
    ensures Found(Infer(env, a)) <==> Readable(env, a)
    decreases AnnSize(a), 0
  {
    assert Infer(env, a) == UnionOf(env, NonNone(a.args));
    UnionOfReadable(env, NonNone(a.args));
  }

  /** The union builder finds a parser exactly when every member is readable. */
  lemma {:induction false} UnionOfReadable(env: Env, ms: seq<Ann>)
    requires |ms| > 0
    ensures Found(UnionOf(env, ms)) <==> AllReadable(env, ms)
    decreases ArmsSize(ms), 3
  {
    UnionFound(env, ms);
    EachReadable(env, ms);
  }

  /** Every member is readable exactly when the classifier finds a parser for each. */
  lemma {:induction false} EachReadable(env: Env, ms: seq<Ann>)
    ensures AllReadable(env, ms) <==> forall k :: 0 <= k < |ms| ==> Found(Infer(env, ms[k]))
    decreases ArmsSize(ms), 2
  {
    if |ms| > 0 {
      InferFindsReadable(env, ms[0]);
      EachReadable(env, ms[1..]);
      assert forall k :: 1 <= k < |ms| ==> ms[1..][k - 1] == ms[k];
    }
  }

  // ---------------------------------------------------------------------------
  // How a `Literal` choice reads

  predicate OccursAt(t: string, s: string, i: nat) {
    i + |t| <= |s| && s[i..i + |t|] == t
  }

  /** The first listed literal that occurs at the cursor. */
  function FirstMatch(vs: seq<string>, s: string, i: nat): (r: Option<nat>)
    ensures r.None? <==> forall k :: 0 <= k < |vs| ==> !OccursAt(vs[k], s, i)
    ensures r.Some? ==> r.value < |vs| && OccursAt(vs[r.value], s, i)
                        && forall j :: 0 <= j < r.value ==> !OccursAt(vs[j], s, i)
  {
    if |vs| == 0 then None
    else if OccursAt(vs[0], s, i) then Some(0)
    else
      match FirstMatch(vs[1..], s, i)
      case None =>
        assert forall k :: 1 <= k < |vs| ==> vs[k] == vs[1..][k - 1];
        None
      case Some(k) =>
        assert forall j :: 1 <= j <= k ==> vs[j] == vs[1..][j - 1];
        Some(k + 1)
  }

  /** The alternation of literals reads the first listed literal that occurs
      at the cursor; when none does it fails there, expecting all of them. */
  lemma {:induction false} LiteralChoiceReads(h: Terms.Host, vs: seq<string>, s: string, i: nat)
    requires |vs| > 0 && i <= |s|
    ensures ChoiceReads(h, P.OrAll(Literals(vs)).term, vs, s, i)
    decreases |vs|
  {
    if |vs| == 1 {
      OneChoiceReads(h, vs, s, i);
    } else {
      LiteralChoiceReads(h, vs[..|vs| - 1], s, i);
      ChoiceExtends(h, vs, s, i);
    }
  }

  /** A choice of one literal reads as that literal. */
  lemma OneChoiceReads(h: Terms.Host, vs: seq<string>, s: string, i: nat)
    requires |vs| == 1 && i <= |s|
    ensures ChoiceReads(h, P.OrAll(Literals(vs)).term, vs, s, i)
  {
    Pr.LiteralReads(h, vs[0], s, i);
    assert (set x | x in vs) == {vs[0]};
  }

  /** The choice of `vs` reads as the choice of all but the last literal,
      then the last. */
  lemma ChoiceExtends(h: Terms.Host, vs: seq<string>, s: string, i: nat)
    requires |vs| > 1 && i <= |s|
    requires ChoiceReads(h, P.OrAll(Literals(vs[..|vs| - 1])).term, vs[..|vs| - 1], s, i)
    ensures ChoiceReads(h, P.OrAll(Literals(vs)).term, vs, s, i)
  {
    var front := vs[..|vs| - 1];
    var last := vs[|vs| - 1];
    OrAllSplits(vs);
    SplitLast(vs);
    ChoiceStep(h, front, last, P.OrAll(Literals(front)).term, vs, P.OrAll(Literals(vs)).term, s, i);
  }

  /** A nonempty sequence is its front followed by its last element. */
  lemma SplitLast(vs: seq<string>)
    requires |vs| > 0
    ensures vs == vs[..|vs| - 1] + [vs[|vs| - 1]]
  {
  }

  /** What the parser `t` reads at `i` when it is the choice of `vs`. */
  predicate ChoiceReads(h: Terms.Host, t: Terms.Term, vs: seq<string>, s: string, i: nat)
    requires i <= |s|
  {
    var r := Terms.Run(h, t, s, i);
    match FirstMatch(vs, s, i)
    case Some(k) => r == Terms.Ok(VStr(vs[k]), i + |vs[k]|)
    case None => r == Terms.Err(i, set x | x in vs)
  }

  /** Adding a literal at the end of a choice keeps what it reads when an
      earlier literal occurs, reads the new one when only it occurs, and
      otherwise fails expecting one more. */
  lemma ChoiceStep(h: Terms.Host, front: seq<string>, last: string, a: Terms.Term, vs: seq<string>, t: Terms.Term, s: string, i: nat)
    requires i <= |s| && ChoiceReads(h, a, front, s, i)
    requires vs == front + [last] && t == Terms.Alt(a, Terms.Str(last))
    ensures ChoiceReads(h, t, vs, s, i)
  {
    FirstMatchExtends(front, last, s, i);
    if FirstMatch(front, s, i).Some? {
      ChoiceInFront(h, front, last, a, s, i);
    } else if OccursAt(last, s, i) {
      ChoiceIsLast(h, front, last, a, s, i);
    } else {
      ChoiceNone(h, front, last, a, s, i);
    }
  }

  lemma ChoiceInFront(h: Terms.Host, front: seq<string>, last: string, a: Terms.Term, s: string, i: nat)
    requires i <= |s| && ChoiceReads(h, a, front, s, i)
    requires FirstMatch(front, s, i).Some?
    requires FirstMatch(front + [last], s, i) == FirstMatch(front, s, i)
    ensures ChoiceReads(h, Terms.Alt(a, Terms.Str(last)), front + [last], s, i)
  {
    var k := FirstMatch(front, s, i).value;
    assert (front + [last])[k] == front[k];
    assert Terms.Run(h, Terms.Alt(a, Terms.Str(last)), s, i) == Terms.RunAlt(h, a, Terms.Str(last), s, i);
  }

  lemma ChoiceIsLast(h: Terms.Host, front: seq<string>, last: string, a: Terms.Term, s: string, i: nat)
    requires i <= |s| && ChoiceReads(h, a, front, s, i)
    requires FirstMatch(front, s, i).None? && OccursAt(last, s, i)
    requires FirstMatch(front + [last], s, i) == Some(|front|)
    ensures ChoiceReads(h, Terms.Alt(a, Terms.Str(last)), front + [last], s, i)
  {
    Pr.LiteralReads(h, last, s, i);
    assert Terms.Run(h, Terms.Str(last), s, i) == Terms.Ok(VStr(last), i + |last|);
    assert (front + [last])[|front|] == last;
    assert Terms.Run(h, Terms.Alt(a, Terms.Str(last)), s, i) == Terms.RunAlt(h, a, Terms.Str(last), s, i);
  }

  lemma ChoiceNone(h: Terms.Host, front: seq<string>, last: string, a: Terms.Term, s: string, i: nat)
    requires i <= |s| && ChoiceReads(h, a, front, s, i)
    requires FirstMatch(front, s, i).None? && !OccursAt(last, s, i)
    requires FirstMatch(front + [last], s, i).None?
    ensures ChoiceReads(h, Terms.Alt(a, Terms.Str(last)), front + [last], s, i)
  {
    Pr.LiteralReads(h, last, s, i);
    assert Terms.Run(h, a, s, i) == Terms.Err(i, set x | x in front);
    C.AltMerges(h, a, Terms.Str(last), s, i, set x | x in front, {last});
    ElementsSnoc(front + [last], front, last);
  }

  lemma ElementsSnoc(vs: seq<string>, front: seq<string>, last: string)
    requires |vs| > 0 && front == vs[..|vs| - 1] && last == vs[|vs| - 1]
    ensures (set x | x in vs) == (set x | x in front) + {last}
  {
    assert vs == front + [last];
  }

  lemma OrAllSplits(vs: seq<string>)
    requires |vs| > 1
    ensures P.OrAll(Literals(vs)).term
            == Terms.Alt(P.OrAll(Literals(vs[..|vs| - 1])).term, Terms.Str(vs[|vs| - 1]))
  {
    assert Literals(vs)[..|vs| - 1] == Literals(vs[..|vs| - 1]);
  }

  /** Appending a literal changes the first match only when none matched before. */
  lemma FirstMatchExtends(front: seq<string>, last: string, s: string, i: nat)
    ensures FirstMatch(front, s, i).Some? ==> FirstMatch(front + [last], s, i) == FirstMatch(front, s, i)
    ensures FirstMatch(front, s, i).None? ==>
              FirstMatch(front + [last], s, i) == (if OccursAt(last, s, i) then Some(|front|) else None)
  {
    var vs := front + [last];
    assert forall k :: 0 <= k < |front| ==> vs[k] == front[k];
    assert vs[|front|] == last;
  }

  /** Each listed literal reads back as itself when no literal listed before
      it is a proper prefix of it. */
  lemma LiteralChoiceRoundTrip(h: Terms.Host, vs: seq<string>, k: nat)
    requires k < |vs|
    requires forall j :: 0 <= j < k ==> !(|vs[j]| < |vs[k]| && vs[k][..|vs[j]|] == vs[j])
    ensures Terms.Parse(h, P.OrAll(Literals(vs)).term, vs[k]) == Terms.Ok(VStr(vs[k]), |vs[k]|)
  {
    var t := vs[k];
    LiteralChoiceReads(h, vs, t, 0);
    assert t[0..|t|] == t;
    var m := FirstMatch(vs, t, 0);
    assert m.Some? && m.value <= k;
    assert |vs[m.value]| == |t| by {
      if m.value < k {
        assert t[0..|vs[m.value]|] == vs[m.value];
      }
    }
    assert vs[m.value] == t[0..|t|];
  }

  /** Without backtracking into the choice, an earlier literal that is a
      prefix shadows a later one: `Literal["a", "ab"]` cannot parse `"ab"`. */
  lemma LiteralPrefixShadows(h: Terms.Host)
    ensures Terms.Parse(h, P.OrAll(Literals(["a", "ab"])).term, "ab").Err?
  {
    var vs := ["a", "ab"];
    LiteralChoiceReads(h, vs, "ab", 0);
    assert OccursAt(vs[0], "ab", 0) by {
      assert "ab"[0..1] == "a";
    }
  }

  /** A nested model is read by its dict parser and validated, and written
      by `to_text`; a nested codec that cannot be built makes the field raise
      what building it raised. */
  lemma NestedModel(env: Env, id: nat)
    ensures id < |env| && env[id].Success? ==> Infer(env, ModelRef(id)) == Success(Some(NestedParser(env[id].value)))
    ensures id < |env| && env[id].Failure? ==> Infer(env, ModelRef(id)) == Failure(env[id].error)
    ensures id >= |env| ==> Infer(env, ModelRef(id)) == Success(None)
  {
  }
}

=== FILE: models.dfy ===
/** `ParsableModel` of `models.py`: the parser cache keyed by the exact model
    class, `parse` with its conversion of parser failures, and the default
    `_build_parser`. Classes are numbered; what a class's `_build_parser`
    does is a parameter. */
module Models {
  import opened Wrappers
  import opened Values
  import Terms
  import E = Errors
  import Chars
  import StrOrder

  /** What `cls._build_parser()` does for each class: a parser, or the
      message of the exception it raises. */
  type Builder = nat -> Result<Terms.Term, string>

  /** The cache, `_parser_cache`, and how many times each class's parser
      has been built. */
  datatype State = State(cache: map<nat, Terms.Term>, builds: map<nat, nat>)

  const Empty := State(map[], map[])

  function Builds(st: State, c: nat): nat {
    if c in st.builds then st.builds[c] else 0
  }

  /** `_get_parser`: the cached parser of exactly this class, or a freshly
      built one, which is then cached. A build that raises caches nothing. */
  function GetParser(st: State, build: Builder, c: nat): (r: (Result<Terms.Term, string>, State))
    ensures c in st.cache ==> r == (Success(st.cache[c]), st)
    ensures c !in st.cache ==> r.0 == build(c) && Builds(r.1, c) == Builds(st, c) + 1
    ensures c !in st.cache && build(c).Success? ==> r.1.cache == st.cache[c := build(c).value]
    ensures c !in st.cache && build(c).Failure? ==> r.1.cache == st.cache
    ensures forall d :: d != c ==> Builds(r.1, d) == Builds(st, d)
  {
    if c in st.cache then (Success(st.cache[c]), st)
    else
      var built := State(st.cache, st.builds[c := Builds(st, c) + 1]);
      match build(c)
      case Failure(e) => (Failure(e), built)
      case Success(p) => (Success(p), built.(cache := st.cache[c := p]))
  }

  /** `del ParsableModel._parser_cache[cls]`. */
  function Remove(st: State, c: nat): (r: State)
    ensures c !in r.cache
    ensures forall d :: d != c ==> (d in r.cache <==> d in st.cache) && (d in st.cache ==> r.cache[d] == st.cache[d])
    ensures r.builds == st.builds
  {
    st.(cache := st.cache - {c})
  }

  /** `_get_parser` called for each class of `calls`, in order. */
  function GetAll(st: State, build: Builder, calls: seq<nat>): State
    decreases |calls|
  {
    if |calls| == 0 then st else GetAll(GetParser(st, build, calls[0]).1, build, calls[1..])
  }

  /** The cache holds what the builder built: every cached parser is its
      class's own, and a class is built once for each time it was found
      missing. */
  predicate Faithful(st: State, build: Builder) {
    forall c :: c in st.cache ==> build(c) == Success(st.cache[c])
  }

  /** However often and in whatever order parsers are asked for, starting
      from an empty cache with builders that succeed, each class asked for
      is built exactly once and its own parser is cached; no other class is
      built. */
  lemma {:induction false} BuiltOncePerClass(st: State, build: Builder, calls: seq<nat>)
    requires forall c :: build(c).Success?
    requires Faithful(st, build)
    requires forall c :: Builds(st, c) == (if c in st.cache then 1 else 0)
    ensures var end := GetAll(st, build, calls);
            && Faithful(end, build)
            && (forall c :: Builds(end, c) == (if c in st.cache || c in calls then 1 else 0))
            && (forall c :: c in end.cache <==> c in st.cache || c in calls)
    decreases |calls|
  {
    if |calls| > 0 {
      var next := GetParser(st, build, calls[0]).1;
      BuiltOncePerClass(next, build, calls[1..]);
      forall c
        ensures (c in next.cache || c in calls[1..]) <==> (c in st.cache || c in calls)
      {
        assert c in calls <==> c == calls[0] || c in calls[1..];
      }
    }
  }

  /** Once an entry is removed, the next request rebuilds it exactly once,
      and the one after finds it cached. */
  lemma RemovedIsRebuiltOnce(st: State, build: Builder, c: nat)
    requires build(c).Success?
    ensures var (r1, s1) := GetParser(Remove(st, c), build, c);
            var (r2, s2) := GetParser(s1, build, c);
            && r1 == build(c) && r2 == build(c)
            && Builds(s1, c) == Builds(st, c) + 1
            && Builds(s2, c) == Builds(st, c) + 1
  {
  }

  /** A subclass and its parent are different keys: building one leaves
      the other's entry as it was. */
  lemma ExactClassKeys(st: State, build: Builder, c: nat, d: nat)
    requires c != d
    ensures var s1 := GetParser(st, build, c).1;
            && (d in s1.cache <==> d in st.cache)
            && (d in st.cache ==> s1.cache[d] == st.cache[d])
            && Builds(s1, d) == Builds(st, d)
  {
  }

  // ---------------------------------------------------------------------------
  // Parsing

  /** Why `cls.parse(text)` produced no instance. */
  datatype Problem =
    /** `_build_parser` raised; the exception propagates. */
    | NotBuilt(message: string)
    /** The parser failed; the failure is converted to a `ParseError`. */
    | Rejected(error: E.ParseError)
    /** An exception other than a parse failure escaped from the parser. */
    | Escaped(message: string)
    /** `model_validate` raised; its error is not wrapped. */
    | Invalid(message: string)
    /** The parser loops forever. */
    | Hangs

  /** The parse failure as the exception parsy raises: its index and its
      set of expectations. */
  function RaisedOf(pos: nat, expected: set<string>): E.Raised {
    E.Raised(Some(pos), Some(E.ExpectedSet(expected)), "")
  }

  /** `ParsableModel.parse`: get the parser, parse the whole text, convert
      a parse failure, validate the value. A failure at `pos` becomes a
      `ParseError` at that index whose expectation is the sorted
      expectations joined with `", "`, at the line and column of the index;
      a value read whole goes to validation, whose failure is passed on as
      it is. */
  function Parse(h: Terms.Host, st: State, build: Builder, cls: string, c: nat, text: string): (r: (Result<Value, Problem>, State))
    ensures r.1 == GetParser(st, build, c).1
    ensures GetParser(st, build, c).0.Failure? ==> r.0 == Failure(NotBuilt(GetParser(st, build, c).0.error))
    ensures GetParser(st, build, c).0.Success? ==>
              var reply := Terms.Parse(h, GetParser(st, build, c).0.value, text);
              && (reply.Err? ==>
                    && r.0.Failure? && r.0.error.Rejected?
                    && r.0.error.error.text == text
                    && r.0.error.error.index == reply.pos
                    && r.0.error.error.expected == Chars.Join(", ", StrOrder.Sorted(reply.expected))
                    && (r.0.error.error.line, r.0.error.error.column) == E.LineColumn(text, reply.pos))
              && (reply.Ok? && h.validate(cls, reply.value).Success? ==> r.0 == Success(h.validate(cls, reply.value).value))
              && (reply.Ok? && h.validate(cls, reply.value).Failure? ==> r.0 == Failure(Invalid(h.validate(cls, reply.value).error)))
  {
    var (got, st1) := GetParser(st, build, c);
    match got
    case Failure(e) => (Failure(NotBuilt(e)), st1)
    case Success(p) =>
      match Terms.Parse(h, p, text)
      case Err(pos, expected) =>
        var exc := RaisedOf(pos, expected);
        (Failure(Rejected(E.Make(text, E.IndexOf(exc), E.ExpectedString(exc)))), st1)
      case Stop(Raises(msg)) => (Failure(Escaped(msg)), st1)
      case Stop(Diverges) => (Failure(Hangs), st1)
      case Ok(v, _) =>
        match h.validate(cls, v)
        case Success(m) => (Success(m), st1)
        case Failure(msg) => (Failure(Invalid(msg)), st1)
  }

  /** Parsing twice builds the parser once. */
  lemma ParseBuildsOnce(h: Terms.Host, build: Builder, cls: string, c: nat, t1: string, t2: string)
    requires build(c).Success?
    ensures var s1 := Parse(h, Empty, build, cls, c, t1).1;
            var s2 := Parse(h, s1, build, cls, c, t2).1;
            Builds(s1, c) == 1 && Builds(s2, c) == 1 && s2.cache == map[c := build(c).value]
  {
  }

  // ---------------------------------------------------------------------------
  // The default builder

  const NotImplementedMessage := "NotImplementedError: Parser generation for ParsableModel subclasses is not implemented yet. "
                                 + "Override ``_build_parser`` on the model class or implement "
                                 + "generator-based construction in later steps."

  /** `ParsableModel._build_parser`: always raises. */
  function DefaultBuild(c: nat): (r: Result<Terms.Term, string>)
    ensures r == Failure(NotImplementedMessage)
  {
    Failure(NotImplementedMessage)
  }

  /** With the default builder, parsing any text raises the same
      `NotImplementedError` every time and never caches a parser, so each
      attempt builds again. */
  lemma DefaultNeverParses(h: Terms.Host, st: State, cls: string, c: nat, text: string)
    requires c !in st.cache
    ensures var (r, s1) := Parse(h, st, DefaultBuild, cls, c, text);
            && r == Failure(NotBuilt(NotImplementedMessage))
            && s1.cache == st.cache
            && Builds(s1, c) == Builds(st, c) + 1
  {
  }
}

=== FILE: parse_error.dfy ===
/** The `ParseError` of `errors/parse_error.py`: the same position
    translation, a message that may name the field, a pydantic-style error
    dict, and the conversion from a raised parser error. */
module FieldErrors {
  import opened Wrappers
  import opened Chars
  import Decimal
  import Positions
  import E = Errors

  datatype ParseError = ParseError(text: string, index: int, expected: string, fieldName: Option<string>,
                                   line: int, column: int)

  /** `ParseError(text, index, expected, field_name)`. */
  function Make(text: string, index: int, expected: string, fieldName: Option<string>): (e: ParseError)
    ensures e.text == text && e.index == index && e.expected == expected && e.fieldName == fieldName
    ensures (e.line, e.column) == E.LineColumn(text, index)
  {
    var (line, column) := E.LineColumn(text, index);
    ParseError(text, index, expected, fieldName, line, column)
  }

  /** The field name is shown only when it is given and not empty. */
  predicate NamesField(e: ParseError) {
    e.fieldName.Some? && e.fieldName.value != ""
  }

  function FieldPart(e: ParseError): string {
    if NamesField(e) then " (field '" + e.fieldName.value + "')" else ""
  }

  /** The first line of the message. */
  function Header(e: ParseError): string {
    "Parse error at line " + Decimal.IntToStr(e.line) + ", column " + Decimal.IntToStr(e.column)
    + FieldPart(e) + ": expected " + e.expected
  }

  /** The context and caret lines are printed only when the text is not
      empty and the error line is one of its lines. */
  predicate ShowsContext(e: ParseError) {
    e.text != "" && 0 <= e.line - 1 < |Positions.Lines(e.text)|
  }

  /** `str(error)`: the header, then the context line and the caret, joined
      with newlines. */
  function Str(e: ParseError): (r: string)
    ensures !ShowsContext(e) ==> r == Header(e)
    ensures ShowsContext(e) ==> r == Header(e) + "\n" + Positions.Lines(e.text)[e.line - 1] + "\n" + E.Caret(e.column)
  {
    if ShowsContext(e) then
      Header(e) + "\n" + Positions.Lines(e.text)[e.line - 1] + "\n" + E.Caret(e.column)
    else Header(e)
  }

  /** The `ctx` entry of the error dict. */
  datatype Ctx = Ctx(line: int, column: int, expected: string)

  /** `error_dict()`: the keys `type`, `loc`, `msg`, `input` and `ctx`. */
  datatype ErrorDict = ErrorDict(kind: string, loc: seq<string>, msg: string, input: string, ctx: Ctx)

  function ErrorDictOf(e: ParseError): (d: ErrorDict)
    ensures d.kind == "parse_error"
    ensures NamesField(e) ==> d.loc == [e.fieldName.value]
    ensures !NamesField(e) ==> d.loc == []
    ensures d.input == e.text && d.msg == Str(e)
    ensures d.ctx == Ctx(e.line, e.column, e.expected)
  {
    ErrorDict("parse_error", if NamesField(e) then [e.fieldName.value] else [], Str(e), e.text,
              Ctx(e.line, e.column, e.expected))
  }

  /** `convert_parsy_error`: index 0 when the exception has none, the
      expectations sorted and joined, and the field name passed through. */
  function Convert(exc: E.Raised, text: string, fieldName: Option<string>): (e: ParseError)
    ensures e.text == text && e.fieldName == fieldName
    ensures e.index == E.IndexOf(exc) && e.expected == E.ExpectedString(exc)
    ensures (e.line, e.column) == E.LineColumn(text, e.index)
  {
    Make(text, E.IndexOf(exc), E.ExpectedString(exc), fieldName)
  }

  /** With context, the message's second line is the input line holding the
      error index, and its caret sits under the character at that index. */
  lemma ContextIsErrorLine(e: ParseError)
    requires e == Make(e.text, e.index, e.expected, e.fieldName)
    requires e.text != "" && Positions.OnALine(e.text, E.Clamp(e.text, e.index))
    ensures ShowsContext(e)
    ensures var c := E.Clamp(e.text, e.index);
            var lineText := Positions.Lines(e.text)[e.line - 1];
            && lineText == e.text[Positions.LineStartOf(e.text, c)..Positions.NextNewline(e.text, c)]
            && (c < Positions.NextNewline(e.text, c) ==> lineText[e.column - 1] == e.text[c])
  {
    E.CaretPointsAtIndex(e.text, e.index);
    Positions.LineOfIndex(e.text, E.Clamp(e.text, e.index));
  }

  /** The header names the field exactly when a non-empty field name is
      given: the field part is inserted after the position, and nothing else
      changes. */
  lemma HeaderNamesField(e: ParseError, name: string)
    requires name != ""
    ensures exists front, back ::
              && Header(e.(fieldName := None)) == front + back
              && Header(e.(fieldName := Some(name))) == front + " (field '" + name + "')" + back
    ensures Header(e.(fieldName := Some(""))) == Header(e.(fieldName := None))
  {
    var front := "Parse error at line " + Decimal.IntToStr(e.line) + ", column " + Decimal.IntToStr(e.column);
    var back := ": expected " + e.expected;
    var e0, e1 := e.(fieldName := None), e.(fieldName := Some(name));
    HeaderAround(e0, front, back);
    HeaderAround(e1, front, back);
    assert FieldPart(e0) == "" && front + "" == front;
    assert front + FieldPart(e1) == front + " (field '" + name + "')" by {
      Assoc(front, " (field '" + name, "')");
      Assoc(front, " (field '", name);
    }
    assert Header(e0) == front + back;
  }

  /** The header is the position, the field part and the expectation. */
  lemma HeaderAround(e: ParseError, front: string, back: string)
    requires front == "Parse error at line " + Decimal.IntToStr(e.line) + ", column " + Decimal.IntToStr(e.column)
    requires back == ": expected " + e.expected
    ensures Header(e) == front + FieldPart(e) + back
  {
    Assoc(front + FieldPart(e), ": expected ", e.expected);
  }

  /** Where the two error classes differ: at the end of a text that ends
      with a newline there is no line to show; `errors.py` still prints an
      empty context line and a caret, this class prints only its header. */
  lemma TrailingNewlineDiffers()
    ensures var e := Make("ab\n", 3, "x", None);
            && e.line == 2 && e.column == 1
            && !ShowsContext(e)
            && Str(e) == Header(e)
            && E.ContextLine("ab\n", 2) == ""
  {
    var t := "ab\n";
    assert Positions.LastNewline(t, 3) == 2;
    assert Positions.NewlinesBefore(t, 3) == 1 by {
      Positions.NewlinesFlat(t, 0, 2);
    }
    assert Positions.NextNewline(t, 0) == 2;
    assert Positions.LinesFrom(t, 0) == [t[0..2]];
    assert t[0..2] == "ab";
    assert Positions.Lines(t) == ["ab"];
  }
}

=== FILE: parser_builder.dfy ===
/** The model-parser builder of `model/parser_builder.py`: a field's
    annotation taken from the type hints unless the hint is missing or
    unresolved, a parser for it from the classifier the `inference` package
    exports, and the field parsers combined with whitespace between them,
    whatever the model's configuration says. */
module ParserBuilder {
  import opened Wrappers
  import opened Values
  import Terms
  import P = ParserV1
  import F = Formatters
  import Pr = Primitives
  import opened Annotations
  import I = Inference
  import Container
  import Codec

  /** What `get_type_hints` gives for a field: nothing (also when it raised),
      an unresolved forward reference, or an annotation. */
  datatype Hint = NoHint | Unresolved(text: string) | Resolved(a: Ann)

  /** A field: its name, its type hint as written (before `get_type_hints`
      drops the `Annotated` extras), and its declared annotation, from which
      pydantic records `field_info.annotation`. */
  datatype BuilderField = BuilderField(name: string, hint: Hint, annotation: Ann)

  /** The annotation classified: the hint when it is resolved, stripped of
      every `Annotated` since the hints are taken without `include_extras`;
      else the annotation pydantic records. */
  function AnnotationOf(f: BuilderField): (r: Ann)
    ensures !r.AnnotatedT?
    ensures f.hint.Resolved? ==> r == StripExtras(f.hint.a)
    ensures !f.hint.Resolved? ==> r == Unannotated(f.annotation)
  {
    if f.hint.Resolved? then StripExtras(f.hint.a) else Unannotated(f.annotation)
  }

  /** The builder never uses an explicit `Parsed` parser for a field: no
      source of its annotation keeps the marker at the top, and a resolved
      hint keeps no `Annotated` anywhere. */
  lemma BuilderDropsMarkers(f: BuilderField)
    ensures ExtractParser(AnnotationOf(f)) == None
    ensures f.hint.Resolved? ==> Bare(AnnotationOf(f))
    ensures f.hint.Resolved? && Bare(f.hint.a) ==> AnnotationOf(f) == f.hint.a
  {
    if f.hint.Resolved? {
      StripExtrasIsBare(f.hint.a);
    }
  }

  const Advice := ". Use Parsed[T, parser] to specify explicit parser."

  /** The `TypeError` for a field without a parser; it ends with advice
      the codec's message does not give. */
  function NoParser(f: BuilderField): string {
    "TypeError: Cannot generate parser for field '" + f.name + "' with type " + TypeName(AnnotationOf(f)) + Advice
  }

  /** The field parsers in declaration order; the first field that raises
      or has no parser stops the build. */
  function BuildFieldParsers(fs: seq<BuilderField>): (r: Result<seq<Codec.FieldParser>, string>)
    ensures r.Success? ==> |r.value| == |fs|
    ensures r.Success? ==> forall j :: 0 <= j < |fs| ==>
              && Container.GetParserForField(AnnotationOf(fs[j])).Success?
              && Container.GetParserForField(AnnotationOf(fs[j])).value.Some?
              && r.value[j] == Codec.FieldParser(fs[j].name, Container.GetParserForField(AnnotationOf(fs[j])).value.value)
    decreases |fs|
  {
    if |fs| == 0 then Success([])
    else
      match Container.GetParserForField(AnnotationOf(fs[0]))
      case Failure(e) => Failure(e)
      case Success(None) => Failure(NoParser(fs[0]))
      case Success(Some(p)) =>
        var rest := BuildFieldParsers(fs[1..]);
        assert forall j :: 1 <= j < |fs| ==> fs[j] == fs[1..][j - 1];
        if rest.Failure? then rest else Success([Codec.FieldParser(fs[0].name, p)] + rest.value)
  }

  /** `_combine_field_parsers`: `{}` without reading when there are no
      parsers; otherwise the first parser, then whitespace and the next
      parser for each later one, read in sequence and mapped to the dict of
      the values at even positions. */
  method CombineFieldParsers(fps: seq<Codec.FieldParser>) returns (p: P.Parser)
    ensures |fps| == 0 ==> p.term == Terms.Succeed(VDict([]))
    ensures |fps| > 0 ==> p.term == Terms.Map(Terms.Seq(Codec.Interleave(Codec.FieldTerms(fps), Pr.Whitespace().term)),
                                              Terms.EvenFieldsToDict(Codec.Names(fps)))
    ensures p.fmt == F.FStr
  {
    if |fps| == 0 {
      return P.Make(Terms.Succeed(VDict([])), None);
    }
    var ws := Pr.Whitespace().term;
    var parsers := [fps[0].parser.term];
    var j := 1;
    while j < |fps|
      invariant 1 <= j <= |fps|
      invariant |parsers| == 2 * j - 1
      invariant forall k :: 0 <= k < j ==> parsers[2 * k] == fps[k].parser.term
      invariant forall k :: 0 <= k < j - 1 ==> parsers[2 * k + 1] == ws
    {
      parsers := parsers + [ws, fps[j].parser.term];
      j := j + 1;
    }
    InterleavedByPositions(parsers, Codec.FieldTerms(fps), ws);
    p := P.Make(Terms.Map(Terms.Seq(parsers), Terms.EvenFieldsToDict(Codec.Names(fps))), None);
  }

  /** A sequence holding the parsers at even positions and the separator
      between them is their interleaving. */
  lemma InterleavedByPositions(ps: seq<Terms.Term>, ts: seq<Terms.Term>, sep: Terms.Term)
    requires |ts| > 0 && |ps| == 2 * |ts| - 1
    requires forall k :: 0 <= k < |ts| ==> ps[2 * k] == ts[k]
    requires forall k :: 0 <= k < |ts| - 1 ==> ps[2 * k + 1] == sep
    ensures ps == Codec.Interleave(ts, sep)
  {
    var want := Codec.Interleave(ts, sep);
    forall m | 0 <= m < |ps|
      ensures ps[m] == want[m]
    {
      var k := m / 2;
      if m % 2 == 0 {
        assert m == 2 * k && ps[2 * k] == want[2 * k];
      } else {
        assert m == 2 * k + 1 && ps[2 * k + 1] == want[2 * k + 1];
      }
    }
  }

  /** `build_model_parser`. */
  method BuildModelParser(fs: seq<BuilderField>) returns (r: Result<P.Parser, string>)
    ensures |fs| == 0 ==> r.Success? && r.value.term == Terms.Succeed(VDict([]))
    ensures r.Success? <==> BuildFieldParsers(fs).Success?
    ensures r.Failure? ==> r.error == BuildFieldParsers(fs).error
    ensures r.Success? ==> r.value == Codec.Combined(BuildFieldParsers(fs).value, Pr.Whitespace().term)
  {
    if |fs| == 0 {
      return Success(P.Make(Terms.Succeed(VDict([])), None));
    }
    var built := BuildFieldParsers(fs);
    if built.Failure? {
      return Failure(built.error);
    }
    var p := CombineFieldParsers(built.value);
    return Success(p);
  }

  // ---------------------------------------------------------------------------
  // The builder and the codec

  /** The fields as the codec sees them, with the annotation the builder
      classifies and no description. */
  function CodecFields(fs: seq<BuilderField>): (r: seq<Codec.Field>)
    ensures |r| == |fs| && forall j :: 0 <= j < |fs| ==> r[j] == Codec.Field(fs[j].name, AnnotationOf(fs[j]), "")
  {
    seq(|fs|, j requires 0 <= j < |fs| => Codec.Field(fs[j].name, AnnotationOf(fs[j]), ""))
  }

  /** With the chained classifier, the builder and the codec build the same
      field parsers and fail on the same field; where the field has no
      parser the builder's message is the codec's followed by the advice. */
  lemma {:induction false} FieldsAsInCodec(env: I.Env, fs: seq<BuilderField>)
    ensures var b := BuildFieldParsers(fs);
            var c := Codec.BuildFields(Codec.Chained, env, CodecFields(fs));
            && (b.Success? <==> c.Success?)
            && (b.Success? ==> b.value == c.value)
            && (b.Failure? ==> b.error == c.error || b.error == c.error + Advice)
    decreases |fs|
  {
    if |fs| > 0 {
      var cf := CodecFields(fs);
      assert cf[1..] == CodecFields(fs[1..]);
      assert cf[0] == Codec.Field(fs[0].name, AnnotationOf(fs[0]), "");
      FieldsAsInCodec(env, fs[1..]);
    }
  }

  /** The builder's parser is the codec's combined parser of the same
      fields when the codec reads whitespace between fields. */
  lemma BuilderIsCodec(env: I.Env, fs: seq<BuilderField>, sc: Codec.Schema)
    requires sc.fields == CodecFields(fs) && sc.decodeSep == Pr.Whitespace().term
    ensures BuildFieldParsers(fs).Success? <==> Codec.Build(Codec.Chained, env, sc).Success?
    ensures BuildFieldParsers(fs).Success? ==>
              Codec.Combined(BuildFieldParsers(fs).value, Pr.Whitespace().term)
              == Codec.Build(Codec.Chained, env, sc).value.combined
  {
    FieldsAsInCodec(env, fs);
  }
}

=== FILE: parser_v1.dfy ===
/** The bidirectional `Parser` wrapper of `core/parser.py`: a parsy parser
    paired with a formatter that is never empty (`formatter or str`).
    Composite parsers keep the receiver's formatter (`map`, `desc`,
    `optional`), format lists item by item (`many`, `sep_by`), or fall back to
    `str` (everything else). */
module ParserV1 {
  import opened Wrappers
  import opened Values
  import Terms
  import C = Combinators
  import F = Formatters

  datatype Parser = Parser(term: Terms.Term, fmt: F.Fmt)

  /** `Parser(parser, formatter)`: a missing formatter becomes `str`. */
  function Make(t: Terms.Term, formatter: Option<F.Fmt>): (r: Parser)
    ensures r.term == t
    ensures forall v :: Format(r, v) == (if formatter.Some? then F.Format(formatter.value, v) else Success(PyStr(v)))
  {
    Parser(t, if formatter.Some? then formatter.value else F.FStr)
  }

  /** `p.format(value)`. */
  function Format(p: Parser, v: Value): Result<string, string> {
    F.Format(p.fmt, v)
  }

  /** `p.parse(text)`: the whole text must be read. */
  function ParseText(h: Terms.Host, p: Parser, text: string): (r: Terms.Reply)
    ensures var q := Terms.Run(h, p.term, text, 0);
            r == (if q.Ok? && q.next < |text| then Terms.Err(q.next, {"EOF"}) else q)
    ensures r.Ok? ==> r.next == |text|
  {
    Terms.Parse(h, p.term, text)
  }

  /** `p.parse_partial(text)`: the value read and the text left after it. */
  function ParsePartialText(h: Terms.Host, p: Parser, text: string): (r: Result<Terms.Partial, Terms.Reply>)
    ensures var q := Terms.Run(h, p.term, text, 0);
            && (r.Success? <==> q.Ok?)
            && (r.Success? ==> r.value.value == q.value && text[..q.next] + r.value.rest == text)
            && (r.Failure? ==> r.error == q)
  {
    Terms.ParsePartial(h, p.term, text)
  }

  function Map(p: Parser, f: Terms.MapFn): (r: Parser)
    ensures r.term == Terms.Map(p.term, f)
    ensures forall v :: Format(r, v) == Format(p, v)
  {
    Parser(Terms.Map(p.term, f), p.fmt)
  }

  /** `p.bind(fn)`, with `fn` as a table of parsers. */
  function Bind(p: Parser, keys: seq<Value>, bodies: seq<Parser>, otherwise: Parser): (r: Parser)
    ensures r.term == Terms.Bind(p.term, keys, TermsOf(bodies), otherwise.term)
    ensures forall v :: Format(r, v) == Success(PyStr(v))
  {
    Parser(Terms.Bind(p.term, keys, TermsOf(bodies), otherwise.term), F.FStr)
  }

  function TermsOf(ps: seq<Parser>): (r: seq<Terms.Term>)
    ensures |r| == |ps| && forall k :: 0 <= k < |ps| ==> r[k] == ps[k].term
  {
    seq(|ps|, k requires 0 <= k < |ps| => ps[k].term)
  }

  /** `a.then(b)` and `a >> b`. */
  function Then(a: Parser, b: Parser): (r: Parser)
    ensures r.term == Terms.Then(a.term, b.term)
    ensures forall v :: Format(r, v) == Success(PyStr(v))
  {
    Parser(Terms.Then(a.term, b.term), F.FStr)
  }

  /** `a.skip(b)` and `a << b`. */
  function Skip(a: Parser, b: Parser): (r: Parser)
    ensures r.term == Terms.Skip(a.term, b.term)
    ensures forall v :: Format(r, v) == Success(PyStr(v))
  {
    Parser(Terms.Skip(a.term, b.term), F.FStr)
  }

  /** `a | b`. */
  function Or(a: Parser, b: Parser): (r: Parser)
    ensures r.term == Terms.Alt(a.term, b.term)
    ensures forall v :: Format(r, v) == Success(PyStr(v))
  {
    Parser(Terms.Alt(a.term, b.term), F.FStr)
  }

  /** `ps[0] | ps[1] | ...`, grouped to the left as a loop of `combined = combined | p` builds it. */
  function OrAll(ps: seq<Parser>): (r: Parser)
    requires |ps| > 0
    ensures |ps| == 1 ==> r == ps[0]
    ensures |ps| > 1 ==> r.term == Terms.Alt(OrAll(ps[..|ps| - 1]).term, ps[|ps| - 1].term)
    ensures forall v :: Format(r, v) == (if |ps| == 1 then Format(ps[0], v) else Success(PyStr(v)))
  {
    if |ps| == 1 then ps[0] else Or(OrAll(ps[..|ps| - 1]), ps[|ps| - 1])
  }

  function Desc(p: Parser, description: string): (r: Parser)
    ensures r.term == Terms.Desc(p.term, description)
    ensures forall v :: Format(r, v) == Format(p, v)
  {
    Parser(Terms.Desc(p.term, description), p.fmt)
  }

  function Optional(p: Parser): (r: Parser)
    ensures r.term == C.Optional(p.term)
    ensures forall v :: Format(r, v) == Format(p, v)
  {
    Parser(C.Optional(p.term), p.fmt)
  }

  function Many(p: Parser): (r: Parser)
    ensures r.term == C.Many(p.term)
    ensures forall xs :: Format(r, VList(xs)) == F.JoinFormatted(p.fmt, xs)
  {
    Parser(C.Many(p.term), F.FJoin(p.fmt))
  }

  /** `p.times(n)`. */
  function Times(p: Parser, n: nat): (r: Parser)
    ensures r.term == C.Times(p.term, n)
    ensures forall v :: Format(r, v) == Success(PyStr(v))
  {
    Parser(C.Times(p.term, n), F.FStr)
  }

  /** `p.sep_by(sep, min=min, max=max)`: the list is formatted with single
      spaces whatever the separator parser reads. */
  function SepBy(p: Parser, sep: Parser, min: nat, max: Option<nat>): (r: Parser)
    ensures r.term == C.SepBy(p.term, sep.term, min, max)
    ensures forall xs :: Format(r, VList(xs)) == F.JoinFormatted(p.fmt, xs)
  {
    Parser(C.SepBy(p.term, sep.term, min, max), F.FJoin(p.fmt))
  }

  function Result(p: Parser, value: Value): (r: Parser)
    ensures r.term == C.ResultOf(p.term, value)
    ensures forall v :: Format(r, v) == Success(PyStr(v))
  {
    Parser(C.ResultOf(p.term, value), F.FStr)
  }

  function Concat(p: Parser): (r: Parser)
    ensures r.term == C.Concat(p.term)
    ensures forall v :: Format(r, v) == Success(PyStr(v))
  {
    Parser(C.Concat(p.term), F.FStr)
  }

  /** `many` and `sep_by` format a list the same way, whatever the separator:
      each item by the element formatter, joined by one space. */
  lemma ListFormatIgnoresSeparator(p: Parser, sep1: Parser, sep2: Parser, xs: seq<Value>)
    requires forall k :: 0 <= k < |xs| ==> Format(p, xs[k]).Success?
    ensures Format(SepBy(p, sep1, 0, None), VList(xs)) == Format(SepBy(p, sep2, 0, None), VList(xs))
                                                       == Format(Many(p), VList(xs))
    ensures Format(Many(p), VList(xs)).Success?
    ensures |xs| == 1 ==> Format(Many(p), VList(xs)) == Format(p, xs[0])
  {
    F.FormatAllPieces(p.fmt, xs);
  }
}

=== FILE: parser_v2.dfy ===
/** The variant wrapper of `core/parser_v2.py`: the formatter slot may be
    empty (`str` is applied at format time), `map` installs the formatter it
    is given, and `then`/`>>` carry the right-hand parser's formatter. */
module ParserV2 {
  import opened Wrappers
  import opened Values
  import Terms
  import C = Combinators
  import F = Formatters
  import ParserV1

  datatype Parser = Parser(term: Terms.Term, slot: Option<F.Fmt>)

  /** `p.format(value)`: the stored formatter, or `str` when the slot is empty. */
  function Format(p: Parser, v: Value): (r: Result<string, string>)
    ensures p.slot.None? ==> r == Success(PyStr(v))
  {
    if p.slot.Some? then F.Format(p.slot.value, v) else Success(PyStr(v))
  }

  /** `p.parse(text)`. */
  function ParseText(h: Terms.Host, p: Parser, text: string): Terms.Reply {
    Terms.Parse(h, p.term, text)
  }

  /** `p.parse_partial(text)`. */
  function ParsePartialText(h: Terms.Host, p: Parser, text: string): Result<Terms.Partial, Terms.Reply> {
    Terms.ParsePartial(h, p.term, text)
  }

  /** `p.map(func, formatter)`: the receiver's formatter is dropped. */
  function Map(p: Parser, f: Terms.MapFn, formatter: Option<F.Fmt>): (r: Parser)
    ensures r.term == Terms.Map(p.term, f)
    ensures forall v :: Format(r, v) == (if formatter.Some? then F.Format(formatter.value, v) else Success(PyStr(v)))
  {
    Parser(Terms.Map(p.term, f), formatter)
  }

  /** `a.then(b)`, and `a >> b` in both of its definitions. */
  function Then(a: Parser, b: Parser): (r: Parser)
    ensures r.term == Terms.Then(a.term, b.term)
    ensures forall v :: Format(r, v) == Format(b, v)
  {
    Parser(Terms.Then(a.term, b.term), b.slot)
  }

  function Skip(a: Parser, b: Parser): (r: Parser)
    ensures r.term == Terms.Skip(a.term, b.term)
    ensures forall v :: Format(r, v) == Success(PyStr(v))
  {
    Parser(Terms.Skip(a.term, b.term), None)
  }

  function Or(a: Parser, b: Parser): (r: Parser)
    ensures r.term == Terms.Alt(a.term, b.term)
    ensures forall v :: Format(r, v) == Success(PyStr(v))
  {
    Parser(Terms.Alt(a.term, b.term), None)
  }

  function Desc(p: Parser, description: string): (r: Parser)
    ensures r.term == Terms.Desc(p.term, description)
    ensures forall v :: Format(r, v) == Format(p, v)
  {
    Parser(Terms.Desc(p.term, description), p.slot)
  }

  function Optional(p: Parser): (r: Parser)
    ensures r.term == C.Optional(p.term)
    ensures forall v :: Format(r, v) == Format(p, v)
  {
    Parser(C.Optional(p.term), p.slot)
  }

  /** `p.many()`: the element formatter is called directly, so an empty slot
      raises as soon as there is an element. */
  function Many(p: Parser): (r: Parser)
    ensures r.term == C.Many(p.term)
    ensures p.slot.None? ==> forall xs :: Format(r, VList(xs)).Success? <==> |xs| == 0
    ensures p.slot.Some? ==> forall xs :: Format(r, VList(xs)) == F.JoinFormatted(p.slot.value, xs)
  {
    Parser(C.Many(p.term), Some(F.FJoinSlot(p.slot)))
  }

  function Times(p: Parser, n: nat): (r: Parser)
    ensures r.term == C.Times(p.term, n)
    ensures forall v :: Format(r, v) == Success(PyStr(v))
  {
    Parser(C.Times(p.term, n), None)
  }

  function SepBy(p: Parser, sep: Parser, min: nat, max: Option<nat>): (r: Parser)
    ensures r.term == C.SepBy(p.term, sep.term, min, max)
    ensures p.slot.None? ==> forall xs :: Format(r, VList(xs)).Success? <==> |xs| == 0
    ensures p.slot.Some? ==> forall xs :: Format(r, VList(xs)) == F.JoinFormatted(p.slot.value, xs)
  {
    Parser(C.SepBy(p.term, sep.term, min, max), Some(F.FJoinSlot(p.slot)))
  }

  function Result(p: Parser, value: Value): (r: Parser)
    ensures r.term == C.ResultOf(p.term, value)
    ensures forall v :: Format(r, v) == Success(PyStr(v))
  {
    Parser(C.ResultOf(p.term, value), None)
  }

  function Concat(p: Parser): (r: Parser)
    ensures r.term == C.Concat(p.term)
    ensures forall v :: Format(r, v) == Success(PyStr(v))
  {
    Parser(C.Concat(p.term), None)
  }

  /** Both wrappers read the same text for `then`, but format differently:
      the first falls back to `str`, this one uses the right-hand formatter. */
  lemma ThenFormatsDiffer()
    ensures var a := ParserV1.Make(Terms.Str("x"), Some(F.FConst("x")));
            var b := Parser(Terms.Str("x"), Some(F.FConst("x")));
            && ParserV1.Then(a, a).term == Then(b, b).term
            && ParserV1.Format(ParserV1.Then(a, a), VStr("y")) == Success("y")
            && Format(Then(b, b), VStr("y")) == Success("x")
  {
  }

  /** The two `many` formatters agree when the element formatter is set. */
  lemma ManyAgreesWithV1(p: ParserV1.Parser, xs: seq<Value>)
    ensures Format(Many(Parser(p.term, Some(p.fmt))), VList(xs)) == ParserV1.Format(ParserV1.Many(p), VList(xs))
  {
    F.JoinSlotAgrees(p.fmt, VList(xs));
  }
}

=== FILE: positions.dfy ===
/** Newline arithmetic shared by parsy's `line_info` and by the error
    translators: counting `'\n'` before an index and finding the last one. */
module Positions {

  /** `text.count("\n", 0, j)`. */
  function NewlinesBefore(text: string, j: nat): (r: nat)
    requires j <= |text|
    ensures r <= j
  {
    if j == 0 then 0
    else NewlinesBefore(text, j - 1) + (if text[j - 1] == '\n' then 1 else 0)
  }

  /** `text.rfind("\n", 0, j)`: the last newline before `j`, or -1. */
  function LastNewline(text: string, j: nat): (r: int)
    requires j <= |text|
    ensures -1 <= r < j
    ensures r >= 0 ==> text[r] == '\n'
    ensures forall k :: r < k < j ==> text[k] != '\n'
  {
    if j == 0 then -1
    else if text[j - 1] == '\n' then j - 1
    else LastNewline(text, j - 1)
  }

  /** The start of the line holding index `j`: one past the last newline before it. */
  function LineStartOf(text: string, j: nat): (r: nat)
    requires j <= |text|
    ensures r <= j
  {
    LastNewline(text, j) + 1
  }

  /** No newline in the half-open range does not change the count. */
  lemma {:induction false} NewlinesFlat(text: string, a: nat, b: nat)
    requires a <= b <= |text|
    requires forall k :: a <= k < b ==> text[k] != '\n'
    ensures NewlinesBefore(text, b) == NewlinesBefore(text, a)
    decreases b - a
  {
    if a < b {
      NewlinesFlat(text, a, b - 1);
    }
  }

  /** `text.find("\n", j)`, with `|text|` for "none". */
  function NextNewline(text: string, j: nat): (r: nat)
    requires j <= |text|
    ensures j <= r <= |text|
    ensures r < |text| ==> text[r] == '\n'
    ensures forall k :: j <= k < r ==> text[k] != '\n'
    decreases |text| - j
  {
    if j == |text| || text[j] == '\n' then j else NextNewline(text, j + 1)
  }

  /** `text.splitlines()` with `'\n'` as the only line break: the pieces between
      newlines, where a final newline does not open an extra empty line. */
  function Lines(text: string): (r: seq<string>)
    ensures text == "" <==> |r| == 0
    ensures forall m :: 0 <= m < |r| ==> '\n' !in r[m]
  {
    if text == "" then []
    else
      LinesFromNoNewline(text, 0);
      LinesFrom(text, 0)
  }

  function LinesFrom(text: string, j: nat): (r: seq<string>)
    requires j < |text|
    ensures |r| >= 1
    decreases |text| - j
  {
    var e := NextNewline(text, j);
    if e + 1 >= |text| then [text[j..e]]
    else [text[j..e]] + LinesFrom(text, e + 1)
  }

  /** No line holds a newline. */
  lemma {:induction false} LinesFromNoNewline(text: string, j: nat)
    requires j < |text|
    ensures forall m :: 0 <= m < |LinesFrom(text, j)| ==> '\n' !in LinesFrom(text, j)[m]
    decreases |text| - j
  {
    var e := NextNewline(text, j);
    assert forall k :: 0 <= k < e - j ==> text[j..e][k] == text[j + k];
    if e + 1 < |text| {
      LinesFromNoNewline(text, e + 1);
    }
  }

  /** `j` starts a line: it is 0 or follows a newline. */
  predicate LineStart(text: string, j: nat)
    requires j <= |text|
  {
    j == 0 || text[j - 1] == '\n'
  }

  /** Index `c` has a line in `splitlines`: it is not the end of a text whose
      last character is a newline. */
  predicate OnALine(text: string, c: nat)
    requires c <= |text|
  {
    c < |text| || (|text| > 0 && text[|text| - 1] != '\n')
  }

  /** The line holding `c`, counted from the line starting at `j`, is the
      piece of text between the newlines around `c`. */
  lemma {:induction false} LinesFromAt(text: string, j: nat, c: nat)
    requires j <= c <= |text| && j < |text|
    requires LineStart(text, j)
    requires OnALine(text, c)
    ensures NewlinesBefore(text, j) <= NewlinesBefore(text, c)
    ensures NewlinesBefore(text, c) - NewlinesBefore(text, j) < |LinesFrom(text, j)|
    ensures LinesFrom(text, j)[NewlinesBefore(text, c) - NewlinesBefore(text, j)]
            == text[LineStartOf(text, c)..NextNewline(text, c)]
    decreases |text| - j
  {
    var e := NextNewline(text, j);
    if c <= e {
      NewlinesFlat(text, j, c);
      LastNewlineAfterStart(text, j, c);
      NextNewlineSame(text, j, c);
    } else {
      LinesFromAt(text, e + 1, c);
      NextLineCounts(text, j, e);
      var L := NewlinesBefore(text, c) - NewlinesBefore(text, j);
      assert LinesFrom(text, j)[L] == LinesFrom(text, e + 1)[L - 1];
    }
  }

  /** Past the newline ending the line at `j`, one more newline is counted,
      and the lines from there are the lines from `j` after its first. */
  lemma NextLineCounts(text: string, j: nat, e: nat)
    requires j < |text| && e == NextNewline(text, j) && e + 1 < |text|
    ensures NewlinesBefore(text, e + 1) == NewlinesBefore(text, j) + 1
    ensures LinesFrom(text, j) == [text[j..e]] + LinesFrom(text, e + 1)
  {
    NewlinesFlat(text, j, e);
  }

  /** Inside the first line after a line start, the last newline is the one
      before that start. */
  lemma LastNewlineAfterStart(text: string, j: nat, c: nat)
    requires j <= c <= |text| && LineStart(text, j)
    requires forall k :: j <= k < c ==> text[k] != '\n'
    ensures LineStartOf(text, c) == j
  {
  }

  /** Without a newline between `j` and `c`, both see the same next newline. */
  lemma {:induction false} NextNewlineSame(text: string, j: nat, c: nat)
    requires j <= c <= |text|
    requires forall k :: j <= k < c ==> text[k] != '\n'
    ensures NextNewline(text, j) == NextNewline(text, c)
    decreases c - j
  {
    if j < c {
      NextNewlineSame(text, j + 1, c);
    }
  }

  /** The line holding index `c` (0-based, as `NewlinesBefore` counts) is the
      text between the newlines around `c`. */
  lemma LineOfIndex(text: string, c: nat)
    requires c <= |text| && text != ""
    requires OnALine(text, c)
    ensures NewlinesBefore(text, c) < |Lines(text)|
    ensures Lines(text)[NewlinesBefore(text, c)] == text[LineStartOf(text, c)..NextNewline(text, c)]
  {
    LinesFromAt(text, 0, c);
  }

  /** A text without newlines is one line. */
  lemma OneLine(a: string)
    requires a != "" && '\n' !in a
    ensures Lines(a) == [a]
  {
    assert forall k :: 0 <= k < |a| ==> a[k] != '\n';
    assert NextNewline(a, 0) == |a| by { NextNewlineSame(a, 0, |a|); }
    assert a[0..|a|] == a;
  }

  /** A line, a newline and a non-empty rest: the line comes first and the
      rest splits as it does on its own. */
  lemma LinesAfterLine(a: string, rest: string)
    requires '\n' !in a && rest != ""
    ensures Lines(a + "\n" + rest) == [a] + Lines(rest)
  {
    var s := a + "\n" + rest;
    assert NextNewline(s, 0) == |a| by {
      assert forall k :: 0 <= k < |a| ==> s[k] == a[k];
      NextNewlineSame(s, 0, |a|);
    }
    assert s[..|a|] == a;
    assert s == (a + "\n") + rest;
    LinesFromShift(a + "\n", rest, 0);
  }

  /** Lines of a suffix do not depend on what comes before it. */
  lemma {:induction false} LinesFromShift(pre: string, t: string, j: nat)
    requires j < |t|
    ensures LinesFrom(pre + t, |pre| + j) == LinesFrom(t, j)
    decreases |t| - j
  {
    var s := pre + t;
    NextNewlineShift(pre, t, j);
    var e := NextNewline(t, j);
    assert s[|pre| + j..|pre| + e] == t[j..e];
    if e + 1 < |t| {
      LinesFromShift(pre, t, e + 1);
    }
  }

  lemma {:induction false} NextNewlineShift(pre: string, t: string, j: nat)
    requires j <= |t|
    ensures NextNewline(pre + t, |pre| + j) == |pre| + NextNewline(t, j)
    decreases |t| - j
  {
    if j < |t| && t[j] != '\n' {
      NextNewlineShift(pre, t, j + 1);
    }
  }
}

=== FILE: primitives.dfy ===
/** The primitive parsers of `primitives/` (text, numeric, character and
    control), built on the first wrapper, and what each reads and writes. */
module Primitives {
  import opened Wrappers
  import opened Values
  import opened Chars
  import Decimal
  import Scanners
  import Positions
  import Terms
  import C = Combinators
  import F = Formatters
  import P = ParserV1

  // ---------------------------------------------------------------------------
  // text.py

  /** `literal(text)`: reads `text` exactly and always writes `text`. */
  function Literal(text: string): (r: P.Parser)
    ensures r.term == Terms.Str(text)
    ensures forall v :: P.Format(r, v) == Success(text)
  {
    P.Make(Terms.Str(text), Some(F.FConst(text)))
  }

  /** `pattern(regex)`: a caller expression, formatted with `str`. */
  function Pattern(regex: string): (r: P.Parser)
    ensures r.term == Terms.UserRegex(regex)
    ensures forall v :: P.Format(r, v) == Success(PyStr(v))
  {
    P.Make(Terms.UserRegex(regex), None)
  }

  /** `word()`: `[A-Za-z0-9_]+`. */
  function Word(): (r: P.Parser)
    ensures r.term == Terms.Regex(Scanners.WordRx)
    ensures forall v :: P.Format(r, v) == Success(PyStr(v))
  {
    P.Make(Terms.Regex(Scanners.WordRx), None)
  }

  /** `string_of(regex_pattern)`: `\S+` unless another expression is given. */
  function StringOf(regexPattern: string): (r: P.Parser)
    ensures regexPattern == Scanners.Pattern(Scanners.NonSpaceRx) ==> r.term == Terms.Regex(Scanners.NonSpaceRx)
    ensures regexPattern != Scanners.Pattern(Scanners.NonSpaceRx) ==> r.term == Terms.UserRegex(regexPattern)
    ensures forall v :: P.Format(r, v) == Success(PyStr(v))
  {
    if regexPattern == Scanners.Pattern(Scanners.NonSpaceRx) then P.Make(Terms.Regex(Scanners.NonSpaceRx), None)
    else P.Make(Terms.UserRegex(regexPattern), None)
  }

  /** `string_of()` with its default expression. */
  function Token(): P.Parser {
    StringOf(Scanners.Pattern(Scanners.NonSpaceRx))
  }

  /** `whitespace()`: `\s+`. */
  function Whitespace(): (r: P.Parser)
    ensures r.term == Terms.Regex(Scanners.SpaceRx)
    ensures forall v :: P.Format(r, v) == Success(PyStr(v))
  {
    P.Make(Terms.Regex(Scanners.SpaceRx), None)
  }

  // ---------------------------------------------------------------------------
  // numeric.py

  /** `integer()`: the lexeme `-?\d+(?![.eE])` mapped through `int`, written with `str`. */
  function Integer(): (r: P.Parser)
    ensures r.term == Terms.Map(Terms.Regex(Scanners.IntRx), Terms.ToInt)
    ensures forall v :: P.Format(r, v) == Success(PyStr(v))
  {
    P.Make(Terms.Map(Terms.Regex(Scanners.IntRx), Terms.ToInt), Some(F.FStr))
  }

  /** `float_num()`: the float lexeme, kept as written. */
  function FloatNum(): (r: P.Parser)
    ensures r.term == Terms.Map(Terms.Regex(Scanners.FloatRx), Terms.ToFloat)
    ensures forall v :: P.Format(r, v) == Success(PyStr(v))
  {
    P.Make(Terms.Map(Terms.Regex(Scanners.FloatRx), Terms.ToFloat), Some(F.FStr))
  }

  // ---------------------------------------------------------------------------
  // character.py

  function AnyChar(): (r: P.Parser)
    ensures r.term == Terms.Char(Terms.AnyChar)
    ensures forall v :: P.Format(r, v) == Success(PyStr(v))
  {
    P.Make(Terms.Char(Terms.AnyChar), None)
  }

  function CharFrom(chars: string): (r: P.Parser)
    ensures r.term == Terms.Char(Terms.CharFrom(chars))
    ensures forall v :: P.Format(r, v) == Success(PyStr(v))
  {
    P.Make(Terms.Char(Terms.CharFrom(chars)), None)
  }

  /** `test_char(predicate, description)`; the predicate is the host's `name`. */
  function TestChar(name: string, description: string): (r: P.Parser)
    ensures r.term == Terms.Char(Terms.UserPred(name, description))
    ensures forall v :: P.Format(r, v) == Success(PyStr(v))
  {
    P.Make(Terms.Char(Terms.UserPred(name, description)), None)
  }

  function Letter(): (r: P.Parser)
    ensures r.term == Terms.Char(Terms.Letter)
    ensures forall v :: P.Format(r, v) == Success(PyStr(v))
  {
    P.Make(Terms.Char(Terms.Letter), None)
  }

  function Digit(): (r: P.Parser)
    ensures r.term == Terms.Char(Terms.DigitChar)
    ensures forall v :: P.Format(r, v) == Success(PyStr(v))
  {
    P.Make(Terms.Char(Terms.DigitChar), None)
  }

  // ---------------------------------------------------------------------------
  // control.py

  /** `success(v)`: writes nothing. */
  function Success_(v: Value): (r: P.Parser)
    ensures r.term == Terms.Succeed(v)
    ensures forall x :: P.Format(r, x) == Success("")
  {
    P.Make(Terms.Succeed(v), Some(F.FConst("")))
  }

  function Fail(expected: string): (r: P.Parser)
    ensures r.term == Terms.Failing(expected)
    ensures forall x :: P.Format(r, x) == Success(PyStr(x))
  {
    P.Make(Terms.Failing(expected), None)
  }

  /** `eof()`: writes nothing. */
  function Eof(): (r: P.Parser)
    ensures r.term == Terms.Eof
    ensures forall x :: P.Format(r, x) == Success("")
  {
    P.Make(Terms.Eof, Some(F.FConst("")))
  }

  function Peek(p: P.Parser): (r: P.Parser)
    ensures r.term == Terms.Peek(p.term)
    ensures forall x :: P.Format(r, x) == Success(PyStr(x))
  {
    P.Make(Terms.Peek(p.term), None)
  }

  function Index(): (r: P.Parser)
    ensures r.term == Terms.Index
    ensures forall v :: P.Format(r, v) == Success(PyStr(v))
  {
    P.Make(Terms.Index, Some(F.FStr))
  }

  /** `line_info()`: writes `(l, c)` as `"l:c"`. */
  function LineInfo(): (r: P.Parser)
    ensures r.term == Terms.LineInfo
    ensures forall l, c :: P.Format(r, VTuple([VInt(l), VInt(c)])) == Success(Decimal.IntToStr(l) + ":" + Decimal.IntToStr(c))
  {
    P.Make(Terms.LineInfo, Some(F.FLineInfo))
  }

  // ---------------------------------------------------------------------------
  // What the primitives read

  /** `literal(t)` succeeds exactly when `t` occurs at the cursor, consuming
      `|t|` characters; otherwise it fails there expecting `t`. */
  lemma LiteralReads(h: Terms.Host, t: string, s: string, i: nat)
    requires i <= |s|
    ensures var r := Terms.Run(h, Literal(t).term, s, i);
            && (r.Ok? <==> i + |t| <= |s| && s[i..i + |t|] == t)
            && (r.Ok? ==> r == Terms.Ok(VStr(t), i + |t|))
            && (!r.Ok? ==> r == Terms.Err(i, {t}))
  {
    assert Terms.Run(h, Literal(t).term, s, i) == Terms.RunLeaf(h, Terms.Str(t), s, i);
  }

  /** Whatever value is formatted, `literal(t)` writes `t` and reads it back. */
  lemma LiteralRoundTrip(h: Terms.Host, t: string, v: Value)
    ensures P.ParseText(h, Literal(t), P.Format(Literal(t), v).value) == Terms.Ok(VStr(t), |t|)
  {
    LiteralReads(h, t, t, 0);
    assert t[0..|t|] == t;
  }

  /** A nonempty maximal run of a class is what the class scanner finds. */
  lemma RunScanIff(cls: Scanners.CharClass, s: string, i: nat, e: nat)
    requires i <= |s|
    ensures Scanners.RunScan(cls, s, i) == Some(e)
            <==> && i < e <= |s|
                 && (forall k :: i <= k < e ==> Scanners.InClass(cls, s[k]))
                 && (e == |s| || !Scanners.InClass(cls, s[e]))
  {
    if i < e <= |s| && (forall k :: i <= k < e ==> Scanners.InClass(cls, s[k]))
       && (e == |s| || !Scanners.InClass(cls, s[e])) {
      Scanners.RunEndUnique(cls, s, i, e);
    }
  }

  /** The token primitives read a nonempty maximal run of their class. */
  lemma TokenReads(h: Terms.Host, rx: Scanners.Rx, cls: Scanners.CharClass, s: string, i: nat, e: nat)
    requires i <= e <= |s|
    requires (rx, cls) in {(Scanners.WordRx, Scanners.WordChars), (Scanners.NonSpaceRx, Scanners.NonSpaces),
                           (Scanners.SpaceRx, Scanners.Spaces)}
    ensures Terms.Run(h, Terms.Regex(rx), s, i) == Terms.Ok(VStr(s[i..e]), e)
            <==> && i < e <= |s|
                 && (forall k :: i <= k < e ==> Scanners.InClass(cls, s[k]))
                 && (e == |s| || !Scanners.InClass(cls, s[e]))
    ensures Terms.Run(h, Terms.Regex(rx), s, i).Err? <==> !(i < |s| && Scanners.InClass(cls, s[i]))
  {
    RunScanIff(cls, s, i, e);
    assert Terms.Run(h, Terms.Regex(rx), s, i) == Terms.RunLeaf(h, Terms.Regex(rx), s, i);
    assert Scanners.Scan(rx, s, i) == Scanners.RunScan(cls, s, i);
  }

  /** `word()`, `string_of()` and `whitespace()` read maximal runs. */
  lemma WordReads(h: Terms.Host, s: string, i: nat, e: nat)
    requires i <= e <= |s|
    ensures Terms.Run(h, Word().term, s, i) == Terms.Ok(VStr(s[i..e]), e)
            <==> i < e <= |s| && (forall k :: i <= k < e ==> IsWordChar(s[k])) && (e == |s| || !IsWordChar(s[e]))
  {
    TokenReads(h, Scanners.WordRx, Scanners.WordChars, s, i, e);
  }

  lemma TokenReadsNonSpace(h: Terms.Host, s: string, i: nat, e: nat)
    requires i <= e <= |s|
    ensures Terms.Run(h, Token().term, s, i) == Terms.Ok(VStr(s[i..e]), e)
            <==> i < e <= |s| && (forall k :: i <= k < e ==> !IsSpace(s[k])) && (e == |s| || IsSpace(s[e]))
  {
    TokenReads(h, Scanners.NonSpaceRx, Scanners.NonSpaces, s, i, e);
  }

  lemma WhitespaceReads(h: Terms.Host, s: string, i: nat, e: nat)
    requires i <= e <= |s|
    ensures Terms.Run(h, Whitespace().term, s, i) == Terms.Ok(VStr(s[i..e]), e)
            <==> i < e <= |s| && (forall k :: i <= k < e ==> IsSpace(s[k])) && (e == |s| || !IsSpace(s[e]))
    ensures Terms.Run(h, Whitespace().term, s, i).Err? <==> !(i < |s| && IsSpace(s[i]))
  {
    TokenReads(h, Scanners.SpaceRx, Scanners.Spaces, s, i, e);
  }

  /** The information separators \x1c-\x1f are whitespace to Python's `\s`:
      `string_of()` stops before one, and `whitespace()` reads it. */
  lemma SeparatorsAreBlank(h: Terms.Host)
    ensures Terms.Run(h, Token().term, "a\U{1C}b", 0) == Terms.Ok(VStr("a"), 1)
    ensures Terms.Run(h, Whitespace().term, "\U{1F} x", 0) == Terms.Ok(VStr("\U{1F} "), 2)
  {
    var s := "a\U{1C}b";
    TokenReadsNonSpace(h, s, 0, 1);
    assert s[0..1] == "a";
    var t := "\U{1F} x";
    WhitespaceReads(h, t, 0, 2);
    assert t[0..2] == "\U{1F} ";
  }

  /** `integer()` yields the signed value of the lexeme the integer scanner
      finds, and fails at the cursor when there is none. */
  lemma IntegerReads(h: Terms.Host, s: string, i: nat)
    requires i <= |s|
    ensures var r := Terms.Run(h, Integer().term, s, i);
            match Scanners.IntScan(s, i)
            case Some(e) => r == Terms.Ok(VInt(Decimal.LexemeValue(s[i..e])), e)
            case None => r == Terms.Err(i, {Scanners.Pattern(Scanners.IntRx)})
  {
    var rx := Terms.Regex(Scanners.IntRx);
    assert Terms.Run(h, rx, s, i) == Terms.RunLeaf(h, rx, s, i);
  }

  /** The decimal text of `n`, followed by anything but a digit, `.`, `e` or
      `E`, reads back as `n`. */
  lemma IntegerReadsDecimal(h: Terms.Host, s: string, i: nat, n: int)
    requires i + |Decimal.IntToStr(n)| <= |s|
    requires s[i..i + |Decimal.IntToStr(n)|] == Decimal.IntToStr(n)
    requires var e := i + |Decimal.IntToStr(n)|;
             e == |s| || (!IsDigit(s[e]) && s[e] != '.' && s[e] != 'e' && s[e] != 'E')
    ensures Terms.Run(h, Integer().term, s, i) == Terms.Ok(VInt(n), i + |Decimal.IntToStr(n)|)
  {
    DecimalScans(s, i, n);
    Decimal.IntToStrRoundTrip(n);
    IntegerReads(h, s, i);
  }

  /** The integer scanner finds exactly the decimal text of `n`. */
  lemma DecimalScans(s: string, i: nat, n: int)
    requires i + |Decimal.IntToStr(n)| <= |s|
    requires s[i..i + |Decimal.IntToStr(n)|] == Decimal.IntToStr(n)
    requires var e := i + |Decimal.IntToStr(n)|;
             e == |s| || (!IsDigit(s[e]) && s[e] != '.' && s[e] != 'e' && s[e] != 'E')
    ensures Scanners.IntScan(s, i) == Some(i + |Decimal.IntToStr(n)|)
  {
    var lex := Decimal.IntToStr(n);
    var e := i + |lex|;
    Decimal.IntToStrRoundTrip(n);
    assert Scanners.IntMatch(s, i, e);
    var k := if i < |s| && s[i] == '-' then i + 1 else i;
    DigitsToEnd(s, i, n, k);
    Scanners.IntLongest(s, i, k, e);
  }

  /** After the optional sign, the digits of the decimal text run to its end. */
  lemma DigitsToEnd(s: string, i: nat, n: int, k: nat)
    requires i + |Decimal.IntToStr(n)| <= |s|
    requires s[i..i + |Decimal.IntToStr(n)|] == Decimal.IntToStr(n)
    requires var e := i + |Decimal.IntToStr(n)|; e == |s| || !IsDigit(s[e])
    requires k == if i < |s| && s[i] == '-' then i + 1 else i
    ensures k <= i + |Decimal.IntToStr(n)|
    ensures k == i + 1 <==> (i < |s| && s[i] == '-')
    ensures Scanners.RunEnd(Scanners.Digits, s, k) == i + |Decimal.IntToStr(n)|
  {
    var lex := Decimal.IntToStr(n);
    var e := i + |lex|;
    Decimal.IntToStrShape(n);
    assert s[i] == lex[0];
    forall j | k <= j < e ensures IsDigit(s[j]) {
      assert s[j] == lex[j - i];
    }
    Scanners.RunEndUnique(Scanners.Digits, s, k, e);
  }

  /** Formatting an int and reading the text back gives the int. */
  lemma IntegerRoundTrip(h: Terms.Host, n: int)
    ensures P.ParseText(h, Integer(), P.Format(Integer(), VInt(n)).value)
            == Terms.Ok(VInt(n), |Decimal.IntToStr(n)|)
  {
    var lex := Decimal.IntToStr(n);
    assert lex[0..|lex|] == lex;
    IntegerReadsDecimal(h, lex, 0, n);
  }

  /** The lookahead rejects a digit run followed by `.`: `"3.14"` is not an integer. */
  lemma IntegerRejectsDecimalPoint(h: Terms.Host)
    ensures Terms.Run(h, Integer().term, "3.14", 0).Err?
  {
    IntegerReads(h, "3.14", 0);
    assert Scanners.RunEnd(Scanners.Digits, "3.14", 1) == 1;
    assert Scanners.RunEnd(Scanners.Digits, "3.14", 0) == 1;
  }

  /** By backtracking, `"31.4"` reads as the integer 3, leaving `"1.4"`. */
  lemma IntegerBacktracks(h: Terms.Host)
    ensures Terms.Run(h, Integer().term, "31.4", 0) == Terms.Ok(VInt(3), 1)
  {
    IntegerReads(h, "31.4", 0);
    assert Scanners.RunEnd(Scanners.Digits, "31.4", 2) == 2;
    assert Scanners.RunEnd(Scanners.Digits, "31.4", 0) == 2;
    assert "31.4"[0..1] == "3";
    assert Decimal.LexemeValue("3") == 3 by {
      assert Decimal.DigitsValue("3") == 3 by {
        assert "3"[..0] == "";
      }
    }
  }

  /** There is no `+` sign. */
  lemma IntegerRejectsPlus(h: Terms.Host)
    ensures Terms.Run(h, Integer().term, "+5", 0).Err?
  {
    IntegerReads(h, "+5", 0);
    assert Scanners.RunEnd(Scanners.Digits, "+5", 0) == 0;
  }

  /** `float_num()` fails, expecting the float pattern, exactly when the text at
      the cursor does not start, after an optional `-`, with a digit or with `.`
      and a digit; otherwise it reads the longest float lexeme there. */
  lemma FloatReads(h: Terms.Host, s: string, i: nat)
    requires i <= |s|
    ensures var r := Terms.Run(h, FloatNum().term, s, i);
            && (r.Err? <==> !Scanners.StartsFloat(s, i))
            && (r.Ok? ==> r.next > i && r.value == VFloat(s[i..r.next]) && Scanners.IsFloatLexeme(s[i..r.next]))
            && (r.Ok? ==> forall e: nat :: r.next < e <= |s| ==> !Scanners.IsFloatLexeme(s[i..e]))
            && (r.Err? ==> r == Terms.Err(i, {Scanners.Pattern(Scanners.FloatRx)}))
  {
    var rx := Terms.Regex(Scanners.FloatRx);
    assert Terms.Run(h, rx, s, i) == Terms.RunLeaf(h, rx, s, i);
  }

  /** The float lexer reads `"1e3"` whole, with its exponent. */
  lemma FloatReadsExponent(h: Terms.Host)
    ensures Terms.Run(h, FloatNum().term, "1e3", 0) == Terms.Ok(VFloat("1e3"), 3)
  {
    var s := "1e3";
    FloatReads(h, s, 0);
    assert Scanners.RunEnd(Scanners.Digits, s, 1) == 1;
    assert Scanners.RunEnd(Scanners.Digits, s, 0) == 1;
    assert Scanners.MantissaEnd(s, 0) == Some(1);
    assert Scanners.RunEnd(Scanners.Digits, s, 3) == 3;
    assert Scanners.RunEnd(Scanners.Digits, s, 2) == 3;
    assert Scanners.ExponentEnd(s, 1) == 3;
    assert s[0..3] == s;
  }

  /** `"not-a-float"` is rejected. */
  lemma FloatRejectsWord(h: Terms.Host)
    ensures Terms.Run(h, FloatNum().term, "not-a-float", 0).Err?
  {
    FloatReads(h, "not-a-float", 0);
  }

  /** The character primitives consume exactly one character that passes
      their test, and otherwise fail at the cursor with their description. */
  lemma CharReads(h: Terms.Host, pred: Terms.CharPred, s: string, i: nat)
    requires i <= |s|
    ensures var r := Terms.Run(h, Terms.Char(pred), s, i);
            && (r.Ok? <==> i < |s| && Terms.Accepts(h, pred, s[i]))
            && (r.Ok? ==> r == Terms.Ok(VStr([s[i]]), i + 1))
            && (!r.Ok? ==> r == Terms.Err(i, {Terms.Describe(pred)}))
  {
    assert Terms.Run(h, Terms.Char(pred), s, i) == Terms.RunLeaf(h, Terms.Char(pred), s, i);
  }

  /** `any_char` fails only at the end of the text; `char_from(cs)` accepts
      exactly the characters of `cs`; `letter` and `digit` their class. */
  lemma CharInstances(h: Terms.Host, cs: string, s: string, i: nat)
    requires i <= |s|
    ensures Terms.Run(h, AnyChar().term, s, i).Ok? <==> i < |s|
    ensures Terms.Run(h, CharFrom(cs).term, s, i).Ok? <==> i < |s| && s[i] in cs
    ensures Terms.Run(h, Letter().term, s, i).Ok? <==> i < |s| && IsLetter(s[i])
    ensures Terms.Run(h, Digit().term, s, i).Ok? <==> i < |s| && IsDigit(s[i])
    ensures Terms.Run(h, AnyChar().term, "", 0) == Terms.Err(0, {"any character"})
  {
    CharReads(h, Terms.AnyChar, s, i);
    CharReads(h, Terms.CharFrom(cs), s, i);
    CharReads(h, Terms.Letter, s, i);
    CharReads(h, Terms.DigitChar, s, i);
    CharReads(h, Terms.AnyChar, "", 0);
  }

  /** The control primitives: `success` and `index` consume nothing, `fail`
      always fails at the cursor, `eof` succeeds only at the end. */
  lemma ControlReads(h: Terms.Host, v: Value, expected: string, s: string, i: nat)
    requires i <= |s|
    ensures Terms.Run(h, Success_(v).term, s, i) == Terms.Ok(v, i)
    ensures Terms.Run(h, Fail(expected).term, s, i) == Terms.Err(i, {expected})
    ensures Terms.Run(h, Eof().term, s, i).Ok? <==> i == |s|
    ensures Terms.Run(h, Eof().term, s, i).Ok? ==> Terms.Run(h, Eof().term, s, i).value == VNone
    ensures Terms.Run(h, Index().term, s, i) == Terms.Ok(VInt(i), i)
  {
    assert Terms.Run(h, Terms.Succeed(v), s, i) == Terms.RunLeaf(h, Terms.Succeed(v), s, i);
    assert Terms.Run(h, Terms.Failing(expected), s, i) == Terms.RunLeaf(h, Terms.Failing(expected), s, i);
    assert Terms.Run(h, Terms.Eof, s, i) == Terms.RunLeaf(h, Terms.Eof, s, i);
    assert Terms.Run(h, Terms.Index, s, i) == Terms.RunLeaf(h, Terms.Index, s, i);
  }
}

=== FILE: raw_parsers.dfy ===
/** The plain parsy parsers of `parsers.py`: the same readers as the
    primitives, without a formatter. */
module RawParsers {
  import opened Values
  import Wrappers
  import Scanners
  import Terms
  import Pr = Primitives

  function Literal(text: string): (t: Terms.Term)
    ensures t == Pr.Literal(text).term
  {
    Terms.Str(text)
  }

  function Pattern(regexPattern: string): (t: Terms.Term)
    ensures t == Pr.Pattern(regexPattern).term
  {
    Terms.UserRegex(regexPattern)
  }

  function Integer(): (t: Terms.Term)
    ensures t == Pr.Integer().term
  {
    Terms.Map(Terms.Regex(Scanners.IntRx), Terms.ToInt)
  }

  function FloatNum(): (t: Terms.Term)
    ensures t == Pr.FloatNum().term
  {
    Terms.Map(Terms.Regex(Scanners.FloatRx), Terms.ToFloat)
  }

  function Word(): (t: Terms.Term)
    ensures t == Pr.Word().term
  {
    Terms.Regex(Scanners.WordRx)
  }

  function Whitespace(): (t: Terms.Term)
    ensures t == Pr.Whitespace().term
  {
    Terms.Regex(Scanners.SpaceRx)
  }

  /** `any_char` is a ready-made parser rather than a factory. */
  const AnyChar: Terms.Term := Terms.Char(Terms.AnyChar)

  /** A word stops at a hyphen, so the whole text `"with-space"` is not a word,
      while its prefix is read and the rest is left. */
  lemma WordStopsAtHyphen(h: Terms.Host)
    ensures Terms.Parse(h, Word(), "with-space").Err?
    ensures Terms.ParsePartial(h, Word(), "with-space") == Wrappers.Success(Terms.Partial(VStr("with"), "-space"))
  {
    var s := "with-space";
    WithIsAWord(h);
    Terms.PartialRest(h, Word(), s);
    assert s[4..] == "-space";
  }

  /** The word read from `"with-space"` is `"with"`. */
  lemma WithIsAWord(h: Terms.Host)
    ensures Terms.Run(h, Word(), "with-space", 0) == Terms.Ok(VStr("with"), 4)
  {
    var s := "with-space";
    Pr.WordReads(h, s, 0, 4);
    assert s[0..4] == "with";
  }

  /** `whitespace` needs at least one blank; `any_char` needs one character. */
  lemma EmptyTextFails(h: Terms.Host)
    ensures Terms.Parse(h, Whitespace(), "").Err?
    ensures Terms.Parse(h, AnyChar, "").Err?
  {
    Pr.WhitespaceReads(h, "", 0, 0);
    Pr.CharInstances(h, "", "", 0);
  }
}

=== FILE: roundtrip.dfy ===
/** Reading back what the codec writes. For models whose fields are
    integers, strings without whitespace and lists of integers, separated by
    the default whitespace, `parse(serialize(m))` gives back the dict of
    `m`'s field values; and the one arrangement that breaks this: a list
    followed by an integer, which the list parser reads greedily. */
module RoundTrip {
  import opened Wrappers
  import opened Values
  import opened Chars
  import Decimal
  import Scanners
  import Terms
  import C = Combinators
  import F = Formatters
  import P = ParserV1
  import Pr = Primitives
  import opened Annotations
  import I = Inference
  import Container
  import Separator
  import Codec
  import E = Errors
  import FE = FieldErrors

  // ---------------------------------------------------------------------------
  // The fields covered

  /** `int`, `str` and `list[int]`. */
  datatype Kind = KInt | KStr | KInts

  function AnnOf(k: Kind): Ann {
    match k
    case KInt => IntT
    case KStr => StrT
    case KInts => ListT(Some(IntT))
  }

  /** The parser chosen for each kind: `integer()`, `string_of()` (`\S+`),
      and `integer()` separated by whitespace. */
  function ParserOf(k: Kind): P.Parser {
    match k
    case KInt => Pr.Integer()
    case KStr => Pr.Token()
    case KInts => P.SepBy(Pr.Integer(), Pr.Whitespace(), 0, None)
  }

  /** Both classifiers choose `ParserOf(k)` for the annotation of kind `k`. */
  lemma Classified(c: Codec.Classifier, env: I.Env, k: Kind)
    ensures Codec.Classify(c, env, AnnOf(k)) == Success(Some(ParserOf(k)))
  {
    I.ScalarsAndUnknowns(env, "", []);
    if k == KInts {
      I.ListElement(env, IntT);
    }
    Container.AgreesWithUnified(env, AnnOf(k));
  }

  /** The values a field of each kind holds that can be written and read
      back: any int; a non-empty string without whitespace; a list of ints. */
  predicate Fits(k: Kind, v: Value) {
    match k
    case KInt => v.VInt?
    case KStr => v.VStr? && v.s != "" && NoSpace(v.s)
    case KInts => v.VList? && AllInts(v.items)
  }

  predicate AllInts(xs: seq<Value>) {
    forall j :: 0 <= j < |xs| ==> xs[j].VInt?
  }

  /** `str` of each int. */
  function Decimals(xs: seq<Value>): (r: seq<string>)
    requires AllInts(xs)
    ensures |r| == |xs| && forall j :: 0 <= j < |xs| ==> r[j] == Decimal.IntToStr(xs[j].i)
  {
    seq(|xs|, j requires 0 <= j < |xs| => Decimal.IntToStr(xs[j].i))
  }

  /** The decimal texts of a list of ints, separated by single spaces. */
  function IntsText(xs: seq<Value>): string
    requires AllInts(xs)
    decreases |xs|
  {
    if |xs| == 0 then ""
    else if |xs| == 1 then Decimal.IntToStr(xs[0].i)
    else Decimal.IntToStr(xs[0].i) + " " + IntsText(xs[1..])
  }

  /** That is how `" ".join` lays out the decimal texts. */
  lemma {:induction false} IntsTextIsJoin(xs: seq<Value>)
    requires AllInts(xs)
    ensures IntsText(xs) == Join(" ", Decimals(xs))
    decreases |xs|
  {
    if |xs| > 1 {
      IntsTextIsJoin(xs[1..]);
      assert Decimals(xs)[1..] == Decimals(xs[1..]);
    }
  }

  /** The text written for a fitting value. */
  function Text(k: Kind, v: Value): string
    requires Fits(k, v)
  {
    match k
    case KInt => Decimal.IntToStr(v.i)
    case KStr => v.s
    case KInts => IntsText(v.items)
  }

  /** Formatting with the chosen parser, with or without a description,
      writes `Text(k, v)`. */
  lemma FormatsAsText(k: Kind, v: Value, description: string)
    requires Fits(k, v)
    ensures P.Format(ParserOf(k), v) == Success(Text(k, v))
    ensures P.Format(P.Desc(ParserOf(k), description), v) == Success(Text(k, v))
  {
    if k == KInts {
      F.FormatAllPieces(Pr.Integer().fmt, v.items);
      var parts := F.FormatAll(Pr.Integer().fmt, v.items).value;
      assert parts == Decimals(v.items);
      IntsTextIsJoin(v.items);
    }
  }

  // ---------------------------------------------------------------------------
  // Reading one part

  /** `p` occurs in `s` at `i`. */
  predicate At(s: string, i: nat, p: string) {
    i + |p| <= |s| && s[i..i + |p|] == p
  }

  lemma AtChars(s: string, i: nat, p: string)
    requires At(s, i, p)
    ensures forall k :: 0 <= k < |p| ==> s[i + k] == p[k]
  {
    forall k | 0 <= k < |p|
      ensures s[i + k] == p[k]
    {
      assert s[i..i + |p|][k] == s[i + k];
    }
  }

  lemma AtSplit(s: string, i: nat, a: string, b: string)
    requires At(s, i, a + b)
    ensures At(s, i, a) && At(s, i + |a|, b)
  {
    AtChars(s, i, a + b);
    assert s[i..i + |a|] == a by {
      forall k | 0 <= k < |a| ensures s[i..i + |a|][k] == a[k] {
        assert (a + b)[k] == a[k];
      }
    }
    assert s[i + |a|..i + |a| + |b|] == b by {
      forall k | 0 <= k < |b| ensures s[i + |a|..i + |a| + |b|][k] == b[k] {
        assert (a + b)[|a| + k] == b[k];
      }
    }
  }

  /** What may come after a part: the end of the text, or one space followed
      by the end or by a character that is not whitespace and, after a list,
      cannot start an integer. */
  predicate Follows(k: Kind, s: string, e: nat) {
    e == |s|
    || (e < |s| && s[e] == ' '
        && (e + 1 == |s| || (!IsSpace(s[e + 1]) && (k == KInts ==> !IsDigit(s[e + 1]) && s[e + 1] != '-'))))
  }

  /** `integer()` fails on a character that cannot start an integer. */
  lemma IntegerFails(h: Terms.Host, s: string, i: nat)
    requires i <= |s|
    requires i == |s| || (!IsDigit(s[i]) && s[i] != '-')
    ensures Terms.Run(h, Pr.Integer().term, s, i).Err?
  {
    Pr.IntegerReads(h, s, i);
  }

  /** A single space, followed by no further whitespace, is one separator. */
  lemma OneSpace(h: Terms.Host, s: string, e: nat)
    requires e < |s| && s[e] == ' '
    requires e + 1 == |s| || !IsSpace(s[e + 1])
    ensures Terms.Run(h, Pr.Whitespace().term, s, e) == Terms.Ok(VStr(" "), e + 1)
  {
    Pr.WhitespaceReads(h, s, e, e + 1);
    assert s[e..e + 1] == " ";
  }

  /** The list parser's repeated step: whitespace, then an integer. */
  function ListStep(): Terms.Term {
    Terms.Then(Pr.Whitespace().term, Pr.Integer().term)
  }

  /** The list parser's `(whitespace >> integer).many()` stops where a part
      ends. */
  lemma ListStops(h: Terms.Host, s: string, e: nat)
    requires e <= |s| && Follows(KInts, s, e)
    ensures Terms.Run(h, ListStep(), s, e).Err?
  {
    if e < |s| {
      OneSpace(h, s, e);
      IntegerFails(h, s, e + 1);
    } else {
      Pr.WhitespaceReads(h, s, e, e);
    }
  }

  /** `str(n)` followed by a space or the end reads back as `n`. */
  lemma ReadsInt(h: Terms.Host, s: string, i: nat, n: int)
    requires At(s, i, Decimal.IntToStr(n))
    requires var e := i + |Decimal.IntToStr(n)|; e == |s| || s[e] == ' '
    ensures Terms.Run(h, Pr.Integer().term, s, i) == Terms.Ok(VInt(n), i + |Decimal.IntToStr(n)|)
  {
    Pr.IntegerReadsDecimal(h, s, i, n);
  }

  /** The text holds, at `k`, a space and the decimal text of `n`, followed
      by a space or the end. */
  predicate StepAt(s: string, k: nat, n: int) {
    && k < |s| && s[k] == ' ' && At(s, k + 1, Decimal.IntToStr(n))
    && var e := k + 1 + |Decimal.IntToStr(n)|; e == |s| || s[e] == ' '
  }

  /** One step of the list: a space, then `str(n)` up to a space or the end. */
  lemma ReadsStep(h: Terms.Host, s: string, i: nat, n: int)
    requires StepAt(s, i, n)
    ensures Terms.Run(h, ListStep(), s, i) == Terms.Ok(VInt(n), i + 1 + |Decimal.IntToStr(n)|)
  {
    StepStartsWord(s, i, n);
    OneSpace(h, s, i);
    ReadsInt(h, s, i + 1, n);
    C.ThenSpec(h, Pr.Whitespace().term, Pr.Integer().term, s, i);
  }

  /** After the space of a step comes a character that is not whitespace. */
  lemma StepStartsWord(s: string, i: nat, n: int)
    requires StepAt(s, i, n)
    ensures i + 1 < |s| && !IsSpace(s[i + 1])
  {
    Decimal.IntToStrShape(n);
    AtChars(s, i + 1, Decimal.IntToStr(n));
  }

  /** `first`, a space and `rest` at `i`: `first` ends at `e`, the space
      is at `e`, and `rest` starts after it. */
  lemma AtCons(s: string, i: nat, first: string, rest: string, e: nat)
    requires At(s, i, first + " " + rest) && e == i + |first|
    ensures At(s, i, first) && e < |s| && s[e] == ' ' && At(s, e + 1, rest)
  {
    AtSplit(s, i, first + " ", rest);
    AtSplit(s, i, first, " ");
    AtChars(s, e, " ");
  }

  /** Where the steps of a list start when the first of them starts at
      `e`: each is a space and a decimal text. */
  function StepStarts(e: nat, xs: seq<Value>): (ps: seq<nat>)
    requires AllInts(xs)
    ensures |ps| == |xs| + 1 && ps[0] == e
    decreases |xs|
  {
    if |xs| == 0 then [e] else [e] + StepStarts(e + 1 + |Decimal.IntToStr(xs[0].i)|, xs[1..])
  }

  /** Each step starts where the one before it ends. */
  lemma {:induction false} StepStartsNext(e: nat, xs: seq<Value>, k: nat)
    requires AllInts(xs) && k < |xs|
    ensures StepStarts(e, xs)[k + 1] == StepStarts(e, xs)[k] + 1 + |Decimal.IntToStr(xs[k].i)|
    decreases k
  {
    var e2 := e + 1 + |Decimal.IntToStr(xs[0].i)|;
    var rest := StepStarts(e2, xs[1..]);
    StepStartsTail(e, xs);
    if k > 0 {
      StepStartsNext(e2, xs[1..], k - 1);
      assert xs[1..][k - 1] == xs[k];
    }
  }

  /** The starts after the first are those of the rest of the list. */
  lemma StepStartsTail(e: nat, xs: seq<Value>)
    requires AllInts(xs) && |xs| > 0
    ensures var rest := StepStarts(e + 1 + |Decimal.IntToStr(xs[0].i)|, xs[1..]);
            forall j :: 0 < j <= |xs| ==> StepStarts(e, xs)[j] == rest[j - 1]
  {
  }

  /** A space and the decimal texts of `xs` joined by spaces, ending at `j`:
      each int sits in a step at its start, and the last step ends at `j`. */
  lemma {:induction false} StepsLaidOut(xs: seq<Value>, s: string, e: nat, j: nat)
    requires |xs| > 0 && AllInts(xs)
    requires e < |s| && s[e] == ' ' && At(s, e + 1, IntsText(xs))
    requires j == e + 1 + |IntsText(xs)| && (j == |s| || s[j] == ' ')
    ensures StepStarts(e, xs)[|xs|] == j
    ensures forall k :: 0 <= k < |xs| ==> StepAt(s, StepStarts(e, xs)[k], xs[k].i)
    decreases |xs|, 1
  {
    if |xs| == 1 {
      StepsOne(xs, s, e, j);
    } else {
      StepsMore(xs, s, e, j);
    }
  }

  lemma {:induction false} StepsMore(xs: seq<Value>, s: string, e: nat, j: nat)
    requires |xs| > 1 && AllInts(xs)
    requires e < |s| && s[e] == ' ' && At(s, e + 1, IntsText(xs))
    requires j == e + 1 + |IntsText(xs)| && (j == |s| || s[j] == ' ')
    ensures StepStarts(e, xs)[|xs|] == j
    ensures forall k :: 0 <= k < |xs| ==> StepAt(s, StepStarts(e, xs)[k], xs[k].i)
    decreases |xs|, 0
  {
    var e2 := e + 1 + |Decimal.IntToStr(xs[0].i)|;
    LayoutAt(xs, s, e + 1, e2, j);
    StepsLaidOut(xs[1..], s, e2, j);
    StepsPrepend(s, e, xs);
  }

  lemma StepsOne(xs: seq<Value>, s: string, e: nat, j: nat)
    requires |xs| == 1 && AllInts(xs)
    requires e < |s| && s[e] == ' ' && At(s, e + 1, IntsText(xs))
    requires j == e + 1 + |IntsText(xs)| && (j == |s| || s[j] == ' ')
    ensures StepStarts(e, xs)[|xs|] == j
    ensures forall k :: 0 <= k < |xs| ==> StepAt(s, StepStarts(e, xs)[k], xs[k].i)
  {
    var ps := StepStarts(e, xs);
    assert ps == [e] + StepStarts(j, []);
    assert StepAt(s, ps[0], xs[0].i);
  }

  /** A step in front of steps laid out. */
  lemma StepsPrepend(s: string, e: nat, xs: seq<Value>)
    requires |xs| > 1 && AllInts(xs)
    requires StepAt(s, e, xs[0].i)
    requires var rest := StepStarts(e + 1 + |Decimal.IntToStr(xs[0].i)|, xs[1..]);
             forall k :: 0 <= k < |xs| - 1 ==> StepAt(s, rest[k], xs[1..][k].i)
    ensures var ps := StepStarts(e, xs);
            && ps[|xs|] == StepStarts(e + 1 + |Decimal.IntToStr(xs[0].i)|, xs[1..])[|xs| - 1]
            && forall k :: 0 <= k < |xs| ==> StepAt(s, ps[k], xs[k].i)
  {
    var ps := StepStarts(e, xs);
    var rest := StepStarts(e + 1 + |Decimal.IntToStr(xs[0].i)|, xs[1..]);
    assert ps == [e] + rest;
    forall k | 0 <= k < |xs|
      ensures StepAt(s, ps[k], xs[k].i)
    {
      if k > 0 {
        assert ps[k] == rest[k - 1] && xs[k] == xs[1..][k - 1];
      }
    }
  }

  /** Steps laid out end inside the text. */
  lemma StepsInText(xs: seq<Value>, s: string, e: nat, j: nat)
    requires AllInts(xs) && j <= |s|
    requires StepStarts(e, xs)[|xs|] == j
    requires forall k :: 0 <= k < |xs| ==> StepAt(s, StepStarts(e, xs)[k], xs[k].i)
    ensures forall k :: 0 <= k < |xs| + 1 ==> StepStarts(e, xs)[k] <= |s|
  {
  }

  /** The `k`-th step laid out is read as the `k`-th int. */
  lemma StepRead(h: Terms.Host, xs: seq<Value>, s: string, e: nat, k: nat)
    requires AllInts(xs) && k < |xs|
    requires StepAt(s, StepStarts(e, xs)[k], xs[k].i)
    ensures StepStarts(e, xs)[k] < StepStarts(e, xs)[k + 1]
    ensures Terms.Run(h, ListStep(), s, StepStarts(e, xs)[k]) == Terms.Ok(xs[k], StepStarts(e, xs)[k + 1])
  {
    StepStartsNext(e, xs, k);
    ReadsStep(h, s, StepStarts(e, xs)[k], xs[k].i);
  }

  /** Every step laid out is read by the list parser's step. */
  lemma StepsRead(h: Terms.Host, xs: seq<Value>, s: string, e: nat)
    requires AllInts(xs)
    requires forall k :: 0 <= k < |xs| + 1 ==> StepStarts(e, xs)[k] <= |s|
    requires forall k :: 0 <= k < |xs| ==> StepAt(s, StepStarts(e, xs)[k], xs[k].i)
    ensures C.ReadsAt(h, ListStep(), s, StepStarts(e, xs), xs)
  {
    forall k | 0 <= k < |xs|
      ensures StepStarts(e, xs)[k] < StepStarts(e, xs)[k + 1]
      ensures Terms.Run(h, ListStep(), s, StepStarts(e, xs)[k]) == Terms.Ok(xs[k], StepStarts(e, xs)[k + 1])
    {
      StepRead(h, xs, s, e, k);
    }
  }

  /** `sep_by` from its pieces: the first element, then the values `many`
      reads. */
  lemma SepByFrom(h: Terms.Host, p: Terms.Term, sep: Terms.Term, s: string, i: nat, e: nat, v: Value, vs: seq<Value>, j: nat)
    requires i <= e <= j <= |s|
    requires Terms.Run(h, p, s, i) == Terms.Ok(v, e)
    requires Terms.Run(h, C.Many(Terms.Then(sep, p)), s, e) == Terms.Ok(VList(vs), j)
    ensures Terms.Run(h, C.SepBy(p, sep, 0, None), s, i) == Terms.Ok(VList([v] + vs), j)
  {
    C.SepBySpec(h, p, sep, s, i);
  }

  /** After the first int of a list, `many` reads the others and stops at
      the end of the part. */
  lemma ManyInts(h: Terms.Host, xs: seq<Value>, s: string, e: nat, j: nat)
    requires |xs| > 0 && AllInts(xs)
    requires e < |s| && s[e] == ' ' && At(s, e + 1, IntsText(xs))
    requires j == e + 1 + |IntsText(xs)| && Follows(KInts, s, j)
    ensures Terms.Run(h, C.Many(ListStep()), s, e) == Terms.Ok(VList(xs), j)
  {
    StepsLaidOut(xs, s, e, j);
    StepsInText(xs, s, e, j);
    StepsRead(h, xs, s, e);
    ListStops(h, s, j);
    C.ManyAt(h, ListStep(), s, StepStarts(e, xs), xs);
  }

  /** The layout of a list part of two or more ints: the first decimal text,
      a space, and the others. */
  lemma ListLayout(xs: seq<Value>, s: string, i: nat) returns (e: nat, j: nat)
    requires |xs| > 1 && AllInts(xs)
    requires At(s, i, IntsText(xs)) && Follows(KInts, s, i + |IntsText(xs)|)
    ensures e == i + |Decimal.IntToStr(xs[0].i)| && j == i + |IntsText(xs)|
    ensures LaidOut(xs, s, i, e, j) && Follows(KInts, s, j)
  {
    e := i + |Decimal.IntToStr(xs[0].i)|;
    j := i + |IntsText(xs)|;
    assert Follows(KInts, s, j);
    LayoutAt(xs, s, i, e, j);
  }

  lemma LayoutAt(xs: seq<Value>, s: string, i: nat, e: nat, j: nat)
    requires |xs| > 1 && AllInts(xs)
    requires At(s, i, IntsText(xs))
    requires e == i + |Decimal.IntToStr(xs[0].i)| && j == i + |IntsText(xs)|
    ensures LaidOut(xs, s, i, e, j)
  {
    AtCons(s, i, Decimal.IntToStr(xs[0].i), IntsText(xs[1..]), e);
  }

  /** A list part of two or more ints at `i`: the first decimal text ends
      at `e`, a space follows, and the others end at `j`. */
  predicate LaidOut(xs: seq<Value>, s: string, i: nat, e: nat, j: nat) {
    && |xs| > 1 && AllInts(xs) && AllInts(xs[1..])
    && At(s, i, Decimal.IntToStr(xs[0].i)) && e == i + |Decimal.IntToStr(xs[0].i)| && e < |s| && s[e] == ' '
    && At(s, e + 1, IntsText(xs[1..])) && j == e + 1 + |IntsText(xs[1..])|
  }

  /** An empty list part: the first int fails, and `sep_by` yields `[]`. */
  lemma ReadsNoInts(h: Terms.Host, s: string, i: nat)
    requires i <= |s| && Follows(KInts, s, i)
    ensures Terms.Run(h, ParserOf(KInts).term, s, i) == Terms.Ok(VList([]), i)
  {
    IntegerFails(h, s, i);
    C.SepBySpec(h, Pr.Integer().term, Pr.Whitespace().term, s, i);
  }

  lemma ReadsOneInt(h: Terms.Host, x: Value, s: string, i: nat)
    requires x.VInt? && At(s, i, Decimal.IntToStr(x.i))
    requires Follows(KInts, s, i + |Decimal.IntToStr(x.i)|)
    ensures Terms.Run(h, ParserOf(KInts).term, s, i) == Terms.Ok(VList([x]), i + |Decimal.IntToStr(x.i)|)
  {
    var e := i + |Decimal.IntToStr(x.i)|;
    ReadsInt(h, s, i, x.i);
    NoMoreInts(h, s, e);
    SepByFrom(h, Pr.Integer().term, Pr.Whitespace().term, s, i, e, x, [], e);
    assert [x] + [] == [x];
  }

  /** Where a part ends, `many` reads no further ints. */
  lemma NoMoreInts(h: Terms.Host, s: string, e: nat)
    requires e <= |s| && Follows(KInts, s, e)
    ensures Terms.Run(h, C.Many(ListStep()), s, e) == Terms.Ok(VList([]), e)
  {
    ListStops(h, s, e);
    C.ManySpec(h, ListStep(), s, e, [], e);
  }

  /** A list part of more than one int is laid out as its first int, a
      space and the others, and so is read whole. */
  lemma ReadsLongList(h: Terms.Host, xs: seq<Value>, s: string, i: nat)
    requires |xs| > 1 && AllInts(xs)
    requires At(s, i, IntsText(xs))
    requires Follows(KInts, s, i + |IntsText(xs)|)
    ensures Terms.Run(h, ParserOf(KInts).term, s, i) == Terms.Ok(VList(xs), i + |IntsText(xs)|)
  {
    var e, j := ListLayout(xs, s, i);
    ReadsMoreInts(h, xs, s, i, e, j);
  }

  /** A list part laid out as its first int, a space and the others is
      read whole. */
  lemma ReadsMoreInts(h: Terms.Host, xs: seq<Value>, s: string, i: nat, e: nat, j: nat)
    requires LaidOut(xs, s, i, e, j) && Follows(KInts, s, j)
    ensures Terms.Run(h, ParserOf(KInts).term, s, i) == Terms.Ok(VList(xs), j)
  {
    FirstLaidOut(xs, s, i, e, j);
    ReadsInt(h, s, i, xs[0].i);
    ReadsOtherInts(h, xs, s, i, e, j);
    JoinFirstAndRest(h, xs, s, i, e, j);
  }

  /** `sep_by` yields the first int followed by what `many` read after it. */
  lemma JoinFirstAndRest(h: Terms.Host, xs: seq<Value>, s: string, i: nat, e: nat, j: nat)
    requires |xs| > 0 && i <= e <= j <= |s|
    requires Terms.Run(h, Pr.Integer().term, s, i) == Terms.Ok(xs[0], e)
    requires Terms.Run(h, C.Many(ListStep()), s, e) == Terms.Ok(VList(xs[1..]), j)
    ensures Terms.Run(h, ParserOf(KInts).term, s, i) == Terms.Ok(VList(xs), j)
  {
    SepByFrom(h, Pr.Integer().term, Pr.Whitespace().term, s, i, e, xs[0], xs[1..], j);
    assert [xs[0]] + xs[1..] == xs;
  }

  /** In a list part laid out, the first int stands alone before a space. */
  lemma FirstLaidOut(xs: seq<Value>, s: string, i: nat, e: nat, j: nat)
    requires LaidOut(xs, s, i, e, j)
    ensures xs[0] == VInt(xs[0].i) && At(s, i, Decimal.IntToStr(xs[0].i))
    ensures e == i + |Decimal.IntToStr(xs[0].i)| && e < |s| && s[e] == ' '
  {
  }

  lemma ReadsOtherInts(h: Terms.Host, xs: seq<Value>, s: string, i: nat, e: nat, j: nat)
    requires LaidOut(xs, s, i, e, j) && Follows(KInts, s, j)
    ensures Terms.Run(h, C.Many(ListStep()), s, e) == Terms.Ok(VList(xs[1..]), j)
  {
    ManyInts(h, xs[1..], s, e, j);
  }

  /** A list part: the first int, then the rest through `many`. */
  lemma ReadsInts(h: Terms.Host, xs: seq<Value>, s: string, i: nat)
    requires AllInts(xs)
    requires At(s, i, IntsText(xs))
    requires Follows(KInts, s, i + |IntsText(xs)|)
    ensures Terms.Run(h, ParserOf(KInts).term, s, i) == Terms.Ok(VList(xs), i + |IntsText(xs)|)
  {
    if |xs| == 0 {
      ReadsNoInts(h, s, i);
    } else if |xs| == 1 {
      ReadsOneInt(h, xs[0], s, i);
      assert [xs[0]] == xs;
    } else {
      ReadsLongList(h, xs, s, i);
    }
  }

  /** A string part is one `\S+` token. */
  lemma ReadsToken(h: Terms.Host, w: string, s: string, i: nat)
    requires At(s, i, w) && w != "" && NoSpace(w)
    requires i + |w| == |s| || IsSpace(s[i + |w|])
    ensures Terms.Run(h, Pr.Token().term, s, i) == Terms.Ok(VStr(w), i + |w|)
  {
    AtChars(s, i, w);
    Pr.TokenReadsNonSpace(h, s, i, i + |w|);
  }

  /** A part is read back as its value, ending where the part ends. */
  lemma ReadsPart(h: Terms.Host, k: Kind, v: Value, s: string, i: nat)
    requires Fits(k, v)
    requires At(s, i, Text(k, v))
    requires Follows(k, s, i + |Text(k, v)|)
    ensures Terms.Run(h, ParserOf(k).term, s, i) == Terms.Ok(v, i + |Text(k, v)|)
  {
    match k
    case KInt => ReadsIntPart(h, v, s, i);
    case KStr => ReadsStrPart(h, v, s, i);
    case KInts => ReadsIntsPart(h, v, s, i);
  }

  /** `ReadsPart` for an int. */
  lemma ReadsIntPart(h: Terms.Host, v: Value, s: string, i: nat)
    requires Fits(KInt, v) && At(s, i, Text(KInt, v)) && Follows(KInt, s, i + |Text(KInt, v)|)
    ensures Terms.Run(h, ParserOf(KInt).term, s, i) == Terms.Ok(v, i + |Text(KInt, v)|)
  {
    ReadsInt(h, s, i, v.i);
  }

  /** `ReadsPart` for a string. */
  lemma ReadsStrPart(h: Terms.Host, v: Value, s: string, i: nat)
    requires Fits(KStr, v) && At(s, i, Text(KStr, v)) && Follows(KStr, s, i + |Text(KStr, v)|)
    ensures Terms.Run(h, ParserOf(KStr).term, s, i) == Terms.Ok(v, i + |Text(KStr, v)|)
  {
    ReadsToken(h, v.s, s, i);
  }

  /** `ReadsPart` for a list of ints. */
  lemma ReadsIntsPart(h: Terms.Host, v: Value, s: string, i: nat)
    requires Fits(KInts, v) && At(s, i, Text(KInts, v)) && Follows(KInts, s, i + |Text(KInts, v)|)
    ensures Terms.Run(h, ParserOf(KInts).term, s, i) == Terms.Ok(v, i + |Text(KInts, v)|)
  {
    ReadsInts(h, v.items, s, i);
  }

  /** A field parser chosen for kind `k`, with or without a description. */
  predicate ChosenFor(t: Terms.Term, k: Kind) {
    t == ParserOf(k).term || (t.Desc? && t.p == ParserOf(k).term)
  }

  /** A description changes only how a failure is reported. */
  lemma ReadsDescribed(h: Terms.Host, t: Terms.Term, s: string, i: nat)
    requires t.Desc? && i <= |s| && Terms.Run(h, t.p, s, i).Ok?
    ensures Terms.Run(h, t, s, i) == Terms.Run(h, t.p, s, i)
  {
  }

  /** A part is read back by its field's parser. */
  lemma ReadsField(h: Terms.Host, t: Terms.Term, k: Kind, v: Value, s: string, i: nat)
    requires ChosenFor(t, k) && Fits(k, v)
    requires At(s, i, Text(k, v)) && Follows(k, s, i + |Text(k, v)|)
    ensures Terms.Run(h, t, s, i) == Terms.Ok(v, i + |Text(k, v)|)
  {
    ReadsPart(h, k, v, s, i);
    if t.Desc? {
      ReadsDescribed(h, t, s, i);
    }
  }

  // ---------------------------------------------------------------------------
  // The whole text

  /** Every value fits its field. */
  predicate AllFit(ks: seq<Kind>, vs: seq<Value>) {
    |ks| == |vs| && forall j :: 0 <= j < |ks| ==> Fits(ks[j], vs[j])
  }

  /** The texts of the fields, in order. */
  function Texts(ks: seq<Kind>, vs: seq<Value>): (r: seq<string>)
    requires AllFit(ks, vs)
    ensures |r| == |ks| && forall j :: 0 <= j < |ks| ==> r[j] == Text(ks[j], vs[j])
    decreases |ks|
  {
    if |ks| == 0 then []
    else
      var rest := Texts(ks[1..], vs[1..]);
      assert forall j :: 1 <= j < |ks| ==> ks[j] == ks[1..][j - 1] && vs[j] == vs[1..][j - 1];
      [Text(ks[0], vs[0])] + rest
  }

  /** The encoded text: the field texts joined by single spaces. */
  function Line(ks: seq<Kind>, vs: seq<Value>): string
    requires AllFit(ks, vs)
  {
    Join(" ", Texts(ks, vs))
  }

  /** What may follow a field of kind `k`: a non-empty text, or an empty one
      that is the last; and after a list, a text that cannot start an
      integer. */
  predicate MayFollow(k: Kind, next: string, last: bool) {
    (next == "" ==> last) && (k == KInts && next != "" ==> !IsDigit(next[0]) && next[0] != '-')
  }

  /** The texts can be told apart when read back: only the last may be
      empty, and no list is followed by something its `many` would read on. */
  predicate Separable(ks: seq<Kind>, vs: seq<Value>)
    requires AllFit(ks, vs)
    decreases |ks|
  {
    |ks| <= 1
    || (MayFollow(ks[0], Text(ks[1], vs[1]), |ks| == 2) && Separable(ks[1..], vs[1..]))
  }

  /** The values read between fields: each field's value, with the single
      space of the separator after all but the last. */
  function Spaced(vs: seq<Value>): (r: seq<Value>)
    decreases |vs|
  {
    if |vs| <= 1 then vs else [vs[0], VStr(" ")] + Spaced(vs[1..])
  }

  /** Keeping the even positions drops the separators again. */
  lemma {:induction false} EvensOfSpaced(vs: seq<Value>)
    ensures Terms.Evens(Spaced(vs)) == vs
    decreases |vs|
  {
    if |vs| > 1 {
      EvensOfSpaced(vs[1..]);
      assert Spaced(vs)[2..] == Spaced(vs[1..]);
      assert [vs[0]] + vs[1..] == vs;
    }
  }

  /** A text that is not empty starts with a character that is not
      whitespace; an int or a non-empty list starts like an integer. */
  lemma TextStart(k: Kind, v: Value)
    requires Fits(k, v) && Text(k, v) != ""
    ensures !IsSpace(Text(k, v)[0])
    ensures k != KStr ==> IsDigit(Text(k, v)[0]) || Text(k, v)[0] == '-'
  {
    match k
    case KInt => Decimal.IntToStrShape(v.i);
    case KStr =>
    case KInts =>
      Decimal.IntToStrShape(v.items[0].i);
      assert Text(k, v)[0] == Decimal.IntToStr(v.items[0].i)[0];
  }

  /** A joined text whose first piece is not empty starts with that piece's
      first character. */
  lemma JoinStart(ps: seq<string>)
    requires |ps| > 0 && ps[0] != ""
    ensures Join(" ", ps) != "" && Join(" ", ps)[0] == ps[0][0]
  {
  }

  /** The line of two or more fields: the first text, a space, the line of
      the others. */
  lemma LineCons(ks: seq<Kind>, vs: seq<Value>)
    requires AllFit(ks, vs) && |ks| > 1
    ensures AllFit(ks[1..], vs[1..])
    ensures Line(ks, vs) == Text(ks[0], vs[0]) + " " + Line(ks[1..], vs[1..])
    ensures Texts(ks[1..], vs[1..]) != [] && Texts(ks[1..], vs[1..])[0] == Text(ks[1], vs[1])
  {
    assert Texts(ks, vs)[1..] == Texts(ks[1..], vs[1..]);
  }

  /** Where the first field of two or more ends, a single space follows, and
      what comes after it is what may follow that field. */
  lemma FieldsLayout(ks: seq<Kind>, vs: seq<Value>, s: string, i: nat, e: nat)
    requires AllFit(ks, vs) && |ks| > 1 && Separable(ks, vs)
    requires At(s, i, Line(ks, vs)) && i + |Line(ks, vs)| == |s|
    requires e == i + |Text(ks[0], vs[0])|
    ensures AllFit(ks[1..], vs[1..]) && Separable(ks[1..], vs[1..])
    ensures At(s, i, Text(ks[0], vs[0])) && Follows(ks[0], s, e)
    ensures e < |s| && s[e] == ' ' && (e + 1 == |s| || !IsSpace(s[e + 1]))
    ensures At(s, e + 1, Line(ks[1..], vs[1..])) && e + 1 + |Line(ks[1..], vs[1..])| == |s|
  {
    LineCons(ks, vs);
    AtCons(s, i, Text(ks[0], vs[0]), Line(ks[1..], vs[1..]), e);
    var next := Text(ks[1], vs[1]);
    var rest := Line(ks[1..], vs[1..]);
    assert MayFollow(ks[0], next, |ks| == 2);
    if next != "" {
      TextStart(ks[1], vs[1]);
      JoinStart(Texts(ks[1..], vs[1..]));
      SpaceThenText(ks[0], s, e, next, rest);
    } else {
      assert ks[1..] == [ks[1]] && vs[1..] == [vs[1]];
      assert rest == "";
    }
  }

  /** A space, then a text whose first character may follow a part of
      kind `k`. */
  lemma SpaceThenText(k: Kind, s: string, e: nat, next: string, rest: string)
    requires e < |s| && s[e] == ' ' && At(s, e + 1, rest)
    requires next != "" && rest != "" && rest[0] == next[0] && !IsSpace(next[0])
    requires k == KInts ==> !IsDigit(next[0]) && next[0] != '-'
    ensures Follows(k, s, e) && (e + 1 == |s| || !IsSpace(s[e + 1]))
  {
    assert s[e + 1] == s[e + 1..e + 1 + |rest|][0];
  }

  /** Reading the first field and the separator after it advances the
      sequence to the remaining fields. */
  lemma SeqSteps(h: Terms.Host, ts: seq<Terms.Term>, s: string, i: nat, e: nat, v: Value, acc: seq<Value>)
    requires |ts| > 1 && i <= e < |s|
    requires Terms.Run(h, ts[0], s, i) == Terms.Ok(v, e)
    requires Terms.Run(h, Pr.Whitespace().term, s, e) == Terms.Ok(VStr(" "), e + 1)
    ensures Terms.RunSeq(h, Codec.Interleave(ts, Pr.Whitespace().term), s, i, acc)
            == Terms.RunSeq(h, Codec.Interleave(ts[1..], Pr.Whitespace().term), s, e + 1, acc + [v, VStr(" ")])
  {
    var ws := Pr.Whitespace().term;
    var rest := Codec.Interleave(ts[1..], ws);
    assert Codec.Interleave(ts, ws) == [ts[0], ws] + rest;
    assert ([ts[0], ws] + rest)[1..] == [ws] + rest;
    assert ([ws] + rest)[1..] == rest;
    assert acc + [v] + [VStr(" ")] == acc + [v, VStr(" ")];
  }

  /** The line of the fields fills the text from `i` to its end, and each
      field has the parser chosen for its kind. */
  predicate LineFrom(ts: seq<Terms.Term>, ks: seq<Kind>, vs: seq<Value>, s: string, i: nat) {
    && |ts| == |ks| > 0 && AllFit(ks, vs) && Separable(ks, vs)
    && (forall j :: 0 <= j < |ts| ==> ChosenFor(ts[j], ks[j]))
    && At(s, i, Line(ks, vs)) && i + |Line(ks, vs)| == |s|
  }

  /** The fields' parsers, separated by whitespace, read the line of the
      fields back as their values with the spaces between them. */
  lemma {:induction false} ReadsFields(h: Terms.Host, ts: seq<Terms.Term>, ks: seq<Kind>, vs: seq<Value>,
                                       s: string, i: nat, acc: seq<Value>)
    requires LineFrom(ts, ks, vs, s, i)
    ensures Terms.RunSeq(h, Codec.Interleave(ts, Pr.Whitespace().term), s, i, acc) == Terms.Ok(VList(acc + Spaced(vs)), |s|)
    decreases |ts|, 2
  {
    if |ts| == 1 {
      ReadsLastField(h, ts, ks, vs, s, i, acc);
    } else {
      ReadsMoreFields(h, ts, ks, vs, s, i, acc);
    }
  }

  lemma ReadsLastField(h: Terms.Host, ts: seq<Terms.Term>, ks: seq<Kind>, vs: seq<Value>,
                       s: string, i: nat, acc: seq<Value>)
    requires LineFrom(ts, ks, vs, s, i) && |ts| == 1
    ensures Terms.RunSeq(h, Codec.Interleave(ts, Pr.Whitespace().term), s, i, acc) == Terms.Ok(VList(acc + Spaced(vs)), |s|)
  {
    assert Line(ks, vs) == Text(ks[0], vs[0]);
    ReadsField(h, ts[0], ks[0], vs[0], s, i);
    var v := vs[0];
    var r := Terms.Run(h, ts[0], s, i);
    assert r == Terms.Ok(v, |s|);
    assert Codec.Interleave(ts, Pr.Whitespace().term) == [ts[0]];
    assert [ts[0]][1..] == [];
    assert Terms.RunSeq(h, [ts[0]], s, i, acc) == Terms.RunSeq(h, [], s, |s|, acc + [v]);
    assert Spaced(vs) == [v];
  }

  lemma {:induction false} ReadsMoreFields(h: Terms.Host, ts: seq<Terms.Term>, ks: seq<Kind>, vs: seq<Value>,
                                           s: string, i: nat, acc: seq<Value>)
    requires LineFrom(ts, ks, vs, s, i) && |ts| > 1
    ensures Terms.RunSeq(h, Codec.Interleave(ts, Pr.Whitespace().term), s, i, acc) == Terms.Ok(VList(acc + Spaced(vs)), |s|)
    decreases |ts|, 1
  {
    var e := i + |Text(ks[0], vs[0])|;
    FirstField(h, ts, ks, vs, s, i, e, acc);
    ReadsAfterFirst(h, ts, ks, vs, s, e, acc);
  }

  /** Once the first field and its space are read, the others follow. */
  lemma {:induction false} ReadsAfterFirst(h: Terms.Host, ts: seq<Terms.Term>, ks: seq<Kind>, vs: seq<Value>,
                                           s: string, e: nat, acc: seq<Value>)
    requires |ts| > 1 && |ks| == |vs| == |ts| && LineFrom(ts[1..], ks[1..], vs[1..], s, e + 1)
    ensures Terms.RunSeq(h, Codec.Interleave(ts[1..], Pr.Whitespace().term), s, e + 1, acc + [vs[0], VStr(" ")])
            == Terms.Ok(VList(acc + Spaced(vs)), |s|)
    decreases |ts|, 0
  {
    ReadsFields(h, ts[1..], ks[1..], vs[1..], s, e + 1, acc + [vs[0], VStr(" ")]);
    SpacedCons(vs, acc);
  }

  lemma SpacedCons(vs: seq<Value>, acc: seq<Value>)
    requires |vs| > 1
    ensures acc + [vs[0], VStr(" ")] + Spaced(vs[1..]) == acc + Spaced(vs)
  {
  }

  /** The first of two or more fields and the space after it are read; the
      others remain, laid out the same way. */
  lemma FirstField(h: Terms.Host, ts: seq<Terms.Term>, ks: seq<Kind>, vs: seq<Value>,
                   s: string, i: nat, e: nat, acc: seq<Value>)
    requires LineFrom(ts, ks, vs, s, i) && |ts| > 1
    requires e == i + |Text(ks[0], vs[0])|
    ensures LineFrom(ts[1..], ks[1..], vs[1..], s, e + 1)
    ensures Terms.RunSeq(h, Codec.Interleave(ts, Pr.Whitespace().term), s, i, acc)
            == Terms.RunSeq(h, Codec.Interleave(ts[1..], Pr.Whitespace().term), s, e + 1, acc + [vs[0], VStr(" ")])
  {
    FieldsLayout(ks, vs, s, i, e);
    ChosenRest(ts, ks);
    FieldThenSpace(h, ts[0], ks[0], vs[0], s, i, e);
    SeqSteps(h, ts, s, i, e, vs[0], acc);
  }

  lemma ChosenRest(ts: seq<Terms.Term>, ks: seq<Kind>)
    requires |ts| == |ks| > 0
    requires forall j :: 0 <= j < |ts| ==> ChosenFor(ts[j], ks[j])
    ensures ChosenFor(ts[0], ks[0])
    ensures forall j :: 0 <= j < |ts| - 1 ==> ChosenFor(ts[1..][j], ks[1..][j])
  {
    assert forall j :: 0 <= j < |ts| - 1 ==> ts[1..][j] == ts[j + 1] && ks[1..][j] == ks[j + 1];
  }

  /** A field that is not the last is read, and then the single space
      after it. */
  lemma FieldThenSpace(h: Terms.Host, t: Terms.Term, k: Kind, v: Value, s: string, i: nat, e: nat)
    requires ChosenFor(t, k) && Fits(k, v) && e == i + |Text(k, v)|
    requires At(s, i, Text(k, v)) && Follows(k, s, e)
    requires e < |s| && s[e] == ' ' && (e + 1 == |s| || !IsSpace(s[e + 1]))
    ensures Terms.Run(h, t, s, i) == Terms.Ok(v, e)
    ensures Terms.Run(h, Pr.Whitespace().term, s, e) == Terms.Ok(VStr(" "), e + 1)
  {
    ReadsField(h, t, k, v, s, i);
    OneSpace(h, s, e);
  }

  // ---------------------------------------------------------------------------
  // The codec

  /** The names of the fields, in order. */
  function FieldNames(fs: seq<Codec.Field>): (r: seq<string>)
    ensures |r| == |fs| && forall j :: 0 <= j < |fs| ==> r[j] == fs[j].name
  {
    seq(|fs|, j requires 0 <= j < |fs| => fs[j].name)
  }

  /** The fields carry the annotations of `ks`. */
  predicate Annotated(fs: seq<Codec.Field>, ks: seq<Kind>) {
    |fs| == |ks| && forall j :: 0 <= j < |fs| ==> fs[j].ann == AnnOf(ks[j])
  }

  /** The built field parsers are the ones chosen for the kinds, in the
      fields' order and under the fields' names. */
  predicate Chosen(fps: seq<Codec.FieldParser>, fs: seq<Codec.Field>, ks: seq<Kind>) {
    && |fps| == |fs| == |ks|
    && Codec.Names(fps) == FieldNames(fs)
    && forall j :: 0 <= j < |fps| ==> ChosenFor(fps[j].parser.term, ks[j]) && fps[j].parser.fmt == ParserOf(ks[j]).fmt
  }

  /** Building the codec of such fields succeeds, with either classifier. */
  lemma BuildsChosen(c: Codec.Classifier, env: I.Env, fs: seq<Codec.Field>, ks: seq<Kind>)
    requires Annotated(fs, ks)
    ensures Codec.BuildFields(c, env, fs).Success?
    ensures Chosen(Codec.BuildFields(c, env, fs).value, fs, ks)
  {
    forall j | 0 <= j < |fs|
      ensures Codec.BuildField(c, env, fs[j]).Success? && BuiltAs(Codec.BuildField(c, env, fs[j]).value, fs[j], ks[j])
    {
      FieldBuiltAs(c, env, fs[j], ks[j]);
    }
    var fps := Codec.BuildFields(c, env, fs).value;
    assert forall j :: 0 <= j < |fps| ==> BuiltAs(fps[j], fs[j], ks[j]);
    assert Codec.Names(fps) == FieldNames(fs);
  }

  /** The field parser built for a field of a kind, under the field's name. */
  predicate BuiltAs(fp: Codec.FieldParser, f: Codec.Field, k: Kind) {
    fp.name == f.name && ChosenFor(fp.parser.term, k) && fp.parser.fmt == ParserOf(k).fmt
  }

  lemma FieldBuiltAs(c: Codec.Classifier, env: I.Env, f: Codec.Field, k: Kind)
    requires f.ann == AnnOf(k)
    ensures Codec.BuildField(c, env, f).Success? && BuiltAs(Codec.BuildField(c, env, f).value, f, k)
  {
    Classified(c, env, k);
    var p := ParserOf(k);
    if f.description != "" {
      assert Codec.BuildField(c, env, f) == Success(Codec.FieldParser(f.name, P.Desc(p, f.description)));
    } else {
      assert Codec.BuildField(c, env, f) == Success(Codec.FieldParser(f.name, p));
    }
  }

  /** Encoding writes the line of the fields' texts. */
  lemma EncodesLine(c: Codec.Codec, fs: seq<Codec.Field>, ks: seq<Kind>, vs: seq<Value>, attrs: seq<Entry>)
    requires Chosen(c.fields, fs, ks) && AllFit(ks, vs) && c.sepStr == " "
    requires forall j :: 0 <= j < |fs| ==> Attr(attrs, fs[j].name) == Some(vs[j])
    ensures Codec.Encode(c, attrs) == Success(Line(ks, vs))
  {
    var names := Codec.Names(c.fields);
    forall j | 0 <= j < |ks|
      ensures Attr(attrs, names[j]) == Some(vs[j])
      ensures F.Format(Codec.Fmts(c.fields)[j], vs[j]) == Success(Texts(ks, vs)[j])
    {
      assert names[j] == FieldNames(fs)[j];
      FormatsAsText(ks[j], vs[j], "");
    }
    F.FormatFieldsPieces(names, Codec.Fmts(c.fields), attrs, vs, Texts(ks, vs));
  }

  /** `EvenFieldsToDict` over the values and spaces read gives the dict of
      the fields' values. */
  lemma MapsToDict(h: Terms.Host, p: Terms.Term, names: seq<string>, vs: seq<Value>, s: string, i: nat, j: nat)
    requires i <= |s| && Terms.Run(h, p, s, i) == Terms.Ok(VList(Spaced(vs)), j)
    ensures Terms.Run(h, Terms.Map(p, Terms.EvenFieldsToDict(names)), s, i) == Terms.Ok(VDict(Zip(names, vs)), j)
  {
    EvensOfSpaced(vs);
    Terms.MapRun(h, p, Terms.EvenFieldsToDict(names), s, i);
    assert Terms.Apply(h, Terms.EvenFieldsToDict(names), VList(Spaced(vs))) == Success(VDict(Zip(names, vs)));
  }

  /** The combined parser of such fields reads their line whole. */
  lemma ParsesLine(h: Terms.Host, c: Codec.Codec, fs: seq<Codec.Field>, ks: seq<Kind>, vs: seq<Value>)
    requires Chosen(c.fields, fs, ks) && |ks| > 0 && AllFit(ks, vs) && Separable(ks, vs)
    requires c.combined == Codec.Combined(c.fields, Pr.Whitespace().term)
    ensures Terms.Parse(h, c.combined.term, Line(ks, vs)) == Terms.Ok(VDict(Zip(FieldNames(fs), vs)), |Line(ks, vs)|)
  {
    var text := Line(ks, vs);
    var body := Terms.Seq(Codec.Interleave(Codec.FieldTerms(c.fields), Pr.Whitespace().term));
    ReadsBody(h, c.fields, fs, ks, vs);
    MapsToDict(h, body, FieldNames(fs), vs, text, 0, |text|);
  }

  /** The fields' parsers in sequence, separated by whitespace, read the
      line whole. */
  lemma ReadsBody(h: Terms.Host, fps: seq<Codec.FieldParser>, fs: seq<Codec.Field>, ks: seq<Kind>, vs: seq<Value>)
    requires Chosen(fps, fs, ks) && |ks| > 0 && AllFit(ks, vs) && Separable(ks, vs)
    ensures Terms.Run(h, Terms.Seq(Codec.Interleave(Codec.FieldTerms(fps), Pr.Whitespace().term)), Line(ks, vs), 0)
            == Terms.Ok(VList(Spaced(vs)), |Line(ks, vs)|)
  {
    var ts := Codec.FieldTerms(fps);
    ChosenTerms(fps, fs, ks);
    WholeLine(ts, ks, vs);
    ReadsFields(h, ts, ks, vs, Line(ks, vs), 0, []);
    Codec.SeqRun(h, Codec.Interleave(ts, Pr.Whitespace().term), Line(ks, vs), 0);
    EmptyThen(Spaced(vs));
  }

  lemma ChosenTerms(fps: seq<Codec.FieldParser>, fs: seq<Codec.Field>, ks: seq<Kind>)
    requires Chosen(fps, fs, ks)
    ensures |Codec.FieldTerms(fps)| == |ks|
    ensures forall j :: 0 <= j < |ks| ==> ChosenFor(Codec.FieldTerms(fps)[j], ks[j])
  {
  }

  lemma EmptyThen(vs: seq<Value>)
    ensures [] + vs == vs
  {
  }

  /** The line of the fields, on its own, is laid out from its start. */
  lemma WholeLine(ts: seq<Terms.Term>, ks: seq<Kind>, vs: seq<Value>)
    requires |ts| == |ks| > 0 && AllFit(ks, vs) && Separable(ks, vs)
    requires forall j :: 0 <= j < |ts| ==> ChosenFor(ts[j], ks[j])
    ensures LineFrom(ts, ks, vs, Line(ks, vs), 0)
  {
    var text := Line(ks, vs);
    assert text[0..|text|] == text;
  }

  /** Validation of the dict read, as decoding reports it. */
  function Validated(h: Terms.Host, cls: string, d: Value): Result<Value, Codec.Problem> {
    match h.validate(cls, d)
    case Success(m) => Success(m)
    case Failure(msg) => Failure(Codec.Invalid(msg))
  }

  /** The round trip. For a model whose fields are ints, strings without
      whitespace and lists of ints, with the default separators, the codec
      builds; encoding an instance whose attributes hold fitting values
      writes their texts joined by spaces; and decoding that text hands the
      dict of exactly those values, under the fields' names, to validation. */
  lemma DecodeEncode(h: Terms.Host, k: Codec.Classifier, env: I.Env, sc: Codec.Schema,
                     ks: seq<Kind>, vs: seq<Value>, attrs: seq<Entry>)
    requires Annotated(sc.fields, ks) && |ks| > 0
    requires Separator.GetSeparatorString(sc.config) == " " && sc.decodeSep == Pr.Whitespace().term
    requires AllFit(ks, vs) && Separable(ks, vs)
    requires forall j :: 0 <= j < |ks| ==> Attr(attrs, sc.fields[j].name) == Some(vs[j])
    ensures Codec.Build(k, env, sc).Success?
    ensures var c := Codec.Build(k, env, sc).value;
            && Codec.Encode(c, attrs) == Success(Line(ks, vs))
            && Codec.Decode(h, c, Line(ks, vs)) == Validated(h, sc.cls, VDict(Zip(FieldNames(sc.fields), vs)))
  {
    BuiltChosen(k, env, sc, ks);
    var c := Codec.Build(k, env, sc).value;
    EncodesLine(c, sc.fields, ks, vs, attrs);
    DecodesLine(h, c, sc.fields, ks, vs);
  }

  /** The codec built for such a schema. */
  lemma BuiltChosen(k: Codec.Classifier, env: I.Env, sc: Codec.Schema, ks: seq<Kind>)
    requires Annotated(sc.fields, ks)
    requires Separator.GetSeparatorString(sc.config) == " " && sc.decodeSep == Pr.Whitespace().term
    ensures Codec.Build(k, env, sc).Success?
    ensures var c := Codec.Build(k, env, sc).value;
            && c.cls == sc.cls && c.sepStr == " "
            && Chosen(c.fields, sc.fields, ks)
            && c.combined == Codec.Combined(c.fields, Pr.Whitespace().term)
  {
    BuildsChosen(k, env, sc.fields, ks);
  }

  /** Decoding the line validates the dict of the values. */
  lemma DecodesLine(h: Terms.Host, c: Codec.Codec, fs: seq<Codec.Field>, ks: seq<Kind>, vs: seq<Value>)
    requires Chosen(c.fields, fs, ks) && |ks| > 0 && AllFit(ks, vs) && Separable(ks, vs)
    requires c.combined == Codec.Combined(c.fields, Pr.Whitespace().term)
    ensures Codec.Decode(h, c, Line(ks, vs)) == Validated(h, c.cls, VDict(Zip(FieldNames(fs), vs)))
  {
    ParsesLine(h, c, fs, ks, vs);
  }

  // ---------------------------------------------------------------------------
  // Encoding the decoded instance

  /** With distinct field names, and a validation that keeps the values it
      is given, encoding the instance decoded from the line writes the same
      line again. */
  lemma EncodeDecodeEncode(h: Terms.Host, k: Codec.Classifier, env: I.Env, sc: Codec.Schema,
                           ks: seq<Kind>, vs: seq<Value>, attrs: seq<Entry>)
    requires Annotated(sc.fields, ks) && |ks| > 0
    requires Separator.GetSeparatorString(sc.config) == " " && sc.decodeSep == Pr.Whitespace().term
    requires AllFit(ks, vs) && Separable(ks, vs)
    requires forall j :: 0 <= j < |ks| ==> Attr(attrs, sc.fields[j].name) == Some(vs[j])
    requires forall a, b :: 0 <= a < b < |ks| ==> sc.fields[a].name != sc.fields[b].name
    requires h.validate(sc.cls, VDict(Zip(FieldNames(sc.fields), vs)))
             == Success(VModel(sc.cls, Zip(FieldNames(sc.fields), vs)))
    ensures Codec.Build(k, env, sc).Success?
    ensures var c := Codec.Build(k, env, sc).value;
            var text := Codec.Encode(c, attrs);
            && text.Success?
            && Codec.Decode(h, c, text.value).Success?
            && Codec.Decode(h, c, text.value).value.VModel?
            && Codec.Encode(c, Codec.Decode(h, c, text.value).value.attrs) == text
  {
    DecodeEncode(h, k, env, sc, ks, vs, attrs);
    BuiltChosen(k, env, sc, ks);
    var c := Codec.Build(k, env, sc).value;
    var names := FieldNames(sc.fields);
    forall j | 0 <= j < |ks|
      ensures Attr(Zip(names, vs), sc.fields[j].name) == Some(vs[j])
    {
      AttrOfZip(names, vs, j);
    }
    EncodesLine(c, sc.fields, ks, vs, Zip(names, vs));
  }

  // ---------------------------------------------------------------------------
  // A model without fields

  /** A model without fields writes the empty text and reads it back as the
      empty dict; any other text is rejected at its first character, where
      the end of the input was expected. */
  lemma NoFields(h: Terms.Host, k: Codec.Classifier, env: I.Env, sc: Codec.Schema,
                 attrs: seq<Entry>, text: string)
    requires sc.fields == []
    ensures Codec.Build(k, env, sc).Success?
    ensures var c := Codec.Build(k, env, sc).value;
            && Codec.Encode(c, attrs) == Success("")
            && Codec.Decode(h, c, "") == Validated(h, sc.cls, VDict([]))
            && (text != "" ==>
                  Codec.Decode(h, c, text)
                  == Failure(Codec.Rejected(FE.Convert(E.Raised(Some(0), Some(E.ExpectedSet({"EOF"})), ""), text, None))))
  {
    var c := Codec.Build(k, env, sc).value;
    EmptyCodec(h, c, attrs, text);
  }

  /** A codec without fields, already built. */
  lemma EmptyCodec(h: Terms.Host, c: Codec.Codec, attrs: seq<Entry>, text: string)
    requires c.fields == [] && c.combined == Codec.Combined([], c.sepParser)
    ensures Codec.Encode(c, attrs) == Success("")
    ensures Codec.Decode(h, c, "") == Validated(h, c.cls, VDict([]))
    ensures text != "" ==>
              Codec.Decode(h, c, text)
              == Failure(Codec.Rejected(FE.Convert(E.Raised(Some(0), Some(E.ExpectedSet({"EOF"})), ""), text, None)))
  {
    assert c.combined.term == Terms.Succeed(VDict([]));
  }

  // ---------------------------------------------------------------------------
  // Where reading back fails

  /** Appending an int to a non-empty list adds one space and its decimal
      text. */
  lemma {:induction false} IntsTextSnoc(xs: seq<Value>, n: int)
    requires AllInts(xs) && |xs| > 0
    ensures AllInts(xs + [VInt(n)])
    ensures IntsText(xs + [VInt(n)]) == IntsText(xs) + " " + Decimal.IntToStr(n)
    decreases |xs|
  {
    var ys := xs + [VInt(n)];
    var head := Decimal.IntToStr(xs[0].i);
    assert ys[0] == xs[0] && ys[1..] == xs[1..] + [VInt(n)];
    assert AllInts(ys);
    assert IntsText(ys) == head + " " + IntsText(ys[1..]);
    if |xs| == 1 {
      assert ys[1..] == [VInt(n)];
    } else {
      IntsTextSnoc(xs[1..], n);
      assert IntsText(xs) == head + " " + IntsText(xs[1..]);
    }
  }

  /** The list field reads every integer of the line, up to its end, and
      the separator before the int field then fails there. */
  lemma ListReadsThrough(h: Terms.Host, c: Codec.Codec, fs: seq<Codec.Field>, xs: seq<Value>, n: int)
    requires Chosen(c.fields, fs, [KInts, KInt]) && AllInts(xs) && |xs| > 0
    requires c.combined == Codec.Combined(c.fields, Pr.Whitespace().term)
    ensures AllInts(xs + [VInt(n)])
    ensures var text := IntsText(xs + [VInt(n)]);
            Terms.Parse(h, c.combined.term, text).Err? && Terms.Parse(h, c.combined.term, text).pos == |text|
  {
    IntsTextSnoc(xs, n);
    var text := IntsText(xs + [VInt(n)]);
    var ts := Codec.FieldTerms(c.fields);
    ListThenSeparator(h, ts, xs, n);
    var body := Terms.Seq(Codec.Interleave(ts, Pr.Whitespace().term));
    Codec.SeqRun(h, Codec.Interleave(ts, Pr.Whitespace().term), text, 0);
    assert c.combined.term == Terms.Map(body, Terms.EvenFieldsToDict(Codec.Names(c.fields)));
    MapPassesFailure(h, body, Terms.EvenFieldsToDict(Codec.Names(c.fields)), text);
  }

  /** Reading the list, then the separator, on the run of integers. */
  lemma ListThenSeparator(h: Terms.Host, ts: seq<Terms.Term>, xs: seq<Value>, n: int)
    requires |ts| == 2 && ChosenFor(ts[0], KInts) && AllInts(xs + [VInt(n)])
    ensures var text := IntsText(xs + [VInt(n)]);
            var r := Terms.RunSeq(h, Codec.Interleave(ts, Pr.Whitespace().term), text, 0, []);
            r.Err? && r.pos == |text|
  {
    var ys := xs + [VInt(n)];
    var text := IntsText(ys);
    assert text[0..|text|] == text;
    ReadsField(h, ts[0], KInts, VList(ys), text, 0);
    Pr.WhitespaceReads(h, text, |text|, |text|);
    SeparatorAtEnd(h, ts, Pr.Whitespace().term, text, VList(ys));
  }

  /** A failure of the mapped parser is the failure of the whole. */
  lemma MapPassesFailure(h: Terms.Host, p: Terms.Term, f: Terms.MapFn, s: string)
    requires Terms.Run(h, p, s, 0).Err?
    ensures Terms.Run(h, Terms.Map(p, f), s, 0) == Terms.Run(h, p, s, 0)
  {
  }

  /** A sequence of two fields whose first reads the whole text fails at
      the end, on the separator. */
  lemma SeparatorAtEnd(h: Terms.Host, ts: seq<Terms.Term>, ws: Terms.Term, s: string, v: Value)
    requires |ts| == 2 && Terms.Run(h, ts[0], s, 0) == Terms.Ok(v, |s|)
    requires Terms.Run(h, ws, s, |s|).Err?
    ensures Terms.RunSeq(h, Codec.Interleave(ts, ws), s, 0, []) == Terms.Run(h, ws, s, |s|)
  {
    assert Codec.Interleave(ts, ws) == [ts[0], ws, ts[1]];
    assert [ts[0], ws, ts[1]][1..] == [ws, ts[1]];
  }

  /** The arrangement the round trip excludes: a list of ints followed by
      an int. The codec writes the list's integers and the int as one run
      of integers; decoding it, the list reads them all, and the text is
      rejected at its end, where the separator before the int field was
      expected. */
  lemma ListSwallowsInt(h: Terms.Host, k: Codec.Classifier, env: I.Env, sc: Codec.Schema,
                        xs: seq<Value>, n: int, attrs: seq<Entry>)
    requires Annotated(sc.fields, [KInts, KInt])
    requires Separator.GetSeparatorString(sc.config) == " " && sc.decodeSep == Pr.Whitespace().term
    requires AllInts(xs) && |xs| > 0
    requires Attr(attrs, sc.fields[0].name) == Some(VList(xs)) && Attr(attrs, sc.fields[1].name) == Some(VInt(n))
    ensures Codec.Build(k, env, sc).Success?
    ensures AllInts(xs + [VInt(n)])
    ensures var c := Codec.Build(k, env, sc).value;
            var text := IntsText(xs + [VInt(n)]);
            && Codec.Encode(c, attrs) == Success(text)
            && Codec.Decode(h, c, text).Failure?
            && Codec.Decode(h, c, text).error.Rejected?
            && Codec.Decode(h, c, text).error.error.index == |text|
  {
    BuiltChosen(k, env, sc, [KInts, KInt]);
    var c := Codec.Build(k, env, sc).value;
    ListThenIntEncodes(c, sc.fields, xs, n, attrs);
    ListReadsThrough(h, c, sc.fields, xs, n);
  }

  /** The list of ints and the int are written as one run of integers. */
  lemma ListThenIntEncodes(c: Codec.Codec, fs: seq<Codec.Field>, xs: seq<Value>, n: int, attrs: seq<Entry>)
    requires Chosen(c.fields, fs, [KInts, KInt]) && c.sepStr == " "
    requires AllInts(xs) && |xs| > 0
    requires Attr(attrs, fs[0].name) == Some(VList(xs)) && Attr(attrs, fs[1].name) == Some(VInt(n))
    ensures AllInts(xs + [VInt(n)])
    ensures Codec.Encode(c, attrs) == Success(IntsText(xs + [VInt(n)]))
  {
    ListThenIntLine(xs, n);
    EncodesPair(c, fs, [KInts, KInt], [VList(xs), VInt(n)], attrs);
  }

  /** `EncodesLine` for two fields. */
  lemma EncodesPair(c: Codec.Codec, fs: seq<Codec.Field>, ks: seq<Kind>, vs: seq<Value>, attrs: seq<Entry>)
    requires |vs| == 2 && Chosen(c.fields, fs, ks) && AllFit(ks, vs) && c.sepStr == " "
    requires Attr(attrs, fs[0].name) == Some(vs[0]) && Attr(attrs, fs[1].name) == Some(vs[1])
    ensures Codec.Encode(c, attrs) == Success(Line(ks, vs))
  {
    forall j | 0 <= j < |fs|
      ensures Attr(attrs, fs[j].name) == Some(vs[j])
    {
      assert j == 0 || j == 1;
    }
    EncodesLine(c, fs, ks, vs, attrs);
  }

  /** The line of a list of ints and an int is the run of all the ints. */
  lemma ListThenIntLine(xs: seq<Value>, n: int)
    requires AllInts(xs) && |xs| > 0
    ensures AllFit([KInts, KInt], [VList(xs), VInt(n)])
    ensures AllInts(xs + [VInt(n)])
    ensures Line([KInts, KInt], [VList(xs), VInt(n)]) == IntsText(xs + [VInt(n)])
  {
    var ks := [KInts, KInt];
    var vs := [VList(xs), VInt(n)];
    assert AllFit(ks, vs) by {
      assert Fits(ks[0], vs[0]) && Fits(ks[1], vs[1]);
    }
    assert Line(ks, vs) == IntsText(xs) + " " + Decimal.IntToStr(n) by {
      LineOfPair(ks, vs);
    }
    IntsTextSnoc(xs, n);
  }

  /** The line of two fields is their texts around one space. */
  lemma LineOfPair(ks: seq<Kind>, vs: seq<Value>)
    requires |ks| == 2 && AllFit(ks, vs)
    ensures Line(ks, vs) == Text(ks[0], vs[0]) + " " + Text(ks[1], vs[1])
  {
    var ts := Texts(ks, vs);
    assert ts[1..] == [Text(ks[1], vs[1])];
  }
}

=== FILE: scanners.dfy ===
/** Hand-written scanners for the fixed regular expressions of the primitives:
    `-?\d+(?![.eE])`, `-?(?:\d+\.?\d*|\.\d+)(?:[eE][+-]?\d+)?`, `\S+`, `\s+` and
    `[A-Za-z0-9_]+`. Each returns the end of the match that Python's backtracking
    `re.match` finds at the cursor, or `None`. */
module Scanners {
  import opened Chars
  import opened Wrappers
  import Decimal

  /** The fixed expressions, by the pattern text parsy reports as "expected". */
  datatype Rx = IntRx | FloatRx | NonSpaceRx | SpaceRx | WordRx

  function Pattern(rx: Rx): string {
    match rx
    case IntRx => "-?\\d+(?![.eE])"
    case FloatRx => "-?(?:\\d+\\.?\\d*|\\.\\d+)(?:[eE][+-]?\\d+)?"
    case NonSpaceRx => "\\S+"
    case SpaceRx => "\\s+"
    case WordRx => "[A-Za-z0-9_]+"
  }

  datatype CharClass = Digits | Spaces | NonSpaces | WordChars

  predicate InClass(cls: CharClass, c: char) {
    match cls
    case Digits => IsDigit(c)
    case Spaces => IsSpace(c)
    case NonSpaces => !IsSpace(c)
    case WordChars => IsWordChar(c)
  }

  /** End of the longest run of `cls` characters starting at `i`. */
  function RunEnd(cls: CharClass, s: string, i: nat): (e: nat)
    requires i <= |s|
    ensures i <= e <= |s|
    ensures forall k :: i <= k < e ==> InClass(cls, s[k])
    ensures e == |s| || !InClass(cls, s[e])
    decreases |s| - i
  {
    if i < |s| && InClass(cls, s[i]) then RunEnd(cls, s, i + 1) else i
  }

  /** A run is determined by its start: any end with the two run properties is `RunEnd`. */
  lemma {:induction false} RunEndUnique(cls: CharClass, s: string, i: nat, e: nat)
    requires i <= e <= |s|
    requires forall k :: i <= k < e ==> InClass(cls, s[k])
    requires e == |s| || !InClass(cls, s[e])
    ensures e == RunEnd(cls, s, i)
    decreases e - i
  {
    if i < e {
      RunEndUnique(cls, s, i + 1, e);
    }
  }

  /** A stretch of `cls` characters from `i` lies inside the run at `i`. */
  lemma {:induction false} RunCovers(cls: CharClass, s: string, i: nat, e: nat)
    requires i <= e <= |s|
    requires forall k :: i <= k < e ==> InClass(cls, s[k])
    ensures e <= RunEnd(cls, s, i)
    decreases e - i
  {
    if i < e {
      RunCovers(cls, s, i + 1, e);
    }
  }

  // ---------------------------------------------------------------------------
  // Integer: -?\d+(?![.eE])

  /** The negative lookahead `(?![.eE])` at position `e`. */
  predicate LookaheadOk(s: string, e: nat)
    requires e <= |s|
  {
    e == |s| || (s[e] != '.' && s[e] != 'e' && s[e] != 'E')
  }

  /** `s[i..e]` is a match of the integer expression at `i`. */
  predicate IntMatch(s: string, i: nat, e: nat) {
    i < e <= |s| && Decimal.IsIntLexeme(s[i..e]) && LookaheadOk(s, e)
  }

  /** The integer lexer: the longest match at `i` (what backtracking finds first),
      or `None` when there is none. */
  function IntScan(s: string, i: nat): (r: Option<nat>)
    requires i <= |s|
    ensures r.Some? ==> IntMatch(s, i, r.value)
    ensures r.Some? ==> forall e: nat :: IntMatch(s, i, e) ==> e <= r.value
    ensures r.None? ==> forall e: nat :: !IntMatch(s, i, e)
  {
    var k := if i < |s| && s[i] == '-' then i + 1 else i;
    var d := RunEnd(Digits, s, k);
    IntLongest(s, i, k, d);
    if d == k then
      None
    else if LookaheadOk(s, d) then
      IntMatchAt(s, i, k, d, d);
      Some(d)
    else if d - k >= 2 then
      IntMatchAt(s, i, k, d, d - 1);
      Some(d - 1)
    else
      None
  }

  lemma IntMatchAt(s: string, i: nat, k: nat, d: nat, e: nat)
    requires i <= k <= i + 1 && k <= |s|
    requires k == i + 1 <==> (i < |s| && s[i] == '-')
    requires d == RunEnd(Digits, s, k) && k < e <= d
    requires LookaheadOk(s, e)
    ensures IntMatch(s, i, e)
  {
    var w := s[i..e];
    if k == i + 1 {
      assert w[0] == '-';
      assert forall j :: 0 <= j < |w[1..]| ==> w[1..][j] == s[k + j];
    } else {
      assert forall j :: 0 <= j < |w| ==> w[j] == s[k + j];
    }
  }

  /** Every integer lexeme at `i` ends within the digit run after the sign, and
      one that ends inside the run (before its last digit) is followed by a digit. */
  lemma IntLongest(s: string, i: nat, k: nat, d: nat)
    requires i <= k <= i + 1 && k <= |s|
    requires k == i + 1 <==> (i < |s| && s[i] == '-')
    requires d == RunEnd(Digits, s, k)
    ensures forall e: nat :: i < e <= |s| && Decimal.IsIntLexeme(s[i..e]) ==> k < e <= d
  {
    forall e: nat | i < e <= |s| && Decimal.IsIntLexeme(s[i..e])
      ensures k < e <= d
    {
      var w := s[i..e];
      if k == i + 1 {
        assert w[0] == '-';
        assert forall j :: k <= j < e ==> s[j] == w[1..][j - k];
      } else {
        assert forall j :: k <= j < e ==> s[j] == w[j - k];
      }
      RunCovers(Digits, s, k, e);
    }
  }

  // ---------------------------------------------------------------------------
  // Float: -?(?:\d+\.?\d*|\.\d+)(?:[eE][+-]?\d+)?

  /** The mantissa alternatives `\d+\.?\d*` and `\.\d+`. */
  predicate IsMantissa(x: string) {
    || (|x| > 0 && AllDigits(x))
    || (exists p :: 0 < p < |x| && x[p] == '.' && AllDigits(x[..p]) && AllDigits(x[p + 1..]))
    || (|x| >= 2 && x[0] == '.' && AllDigits(x[1..]))
  }

  /** The exponent `[eE][+-]?\d+`. */
  predicate IsExponent(y: string) {
    && |y| >= 2 && (y[0] == 'e' || y[0] == 'E')
    && ((IsDigit(y[1]) && AllDigits(y[1..]))
        || (|y| >= 3 && (y[1] == '+' || y[1] == '-') && AllDigits(y[2..])))
  }

  /** `w` is in the language of the float expression, with the mantissa ending at `m`. */
  predicate FloatSplit(w: string, m: nat) {
    var b := if |w| > 0 && w[0] == '-' then 1 else 0;
    && b < m <= |w|
    && IsMantissa(w[b..m])
    && (m == |w| || IsExponent(w[m..]))
  }

  predicate IsFloatLexeme(w: string) {
    exists m :: 0 <= m <= |w| && FloatSplit(w, m)
  }

  /** `s[a..b]` is all digits. */
  predicate DigitsIn(s: string, a: nat, b: nat)
    requires a <= b <= |s|
  {
    forall j :: a <= j < b ==> IsDigit(s[j])
  }

  lemma DigitsSlice(s: string, a: nat, b: nat)
    requires a <= b <= |s|
    ensures AllDigits(s[a..b]) <==> DigitsIn(s, a, b)
  {
    assert forall j :: a <= j < b ==> s[a..b][j - a] == s[j];
  }

  /** A slice of a slice is a slice. */
  lemma Slice(s: string, i: nat, e: nat, x: nat, y: nat)
    requires i <= e <= |s| && x <= y <= e - i
    ensures s[i..e][x..y] == s[i + x..i + y]
  {
    assert forall j :: 0 <= j < y - x ==> s[i..e][x..y][j] == s[i + x + j];
  }

  /** End of the mantissa at `k`, if one starts there (greedy). */
  function MantissaEnd(s: string, k: nat): (r: Option<nat>)
    requires k <= |s|
    ensures r.Some? ==> k < r.value <= |s| && IsMantissa(s[k..r.value])
    ensures r.Some? ==> r.value == |s| || !IsDigit(s[r.value])
  {
    if k < |s| && IsDigit(s[k]) then
      var d := RunEnd(Digits, s, k);
      if d < |s| && s[d] == '.' then
        var d2 := RunEnd(Digits, s, d + 1);
        var x := s[k..d2];
        var p := d - k;
        assert x[p] == '.';
        assert forall j :: 0 <= j < p ==> x[..p][j] == s[k + j];
        assert x[p + 1..] == s[d + 1..d2];
        assert 0 < p < |x| && x[p] == '.' && AllDigits(x[..p]) && AllDigits(x[p + 1..]);
        Some(d2)
      else
        Some(d)
    else if k + 1 < |s| && s[k] == '.' && IsDigit(s[k + 1]) then
      var d := RunEnd(Digits, s, k + 1);
      assert s[k..d][1..] == s[k + 1..d];
      Some(d)
    else
      None
  }

  /** The greedy mantissa holds only digits and `.`. */
  lemma MantissaChars(s: string, k: nat)
    requires k <= |s| && MantissaEnd(s, k).Some?
    ensures forall j :: k <= j < MantissaEnd(s, k).value ==> IsDigit(s[j]) || s[j] == '.'
  {
    if k < |s| && IsDigit(s[k]) {
      var d := RunEnd(Digits, s, k);
      if d < |s| && s[d] == '.' {
        var d2 := RunEnd(Digits, s, d + 1);
        assert MantissaEnd(s, k).value == d2;
      }
    } else {
      var d := RunEnd(Digits, s, k + 1);
      assert MantissaEnd(s, k).value == d;
    }
  }

  /** No mantissa at `k` ends after the greedy one. */
  lemma MantissaLongest(s: string, k: nat, a: nat)
    requires k < a <= |s| && IsMantissa(s[k..a])
    ensures MantissaEnd(s, k).Some? && a <= MantissaEnd(s, k).value
  {
    var x := s[k..a];
    if |x| > 0 && AllDigits(x) {
      DigitsSlice(s, k, a);
      RunCovers(Digits, s, k, a);
    } else if |x| >= 2 && x[0] == '.' && AllDigits(x[1..]) {
      LeadingPointLongest(s, k, a);
    } else {
      var p :| 0 < p < |x| && x[p] == '.' && AllDigits(x[..p]) && AllDigits(x[p + 1..]);
      InnerPointLongest(s, k, a, p);
    }
  }

  /** `\d+\.\d*` at `k`: the greedy mantissa takes the whole digit run after the point. */
  lemma InnerPointLongest(s: string, k: nat, a: nat, p: nat)
    requires k < a <= |s| && 0 < p < a - k
    requires s[k..a][p] == '.' && AllDigits(s[k..a][..p]) && AllDigits(s[k..a][p + 1..])
    ensures MantissaEnd(s, k).Some? && a <= MantissaEnd(s, k).value
  {
    Slice(s, k, a, 0, p);
    Slice(s, k, a, p + 1, a - k);
    DigitsSlice(s, k, k + p);
    DigitsSlice(s, k + p + 1, a);
    RunCovers(Digits, s, k, k + p);
    RunEndUnique(Digits, s, k, k + p);
    RunCovers(Digits, s, k + p + 1, a);
  }

  /** `\.\d+` at `k`: the greedy mantissa takes the whole digit run. */
  lemma LeadingPointLongest(s: string, k: nat, a: nat)
    requires k + 2 <= a <= |s| && s[k..a][0] == '.' && AllDigits(s[k..a][1..])
    ensures MantissaEnd(s, k).Some? && a <= MantissaEnd(s, k).value
  {
    Slice(s, k, a, 1, a - k);
    DigitsSlice(s, k + 1, a);
    RunCovers(Digits, s, k + 1, a);
  }

  /** End of an exponent at `m`, or `m` when none can be matched there. */
  function ExponentEnd(s: string, m: nat): (r: nat)
    requires m <= |s|
    ensures m <= r <= |s|
    ensures r > m ==> IsExponent(s[m..r]) && (r == |s| || !IsDigit(s[r]))
  {
    if m < |s| && (s[m] == 'e' || s[m] == 'E') then
      var x := if m + 1 < |s| && (s[m + 1] == '+' || s[m + 1] == '-') then m + 2 else m + 1;
      if x < |s| && IsDigit(s[x]) then
        var d := RunEnd(Digits, s, x);
        var y := s[m..d];
        assert x == m + 2 ==> y[2..] == s[x..d];
        assert x == m + 1 ==> y[1..] == s[x..d];
        d
      else m
    else m
  }

  /** No exponent at `m` ends after the greedy one. */
  lemma ExponentLongest(s: string, m: nat, e: nat)
    requires m < e <= |s| && IsExponent(s[m..e])
    ensures e <= ExponentEnd(s, m)
  {
    var y := s[m..e];
    assert y[0] == s[m] && y[1] == s[m + 1];
    if IsDigit(y[1]) && AllDigits(y[1..]) {
      Slice(s, m, e, 1, e - m);
      DigitsSlice(s, m + 1, e);
      RunCovers(Digits, s, m + 1, e);
    } else {
      Slice(s, m, e, 2, e - m);
      DigitsSlice(s, m + 2, e);
      RunCovers(Digits, s, m + 2, e);
    }
  }

  /** `s[k..e]` is a mantissa ending at `x`, then an optional exponent. */
  predicate FloatParts(s: string, k: nat, x: nat, e: nat) {
    && k < x <= e <= |s|
    && IsMantissa(s[k..x])
    && (x == e || IsExponent(s[x..e]))
  }

  /** On a slice of `s` starting at `i`, a split at offset `y` is a mantissa
      from `k` (past the optional sign) to `i + y`, then an optional exponent. */
  lemma SplitOfSlice(s: string, i: nat, k: nat, e: nat, y: nat)
    requires i <= k <= i + 1 && i < e <= |s|
    requires k == i + 1 <==> s[i] == '-'
    requires y <= e - i && FloatSplit(s[i..e], y)
    ensures k < i + y && FloatParts(s, k, i + y, e)
  {
    assert s[i..e][0] == s[i];
    Slice(s, i, e, k - i, y);
    Slice(s, i, e, y, e - i);
  }

  /** The converse of `SplitOfSlice`. */
  lemma SliceSplits(s: string, i: nat, k: nat, e: nat, x: nat)
    requires i <= k <= i + 1 && i < e <= |s|
    requires k == i + 1 <==> s[i] == '-'
    requires k < x && FloatParts(s, k, x, e)
    ensures FloatSplit(s[i..e], x - i)
  {
    assert s[i..e][0] == s[i];
    Slice(s, i, e, k - i, x - i);
    Slice(s, i, e, x - i, e - i);
  }

  /** The greedy mantissa and exponent after the optional sign make a float lexeme. */
  lemma FloatScanMatches(s: string, i: nat, k: nat, m: nat)
    requires i <= k <= i + 1 && k <= |s|
    requires k == i + 1 <==> (i < |s| && s[i] == '-')
    requires MantissaEnd(s, k) == Some(m)
    ensures FloatSplit(s[i..ExponentEnd(s, m)], m - i)
  {
    SliceSplits(s, i, k, ExponentEnd(s, m), m);
  }

  /** Every float lexeme at `i` ends at or before the greedy match: a shorter
      mantissa is followed by a digit or `.`, never by an exponent. */
  lemma FloatLongest(s: string, i: nat, k: nat, m: nat)
    requires i <= k <= i + 1 && k <= |s|
    requires k == i + 1 <==> (i < |s| && s[i] == '-')
    requires MantissaEnd(s, k) == Some(m)
    ensures forall e: nat :: i < e <= |s| && IsFloatLexeme(s[i..e]) ==> e <= ExponentEnd(s, m)
  {
    forall e: nat | i < e <= |s| && IsFloatLexeme(s[i..e])
      ensures e <= ExponentEnd(s, m)
    {
      var x := LexemeParts(s, i, k, e);
      FloatEndsBefore(s, k, m, e, x);
    }
  }

  /** A float lexeme at `i` splits into a mantissa from `k` and an optional exponent. */
  lemma LexemeParts(s: string, i: nat, k: nat, e: nat) returns (x: nat)
    requires i <= k <= i + 1 && i < e <= |s|
    requires k == i + 1 <==> s[i] == '-'
    requires IsFloatLexeme(s[i..e])
    ensures k < x && FloatParts(s, k, x, e)
  {
    var y :| 0 <= y <= |s[i..e]| && FloatSplit(s[i..e], y);
    SplitOfSlice(s, i, k, e, y);
    x := i + y;
  }

  lemma FloatEndsBefore(s: string, k: nat, m: nat, e: nat, x: nat)
    requires k < x && FloatParts(s, k, x, e)
    requires MantissaEnd(s, k) == Some(m)
    ensures e <= ExponentEnd(s, m)
  {
    MantissaLongest(s, k, x);
    if x < e {
      MantissaChars(s, k);
      assert s[x] == s[x..e][0];
      assert x == m;
      ExponentLongest(s, m, e);
    }
  }

  /** The float lexer: the match `re.match` finds at `i`, or `None`. The
      expression is greedy, so the match is the longest float lexeme there. */
  function FloatScan(s: string, i: nat): (r: Option<nat>)
    requires i <= |s|
    ensures r.Some? ==> i < r.value <= |s| && IsFloatLexeme(s[i..r.value])
    ensures r.Some? ==> forall e: nat :: r.value < e <= |s| ==> !IsFloatLexeme(s[i..e])
    ensures r.None? <==> !StartsFloat(s, i)
  {
    var k := if i < |s| && s[i] == '-' then i + 1 else i;
    match MantissaEnd(s, k)
    case None => None
    case Some(m) =>
      FloatScanMatches(s, i, k, m);
      FloatLongest(s, i, k, m);
      Some(ExponentEnd(s, m))
  }

  /** The float lexer matches exactly when, after an optional `-`, the input
      starts with a digit or with `.` followed by a digit. */
  predicate StartsFloat(s: string, i: nat)
    requires i <= |s|
  {
    var k := if i < |s| && s[i] == '-' then i + 1 else i;
    (k < |s| && IsDigit(s[k])) || (k + 1 < |s| && s[k] == '.' && IsDigit(s[k + 1]))
  }

  // ---------------------------------------------------------------------------
  // Token classes: \S+, \s+, [A-Za-z0-9_]+

  /** A nonempty maximal run of `cls`, as `\S+`, `\s+` and `[A-Za-z0-9_]+` match. */
  function RunScan(cls: CharClass, s: string, i: nat): (r: Option<nat>)
    requires i <= |s|
    ensures r.Some? <==> i < |s| && InClass(cls, s[i])
    ensures r.Some? ==> i < r.value <= |s| && r.value == RunEnd(cls, s, i)
  {
    var e := RunEnd(cls, s, i);
    if e == i then None else Some(e)
  }

  /** Dispatch on the fixed expression. */
  function Scan(rx: Rx, s: string, i: nat): (r: Option<nat>)
    requires i <= |s|
    ensures r.Some? ==> i < r.value <= |s|
  {
    match rx
    case IntRx => IntScan(s, i)
    case FloatRx => FloatScan(s, i)
    case NonSpaceRx => RunScan(NonSpaces, s, i)
    case SpaceRx => RunScan(Spaces, s, i)
    case WordRx => RunScan(WordChars, s, i)
  }
}

=== FILE: separator.dfy ===
/** The separator string `model/separator.py` reads from a model's
    `model_config`: what the encoder puts between formatted fields. */
module Separator {
  import opened Wrappers

  /** The value stored under `parse_separator`. */
  datatype SepSetting =
    /** A string. */
    | SepText(s: string)
    /** An explicit `None`. */
    | SepNone
    /** Anything else, a parser object in particular. */
    | SepOther

  /** A model class's `model_config` attribute. */
  datatype ModelConfig =
    /** The class has no `model_config` (read as an empty dict). */
    | NoModelConfig
    /** `model_config` is not a dict. */
    | NotADict
    /** A dict; `parse_separator` is the value under that key, if present. */
    | ConfigDict(parseSeparator: Option<SepSetting>)

  /** The configured separator text, when there is one. */
  predicate HasSeparatorText(c: ModelConfig) {
    c.ConfigDict? && c.parseSeparator.Some? && c.parseSeparator.value.SepText?
  }

  /** `get_separator_string`: a string setting verbatim, a single space for
      every other configuration. */
  function GetSeparatorString(c: ModelConfig): (r: string)
    ensures HasSeparatorText(c) ==> r == c.parseSeparator.value.s
    ensures !HasSeparatorText(c) ==> r == " "
  {
    match c
    case NoModelConfig => " "
    case NotADict => " "
    case ConfigDict(setting) =>
      if setting.None? then " "
      else
        match setting.value
        case SepText(s) => s
        case SepNone => " "
        case SepOther => " "
  }

  /** A separator given as a parser is not written: the encoder falls back to
      a space, the same text as with no configuration at all. */
  lemma ParserSeparatorWritesSpace()
    ensures GetSeparatorString(ConfigDict(Some(SepOther))) == GetSeparatorString(NoModelConfig) == " "
    ensures GetSeparatorString(ConfigDict(Some(SepNone))) == GetSeparatorString(ConfigDict(None)) == " "
    ensures GetSeparatorString(NotADict) == " "
  {
  }

  /** Two configurations write different separators only if one of them
      names a string other than a single space. */
  lemma SeparatorDiffers(a: ModelConfig, b: ModelConfig)
    requires GetSeparatorString(a) != GetSeparatorString(b)
    ensures (HasSeparatorText(a) && a.parseSeparator.value.s != " ")
            || (HasSeparatorText(b) && b.parseSeparator.value.s != " ")
  {
  }
}

=== FILE: strorder.dfy ===
/** Python's ordering of strings (code point by code point, a proper prefix
    first) and `sorted` on a set of strings. */
module StrOrder {

  /** `a < b` on Python strings. */
  predicate Below(a: string, b: string)
    decreases |a|
  {
    |b| > 0 && (|a| == 0 || a[0] < b[0] || (a[0] == b[0] && Below(a[1..], b[1..])))
  }

  lemma {:induction false} BelowIrreflexive(a: string)
    ensures !Below(a, a)
    decreases |a|
  {
    if |a| > 0 {
      BelowIrreflexive(a[1..]);
    }
  }

  lemma {:induction false} BelowTransitive(a: string, b: string, c: string)
    requires Below(a, b) && Below(b, c)
    ensures Below(a, c)
    decreases |a|
  {
    if |a| > 0 && a[0] == b[0] && b[0] == c[0] {
      BelowTransitive(a[1..], b[1..], c[1..]);
    }
  }

  lemma {:induction false} BelowTotal(a: string, b: string)
    requires a != b
    ensures Below(a, b) || Below(b, a)
    decreases |a|
  {
    if |a| > 0 && |b| > 0 && a[0] == b[0] {
      assert a == [a[0]] + a[1..] && b == [b[0]] + b[1..];
      BelowTotal(a[1..], b[1..]);
    }
  }

  lemma BelowAsymmetric(a: string, b: string)
    requires Below(a, b)
    ensures !Below(b, a)
  {
    if Below(b, a) {
      BelowTransitive(a, b, a);
      BelowIrreflexive(a);
    }
  }

  /** `m` is the least element of `s`. */
  predicate IsLeast(m: string, s: set<string>) {
    m in s && forall x :: x in s && x != m ==> Below(m, x)
  }

  /** A finite non-empty set of strings has a least element. */
  lemma {:induction false} LeastExists(s: set<string>)
    requires s != {}
    ensures exists m :: IsLeast(m, s)
    decreases |s|
  {
    var y :| y in s;
    if s == {y} {
      assert IsLeast(y, s);
    } else {
      var rest := s - {y};
      LeastExists(rest);
      var m :| IsLeast(m, rest);
      if Below(y, m) {
        forall x | x in s && x != y
          ensures Below(y, x)
        {
          if x != m {
            BelowTransitive(y, m, x);
          }
        }
        assert IsLeast(y, s);
      } else {
        BelowTotal(y, m);
        assert IsLeast(m, s);
      }
    }
  }

  lemma LeastUnique(m1: string, m2: string, s: set<string>)
    requires IsLeast(m1, s) && IsLeast(m2, s)
    ensures m1 == m2
  {
    if m1 != m2 {
      BelowAsymmetric(m1, m2);
    }
  }

  /** The least element of a non-empty set. */
  function Least(s: set<string>): (m: string)
    requires s != {}
    ensures IsLeast(m, s)
  {
    LeastExists(s);
    assert forall m1, m2 :: IsLeast(m1, s) && IsLeast(m2, s) ==> m1 == m2 by {
      forall m1, m2 | IsLeast(m1, s) && IsLeast(m2, s)
        ensures m1 == m2
      {
        LeastUnique(m1, m2, s);
      }
    }
    var m :| IsLeast(m, s);
    m
  }

  /** Strictly increasing. */
  predicate Increasing(xs: seq<string>) {
    forall i, j :: 0 <= i < j < |xs| ==> Below(xs[i], xs[j])
  }

  /** `sorted(s)`: the elements of the set, each once, in increasing order. */
  function Sorted(s: set<string>): (r: seq<string>)
    ensures |r| == |s|
    ensures forall x :: x in r <==> x in s
    ensures Increasing(r)
    decreases |s|
  {
    if s == {} then []
    else
      var m := Least(s);
      var rest := Sorted(s - {m});
      assert forall k :: 0 <= k < |rest| ==> rest[k] in s - {m};
      [m] + rest
  }

  /** Sorting is the only increasing arrangement of a set: any increasing
      sequence holding exactly the elements of `s` is `sorted(s)`. */
  lemma {:induction false} SortedUnique(s: set<string>, xs: seq<string>)
    requires Increasing(xs)
    requires forall x :: x in xs <==> x in s
    ensures xs == Sorted(s)
    decreases |xs|
  {
    if |xs| == 0 {
      assert s == {};
    } else {
      assert xs[0] in s;
      var m := Least(s);
      assert xs[0] == m by {
        if xs[0] != m {
          var k :| 0 <= k < |xs| && xs[k] == m;
          assert Below(m, xs[0]);
          assert k > 0 && Below(xs[0], xs[k]);
          BelowAsymmetric(m, xs[0]);
        }
      }
      forall x
        ensures x in xs[1..] <==> x in s - {m}
      {
        if x in xs[1..] {
          var k :| 1 <= k < |xs| && xs[k] == x;
          assert Below(xs[0], xs[k]);
          BelowIrreflexive(x);
        }
        if x in s - {m} {
          var k :| 0 <= k < |xs| && xs[k] == x;
          assert k != 0;
          assert xs[1..][k - 1] == x;
        }
      }
      SortedUnique(s - {m}, xs[1..]);
      assert xs == [xs[0]] + xs[1..];
    }
  }
}

=== FILE: terms.dfy ===
/** A deep embedding of the parsy parsers the library builds, and an
    interpreter that runs them on a text from a cursor position.

    parsy's results also carry the furthest failure seen so far, even on
    success; only the failure of a failed parse carries a position here. */
module Terms {
  import opened Wrappers
  import opened Values
  import Scanners
  import Decimal
  import Chars
  import Positions

  /** The single-character tests of `parsy.test_char` and its instances. */
  datatype CharPred =
    | AnyChar
    | CharFrom(chars: string)
    | Letter
    | DigitChar
    /** A caller-supplied predicate, decided by the host, with its description. */
    | UserPred(name: string, description: string)

  /** The functions given to `.map`. */
  datatype MapFn =
    /** `int` applied to an integer lexeme. */
    | ToInt
    /** `float` applied to a float lexeme; the lexeme is kept. */
    | ToFloat
    /** `"".join`, as `concat` uses. */
    | JoinStr
    /** `lambda v: v[0] if v else None`, as `optional` uses. */
    | FirstOrNone
    /** List concatenation, as parsy's `+` on parsers uses. */
    | ListAdd
    /** Keep the values at even positions and pair them with the names. */
    | EvenFieldsToDict(names: seq<string>)
    /** `dict(zip(names, values))`. */
    | ZipDict(names: seq<string>)
    /** `cls.model_validate`. */
    | Validate(cls: string)
    /** A caller-supplied function, applied by the host. */
    | UserFn(name: string)

  datatype Term =
    /** `parsy.string(text)`. */
    | Str(text: string)
    /** `parsy.regex` with one of the library's fixed expressions. */
    | Regex(rx: Scanners.Rx)
    /** `parsy.regex` with a caller-supplied expression, matched by the host. */
    | UserRegex(pattern: string)
    /** `parsy.test_char` and its instances. */
    | Char(pred: CharPred)
    /** `parsy.success(v)`. */
    | Succeed(v: Value)
    /** `parsy.fail(expected)`. */
    | Failing(expected: string)
    | Eof
    | Index
    | LineInfo
    /** `parsy.peek(p)`. */
    | Peek(p: Term)
    /** `parsy.seq(*ps)`: a list of the values. */
    | Seq(ps: seq<Term>)
    /** `a | b`. */
    | Alt(a: Term, b: Term)
    /** `a >> b`. */
    | Then(a: Term, b: Term)
    /** `a << b`. */
    | Skip(a: Term, b: Term)
    /** `p.times(min, max)`; `max == None` is unbounded. */
    | Rep(p: Term, min: nat, max: Option<nat>)
    /** `p.map(f)`. */
    | Map(p: Term, f: MapFn)
    /** `p.bind(fn)`, with `fn` given as a finite table: the parser for
        `keys[k]` is `bodies[k]`, and `otherwise` for any other value. */
    | Bind(p: Term, keys: seq<Value>, bodies: seq<Term>, otherwise: Term)
    /** `p.desc(description)`. */
    | Desc(p: Term, description: string)

  /** The collaborators the interpreter cannot see: the regular-expression
      engine for caller patterns (the end of the match at an index, if any),
      caller predicates and functions, and pydantic validation. */
  datatype Host = Host(
    regex: (string, string, nat) -> Option<nat>,
    pred: (string, char) -> bool,
    fn: (string, Value) -> Result<Value, string>,
    validate: (string, Value) -> Result<Value, string>)

  /** Why a run stops without a parse result. */
  datatype Abort =
    /** A repetition whose element succeeds without consuming input loops forever. */
    | Diverges
    /** An exception escaped from a mapped function. */
    | Raises(message: string)

  datatype Reply =
    | Ok(value: Value, next: nat)
    /** A failure at `pos`, with the descriptions parsy reports as expected. */
    | Err(pos: nat, expected: set<string>)
    | Stop(why: Abort)

  // ---------------------------------------------------------------------------
  // Sizes, for the termination measure

  function Size(t: Term): nat
    ensures Size(t) >= 1
    decreases t
  {
    match t
    case Peek(p) => Size(p) + 1
    case Seq(ps) => SizeSeq(ps) + 1
    case Alt(a, b) => Size(a) + Size(b) + 1
    case Then(a, b) => Size(a) + Size(b) + 1
    case Skip(a, b) => Size(a) + Size(b) + 1
    case Rep(p, _, _) => Size(p) + 1
    case Map(p, _) => Size(p) + 1
    case Bind(p, _, bodies, other) => Size(p) + SizeSeq(bodies) + Size(other) + 1
    case Desc(p, _) => Size(p) + 1
    case _ => 1
  }

  function SizeSeq(ps: seq<Term>): nat
    decreases ps
  {
    if |ps| == 0 then 0 else Size(ps[0]) + SizeSeq(ps[1..])
  }

  /** The continuation a bind table chooses for `v`: the body of the first
      key equal to `v`, else `otherwise`. */
  function Select(keys: seq<Value>, bodies: seq<Term>, otherwise: Term, v: Value): (r: Term)
    ensures Size(r) <= SizeSeq(bodies) + Size(otherwise)
    ensures r == otherwise || r in bodies
    ensures (forall k :: 0 <= k < |keys| && k < |bodies| ==> keys[k] != v) ==> r == otherwise
  {
    if |keys| == 0 || |bodies| == 0 then otherwise
    else if keys[0] == v then bodies[0]
    else
      assert forall k :: 1 <= k < |keys| && k < |bodies| ==> keys[k] == keys[1..][k - 1] && bodies[k] == bodies[1..][k - 1];
      Select(keys[1..], bodies[1..], otherwise, v)
  }

  // ---------------------------------------------------------------------------
  // Leaves

  /** Whether `c` passes the test, and the description reported on failure. */
  predicate Accepts(h: Host, pred: CharPred, c: char) {
    match pred
    case AnyChar => true
    case CharFrom(chars) => c in chars
    case Letter => Chars.IsLetter(c)
    case DigitChar => Chars.IsDigit(c)
    case UserPred(name, _) => h.pred(name, c)
  }

  function Describe(pred: CharPred): string {
    match pred
    case AnyChar => "any character"
    case CharFrom(chars) => "[" + chars + "]"
    case Letter => "a letter"
    case DigitChar => "a digit"
    case UserPred(_, d) => d
  }

  /** parsy's `line_info_at`: 0-based line and column of index `i`. */
  function LineInfoAt(s: string, i: nat): Value
    requires i <= |s|
  {
    VTuple([VInt(Positions.NewlinesBefore(s, i)), VInt(i - Positions.LineStartOf(s, i))])
  }

  /** Apply a mapped function; an exception becomes `Failure`. */
  function Apply(h: Host, f: MapFn, v: Value): Result<Value, string> {
    match f
    case ToInt =>
      if v.VStr? && Decimal.IsIntLexeme(v.s) then Success(VInt(Decimal.LexemeValue(v.s)))
      else Failure("ValueError: invalid literal for int()")
    case ToFloat =>
      if v.VStr? then Success(VFloat(v.s)) else Failure("TypeError: float() argument")
    case JoinStr =>
      if v.VList? then
        (match JoinStrings(v.items)
         case Some(s) => Success(VStr(s))
         case None => Failure("TypeError: sequence item: expected str instance"))
      else Failure("TypeError: can only join an iterable")
    case FirstOrNone =>
      if v.VList? then (if |v.items| > 0 then Success(v.items[0]) else Success(VNone))
      else Failure("TypeError: object is not subscriptable")
    case ListAdd =>
      if v.VList? && |v.items| == 2 && v.items[0].VList? && v.items[1].VList? then
        Success(VList(v.items[0].items + v.items[1].items))
      else Failure("TypeError: can only concatenate list to list")
    case EvenFieldsToDict(names) =>
      if v.VList? then Success(VDict(Zip(names, Evens(v.items))))
      else Failure("TypeError: object is not subscriptable")
    case ZipDict(names) =>
      if v.VList? then Success(VDict(Zip(names, v.items)))
      else Failure("TypeError: object is not iterable")
    case Validate(cls) => h.validate(cls, v)
    case UserFn(name) => h.fn(name, v)
  }

  /** `"".join(xs)` when every item is a string. */
  function JoinStrings(xs: seq<Value>): (r: Option<string>)
    ensures r.Some? <==> forall k :: 0 <= k < |xs| ==> xs[k].VStr?
  {
    if |xs| == 0 then Some("")
    else if !xs[0].VStr? then None
    else
      match JoinStrings(xs[1..])
      case None =>
        assert exists k :: 1 <= k < |xs| && !xs[k].VStr? by {
          var k :| 0 <= k < |xs[1..]| && !xs[1..][k].VStr?;
          assert xs[k + 1] == xs[1..][k];
        }
        None
      case Some(rest) =>
        assert forall k :: 1 <= k < |xs| ==> xs[k] == xs[1..][k - 1];
        Some(xs[0].s + rest)
  }

  /** `[values[i] for i in range(0, len(values), 2)]`. */
  function Evens<T>(xs: seq<T>): (r: seq<T>)
    ensures |r| == (|xs| + 1) / 2
    ensures forall k :: 0 <= k < |r| ==> r[k] == xs[2 * k]
  {
    if |xs| == 0 then []
    else if |xs| == 1 then [xs[0]]
    else [xs[0]] + Evens(xs[2..])
  }

  // ---------------------------------------------------------------------------
  // The interpreter

  /** Merge the failures of two alternatives tried at the same index: the
      furthest wins, and equal positions pool their expectations. */
  function Furthest(p1: nat, e1: set<string>, p2: nat, e2: set<string>): (r: Reply)
    ensures r.Err? && r.pos == (if p1 >= p2 then p1 else p2)
  {
    if p1 > p2 then Err(p1, e1)
    else if p1 == p2 then Err(p1, e1 + e2)
    else Err(p2, e2)
  }

  /** The parsers that read or inspect the text without running another parser. */
  predicate IsLeaf(t: Term) {
    t.Str? || t.Regex? || t.UserRegex? || t.Char? || t.Succeed? || t.Failing?
    || t.Eof? || t.Index? || t.LineInfo?
  }

  /** Run a leaf parser on `s` from index `i`. */
  function RunLeaf(h: Host, t: Term, s: string, i: nat): (r: Reply)
    requires i <= |s| && IsLeaf(t)
    ensures r.Ok? ==> i <= r.next <= |s|
    ensures r.Err? ==> r.pos == i
    ensures !r.Stop?
  {
    match t
    case Str(text) =>
      if i + |text| <= |s| && s[i..i + |text|] == text then Ok(VStr(text), i + |text|)
      else Err(i, {text})
    case Regex(rx) =>
      (match Scanners.Scan(rx, s, i)
       case Some(e) => Ok(VStr(s[i..e]), e)
       case None => Err(i, {Scanners.Pattern(rx)}))
    case UserRegex(pattern) =>
      (match h.regex(pattern, s, i)
       case Some(e) => if i <= e <= |s| then Ok(VStr(s[i..e]), e) else Err(i, {pattern})
       case None => Err(i, {pattern}))
    case Char(pred) =>
      if i < |s| && Accepts(h, pred, s[i]) then Ok(VStr([s[i]]), i + 1)
      else Err(i, {Describe(pred)})
    case Succeed(v) => Ok(v, i)
    case Failing(expected) => Err(i, {expected})
    case Eof => if i == |s| then Ok(VNone, i) else Err(i, {"EOF"})
    case Index => Ok(VInt(i), i)
    case LineInfo => Ok(LineInfoAt(s, i), i)
  }

  /** Run `t` on `s` from index `i`. */
  function Run(h: Host, t: Term, s: string, i: nat): (r: Reply)
    requires i <= |s|
    ensures r.Ok? ==> i <= r.next <= |s|
    ensures r.Err? ==> i <= r.pos <= |s|
    decreases |s| - i, Size(t), 0
  {
    if IsLeaf(t) then RunLeaf(h, t, s, i)
    else
      match t
      case Peek(p) =>
        var r := Run(h, p, s, i);
        if r.Ok? then Ok(r.value, i) else r
      case Seq(ps) => RunSeq(h, ps, s, i, [])
      case Alt(a, b) => RunAlt(h, a, b, s, i)
      case Then(a, b) =>
        var ra := Run(h, a, s, i);
        if !ra.Ok? then ra
        else Run(h, b, s, ra.next)
      case Skip(a, b) =>
        var ra := Run(h, a, s, i);
        if !ra.Ok? then ra
        else
          var rb := Run(h, b, s, ra.next);
          if rb.Ok? then Ok(ra.value, rb.next) else rb
      case Rep(p, min, max) => RunRep(h, p, min, max, s, i, [])
      case Map(p, f) =>
        var r := Run(h, p, s, i);
        if !r.Ok? then r
        else
          (match Apply(h, f, r.value)
           case Success(v) => Ok(v, r.next)
           case Failure(msg) => Stop(Raises(msg)))
      case Bind(p, keys, bodies, other) => RunBind(h, p, keys, bodies, other, s, i)
      case Desc(p, description) =>
        var r := Run(h, p, s, i);
        if r.Err? then Err(i, {description}) else r
  }

  /** `p.bind(...)`: the continuation chosen by `p`'s value runs where `p`
      stopped. */
  function RunBind(h: Host, p: Term, keys: seq<Value>, bodies: seq<Term>, other: Term, s: string, i: nat): (r: Reply)
    requires i <= |s|
    ensures r.Ok? ==> i <= r.next <= |s|
    ensures r.Err? ==> i <= r.pos <= |s|
    decreases |s| - i, Size(p) + SizeSeq(bodies) + Size(other), 1
  {
    var r := Run(h, p, s, i);
    if !r.Ok? then r
    else Run(h, Select(keys, bodies, other, r.value), s, r.next)
  }

  /** `a | b`: `b` runs only when `a` fails, from the same index. */
  function RunAlt(h: Host, a: Term, b: Term, s: string, i: nat): (r: Reply)
    requires i <= |s|
    ensures r.Ok? ==> i <= r.next <= |s|
    ensures r.Err? ==> i <= r.pos <= |s|
    decreases |s| - i, Size(a) + Size(b), 1
  {
    var ra := Run(h, a, s, i);
    if !ra.Err? then ra
    else
      var rb := Run(h, b, s, i);
      if rb.Err? then Furthest(ra.pos, ra.expected, rb.pos, rb.expected) else rb
  }

  /** `parsy.seq`: run the parsers in order, collecting their values after `acc`. */
  function RunSeq(h: Host, ps: seq<Term>, s: string, i: nat, acc: seq<Value>): (r: Reply)
    requires i <= |s|
    ensures r.Ok? ==> i <= r.next <= |s|
    ensures r.Err? ==> i <= r.pos <= |s|
    decreases |s| - i, SizeSeq(ps), 1
  {
    if |ps| == 0 then Ok(VList(acc), i)
    else
      var r := Run(h, ps[0], s, i);
      if !r.Ok? then r
      else RunSeq(h, ps[1..], s, r.next, acc + [r.value])
  }

  /** parsy's `times` loop: `count` values in `acc` so far. */
  function RunRep(h: Host, p: Term, min: nat, max: Option<nat>, s: string, i: nat, acc: seq<Value>): (r: Reply)
    requires i <= |s|
    requires max.Some? ==> |acc| <= max.value
    ensures r.Ok? ==> i <= r.next <= |s|
    ensures r.Err? ==> i <= r.pos <= |s|
    decreases |s| - i, Size(p), 1 + (if max.Some? then max.value - |acc| else 0)
  {
    if max.Some? && |acc| == max.value then Ok(VList(acc), i)
    else
      var r := Run(h, p, s, i);
      match r
      case Ok(v, j) =>
        if j == i && max.None? then Stop(Diverges)
        else RunRep(h, p, min, max, s, j, acc + [v])
      case Err(pos, expected) =>
        if |acc| >= min then Ok(VList(acc), i) else r
      case Stop(_) => r
  }

  /** `p.map(f)` applies `f` to what `p` reads; an exception stops the run. */
  lemma MapRun(h: Host, p: Term, f: MapFn, s: string, i: nat)
    requires i <= |s|
    ensures var r := Run(h, p, s, i);
            Run(h, Map(p, f), s, i)
            == (if !r.Ok? then r
                else match Apply(h, f, r.value)
                     case Success(v) => Ok(v, r.next)
                     case Failure(m) => Stop(Raises(m)))
  {
  }

  // ---------------------------------------------------------------------------
  // Whole-text entry points

  /** `parser.parse(text)`: the parser followed by end of input, from index 0.
      It succeeds only by reading the whole text; where the parser stops
      short, it fails there expecting `EOF`. */
  function Parse(h: Host, t: Term, text: string): (r: Reply)
    ensures var q := Run(h, t, text, 0);
            r == (if q.Ok? && q.next < |text| then Err(q.next, {"EOF"}) else q)
    ensures r.Ok? ==> r.next == |text|
  {
    ThenEof(h, t, text);
    Run(h, Skip(t, Eof), text, 0)
  }

  lemma ThenEof(h: Host, t: Term, text: string)
    ensures var q := Run(h, t, text, 0);
            Run(h, Skip(t, Eof), text, 0) == (if q.Ok? && q.next < |text| then Err(q.next, {"EOF"}) else q)
  {
    var q := Run(h, t, text, 0);
    SkipRun(h, t, Eof, text, 0);
    if q.Ok? {
      EofRun(h, text, q.next);
    }
  }

  /** `a << b`: `a`'s value at the index after `b`. */
  lemma SkipRun(h: Host, a: Term, b: Term, s: string, i: nat)
    requires i <= |s|
    ensures var ra := Run(h, a, s, i);
            Run(h, Skip(a, b), s, i)
            == (if !ra.Ok? then ra
                else var rb := Run(h, b, s, ra.next);
                     if rb.Ok? then Ok(ra.value, rb.next) else rb)
  {
  }

  /** `eof` succeeds exactly at the end of the text. */
  lemma EofRun(h: Host, s: string, i: nat)
    requires i <= |s|
    ensures Run(h, Eof, s, i) == if i == |s| then Ok(VNone, i) else Err(i, {"EOF"})
  {
    assert IsLeaf(Eof);
  }

  /** What `parse_partial` returns: the value and the unconsumed remainder. */
  datatype Partial = Partial(value: Value, rest: string)

  /** `parser.parse_partial(text)`: the value read from index 0 and the text
      after it; the error carries the failure of the run. */
  function ParsePartial(h: Host, t: Term, text: string): (r: Result<Partial, Reply>)
    ensures var q := Run(h, t, text, 0);
            && (r.Success? <==> q.Ok?)
            && (r.Success? ==> r.value.value == q.value && text[..q.next] + r.value.rest == text)
            && (r.Failure? ==> r.error == q)
  {
    var r := Run(h, t, text, 0);
    if r.Ok? then
      assert text[..r.next] + text[r.next..] == text;
      Success(Partial(r.value, text[r.next..]))
    else Failure(r)
  }

  /** The remainder `parse_partial` returns is the text after the run. */
  lemma PartialRest(h: Host, t: Term, text: string)
    ensures var q := Run(h, t, text, 0);
            ParsePartial(h, t, text).Success? ==> ParsePartial(h, t, text).value.rest == text[q.next..]
  {
    var q := Run(h, t, text, 0);
    if q.Ok? {
      var rest := ParsePartial(h, t, text).value.rest;
      assert text[..q.next] + rest == text;
      assert rest == text[q.next..] by {
        assert |rest| == |text| - q.next;
        forall j | 0 <= j < |rest|
          ensures rest[j] == text[q.next + j]
        {
          assert (text[..q.next] + rest)[q.next + j] == rest[j];
        }
      }
    }
  }
}

=== FILE: values.dfy ===
/** The Python values that flow through parsers and formatters, and Python's
    `str`/`repr` on them. Floats are kept as the lexeme the float lexer matched. */
module Values {
  import opened Chars
  import opened Wrappers
  import Decimal

  datatype Value =
    | VNone
    | VInt(i: int)
    /** A float, represented by the lexeme it was read from. */
    | VFloat(lexeme: string)
    | VStr(s: string)
    | VList(items: seq<Value>)
    | VTuple(items: seq<Value>)
    /** A dict with string keys, in insertion order. */
    | VDict(entries: seq<Entry>)
    /** A validated model instance: its class name and its attributes. */
    | VModel(cls: string, attrs: seq<Entry>)

  /** One key/value pair of a dict, or one attribute of a model instance. */
  datatype Entry = Entry(key: string, val: Value)

  /** Python's `str(v)`. */
  function PyStr(v: Value): string
    decreases v, 1
  {
    match v
    case VNone => "None"
    case VInt(n) => Decimal.IntToStr(n)
    case VFloat(lex) => lex
    case VStr(s) => s
    case VList(xs) => "[" + ReprItems(xs) + "]"
    case VTuple(xs) =>
      if |xs| == 1 then "(" + PyRepr(xs[0]) + ",)" else "(" + ReprItems(xs) + ")"
    case VDict(es) => "{" + ReprEntries(es, ": ", true) + "}"
    case VModel(_, attrs) => ReprAttrs(attrs, " ")
  }

  /** Python's `repr(v)`. */
  function PyRepr(v: Value): string
    decreases v, 2
  {
    match v
    case VStr(s) => StrRepr(s)
    case VModel(c, attrs) => c + "(" + ReprAttrs(attrs, ", ") + ")"
    case _ => PyStr(v)
  }

  /** `", ".join(repr(x) for x in xs)`. */
  function ReprItems(xs: seq<Value>): string
    decreases xs
  {
    if |xs| == 0 then ""
    else if |xs| == 1 then PyRepr(xs[0])
    else PyRepr(xs[0]) + ", " + ReprItems(xs[1..])
  }

  /** Dict entries `'k': repr(v)` joined with `", "`. */
  function ReprEntries(es: seq<Entry>, colon: string, quoteKeys: bool): string
    decreases es
  {
    if |es| == 0 then ""
    else
      var head := (if quoteKeys then "'" + es[0].key + "'" else es[0].key) + colon + PyRepr(es[0].val);
      if |es| == 1 then head else head + ", " + ReprEntries(es[1..], colon, quoteKeys)
  }

  /** Model attributes `name=repr(value)` joined with `sep` (pydantic's `str`/`repr`). */
  function ReprAttrs(attrs: seq<Entry>, sep: string): string
    decreases attrs
  {
    if |attrs| == 0 then ""
    else
      var head := attrs[0].key + "=" + PyRepr(attrs[0].val);
      if |attrs| == 1 then head else head + sep + ReprAttrs(attrs[1..], sep)
  }

  /** `getattr(instance, name)`: the first attribute with that name. */
  function Attr(attrs: seq<Entry>, name: string): (r: Option<Value>)
    ensures r.Some? <==> exists k :: 0 <= k < |attrs| && attrs[k].key == name
    ensures r.Some? ==> exists k :: 0 <= k < |attrs| && attrs[k] == Entry(name, r.value)
                                    && forall j :: 0 <= j < k ==> attrs[j].key != name
  {
    if |attrs| == 0 then None
    else if attrs[0].key == name then Some(attrs[0].val)
    else
      var r := Attr(attrs[1..], name);
      assert forall k :: 1 <= k < |attrs| ==> attrs[k] == attrs[1..][k - 1];
      if r.Some? then
        var k :| 0 <= k < |attrs[1..]| && attrs[1..][k] == Entry(name, r.value)
                 && forall j :: 0 <= j < k ==> attrs[1..][j].key != name;
        assert attrs[k + 1] == Entry(name, r.value) && forall j :: 0 <= j < k + 1 ==> attrs[j].key != name;
        r
      else r
  }

  /** `dict(zip(keys, vals))` for distinct keys: pairs in order, truncated to the
      shorter sequence as `zip` does. With a repeated key, `Attr` finds the
      first pair while a Python dict keeps the last; the keys here are field
      names, which are distinct, so the difference does not arise. */
  function Zip(keys: seq<string>, vals: seq<Value>): (r: seq<Entry>)
    ensures |r| == if |keys| < |vals| then |keys| else |vals|
    ensures forall k :: 0 <= k < |r| ==> r[k] == Entry(keys[k], vals[k])
  {
    if |keys| == 0 || |vals| == 0 then [] else [Entry(keys[0], vals[0])] + Zip(keys[1..], vals[1..])
  }

  /** In the pairs of `keys` and `vals`, the attribute named `keys[j]` is
      `vals[j]` when no earlier key has that name. */
  lemma {:induction false} AttrOfZip(keys: seq<string>, vals: seq<Value>, j: nat)
    requires j < |keys| && |keys| == |vals|
    requires forall a :: 0 <= a < j ==> keys[a] != keys[j]
    ensures Attr(Zip(keys, vals), keys[j]) == Some(vals[j])
    decreases j
  {
    var z := Zip(keys, vals);
    if j > 0 {
      assert z[0].key == keys[0] != keys[j];
      assert z[1..] == Zip(keys[1..], vals[1..]);
      assert keys[j] == keys[1..][j - 1] && vals[j] == vals[1..][j - 1];
      AttrOfZip(keys[1..], vals[1..], j - 1);
    }
  }

  // ---------------------------------------------------------------------------
  // The repr of a string

  /** The quote `repr` puts around a string: double quotes when the string
      holds a single quote and no double quote, else single quotes. */
  function ReprQuote(s: string): (q: char)
    ensures q == '\'' || q == '"'
    ensures q == '"' <==> '\'' in s && '"' !in s
  {
    if '\'' in s && '"' !in s then '"' else '\''
  }

  const HexDigits := "0123456789abcdef"

  /** A character that `repr` writes as `\xhh`: the ASCII control characters
      without a short escape, and DEL. */
  predicate HexEscaped(c: char) {
    (c < ' ' && c != '\n' && c != '\r' && c != '\t') || c as int == 127
  }

  /** How `repr` writes one character inside quotes `q`. */
  function EscapeChar(c: char, q: char): (r: string)
    requires q == '\'' || q == '"'
    ensures |r| >= 1
    ensures '\n' !in r
    ensures |r| == 1 <==> r == [c] && c != '\\' && c != q && c != '\n' && c != '\r' && c != '\t' && !HexEscaped(c)
  {
    if c == '\\' then "\\\\"
    else if c == q then ['\\', q]
    else if c == '\n' then "\\n"
    else if c == '\r' then "\\r"
    else if c == '\t' then "\\t"
    else if HexEscaped(c) then "\\x" + [HexDigits[c as int / 16], HexDigits[c as int % 16]]
    else [c]
  }

  /** The escaped characters of a string, between the quotes. */
  function EscapeAll(s: string, q: char): (r: string)
    requires q == '\'' || q == '"'
    ensures '\n' !in r
    decreases |s|
  {
    if |s| == 0 then "" else EscapeChar(s[0], q) + EscapeAll(s[1..], q)
  }

  /** Python's `repr` of a string. */
  function StrRepr(s: string): (r: string)
    ensures |r| >= 2 && r[0] == ReprQuote(s) && r[|r| - 1] == ReprQuote(s)
    ensures '\n' !in r
  {
    [ReprQuote(s)] + EscapeAll(s, ReprQuote(s)) + [ReprQuote(s)]
  }

  /** The value of a hex digit. */
  function HexValue(d: char): Option<nat> {
    if '0' <= d <= '9' then Some(d as int - '0' as int)
    else if 'a' <= d <= 'f' then Some(d as int - 'a' as int + 10)
    else None
  }

  /** Reading the inside of a string literal quoted with `q` back, as Python
      reads the escapes `repr` writes; an unescaped `q` or a dangling
      backslash makes it unreadable. */
  function Unescape(t: string, q: char): (r: Option<string>)
    decreases |t|
  {
    if |t| == 0 then Some("")
    else if t[0] == q then None
    else if t[0] != '\\' then
      (match Unescape(t[1..], q)
       case Some(rest) => Some([t[0]] + rest)
       case None => None)
    else if |t| < 2 then None
    else
      var e := t[1];
      if e == 'x' then
        if |t| < 4 || HexValue(t[2]).None? || HexValue(t[3]).None? then None
        else
          (match Unescape(t[4..], q)
           case Some(rest) => Some([(HexValue(t[2]).value * 16 + HexValue(t[3]).value) as char] + rest)
           case None => None)
      else
        var c := if e == 'n' then '\n' else if e == 'r' then '\r' else if e == 't' then '\t' else e;
        if e in "nrt\\'\"" then
          (match Unescape(t[2..], q)
           case Some(rest) => Some([c] + rest)
           case None => None)
        else None
  }

  /** Reading a `repr` back: the opening quote, the escaped body, and the
      same quote closing it. */
  function ReadRepr(t: string): (r: Option<string>) {
    if |t| >= 2 && (t[0] == '\'' || t[0] == '"') && t[|t| - 1] == t[0] then Unescape(t[1..|t| - 1], t[0])
    else None
  }

  /** One escaped character, then more text, reads back as that character
      then what the text reads as. */
  lemma UnescapeChar(c: char, q: char, rest: string)
    requires q == '\'' || q == '"'
    ensures Unescape(EscapeChar(c, q) + rest, q)
            == (match Unescape(rest, q) case Some(u) => Some([c] + u) case None => None)
  {
    if HexEscaped(c) {
      UnescapeHex(c, q, rest);
    } else if |EscapeChar(c, q)| == 2 {
      UnescapeShort(c, q, rest);
    } else {
      var t := EscapeChar(c, q) + rest;
      assert t[0] == c && t[1..] == rest;
    }
  }

  lemma UnescapeHex(c: char, q: char, rest: string)
    requires q == '\'' || q == '"'
    requires HexEscaped(c)
    ensures Unescape(EscapeChar(c, q) + rest, q)
            == (match Unescape(rest, q) case Some(u) => Some([c] + u) case None => None)
  {
    var hi, lo := HexDigits[c as int / 16], HexDigits[c as int % 16];
    var t := EscapeChar(c, q) + rest;
    assert EscapeChar(c, q) == "\\x" + [hi, lo];
    assert t[0] == '\\' && t[1] == 'x' && t[2] == hi && t[3] == lo && t[4..] == rest;
    assert HexValue(hi) == Some(c as int / 16);
    assert HexValue(lo) == Some(c as int % 16);
  }

  lemma UnescapeShort(c: char, q: char, rest: string)
    requires q == '\'' || q == '"'
    requires !HexEscaped(c) && |EscapeChar(c, q)| == 2
    ensures Unescape(EscapeChar(c, q) + rest, q)
            == (match Unescape(rest, q) case Some(u) => Some([c] + u) case None => None)
  {
    var t := EscapeChar(c, q) + rest;
    assert t[0] == '\\' && t[1] == EscapeChar(c, q)[1] && t[2..] == rest;
  }

  /** The escaped body reads back as the string. */
  lemma {:induction false} UnescapeAll(s: string, q: char)
    requires q == '\'' || q == '"'
    ensures Unescape(EscapeAll(s, q), q) == Some(s)
    decreases |s|
  {
    if |s| > 0 {
      UnescapeAll(s[1..], q);
      UnescapeChar(s[0], q, EscapeAll(s[1..], q));
      assert [s[0]] + s[1..] == s;
    }
  }

  /** Escaping works character by character. */
  lemma {:induction false} EscapeConcat(a: string, b: string, q: char)
    requires q == '\'' || q == '"'
    ensures EscapeAll(a + b, q) == EscapeAll(a, q) + EscapeAll(b, q)
    decreases |a|
  {
    if |a| == 0 {
      assert a + b == b;
    } else {
      assert (a + b)[0] == a[0] && (a + b)[1..] == a[1..] + b;
      EscapeConcat(a[1..], b, q);
    }
  }

  /** Characters `repr` writes as they are. */
  predicate Verbatim(c: char, q: char) {
    c != '\\' && c != q && c != '\n' && c != '\r' && c != '\t' && !HexEscaped(c)
  }

  lemma {:induction false} EscapeVerbatim(s: string, q: char)
    requires q == '\'' || q == '"'
    requires forall k :: 0 <= k < |s| ==> Verbatim(s[k], q)
    ensures EscapeAll(s, q) == s
    decreases |s|
  {
    if |s| > 0 {
      EscapeVerbatim(s[1..], q);
    }
  }

  /** A string holding a single quote and no double quote, backslash or
      control character is written as it is, in double quotes. */
  lemma ReprPrefersDoubleQuotes(s: string)
    requires '\'' in s
    requires forall k :: 0 <= k < |s| ==> Verbatim(s[k], '"')
    ensures StrRepr(s) == "\"" + s + "\""
  {
    assert '"' !in s by {
      forall k | 0 <= k < |s| ensures s[k] != '"' { assert Verbatim(s[k], '"'); }
    }
    EscapeVerbatim(s, '"');
  }

  /** A backslash is doubled, as in the expectation `-?\\d+(?![.eE])` that
      `integer()` reports. */
  lemma ReprDoublesBackslash(a: string, b: string)
    requires forall k :: 0 <= k < |a| ==> Verbatim(a[k], '\'') && a[k] != '"'
    requires forall k :: 0 <= k < |b| ==> Verbatim(b[k], '\'') && b[k] != '"'
    ensures StrRepr(a + "\\" + b) == "'" + a + "\\\\" + b + "'"
  {
    var s := a + "\\" + b;
    assert ReprQuote(s) == '\'' by {
      assert forall k :: 0 <= k < |s| ==> s[k] != '"';
    }
    EscapeConcat(a + "\\", b, '\'');
    EscapeConcat(a, "\\", '\'');
    EscapeVerbatim(a, '\'');
    EscapeVerbatim(b, '\'');
    assert EscapeAll("\\", '\'') == "\\\\";
    assert EscapeAll(s, '\'') == a + "\\\\" + b;
  }

  /** `repr` round trip: reading a string's `repr` back gives the string. */
  lemma ReprReadsBack(s: string)
    ensures ReadRepr(StrRepr(s)) == Some(s)
  {
    var q := ReprQuote(s);
    var r := StrRepr(s);
    assert r[1..|r| - 1] == EscapeAll(s, q);
    UnescapeAll(s, q);
  }
}

=== FILE: wrappers.dfy ===
/** Failure-compatible wrappers shared by the whole model: `Option` for Python's
    "value or None" and `Result` for "value or raised exception". */
module Wrappers {

  datatype Option<+T> = None | Some(value: T) {
    predicate IsFailure() { None? }

    function PropagateFailure<U>(): Option<U>
      requires None?
    {
      None
    }

    function Extract(): T
      requires Some?
    {
      value
    }

    function GetOr(default: T): T {
      match this
      case Some(v) => v
      case None => default
    }
  }

  datatype Result<+R, +E> = Success(value: R) | Failure(error: E) {
    predicate IsFailure() { Failure? }

    function PropagateFailure<U>(): Result<U, E>
      requires Failure?
    {
      Failure(error)
    }

    function Extract(): R
      requires Success?
    {
      value
    }
  }
}
